=== FILE: README.md ===
# stream-sim-backend, modelled in Dafny

This project models the core of the stream-sim-backend simulator in Dafny and proves properties of the model.

**Transform registry (`TfController`)**
- Declaration whitelisting, theta conversion and duplicate handling, in module `TfDeclare`.
- Category indexing, also in `TfDeclare`.
- The host tree built at setup, in `TfTree`.
- The pose cascade from robots and pan-tilt units, in `TfPoses`.
- The affection handlers and their per-subclass dispatch, in `TfAffection`.
- The speaker-to-microphone relay, also in `TfAffection`.
- The simulated detection decisions, including the darkness gate, in `TfDetection`.
- The plane geometry shared by these, in `Geometry`.

**Robot and world**
- The robot's kinematic step, the grid collision test `check_ok` with its rollback, the starting pose and reset, controller registration and device pose defaults, in `Robot`.
- The occupancy grid rasterised by `World.setup`, in `World`.

**Controllers**
- Relay, LEDs, speaker and motion controllers: `Relay`, `Leds`, `Speaker`, `Motion`.
- The robot microphone: `Microphone`.
- The fixed-length history buffers with their range-read callbacks: `History`, `CytronLf`, `Encoder`, `PanTilt`, `Imu`, `Env`, `Sonar`.
- The DFRobot motor arithmetic: `DfrobotMotor`.
- The QR and barcode actors: `EnvActors`.

**Shared pieces**
- `Values` is the JSON-like value type of the message payloads. It follows Python's equality, `in`, `+`, indexing and `int()`.
- `Wrappers` holds `Result` and `Option`. A Python exception is a `Failure`.
- `Devices` holds the declaration builder the effectors share.

## Modelling conventions

- **Trigonometry.** `sin`, `cos`, `atan2` and `sqrt` are fields of a `Trig` value passed as a parameter. Nothing is assumed about them unless a lemma says so: `SqrtSound` states that `sqrt` is the true non-negative square root.
- **Time and randomness.** Time is the parameter `dt`. Random draws are unit draws in [0, 1] passed as parameters, and `random.uniform(a, b)` is `a + (b - a)·u`.
- **Numbers.** Coordinates and readings are mathematical reals. Python `int()` is truncation toward zero.
- **Dicts.** A dict whose key order matters is an association list, where assignment keeps an existing key in place and appends a new one. Any other dict is a Dafny `map`.
- **Behaviour kept exactly as the code has it**, though a reader might expect otherwise:
  - The simulation loop publishes a new robot pose (`robot.py:622`) before the collision check (`robot.py:630-633`), so a pose that is then rolled back has already been published.
  - The camera luminosity is clamped only from above (`tf.py:1030-1031`).
  - A play goal without `is_file` raises KeyError at `controller_speaker.py:331`, before the global-volume override at 334-336, so it keeps its requested volume.
  - The microphone chooses the last actor it hears rather than the nearest, because `closest_dist` is set once (`controller_microphone.py:161`) and never lowered (182-184).
  - The linear alarm handler always raises, because `lin_enc` at `tf.py:853` is undefined.
- **Where the code is evidently wrong** (see "## Findings"), the handlers and the simulation loop model it as written. The corrected definition is a separate member, and the intended property is proved about it.

## Model

| member | source | states |
|---|---|---|
| Relay.Member | stream_simulator/controllers/env_devices/controller_relay.py:71 | `state not in allowed_states` follows Python's `in`: a list is searched with Python equality, a dict by hashable key, a string by substring; any other container raises TypeError |
| Relay.Create | stream_simulator/controllers/env_devices/controller_relay.py:27-29 | a relay is built exactly when the configuration has `initial_state`, `states` and `place`, and it starts in the configured initial state with the configured allowed states |
| Relay.Read | stream_simulator/controllers/env_devices/controller_relay.py:66-67 | `get` answers a dict whose only key is `state`, holding the current state |
| Relay.Enable | stream_simulator/controllers/env_devices/controller_relay.py:52-60 | `enable` sets the flag, keeps the state and allowed states, and answers `{"enabled": True}` |
| Relay.Disable | stream_simulator/controllers/env_devices/controller_relay.py:62-64 | `disable` clears the flag, keeps the state and allowed states, and answers `{"enabled": False}` |
| Relay.Write | stream_simulator/controllers/env_devices/controller_relay.py:69-75 | `set` succeeds exactly when `state` is present and is a member of the allowed states; only then is the state replaced, and the reply is `{"state": state}`; a refused request raises and leaves no new relay |
| Relay.WriteThenRead | stream_simulator/controllers/env_devices/controller_relay.py:66-75 | after an accepted `set`, `get` answers exactly what `set` answered, and the allowed states and enabled flag are untouched |
| Relay.EnabledIgnored | stream_simulator/controllers/env_devices/controller_relay.py:52-75 | `set` and `get` answer the same whatever the enabled flag, and disable followed by enable only sets the flag |
| Relay.NumbersAndStringsDiffer | stream_simulator/controllers/env_devices/controller_relay.py:69-72 | with allowed states `[1, 0, -1]`, the numbers 1 and -1 (and `True`) are accepted while the strings "1" and "0" are refused |
| Relay.InitialStateUnchecked | stream_simulator/controllers/env_devices/controller_relay.py:27-28 | a relay can start in a state (here "on") that `set` would then refuse |
| Leds.Create | stream_simulator/controllers/effectors/controller_leds.py:86-91 | a new strip is enabled, black (r=g=b=0.0) with brightness 0 |
| Leds.Read | stream_simulator/controllers/effectors/controller_leds.py:153-158 | `get` answers a dict of exactly `color` and `luminosity`, holding the stored colour and brightness, whatever the enabled flag |
| Leds.TfPackage | stream_simulator/controllers/effectors/controller_leds.py:68-84 | the strip's declaration is hosted by the configured pan-tilt when `conf` has a host and by the robot `device_name` otherwise, with the configured name |
| Leds.Wipe | stream_simulator/controllers/effectors/controller_leds.py:160-211 | a wipe lacking r, g, b or brightness logs one error and changes nothing; a complete one stores `[r, g, b, brightness]` and the brightness, and publishes to the driver only in real mode, with `wait_ms` defaulting to 50 |
| Leds.Channels | stream_simulator/controllers/effectors/controller_leds.py:164-167 | the four channels are read exactly when all of r, g, b and brightness are present |
| Leds.FreshStripReadsDark | stream_simulator/controllers/effectors/controller_leds.py:153-158 | `get` on a new strip reports colour r=g=b=0.0 and luminosity 0 |
| Leds.ReadAfterWipes | stream_simulator/controllers/effectors/controller_leds.py:160-171 | after any sequence of wipes, `get` reports the brightness of the last well-formed wipe, or the earlier brightness when no wipe was well formed |
| Devices.Host | stream_simulator/controllers/effectors/controller_leds.py:79-83 | the host is the configured pan-tilt exactly when the device may sit on one and `conf` names a host; otherwise it is the robot `device_name` with host type robot |
| Devices.DeclarationKeysAccepted | stream_simulator/transformations/tf.py:61-64 | every field an effector puts in its declaration is in the registry's whitelist, the fields are distinct, and none of range, fov, properties or id is sent |
| Devices.Declaration | stream_simulator/controllers/effectors/controller_speaker.py:69-84 | the effector declaration is whitelisted with distinct keys, has type robot, the configured pose, its base topic and name, and the host pair chosen by the host rule |
| Devices.DeclarationAccepted | stream_simulator/transformations/tf.py:413-451 | the registry stores an effector declaration as it is (appended to the declarations and filed under its name) with the host pair of the host rule, whenever its heading converts |
| Speaker.Create | stream_simulator/controllers/effectors/controller_speaker.py:173-181 | the speaker builds only for speak mode espeak or google; its global volume is the persisted value truncated to an integer, or 70 when none was persisted |
| Speaker.TfPackage | stream_simulator/controllers/effectors/controller_speaker.py:68-85 | the speaker's declaration is hosted by the configured pan-tilt when `conf` has a host and by the robot `device_name` otherwise |
| Speaker.SetGlobalVolume | stream_simulator/controllers/effectors/controller_speaker.py:422-443 | a volume that is missing, not a number, below 0 or above 100 raises ValueError and leaves the speaker as it was; an accepted one is stored and the reply is `{}` |
| Speaker.SetVolumes | stream_simulator/controllers/effectors/controller_speaker.py:422-434 | a run of global-volume requests changes only the volume; when every request is refused nothing changes, and an accepted last request decides the volume |
| Speaker.SetAmp | stream_simulator/controllers/effectors/controller_speaker.py:453-479 | the status is True exactly when the speaker is enabled and `state` is present and a bool; only then is the amplifier switched, to that state |
| Speaker.Speak | stream_simulator/controllers/effectors/controller_speaker.py:190-226 | a disabled speaker answers `{}` at once; an enabled one announces text, language, its own name and the global volume (the requested one only if none is set), and fails when text, volume or language is missing |
| Speaker.Play | stream_simulator/controllers/effectors/controller_speaker.py:317-344 | a disabled speaker answers `{}` at once; an enabled one announces the source with the global volume only when `is_file` is also present, and fails when string or volume is missing |
| Speaker.GlobalVolumeAlwaysWins | stream_simulator/controllers/effectors/controller_speaker.py:173-181 | after construction and any sequence of volume requests the global volume is still set, so every speak announces it instead of the requested volume |
| Speaker.VolumesStaySet | stream_simulator/controllers/effectors/controller_speaker.py:422-434 | volume requests, accepted or refused, never unset the global volume, nor change the speaker's name or enabled flag |
| TfDeclare.EmptyRegistry | stream_simulator/transformations/tf.py:66-141 | the registry starts with no declarations, no entries, no names, and exactly the configured category lists, each empty |
| TfDeclare.CategoryPath | stream_simulator/transformations/tf.py:453-472 | a filed declaration goes to a configured category list: an actor under its subtype; an env device under its category and first subclass; a robot device under its category and its class when the class is one of `imu`, `button`, `env`, `encoder`, `twist`, `line_follow`, else its first subclass; any other type is not filed |
| TfDeclare.PerTypeStorage | stream_simulator/transformations/tf.py:444-472 | a repeated name logs one error and is not listed again, a new name is appended to `names`; the name is appended to its category list; the reply succeeds exactly when the path can be computed and, for an env thermostat, humidifier or leds, `base_topic` is a string, so a missing or non-string topic raises TypeError after filing |
| TfDeclare.UntopicedThermostatRaises | stream_simulator/transformations/tf.py:456-463 | an env thermostat declared without `base_topic` is listed and filed under `env/actuator/thermostat`, and then storing raises |
| TfDeclare.Normalise | stream_simulator/transformations/tf.py:413-420 | the declaration carries exactly the eleven whitelisted fields, each the message's value or None when the message lacks it |
| TfDeclare.ConvertTheta | stream_simulator/transformations/tf.py:432-434 | a None heading is kept; a numeric heading in degrees is replaced by its value in radians (theta·180 = degrees·π) with every other pose field kept; a pose without `theta` or with a non-numeric heading raises |
| TfDeclare.FirstInvalid | stream_simulator/transformations/tf.py:416-419 | the field reported is the first one in message order that is outside the whitelist |
| TfDeclare.Stored | stream_simulator/transformations/tf.py:413-434 | a whitelisted message is stored with all eleven fields (absent ones None) and its pose's heading converted to radians; it fails exactly when the heading cannot be converted |
| TfDeclare.Store | stream_simulator/transformations/tf.py:436-440 | the declaration is always appended; a hashable name then sets `declarations_info[name]` and is listed unless already listed, and the reply succeeds exactly when filing does; an unhashable name raises with the info and names untouched |
| TfDeclare.StoreKeepsConsistent | stream_simulator/transformations/tf.py:436-451 | storing a declaration, even one that raises half-way, keeps `names` (each name once) and `declarations_info` (one entry per listed name) in step |
| TfDeclare.RefileKeepsInStep | stream_simulator/transformations/tf.py:437 | replacing the entry of an already listed name keeps names and entries in step |
| TfDeclare.FileKeepsInStep | stream_simulator/transformations/tf.py:437-451 | listing a new name together with its new entry keeps names and entries in step |
| TfDeclare.Reject | stream_simulator/transformations/tf.py:414-419 | a message with a field outside the whitelist leaves the registry unchanged, logs one error and replies `{}`; logging reads the name, so without one it raises |
| TfDeclare.Accept | stream_simulator/transformations/tf.py:422-441 | a whitelisted message with an unconvertible heading stores nothing and raises; otherwise it is stored, an invalid host type being only logged |
| TfDeclare.Declare | stream_simulator/transformations/tf.py:409-441 | a declaration with a non-whitelisted field is dropped with reply `{}` and one error; an accepted one is stored as `Stored` gives it, whatever its host type; one with an unconvertible heading raises and changes nothing |
| TfDeclare.DeclareKeepsConsistent | stream_simulator/transformations/tf.py:409-451 | any declaration, accepted, dropped or raising, keeps `names` and `declarations_info` in step |
| TfDeclare.RedeclareKeepsLatest | stream_simulator/transformations/tf.py:436-451 | declaring one name twice keeps it once in `names`, appends both declarations, and leaves the second in `declarations_info` |
| TfDeclare.StoresCompose | stream_simulator/transformations/tf.py:436-451 | two stores under one name append both entries, keep the later one in the info map, and list the name no more than the first store did |
| TfDeclare.ListedOnce | stream_simulator/transformations/tf.py:448-451 | after `per_type_storage`'s name check the name is listed |
| TfDeclare.DeclareStores | stream_simulator/transformations/tf.py:436-451 | a whitelisted, storable declaration with a hashable name is appended, filed under its name, and its name listed unless an equal one already is |
| TfDeclare.StoredName | stream_simulator/transformations/tf.py:420 | the stored name is the declared one |
| TfTree.Field | stream_simulator/transformations/tf.py:176-183 | reading a declaration field succeeds exactly when the field is present, and yields its value |
| TfTree.PoseOf | stream_simulator/transformations/tf.py:270 | `places[name]` succeeds exactly when the name is hashable and has a pose, and yields that pose |
| TfTree.FieldOf | stream_simulator/transformations/tf.py:271-274 | `places[name][f]` succeeds exactly when the name has a pose holding `f`, and yields it |
| TfTree.AddDecl | stream_simulator/transformations/tf.py:175-187 | one tree-filling step appends the device's name to its host's list (creating it if absent), records its host, and copies its pose into both the relative and the absolute table |
| TfTree.FillTree | stream_simulator/transformations/tf.py:175-187 | filling the tree leaves the registry, the pan-tilt table and the known hosts as they were |
| TfTree.FillTreeGroups | stream_simulator/transformations/tf.py:175-180 | from an empty tree, each host's list holds exactly the names declared on that host, in declaration order and with repetitions, and no host appears twice |
| TfTree.FillTreePoses | stream_simulator/transformations/tf.py:182-183 | relative and absolute poses stay equal after filling, and the last declaration of a name decides its pose and host |
| TfTree.PanTiltTable | stream_simulator/transformations/tf.py:206-227 | the pan-tilt table lists each reported pan-tilt once |
| TfTree.PanTiltTableKeys | stream_simulator/transformations/tf.py:206-227 | a name is in the pan-tilt table exactly when the devices RPC reported it |
| TfTree.NewRobots | stream_simulator/transformations/tf.py:242-252 | robot gathering adds at most one robot per declaration |
| TfTree.NewRobotsFresh | stream_simulator/transformations/tf.py:242-248 | every gathered robot is a string host that was not already a known host, and none is gathered twice |
| TfTree.NewRobotsCover | stream_simulator/transformations/tf.py:242-246 | after gathering, the host of every robot-hosted declaration is among the known hosts |
| TfTree.NoneFields | stream_simulator/transformations/tf.py:256-258 | a field of x, y, theta is reported exactly when it is None in the pan-tilt's pose |
| TfTree.PanTiltNoneFields | stream_simulator/transformations/tf.py:254-258 | the pan-tilt pose check goes through exactly when every pan-tilt was declared with x, y and theta |
| TfTree.Pairs | stream_simulator/transformations/tf.py:256-258 | one pan-tilt's log lines pair its name with each None field, in order |
| TfTree.PairsLogged | stream_simulator/transformations/tf.py:256-258 | a (pan-tilt, field) pair is logged for a pan-tilt exactly when it is that pan-tilt and a listed field |
| TfTree.PanTiltNoneFieldsLogged | stream_simulator/transformations/tf.py:254-258 | a (pan-tilt, field) pair is logged exactly when that field is None in the relative pose of that pan-tilt |
| TfTree.MissingHosts | stream_simulator/transformations/tf.py:260-263 | a tree host is reported missing exactly when it is neither None nor a known pan-tilt or robot |
| TfTree.Offset | stream_simulator/transformations/tf.py:270-274 | one device on a pan-tilt ends at its pose moved by the pan-tilt's x and y and, unless its heading is None, turned by the pan-tilt's heading; other fields are kept |
| TfTree.OffsetDevices | stream_simulator/transformations/tf.py:268-274 | the offset loop keeps the set of posed names |
| TfTree.OffsetDevicesShifts | stream_simulator/transformations/tf.py:266-274 | for distinct devices other than the pan-tilt itself, each device is shifted by the pan-tilt's pose and every other pose is unchanged |
| TfTree.KeySetCons | stream_simulator/transformations/tf.py:268 | the devices of a list are its first device and the devices of the rest |
| TfTree.OffsetPanTilts | stream_simulator/transformations/tf.py:266-274 | offsetting over all pan-tilts keeps the set of posed names |
| TfTree.OffsetPanTiltsShifts | stream_simulator/transformations/tf.py:266-274 | when the pan-tilts are distinct, each one lists distinct devices, no device sits on two pan-tilts and no pan-tilt sits on one, the offset loop shifts every listed device by its own pan-tilt's pose (x and y always, theta unless `None`, other fields untouched), and every name on no list keeps its pose |
| TfTree.InfoOf | stream_simulator/transformations/tf.py:312-322 | `declarations_info[n]` succeeds exactly when the name is registered, yielding its declaration |
| TfTree.SubclassHas | stream_simulator/transformations/tf.py:287-295 | a declaration counts as a device of a subclass only if it is not an actor and its subtype's subclass list names that subclass |
| TfTree.Subscriptions | stream_simulator/transformations/tf.py:281-298 | exactly the registered microphones (non-actors whose subclass list names microphone) get a publisher |
| TfTree.SetupTree | stream_simulator/transformations/tf.py:174-233 | the tree part of setup keeps the registry, and the known hosts start as the reported pan-tilts |
| TfTree.SetupTreeShape | stream_simulator/transformations/tf.py:174-187 | after setup's tree part, every host lists exactly the devices declared on it, no host is listed twice, and relative and absolute poses agree |
| TfTree.Setup | stream_simulator/transformations/tf.py:171-298 | setup keeps the tree, the relative poses and the pan-tilts its tree part built, keeps the set of posed names, and extends the known hosts by exactly the gathered robots |
| TfPoses.NewTheta | stream_simulator/transformations/tf.py:379-383 | a device on a pan-tilt keeps a None heading; any other heading becomes its relative heading plus the pan-tilt's absolute heading |
| TfPoses.TurnedTwice | stream_simulator/transformations/tf.py:380-383 | turning a device twice to the same heading is turning it once |
| TfPoses.NewThetaStable | stream_simulator/transformations/tf.py:379-383 | turning one device does not change the heading any device on the pan-tilt would be given, because the new heading reads only relative headings |
| TfPoses.SetThetas | stream_simulator/transformations/tf.py:378-383 | the loop over a pan-tilt's devices keeps the set of posed names |
| TfPoses.SetThetasSucceeds | stream_simulator/transformations/tf.py:378-383 | the turning loop goes through exactly when every listed device can be turned on its own |
| TfPoses.SetThetasOthers | stream_simulator/transformations/tf.py:378-383 | the turning loop leaves every device not on the pan-tilt's list as it was |
| TfPoses.SetThetasTurns | stream_simulator/transformations/tf.py:378-383 | the turning loop gives each listed device the heading `NewTheta` computes, even when a name is listed twice |
| TfPoses.SetThetasEffect | stream_simulator/transformations/tf.py:378-383 | the turning loop turns exactly the listed devices and leaves every other pose untouched |
| TfPoses.SetThetasKeepsPlace | stream_simulator/transformations/tf.py:378-383 | turning changes headings only: every other field of every pose is kept |
| TfPoses.PanTiltHeading | stream_simulator/transformations/tf.py:370-377 | a pan-tilt's absolute heading is its relative heading plus the pan plus its host's absolute heading, or plus 0 when it has no host |
| TfPoses.UpdatePanTilt | stream_simulator/transformations/tf.py:369-383 | `update_pan_tilt` leaves the poses as they were for a pan-tilt carrying nothing, and otherwise turns the devices on it by its absolute heading |
| TfPoses.UpdatePanTiltEffect | stream_simulator/transformations/tf.py:369-383 | after a pan update each device on the pan-tilt has its relative heading plus the pan-tilt's absolute heading (None stays None), and no other pose changes |
| TfPoses.SetThetasTwice | stream_simulator/transformations/tf.py:378-383 | running the turning loop a second time with the same heading changes nothing |
| TfPoses.UpdatePanTiltIdempotent | stream_simulator/transformations/tf.py:369-383 | repeating a pan update with the same pan changes nothing more, provided the pan-tilt does not carry its own host |
| TfPoses.PanTiltCallback | stream_simulator/transformations/tf.py:401-403 | a pan message for a known pan-tilt records the new pan without adding pan-tilts, keeps the tree and relative poses, and then turns the devices on it |
| TfPoses.GetTf | stream_simulator/transformations/tf.py:152-169 | an undeclared name is logged and answered `{}`; a robot or ordinary device gets its stored absolute pose; a pan-tilt gets its pose with heading = relative heading + pan + host heading (0 without host), and that heading is also stored |
| TfPoses.PanTiltHeadingOwnPose | stream_simulator/transformations/tf.py:162-166 | a pan-tilt's heading does not depend on its own absolute pose unless it is its own host |
| TfPoses.GetTfIdempotent | stream_simulator/transformations/tf.py:152-169 | asking `get_tf` twice for a device that is not its own host answers the same and leaves the same absolute poses |
| TfPoses.GetTfPanTiltAgain | stream_simulator/transformations/tf.py:160-167 | for a pan-tilt, a second `get_tf` rewrites the heading it already stored, so nothing changes |
| TfPoses.RewriteSame | stream_simulator/transformations/tf.py:165 | writing back the value a key already has changes nothing |
| TfPoses.AfterLastDot | stream_simulator/transformations/tf.py:337 | the robot name is the suffix of the topic name after its last dot, and holds no dot |
| TfPoses.PlaceDevices | stream_simulator/transformations/tf.py:359-362 | placing the devices of a carried pan-tilt keeps the set of posed names |
| TfPoses.TurnWithRobot | stream_simulator/transformations/tf.py:346-350 | a carried device that is not a pan-tilt and whose heading is not None gets the robot's heading plus its relative heading; nothing else changes |
| TfPoses.PlaceAtRobot | stream_simulator/transformations/tf.py:353-354 | the carried device is put at the robot's x and y, keeps its other fields (its heading among them), and no other pose changes |
| TfPoses.MoveChild | stream_simulator/transformations/tf.py:346-367 | handling one carried device keeps the set of posed names |
| TfPoses.MoveChildren | stream_simulator/transformations/tf.py:346-367 | the loop over the carried devices keeps the set of posed names |
| TfPoses.RobotPlaced | stream_simulator/transformations/tf.py:339-343 | the robot's own pose becomes the reported x, y and theta (an unknown robot is created first), and no other pose changes |
| TfPoses.RobotPoseCallback | stream_simulator/transformations/tf.py:336-367 | a robot pose message changes only absolute poses, and it succeeds only when it carries name, x, y and theta and the robot hosts a declared device |
| TfPoses.RobotPoseTurnsCarried | stream_simulator/transformations/tf.py:336-350 | after a robot pose message, every device the robot carries directly that is no pan-tilt and has a heading faces the reported theta plus its relative theta, provided the robot does not carry itself and neither it nor the device sits on one of the robot's pan-tilts |
| TfPoses.MoveChildrenTurns | stream_simulator/transformations/tf.py:346-367 | over the loop, a carried non-pan-tilt device that still has a heading when its turn comes, or was already turned, ends at the robot's heading plus its relative heading, as long as no carried pan-tilt lists it or the robot |
| TfPoses.MoveChildTurns | stream_simulator/transformations/tf.py:347-350 | one step turns a non-pan-tilt device with a heading to the robot's current heading plus its relative heading |
| TfPoses.MoveChildKeepsHeading | stream_simulator/transformations/tf.py:346-367 | one step changes no other device's heading unless the step's device is a pan-tilt listing it |
| TfPoses.PlaceDevicesKeepsHeading | stream_simulator/transformations/tf.py:360-362 | placing the devices of a carried pan-tilt changes positions only, never headings |
| TfPoses.PlaceDevicesAt | stream_simulator/transformations/tf.py:359-362 | the devices on a carried pan-tilt end at the robot's position, and whoever stood there still does |
| TfPoses.UpdatePanTiltAt | stream_simulator/transformations/tf.py:367-383 | the pan update inside a robot pose update moves nobody |
| TfPoses.PlaceAtRobotAt | stream_simulator/transformations/tf.py:346-354 | turning and placing one device puts it at the robot's position and keeps whoever stood there |
| TfPoses.MoveChildAt | stream_simulator/transformations/tf.py:346-367 | one carried device, and for a pan-tilt the devices on it, end at the robot's position |
| TfPoses.MoveChildrenAt | stream_simulator/transformations/tf.py:346-367 | after the loop every carried device stands at the robot's position, and so does the robot |
| TfPoses.RobotPoseMovesCarried | stream_simulator/transformations/tf.py:339-354 | after a robot pose message the robot and every device it hosts stand at the reported x and y |
| Geometry.SqDist | stream_simulator/transformations/tf.py:526-527 | the quantity under `calc_distance`'s square root is never negative |
| Geometry.Distance | stream_simulator/transformations/tf.py:526-527 | with a true square root, `calc_distance` is non-negative and its square is the squared Euclidean distance |
| Geometry.DistanceSymmetric | stream_simulator/transformations/tf.py:526-527 | `calc_distance(p, q) == calc_distance(q, p)` for any square-root function |
| Geometry.DistanceBelowIff | stream_simulator/transformations/tf.py:542 | with a sound square root, `distance < range` holds exactly when the range is positive and the squared distance is below the squared range |
| Geometry.DistanceAtMostIff | stream_simulator/controllers/sensors/controller_microphone.py:169-173 | with a sound square root, `distance <= range` holds exactly when the range is non-negative and the squared distance is at most the squared range |
| Geometry.Orientation | stream_simulator/transformations/tf.py:481-492 | the orientation is 0 exactly when the cross-product value is 0, 1 exactly when it is positive, 2 exactly when it is negative |
| Geometry.Intersects | stream_simulator/transformations/tf.py:500-524 | two segments that cross properly, or that share an endpoint, are reported as intersecting |
| Geometry.CrossReversed | stream_simulator/transformations/tf.py:482-483 | swapping the first two points negates the orientation value |
| Geometry.IntersectsSymmetric | stream_simulator/transformations/tf.py:500-524 | `check_lines_intersection(p1,q1,p2,q2) == check_lines_intersection(p2,q2,p1,q1)` |
| Geometry.IntersectsReversed | stream_simulator/transformations/tf.py:500-524 | reversing the direction of the first segment does not change whether the segments intersect |
| Geometry.ProperCrossingIntersects | stream_simulator/transformations/tf.py:507-509 | two segments whose endpoints lie strictly on opposite sides of each other's line are reported as intersecting |
| Geometry.ArcAngle | stream_simulator/transformations/tf.py:568-578 | a bearing is accepted exactly when it, or it shifted by ±2π, lies strictly inside the window; the reported angle is the shifted bearing that was found inside the window |
| Geometry.ArcAngleAsWritten | stream_simulator/transformations/tf.py:568-578 | a bearing is accepted exactly when it or its shift by a full turn either way lies strictly inside the window; the angle reported is the bearing or the bearing + 2π, and the latter also in the −2π branch, where it lies outside the window |
| Geometry.ArcAngleAgreement | stream_simulator/transformations/tf.py:568-578 | the field-of-view test as written accepts exactly the same bearings as the corrected one, and reports the same angle unless only the −2π branch matches |
| Geometry.ArcAngleAsWrittenLeavesWindow | stream_simulator/transformations/tf.py:576-578 | a sensor at −170° with a 40° field of view sees a target at bearing 175° only through the −2π branch, and the angle reported as written lies outside the sensor's window |
| Values.KeyMatchesEquality | stream_simulator/transformations/tf.py:437 | two scalar names address the same `declarations_info` entry exactly when Python finds them equal (`True` and `1` collide) |
| Values.Trunc | stream_simulator/controllers/effectors/controller_speaker.py:180 | `int(v)` truncates toward zero: the result is within one of `v`, on the side of zero |
| Values.Put | stream_simulator/transformations/tf.py:176-180 | assigning into an ordered dict keeps an existing key in place and appends a new one last |
| Values.PutLookupSame | stream_simulator/transformations/tf.py:179-180 | after `d[k] = v`, `d[k]` reads back `v` |
| Values.PutLookupOther | stream_simulator/transformations/tf.py:180 | after `d[k] = v`, every other key reads as before |
| Values.UniformBetween | stream_simulator/simulator/controller_encoder.py:48-50 | `random.uniform(a, b)` with a unit draw lies between a and b |
| Values.PyIndex | stream_simulator/simulator/controller_encoder.py:116 | `memory[-i]` is valid exactly for `-n <= -i < n`, a negative index counting from the end |
| TfAffection.AsValue | stream_simulator/transformations/tf.py:545-552 | an affection dict carries its distance, and the ranged and arced ones also their type and info |
| TfAffection.XYOf | stream_simulator/transformations/tf.py:530-531 | `[pl['x'], pl['y']]` succeeds exactly when the pose has both fields |
| TfAffection.PointOf | stream_simulator/transformations/tf.py:527 | coordinates take part in the distance only as numbers; anything else raises |
| TfAffection.CalcDistance | stream_simulator/transformations/tf.py:526-527 | `calc_distance` is the square root of the squared coordinate differences, and raises on non-numeric coordinates |
| TfAffection.DistanceTo | stream_simulator/transformations/tf.py:529-532 | the distance to an affector is measured to its absolute position |
| TfAffection.CategoryOf | stream_simulator/transformations/tf.py:610 | a category list is read exactly when it exists |
| TfAffection.HandleRanged | stream_simulator/transformations/tf.py:539-553 | an affector is reported exactly when the distance is strictly below the affector's own range, with its kind, distance, range, name and id from its declaration, and with its properties as `info`, `{}` when they are `None` |
| TfAffection.Audible | stream_simulator/transformations/tf.py:682 | a human counts for a microphone only when its `sound` property equals 1 |
| TfAffection.RangedPassKeys | stream_simulator/transformations/tf.py:610-619 | after one loop of a ranged handler the dict holds what it held plus exactly the affectors found in range (only audible ones for the microphone) |
| TfAffection.RangedHandler | stream_simulator/transformations/tf.py:604-624 | a ranged handler runs only for a device whose absolute pose has x and y |
| TfAffection.WithReading | stream_simulator/transformations/tf.py:610-616 | the thermostat's `temperature` (the humidifier's `humidity`) answered by its `get` RPC is written into each reported entry of that kind; this fails exactly when the effector has no RPC client, its answer lacks the field, or the entry's `info` is not a dict; keys, order and other entries are unchanged |
| TfAffection.ReadingReported | stream_simulator/transformations/tf.py:612-614 | after the reading, an entry of the group's kind reports the effector's answer under the field, keeps its other `info` fields, type and distance, and every other entry is unchanged |
| TfAffection.Numeric | stream_simulator/transformations/tf.py:563-565 | the window arithmetic accepts numbers only |
| TfAffection.Sighting | stream_simulator/transformations/tf.py:563-578 | the window is the heading ± half the field of view (given in degrees); a target is seen exactly when its bearing, or the bearing shifted a full turn either way, lies strictly inside the window; the angle reported is the bearing or the bearing plus a full turn, so it lies in the window or a full turn above it |
| TfAffection.HandleArced | stream_simulator/transformations/tf.py:555-601 | a target is reported only when strictly closer than the sensor's range and seen in the window, at an angle that lies in the window or, when it was seen through the −2π shift, a full turn above it; a target out of range is never reported; a robot is reported by its own name with no id |
| TfAffection.ArcedPassSeen | stream_simulator/transformations/tf.py:730-733 | after one loop of an arced handler the dict holds what it held plus exactly the targets the arced test reported |
| TfAffection.ArcedHandler | stream_simulator/transformations/tf.py:722-727 | the camera and RFID handlers run only for a device whose pose has x, y and theta |
| TfAffection.RobotsWithinKeys | stream_simulator/transformations/tf.py:797-806 | the area alarm and distance sensor report exactly the robots strictly within the device's range |
| TfAffection.RobotsWithin | stream_simulator/transformations/tf.py:797-806 | the loop over the robots raises exactly when some robot has no measurable distance or the range is not a number |
| TfAffection.WithinHandler | stream_simulator/transformations/tf.py:789-812 | the area alarm and distance sensor need the device's pose and its declared range |
| TfAffection.RunHandler | stream_simulator/transformations/tf.py:842-888 | the linear alarm handler always raises, and every handler but the combined environmental one answers a flat dict |
| TfAffection.Dispatch | stream_simulator/transformations/tf.py:899-930 | the chain of subclass checks raises exactly when some check cannot ask the subclass list about its subclass, or lists it and its handler raises |
| TfAffection.DispatchNoMatch | stream_simulator/transformations/tf.py:899-917 | when the subclass list names none of the checked subclasses, the answer stays as it was |
| TfAffection.DispatchLastWins | stream_simulator/transformations/tf.py:899-930 | when several checks match, the answer is that of the last matching check |
| TfAffection.DispatchFailsWith | stream_simulator/transformations/tf.py:897-932 | a matching check whose handler raises makes `check_affectability` raise |
| TfAffection.CheckAffectability | stream_simulator/transformations/tf.py:890-934 | an unregistered name raises; a device of a type other than env or robot answers `{}` |
| TfAffection.UnknownSubclassUnaffected | stream_simulator/transformations/tf.py:898-934 | a registered device whose subclass list names none of its type's handled subclasses answers `{}` |
| TfAffection.LastSubclassWins | stream_simulator/transformations/tf.py:899-930 | a device naming several handled subclasses gets the answer of the last one in source order |
| TfAffection.LinearAlarmRaises | stream_simulator/transformations/tf.py:912-913 | an environment device listing `linear_alarm` always makes `check_affectability` raise |
| TfAffection.GetAffections | stream_simulator/transformations/tf.py:474-479 | `get_affections` answers `check_affectability`'s dict, or `{}` whenever the name is missing or the check raises |
| TfAffection.MicsOf | stream_simulator/transformations/tf.py:330-334 | the microphones published to, in order |
| TfAffection.HearOne | stream_simulator/transformations/tf.py:320-334 | a microphone hears the speaker exactly when it is strictly within 4.0, and then gets the speaker's name, text and language |
| TfAffection.HearIfMic | stream_simulator/transformations/tf.py:312-334 | a registered name is published to at most once, and exactly when it is a microphone within earshot |
| TfAffection.Relay | stream_simulator/transformations/tf.py:312-334 | every publication goes to a registered microphone within earshot, and every registered microphone within earshot gets one |
| TfAffection.JoinHeard | stream_simulator/transformations/tf.py:312-334 | the publications for the first name followed by those for the rest cover exactly the microphones within earshot among all names |
| TfAffection.SpeakCallback | stream_simulator/transformations/tf.py:306-334 | the microphones that hear a speaker are exactly the registered microphones strictly within 4.0 of the speaker's absolute position |
| TfDetection.Entries | stream_simulator/transformations/tf.py:975-999 | the loop visits the entries of a flat report in order, and the three sub-dicts of a combined one |
| TfDetection.Scan | stream_simulator/transformations/tf.py:1034-1098 | a detection loop raises exactly when some entry cannot be tested, or matches and its info cannot be read |
| TfDetection.ScanNoMatch | stream_simulator/transformations/tf.py:1034-1098 | when no entry matches the query, the decision stays as it was |
| TfDetection.ScanLastMatch | stream_simulator/transformations/tf.py:1034-1098 | when several entries match, the last matching entry decides the info and `frm`, and the decision is positive |
| TfDetection.ScanPositiveMatched | stream_simulator/transformations/tf.py:1034-1098 | a positive decision from a negative start comes from some entry matching the query |
| TfDetection.Luminosity | stream_simulator/transformations/tf.py:1024-1032 | the blended luminosity is the larger of ambient and added light plus a tenth of the smaller, divided by 100, and exactly 1.0 whenever that blend exceeds 100 |
| TfDetection.Gate | stream_simulator/transformations/tf.py:1103-1107 | a detection is kept exactly when it was positive and the squared draw is at most the luminosity; a larger draw vetoes it |
| TfDetection.GateOpenInFullLight | stream_simulator/transformations/tf.py:1103-1107 | at full luminosity no draw in [0, 1] vetoes a positive decision |
| TfDetection.MicDetection | stream_simulator/transformations/tf.py:965-1004 | a microphone's decision needs `check_affectability` to succeed; an unknown query is negative, and a positive speech-to-text decision has non-empty info |
| TfDetection.CameraVerdict | stream_simulator/transformations/tf.py:1006-1032 | a camera's luminosity is at most 1, an unknown query is negative, and the decision is the query's loop over what the camera sees, robots included |
| TfDetection.CameraScan | stream_simulator/transformations/tf.py:1034-1100 | a positive camera decision names a seen entry matching the query |
| TfDetection.FirstSubclass | stream_simulator/transformations/tf.py:944 | the result is `subtype['subclass'][0]` of the registered declaration, and for a registered name it fails exactly when `subtype`, its `subclass` list or that list's first entry is missing |
| TfDetection.GetSimDetection | stream_simulator/transformations/tf.py:936-1139 | a device whose first subclass is neither camera nor microphone gets result False; a camera's result is its decision passed through the darkness gate |
| TfDetection.CameraPositiveSeen | stream_simulator/transformations/tf.py:1006-1107 | a positive camera result was positive before the gate and so comes from a seen entry matching the query |
| Robot.Step | stream_simulator/robot.py:591-600 | the heading advances by `angular * dt`, and a zero angular velocity leaves it unchanged |
| Robot.ArcKeepsTurningCentre | stream_simulator/robot.py:594-600 | an arc step keeps the robot on the same turning circle: the centre `(x - r sin θ, y + r cos θ)` is unchanged, whatever the trigonometric functions are |
| Robot.StepsCompose | stream_simulator/robot.py:591-600 | two steps under the same command equal one step over the summed interval, so the integration does not depend on how time is sliced |
| Robot.OutOfBounds | stream_simulator/robot.py:513-520 | negative coordinates are always out of bounds; a position passed as in bounds is non-negative and within the grid scaled by the resolution (`<=` with the source's `>`, `<` with `>=`); a zero resolution raises |
| Robot.Sorted | stream_simulator/robot.py:526-532 | the swap yields the same two indices in non-decreasing order |
| Robot.AxisCells | stream_simulator/robot.py:534-545 | an axis move inspects exactly the cells `range(low, high)` along the axis on which the indices differ, in the other index's row or column |
| Robot.StepsBelow | stream_simulator/robot.py:549-557 | the loop `d = 0, 1, …` while `d < dist` runs ⌈dist⌉ times, and not at all when dist is not positive |
| Robot.Walk | stream_simulator/robot.py:547-557 | the diagonal walk visits, for each step below the hypotenuse, the truncated cell at distance `d` along `atan2(dy, dx)`, starting at the first cell |
| Robot.ScanCells | stream_simulator/robot.py:535-559 | no collision exactly when none of the inspected cells is a wall; a collision is reported only with a wall among them, and an error only with an out-of-range index among them |
| Robot.CheckOkAsWritten | stream_simulator/robot.py:511-559 | `check_ok` as written: a negative coordinate is a collision; a zero resolution raises; a position past the far edge by `>` is a collision, so one exactly on the edge passes the bounds test; inside it the answer is "free" exactly when every cell of the walk (starting at the smaller x and smaller y index) is free, a collision only when some cell is a wall, and an error only when some cell lies off the map |
| Robot.CheckOk | stream_simulator/robot.py:511-559 | the corrected check: negative coordinates, and positions on or past the far edge, are collisions; inside the grid the answer is "free" exactly when every cell walked from the previous cell toward the new one is free; a legal move has its new position inside the grid and a non-zero resolution |
| Robot.CheckOkAxisNeverFails | stream_simulator/robot.py:534-545 | with a positive resolution and the previous position inside the grid, a move within one row or column never indexes outside the map |
| Robot.HigherEndNeverChecked | stream_simulator/robot.py:535-539 | a vertical move in either direction between rows 1 and 5 of column 2 misses a wall at (2, 5), because `range(low, high)` leaves out the larger end |
| Robot.DiagonalWalkAsWrittenHitsCorner | stream_simulator/robot.py:524-557 | a move from (0.5, 5.5) to (5.5, 0.5) is reported as crashing into a wall at cell (0, 0), which lies far from the path |
| Robot.DiagonalWalkCorrectedMissesCorner | stream_simulator/robot.py:524-557 | with the walk running from the previous cell to the new one, the same move is legal |
| Robot.AntiDiagonalWalkClear | stream_simulator/robot.py:547-557 | the eight cells of the walk from cell (0, 5) to cell (5, 0) contain no wall at (0, 0) |
| Robot.BoundAsWrittenIndexesPastEdge | stream_simulator/robot.py:517-545 | a move to x exactly equal to the width passes the bounds test as written and then indexes column 10 of a 10-column map |
| Robot.BoundCorrectedRejectsEdge | stream_simulator/robot.py:517-520 | with `>=`, the same move is out of bounds |
| Robot.Remember | stream_simulator/robot.py:142 | the velocity buffer keeps at most five entries, the newest last, and drops the oldest when full |
| Robot.SimulationStep | stream_simulator/robot.py:571-633 | one pass of the loop with the check as written: with no velocity received nothing moves and nothing is published; otherwise the last velocity is integrated, a changed pose is published before the check, and a collision restores the previous pose exactly; the pass raises exactly when the check does |
| Robot.SimulationStepCorrected | stream_simulator/robot.py:571-633 | the same pass with the corrected check: a collision restores the previous pose exactly and a kept move lies inside the grid |
| Robot.KeptPoseWithinEdge | stream_simulator/robot.py:517-519 | with the check as written, a pose kept after moving has a non-zero resolution, non-negative coordinates and x/res and y/res at most the width and height, so it may lie on the far edge |
| Robot.EdgePoseKeptAsWritten | stream_simulator/robot.py:517-519 | on an empty 10×10 map at resolution 1 the move from (9.5, 5.5) to (10, 5.5) passes the check as written and is refused by the corrected one |
| Robot.CollisionRollsBack | stream_simulator/robot.py:622-633 | when the check as written reports a collision, the kept pose is the previous one, yet the rejected pose has been published |
| Robot.KeptPoseInsideGrid | stream_simulator/robot.py:517-519 | with the corrected check, a pose kept after moving lies strictly inside the grid |
| Robot.Initial | stream_simulator/robot.py:145-180 | the starting pose is the configured one with theta converted from degrees to radians, or the origin; the current pose starts there; the resolution defaults to 1 |
| Robot.StartOf | stream_simulator/robot.py:171-174 | no starting pose when none is configured; otherwise `x`, `y` and `theta` must be present and numeric, and they are taken as configured |
| Robot.MapResolution | stream_simulator/robot.py:163-166 | the resolution is the map's when the map lists one, and absent otherwise; a world without a map, or a resolution that is not a number, fails |
| Robot.Configured | stream_simulator/robot.py:160-191 | construction fails exactly when the map resolution or starting pose cannot be read, `step_by_step_execution`, `speak_mode` or `mode` is missing, or the mode is not real, mock or simulation; otherwise the robot starts as `Initial` gives |
| Robot.HeadinglessStartRaises | stream_simulator/robot.py:171-174 | a configured starting pose without `theta` stops the constructor |
| Robot.Reset | stream_simulator/robot.py:504-509 | `reset_pose` puts the robot back on its starting pose and changes nothing else |
| Robot.Run | stream_simulator/robot.py:571-633 | passes run one after another until one raises, and only the pose ever changes |
| Robot.ResetAfterMoves | stream_simulator/robot.py:504-509 | whatever sequence of simulation passes has run, a reset returns the robot to the pose it was constructed with |
| Robot.RunKeepsInit | stream_simulator/robot.py:571-633 | the simulation never changes the starting pose |
| Robot.Register | stream_simulator/robot.py:289-310 | a duplicate name changes neither devices nor controllers; otherwise BUTTON_ARRAY controllers stay out of `devices` and BUTTON controllers out of `controllers`; a velocity topic is subscribed exactly for a SKID_STEER controller that did not return early |
| Robot.RegisterAll | stream_simulator/robot.py:289-310 | registering only adds: the earlier devices stay a prefix and every earlier controller stays registered unchanged |
| Robot.RegisterAllNoButtonLeak | stream_simulator/robot.py:289-300 | however many controllers are registered, no BUTTON_ARRAY reaches `devices` and no BUTTON reaches `controllers` |
| Robot.Defaulted | stream_simulator/robot.py:364-369 | a missing key gets its default and every present entry is kept |
| Robot.SetDefault | stream_simulator/robot.py:364-369 | on a dict, a key is filled in only when absent |
| Robot.WithPoseDefaults | stream_simulator/robot.py:361-369 | a device without a pose gets `{x: 0, y: 0, theta: None}`; a pose dict gets x and y 0 and theta None where missing and keeps everything present |
| World.Wrap | stream_simulator/simulator/world.py:61 | an index pair numpy accepts lands inside the array, a negative index counting from the end |
| World.Setup | stream_simulator/simulator/world.py:36-68 | setup succeeds exactly when the dimensions are non-negative and every index pair any line asks for is one numpy accepts; the resulting grid has the given dimensions and exactly the rasterised cells of the lines |
| World.MarkedIff | stream_simulator/simulator/world.py:50-68 | a cell holds 1 exactly when some line asked for an index pair that numpy resolves to that cell |
| World.MarkedInGrid | stream_simulator/simulator/world.py:45-68 | every cell set to 1 lies inside the array |
| World.SwapSameCells | stream_simulator/simulator/world.py:55-67 | swapping a line's endpoints does not change the cells it writes |
| World.SwapSameGrid | stream_simulator/simulator/world.py:50-68 | a world with one line given the other way round rasterises to the same grid |
| World.DiagonalMarksNothing | stream_simulator/simulator/world.py:55-68 | a line that is neither vertical nor horizontal sets no cell |
| World.MarkedGrows | stream_simulator/simulator/world.py:50-68 | cells are only ever set, never cleared: the grid after the first k lines is contained in the final one |
| World.IsWall | stream_simulator/robot.py:536 | reading `map[x, y]` succeeds exactly for an index pair numpy accepts, and answers whether the resolved cell holds 1 |
| History.Write | stream_simulator/simulator/controller_encoder.py:88-90 | `memory_write` keeps the memory's length, puts the new reading first and shifts the others back by one, dropping the oldest; an empty memory raises |
| History.WriteAll | stream_simulator/simulator/controller_encoder.py:88-90 | a run of writes succeeds exactly when the memory is non-empty or nothing is written; the length is kept and the last reading written comes first |
| History.WindowOfNewest | stream_simulator/simulator/controller_encoder.py:88-90 | after any number of writes the memory is a window on the newest readings, newest first, followed by the surviving older contents |
| History.Zeros | stream_simulator/simulator/controller_encoder.py:61 | `queue_size * [0]` gives max(0, n) zeros for an integer n, and raises for anything else |
| History.RangeInt | stream_simulator/simulator/controller_encoder.py:105 | `range` accepts exactly booleans and integral numbers, with their numeric value |
| History.NewSampler | stream_simulator/simulator/controller_encoder.py:36 | a fresh controller's memory holds 100 zeros |
| History.Enable | stream_simulator/simulator/controller_encoder.py:56-64 | enabling always sets `enabled`; it succeeds exactly when `hz` and an integer `queue_size` are given, and then the memory is `queue_size` zeros and the reply `{"enabled": True}`; a failure leaves the memory alone |
| History.Disable | stream_simulator/simulator/controller_encoder.py:66-69 | disabling clears `enabled` and keeps the memory |
| History.WellFormedIff | stream_simulator/simulator/controller_encoder.py:98-103 | the guarded lines succeed exactly for a dict holding `to` and a numeric `from` |
| History.Span | stream_simulator/simulator/controller_encoder.py:99-105 | the loop runs over `range(to, from + 1)`, and raises unless both bounds are integers |
| History.Entries | stream_simulator/simulator/controller_encoder.py:105-117 | the loop builds one entry per index in order, and fails exactly when some index's entry fails |
| History.RangeRead | stream_simulator/simulator/controller_encoder.py:93-118 | a malformed request gets `[]`; otherwise the reply holds max(0, from + 1 - to) entries, the k-th built for index `to + k`, and the read fails exactly when one of them does |
| History.DrawnWithin | stream_simulator/simulator/controller_encoder.py:48-50 | a simulated draw lies between the two bounds given to `random.uniform` |
| History.Recall | stream_simulator/simulator/controller_encoder.py:116 | `memory[-i]` is index 0 for the newest reading, counts back from the oldest for positive i, and raises outside `-n < i <= n` |
| History.Subscript | stream_simulator/simulator/controller_pan_tilt.py:90-91 | indexing a stored reading works exactly on a list with a valid Python index |
| History.ReadNewest | stream_simulator/simulator/controller_encoder.py:98-117 | the request `{from: 0, to: 0}` reads exactly the newest reading |
| CytronLf.Bit | stream_simulator/simulator/controller_cytron_lf.py:99 | a channel reads 1 exactly when its draw exceeds 0.5, and 0 otherwise |
| CytronLf.Sample | stream_simulator/simulator/controller_cytron_lf.py:97-114 | a simulated reading has exactly the five channels `so_1` … `so_5` |
| CytronLf.Tick | stream_simulator/simulator/controller_cytron_lf.py:92-122 | one pass of the read loop writes the sampled (or hardware) reading to memory, and raises exactly on an empty memory |
| CytronLf.Entry | stream_simulator/simulator/controller_cytron_lf.py:273-289 | the entry for index i copies the five channels of `memory[-i]`, and raises when that reading lacks one of them |
| CytronLf.Read | stream_simulator/simulator/controller_cytron_lf.py:261-290 | a disabled controller answers `{"data": []}` whatever the request; an enabled one performs the range read over its memory |
| CytronLf.ReadCopiesChannels | stream_simulator/simulator/controller_cytron_lf.py:261-290 | a successful read has max(0, from + 1 - to) entries, each the channels of the reading at its index |
| CytronLf.SampleReadBack | stream_simulator/simulator/controller_cytron_lf.py:97-122 | the newest reading read back holds exactly the channels just sampled, each 1 exactly when its draw exceeded 0.5 |
| CytronLf.ZerosRaise | stream_simulator/simulator/controller_cytron_lf.py:152-160 | right after enabling, the memory holds zeros with no channels, so reading any stored index raises |
| Encoder.Tick | stream_simulator/simulator/controller_encoder.py:42-52 | mock and simulation write a draw of `uniform(1000, 2000)`, raising on an empty memory; real mode writes nothing |
| Encoder.Entry | stream_simulator/simulator/controller_encoder.py:109-117 | the entry for index i holds `rpm` = `memory[-i]`, and fails exactly when the index does |
| Encoder.Read | stream_simulator/simulator/controller_encoder.py:93-118 | a disabled encoder answers `{"data": []}`; an enabled one performs the range read |
| Encoder.TicksStayPlausible | stream_simulator/simulator/controller_encoder.py:48-50 | sampling keeps every stored reading either a zero or a speed in [1000, 2000] |
| Encoder.EnableIsPlausible | stream_simulator/simulator/controller_encoder.py:61 | enabling leaves only zeros in memory |
| Encoder.ReportedRpmPlausible | stream_simulator/simulator/controller_encoder.py:93-118 | every `rpm` an enabled encoder reports is 0 or in [1000, 2000], and the reply has max(0, from + 1 - to) entries |
| Env.Read | stream_simulator/simulator/controller_env.py:35-60 | a malformed request gets a bare `[]`; a well-formed one fails only when its bounds are not integers |
| Env.Entry | stream_simulator/simulator/controller_env.py:44-59 | an entry has exactly the temperature, pressure, humidity and gas readings, each in [10, 30] when the draws are unit draws |
| Env.ReadingsPlausible | stream_simulator/simulator/controller_env.py:44-60 | a reply has max(0, from + 1 - to) entries, each with temperature, pressure, humidity and gas in [10, 30] |
| Imu.Read | stream_simulator/simulator/controller_imu.py:34-70 | a malformed request gets a bare `[]`; a well-formed one fails only when its bounds are not integers |
| Imu.Entry | stream_simulator/simulator/controller_imu.py:43-69 | an entry has exactly `accel`, `gyro` and `magne`; the acceleration is 1 on every axis and every angle lies within ±0.3 when the draws are unit draws |
| Imu.ReadingsPlausible | stream_simulator/simulator/controller_imu.py:43-70 | a reply has max(0, from + 1 - to) entries, each with acceleration 1 on every axis and every gyroscope and magnetometer angle within ±0.3 |
| Sonar.Read | stream_simulator/simulator/controller_sonar.py:34-56 | a malformed request gets a bare `[]`; a well-formed one fails only when its bounds are not integers |
| Sonar.Entry | stream_simulator/simulator/controller_sonar.py:43-55 | an entry has exactly a `distance`, in [10, 30] when the draw is a unit draw |
| Sonar.ReadingsPlausible | stream_simulator/simulator/controller_sonar.py:43-56 | a reply has max(0, from + 1 - to) entries, each a distance in [10, 30] |
| PanTilt.Create | stream_simulator/simulator/controller_pan_tilt.py:28 | a new unit's memory holds 100 zeros |
| PanTilt.Set | stream_simulator/simulator/controller_pan_tilt.py:96-114 | a command with yaw and pitch is stored as `[yaw, pitch]` in front of the memory, which keeps its 100 slots; a command missing either changes nothing |
| PanTilt.Entry | stream_simulator/simulator/controller_pan_tilt.py:83-93 | the entry for index i reports the yaw and pitch of `memory[-i]` with device id 0, and raises when that slot is not a pair |
| PanTilt.Read | stream_simulator/simulator/controller_pan_tilt.py:70-94 | a malformed request gets a bare `[]`, and the read does not depend on whether the unit is enabled |
| PanTilt.SetEnabled | stream_simulator/simulator/controller_pan_tilt.py:43-49 | enabling and disabling only toggle the flag and keep the memory |
| PanTilt.SetThenRead | stream_simulator/simulator/controller_pan_tilt.py:70-102 | right after a set, the request `{from: 0, to: 0}` returns exactly the commanded yaw and pitch with device id 0 |
| PanTilt.SetsKeepNewest | stream_simulator/simulator/controller_pan_tilt.py:65-102 | a sequence of well-formed commands leaves the newest hundred of them in memory, newest first |
| Microphone.Tag | stream_simulator/controllers/sensors/controller_microphone.py:65 | `h["type"] = group` succeeds exactly on a dict, and only sets its `type` |
| Microphone.TagAll | stream_simulator/controllers/sensors/controller_microphone.py:63-66 | a group is tagged actor by actor, in order, and fails exactly when one of its actors is not a dict |
| Microphone.Merge | stream_simulator/controllers/sensors/controller_microphone.py:60-66 | the merge succeeds exactly when every actor of every group is a dict, and then holds as many actors as all groups together |
| Microphone.MergePlacesActor | stream_simulator/controllers/sensors/controller_microphone.py:60-66 | actor j of group g appears after all actors of the earlier groups, unchanged except that its `type` names its group |
| Microphone.PoseOf | stream_simulator/controllers/sensors/controller_microphone.py:150-153 | the robot pose is read exactly when x, y, theta and resolution are all present, whatever their types; their values are kept as they came |
| Microphone.InaudibleIgnorePose | stream_simulator/controllers/sensors/controller_microphone.py:165-167 | when no actor is of an audible type, nothing is heard whatever the pose holds, even non-numbers |
| Microphone.Duration | stream_simulator/controllers/sensors/controller_microphone.py:113-114 | the goal's duration is usable exactly when it is present and a number, and it is that number |
| Microphone.Hears | stream_simulator/controllers/sensors/controller_microphone.py:165-173 | an actor outside the audible groups is never heard and its position is not read; for an audible actor the pose and the actor's x and y must be numbers, else it raises, and it is heard exactly when its scaled position is within 2.0 of the robot |
| Microphone.Closest | stream_simulator/controllers/sensors/controller_microphone.py:160-184 | the chosen actor is heard and no later actor is heard, so the choice is the LAST actor heard; none is chosen exactly when no actor is heard |
| Microphone.HearsSquared | stream_simulator/controllers/sensors/controller_microphone.py:171-173 | with a true square root, an audible actor is heard exactly when its squared distance is at most 4 |
| Microphone.LaterBeatsNearer | stream_simulator/controllers/sensors/controller_microphone.py:161-184 | because `closest_dist` is never lowered, of two heard actors the later one is chosen, whatever their distances |
| Microphone.Wav | stream_simulator/controllers/sensors/controller_microphone.py:201-218 | the file is one of the three wave files: silence when nothing was heard or a human makes no sound, English for superman, Greek exactly for `lang == "EL"` otherwise |
| Microphone.OnGoal | stream_simulator/controllers/sensors/controller_microphone.py:102-262 | a disabled microphone answers `{}`; a goal without a numeric duration raises; mock records the fixed base64 payload at volume 100 and real mode the captured audio; in simulation the record is the wave file of the chosen actor, published as the source, or `"empty"` |
| Microphone.NothingHeardIsSilent | stream_simulator/controllers/sensors/controller_microphone.py:191-218 | with no audible actor in range the microphone records silence and reports the source `"empty"` |
| Motion.TfPackage | stream_simulator/controllers/effectors/controller_motion.py:65-78 | the motion controller is always declared as hosted by its robot, with host type `robot` |
| Motion.Topic | stream_simulator/controllers/effectors/controller_motion.py:168 | succeeds exactly when the device has a string `base_topic`, and then is that topic followed by the suffix; anything else raises |
| Motion.Effect | stream_simulator/controllers/effectors/controller_motion.py:167-180 | an IMU writes only the IMU topic, its base topic plus `.data`; a line follower only the line-follower topic, base topic plus `.data`; a servo only the servo topic, base topic plus `.set`; an encoder placed BL the left topic (base topic plus `.data`), its `sensor_configuration` name and its `hz`; one placed BR the right topic and name. An encoder placed elsewhere, and a device of any other type, succeed and write nothing. Each writing case succeeds exactly when the fields it reads are there and the base topic is a string |
| Motion.EncoderEffect | stream_simulator/controllers/effectors/controller_motion.py:169-176 | an encoder placed BL writes the left topic, name and frequency, one placed BR the right topic and name, with their values, failing exactly when a field it reads is missing or the base topic is not a string; an encoder placed elsewhere succeeds and writes nothing |
| Motion.Scan | stream_simulator/controllers/effectors/controller_motion.py:166-180 | the scan never forgets a recorded attribute |
| Motion.Items | stream_simulator/controllers/effectors/controller_motion.py:166 | `for d in devices` goes through the items exactly when the value is a list; an empty dict or string yields nothing, and anything else raises before or at the first `d['type']` |
| Motion.Reset | stream_simulator/controllers/effectors/controller_motion.py:157-163 | every topic and name is reset to `None` while the encoder frequency keeps its earlier value |
| Motion.RecordDevices | stream_simulator/controllers/effectors/controller_motion.py:156-180 | a successful `record_devices` read a `devices` list and leaves every attribute set |
| Motion.LastDeviceWins | stream_simulator/controllers/effectors/controller_motion.py:166-180 | after a successful scan each attribute holds what the last device writing it wrote, or its earlier value when no device writes it |
| Motion.RecordedFromLastDevice | stream_simulator/controllers/effectors/controller_motion.py:156-180 | after `record_devices` an attribute no device writes is `None`, except the encoder frequency, which keeps its value; any other is the last writer's |
| Motion.ImuEffect | stream_simulator/controllers/effectors/controller_motion.py:167-168 | an IMU with base topic t records exactly `t + ".data"` as the IMU topic |
| Motion.SecondImuOverwrites | stream_simulator/controllers/effectors/controller_motion.py:166-168 | of two IMUs, the later one's topic is the one recorded |
| DfrobotMotor.Map | stream_simulator/simulator/dfrobot_motor_controller.py:74-83 | `_map` succeeds exactly for a non-empty left range, and the result lies on the line through the two ranges' ends |
| DfrobotMotor.MapEnds | stream_simulator/simulator/dfrobot_motor_controller.py:74-83 | the ends of the left range go to the ends of the right range |
| DfrobotMotor.MapIncreasing | stream_simulator/simulator/dfrobot_motor_controller.py:74-83 | with both ranges increasing, a larger value maps to a larger one |
| DfrobotMotor.MapRoundTrip | stream_simulator/simulator/dfrobot_motor_controller.py:74-83 | mapping back through the swapped ranges returns the original value |
| DfrobotMotor.Split | stream_simulator/simulator/dfrobot_motor_controller.py:102-106 | the two side speeds sum to twice the linear speed and differ by the angular speed |
| DfrobotMotor.SplitInverse | stream_simulator/simulator/dfrobot_motor_controller.py:102-106 | the split loses nothing: every pair of side speeds comes from exactly one twist |
| DfrobotMotor.SpeedToPwm | stream_simulator/simulator/dfrobot_motor_controller.py:118-120 | the conversion is a placeholder under which no speed produces a non-zero duty cycle |
| EnvActors.KeysAccepted | stream_simulator/controllers/env_actors/qr.py:36-52 | every field an actor declares is one the transform registry accepts, and none is declared twice |
| EnvActors.IdText | stream_simulator/controllers/env_actors/qr.py:22 | `str(conf["id"])` gives a string id as it is and an integer id in decimal |
| EnvActors.BuildBase | stream_simulator/controllers/env_actors/qr.py:36-45 | an actor without a host declares exactly type, subtype, pose, name, id and properties, in that order, each holding its value |
| EnvActors.BuildHost | stream_simulator/controllers/env_actors/qr.py:47-52 | an actor with a host declares the same six fields and then `host` and `host_type = "pan_tilt"` |
| EnvActors.Declaration | stream_simulator/controllers/env_actors/qr.py:16-54 | the declaration is built exactly when id, x, y and message are configured; it is of type `actor`, posed at the configured position without a heading, named prefix plus the id, carries the message; host and host type are present exactly when a host is configured |
| EnvActors.QrDeclaration | stream_simulator/controllers/env_actors/qr.py:8-54 | a QR actor is named `qr_` plus its id and has subtype `qr` |
| EnvActors.BarcodeDeclaration | stream_simulator/controllers/env_actors/barcode.py:8-54 | a barcode actor is named `barcode_` plus its id and has subtype `barcode` |
| EnvActors.HeadinglessStored | stream_simulator/transformations/tf.py:409-441 | a declaration whose pose has no heading is stored with its pose untouched and its name and host type as declared |
| EnvActors.StoredDeclared | stream_simulator/transformations/tf.py:409-441 | a storable declaration with a string name and host type `pan_tilt` or none is appended to the declarations and filed under its name |
| EnvActors.DeclarationStored | stream_simulator/controllers/env_actors/qr.py:27-54 | the registry stores an actor's declaration with its pose untouched, its name, and host type `pan_tilt` when hosted or `None` otherwise |
| EnvActors.DeclarationAccepted | stream_simulator/controllers/env_actors/qr.py:54 | declaring an actor always succeeds: its declaration is appended and filed under its name |
| Leds.SetEnabled | stream_simulator/controllers/effectors/controller_leds.py:128-134 | enabling and disabling change only the flag, so `get` reports the same colour and luminosity either way |
| Speaker.SetEnabled | stream_simulator/controllers/effectors/controller_speaker.py:445-451 | enabling and disabling keep the global volume, and a disabled speaker answers every speak and play goal with `{}` |
| Motion.SetEnabled | stream_simulator/controllers/effectors/controller_motion.py:303-309 | the controller is enabled or disabled as asked, whatever it was, and the reply reports the new flag |
| Microphone.SetEnabled | stream_simulator/controllers/sensors/controller_microphone.py:264-270 | only the flag changes, and the reply reports it |

## Left out

- Messaging is not modelled:
  - RPC servers and clients, publishers, subscribers and action servers;
  - `start`/`stop`, `notify_ui`, the `derp_client` persistence and every log line's wording and timestamp.
- Messaging results become inputs. The set of pan-tilt units that `setup` discovers over RPC is an input to `TfTree.SetupTree`.
- What a device publishes or reports is an output of the function that models it.
- Threads are not modelled:
  - the heartbeat thread;
  - the `sensor_read` threads;
  - the speaker's and microphone's `blocked` busy-waits;
  - goal-cancellation loops;
  - the wall-clock timing of `simulation_thread`.
- `Robot.SimulationStep` models one pass of the loop, with `dt` as a parameter.
- Audio and hardware are not modelled:
  - espeak and Google TTS;
  - the contents of wave files and of real recordings, which are parameters of `Microphone.OnGoal`;
  - base64;
  - pidevices and GPIO;
  - the external luminosity and thermostat reads inside the affection handlers.
- Floating point is not modelled. Reals replace Python floats, and the 2-decimal rounding of published poses (robot.py lines 602-604) is left out.
- `str()` of a float or of a container is not modelled. A non-integral number, a list or a dict where Python formats an `id` into a name is a `Failure`, while Python would format it.
- A number with an integral value is treated as a Python int. So a float `queue_size`, `from` or `to` with an integral value is accepted where Python raises TypeError.
- When a Python handler raises part-way, the attributes it had already assigned stay assigned. The model keeps that partial state only in `History.Enable`; elsewhere a failure leaves the state as it was before the call. One example is the pan-tilt `_yaw` assignment that precedes a missing `pitch`.
- The random 6-character detection id and the darkness roulette draw are parameters of `TfDetection.GetSimDetection`.
- `handle_linear_alarm` always raises because `lin_enc` is undefined. Only the segment-intersection helpers it would use are modelled, in `Geometry`.
- The ranged handlers write `properties = {}` into a declaration that lacks it. The model reports `{}` in the affection entry but does not write it back into the stored declaration.
- The answers of the effectors' `get` RPCs (`effectors_get_rpcs`) are a parameter, `TfAffection.Replies`. The temperature and humidity handlers write the thermostat's `temperature` and the humidifier's `humidity` into the reported `info`. In the source that `info` is the stored declaration's own properties dict, so the reading also stays in `declarations_info`; the model writes only the reported entry. The light handler's LED answer is fetched and discarded by the source and is not modelled.
- The `header.stamp` clock readings (`time.time()`) are left out: those of the microphone and speaker action replies, and the one in every range-read entry of the encoder, pan-tilt, line follower, IMU, environment and sonar controllers.
- CytronLf.Entry: the entry carries no `header.stamp`, which `controller_cytron_lf.py:274-283` reads from the clock.
- Encoder.Entry: the entry carries no `header.stamp`, which `controller_encoder.py:106-115` reads from the clock.
- PanTilt.Entry: the entry carries no `header.stamp`, which `controller_pan_tilt.py:80-89` reads from the clock.
- Env.Entry: the entry carries no `header.stamp`, which `controller_env.py:45-54` reads from the clock.
- Imu.Entry: the entry carries no `header.stamp`, which `controller_imu.py:44-53` reads from the clock.
- Sonar.Entry: the entry carries no `header.stamp`, which `controller_sonar.py:44-53` reads from the clock.
- Robot.StartOf: a starting `x` or `y` that is not a number is refused at construction. The source stores it and fails only when the simulation loop first computes with it, because the model's poses are reals.
- Robot.MapResolution: likewise, a map resolution that is not a number is refused at construction, where the source fails at the first `check_ok`.
- Robot.Configured: the map's shape is the `Grid` parameter, and the rest of the constructor (logging, `device_lookup`) is modelled by `Robot.RegisterAll`.
- The motion controller's `_init` thread, its subscriptions and `ComplexMotion` are left out; only `record_devices`, the declaration and enable/disable are modelled.
- Only the arithmetic of `dfrobot_motor_controller.py` is modelled, because the module does not parse: `_move_side` has an empty body.
- The microphone constructor's dict aliasing is left out. Its `h["type"] = i` mutates the world's actor dicts in place; the model returns tagged copies.
- The `memory_write` of the IMU, environment and sonar controllers is `History.Write`. Their memories are never read by their callbacks, so nothing more is modelled.
- TfAffection.HandleRanged: states the strict range test on the distance computed through `Trig.sqrt`. The squared-distance form holds only under a true square root and is proved once, in `Geometry.DistanceBelowIff`, rather than per handler.
- TfPoses.RobotPoseMovesCarried: covers the robot and its directly hosted devices over a whole update. Devices carried on a hosted pan-tilt are covered step by step by `TfPoses.PlaceDevicesAt` and `TfPoses.MoveChildAt`.
- TfPoses.RobotPoseTurnsCarried: assumes the host tree is a tree: the robot does not carry itself, and neither the robot nor the device sits on one of the robot's pan-tilts. Otherwise a later pan-tilt step may turn the device again, and the source promises nothing then.
- TfTree.OffsetPanTiltsShifts: assumes the pan-tilts are distinct and no device sits on two of them or is itself a pan-tilt. Otherwise a device is shifted more than once, or by a pan-tilt pose that was already shifted.
- These files are not part of this model: `controllers/env_devices/controller_microphone.py`, `simulator/controller_speaker.py`, `controllers/sensors/controller_button_array.py`, `controllers/__init__.py`, and the integration tests. They hold mock recording, audio output, GPIO debouncing and imports.

## Findings

| source | as written | input that shows it | evidently intended | confidence | as-written member | corrected member |
|---|---|---|---|---|---|---|
| stream_simulator/robot.py:524-557 | The x and y cell indices are sorted independently, and the diagonal walk starts at (smallest x, smallest y). | A 10×10 map at resolution 1 with a wall only at cell (0, 0). The move from (0.5, 5.5) to (5.5, 0.5) runs along the anti-diagonal, yet the walk visits cell (0, 0) and reports a crash. | Walk from the previous cell toward the new one. | not executed | Robot.CheckOkAsWritten, Robot.DiagonalWalkAsWrittenHitsCorner | Robot.CheckOk, Robot.DiagonalWalkCorrectedMissesCorner |
| stream_simulator/robot.py:517-545 | The bounds test uses `>`, so `x / resolution == width` passes. | A 10×10 empty map at resolution 1. The move from (10, 2) to (10, 5) passes the bounds test, then reads `map[10, 2]`, which raises IndexError. | Reject `x / resolution >= width` (and the same for height). | not executed | Robot.CheckOkAsWritten, Robot.BoundAsWrittenIndexesPastEdge, Robot.EdgePoseKeptAsWritten, Robot.SimulationStep, Robot.KeptPoseWithinEdge | Robot.CheckOk, Robot.BoundCorrectedRejectsEdge, Robot.SimulationStepCorrected, Robot.KeptPoseInsideGrid |
| stream_simulator/transformations/tf.py:576-578 | When the bearing is accepted through its −2π shift, the reported angle is bearing + 2π. | A sensor at −170° with a 40° field of view and a target at bearing 175°. The target is seen through the −2π branch, and the reported angle lies outside the window. | Report bearing − 2π, the angle that passed the window test. | not executed | Geometry.ArcAngleAsWritten, Geometry.ArcAngleAsWrittenLeavesWindow, TfAffection.Sighting, TfAffection.HandleArced | Geometry.ArcAngle, Geometry.ArcAngleAgreement |

=== FILE: cytron_lf.dfy ===
/** The Cytron line-follower array (`CytronLFController`): five optical
    channels sampled into the history memory and read back by range. */
module CytronLf {
  import opened Wrappers
  import opened Values
  import opened Devices
  import opened History

  /** `{so_1: a, ..., so_5: e}`. */
  function Channels(a: Value, b: Value, c: Value, d: Value, e: Value): Value {
    Obj(map["so_1" := a, "so_2" := b, "so_3" := c, "so_4" := d, "so_5" := e])
  }

  /** `1 if random.uniform(0, 1) > 0.5 else 0`. */
  function Bit(u: real): (v: Value)
    ensures v == Num(0.0) || v == Num(1.0)
    ensures v == Num(1.0) <==> u > 0.5
  {
    Num(if u > 0.5 then 1.0 else 0.0)
  }

  /** A mock or simulated reading: each channel independently 0 or 1. */
  function Sample(us: seq<real>): (v: Value)
    requires |us| == 5
    ensures v.Obj? && v.fields.Keys == {"so_1", "so_2", "so_3", "so_4", "so_5"}
  {
    Channels(Bit(us[0]), Bit(us[1]), Bit(us[2]), Bit(us[3]), Bit(us[4]))
  }

  /** One iteration of the read loop: a mock or simulated reading from the
      draws `us`, or the hardware reading `hw`, is written to memory. */
  function Tick(s: Sampler, mode: Mode, us: seq<real>, hw: Value): (r: Result<Sampler>)
    requires |us| == 5
    ensures r.Success? <==> |s.memory| > 0
    ensures r.Success? ==> r.value == s.(memory := Write(s.memory, if mode == Real then hw else Sample(us)).value)
  {
    var mem :- Write(s.memory, if mode == Real then hw else Sample(us));
    Success(s.(memory := mem))
  }

  /** The reply entry for index `i`: the five channels of `memory[-i]`. A
      reading that is not such a dict (the initial zeros) raises. */
  function Entry(mem: seq<Value>, i: int): (r: Result<Value>)
    ensures r.Success? <==> (Recall(mem, i).Success? && Get(Recall(mem, i).value, "so_1").Success? &&
      Get(Recall(mem, i).value, "so_2").Success? && Get(Recall(mem, i).value, "so_3").Success? &&
      Get(Recall(mem, i).value, "so_4").Success? && Get(Recall(mem, i).value, "so_5").Success?)
    ensures r.Success? ==> var f := Recall(mem, i).value.fields;
      r.value == Channels(f["so_1"], f["so_2"], f["so_3"], f["so_4"], f["so_5"])
  {
    var v :- Recall(mem, i);
    var a :- Get(v, "so_1");
    var b :- Get(v, "so_2");
    var c :- Get(v, "so_3");
    var d :- Get(v, "so_4");
    var e :- Get(v, "so_5");
    Success(Channels(a, b, c, d, e))
  }

  /** `cytron_lf_callback`: a disabled controller answers `{"data": []}`
      whatever the request; otherwise the range read over the memory. */
  function Read(s: Sampler, message: Value): (r: Result<Value>)
    ensures !s.enabled ==> r == Success(DisabledReply)
    ensures s.enabled ==> r == RangeRead(message, i => Entry(s.memory, i))
  {
    if !s.enabled then Success(DisabledReply) else RangeRead(message, i => Entry(s.memory, i))
  }

  /** An enabled controller answers a well-formed request with
      `max(0, from + 1 - to)` entries, the `k`-th holding the channels of
      `memory[-(to + k)]` (as `Entry` states them). */
  lemma ReadCopiesChannels(s: Sampler, message: Value)
    requires s.enabled && WellFormed(message) && Read(s, message).Success?
    ensures Span(message).Success?
    ensures var (lo, hi) := Span(message).value;
      var data := Read(s, message).value.fields["data"].items;
      Read(s, message).value == Reply(data) &&
      |data| == (if hi <= lo then 0 else hi - lo) &&
      forall k :: 0 <= k < |data| ==> Entry(s.memory, lo + k) == Success(data[k])
  {
    var (lo, hi) := Span(message).value;
    var entries := Entries(lo, hi, i => Entry(s.memory, i)).value;
    assert Read(s, message).value == Reply(entries);
  }

  /** Every channel of a mock or simulated reading is 0 or 1, and a reading
      read back holds exactly the channels that were written. */
  lemma SampleReadBack(s: Sampler, mode: Mode, us: seq<real>, hw: Value)
    requires |us| == 5 && |s.memory| > 0 && mode != Real
    ensures var mem := Tick(s, mode, us, hw).value.memory;
      Entry(mem, 0) == Success(Sample(us)) &&
      forall k :: 0 <= k < 5 ==> (Entry(mem, 0).value.fields[["so_1", "so_2", "so_3", "so_4", "so_5"][k]] ==
        (if us[k] > 0.5 then Num(1.0) else Num(0.0)))
  {
    var mem := Tick(s, mode, us, hw).value.memory;
    assert mem[0] == Sample(us);
    assert Recall(mem, 0) == Success(Sample(us));
  }

  /** A freshly enabled controller still holds zeros, which have no
      channels: reading any stored index raises until it is overwritten. */
  lemma ZerosRaise(s: Sampler, message: Value, i: int)
    requires Enable(s, message).1.Success?
    requires Recall(Enable(s, message).0.memory, i).Success?
    ensures Entry(Enable(s, message).0.memory, i).Failure?
  {
    var mem := Enable(s, message).0.memory;
    assert Recall(mem, i).value == Num(0.0);
  }
}

=== FILE: devices.dfy ===
/** What the robot-mounted effector controllers (LEDs, speaker, motion)
    share: their naming, their base topic, and the declaration each sends
    to the transform registry when it is built. */
module Devices {
  import opened Wrappers
  import opened Values
  import TfDeclare

  /** The fields of a device's configuration entry that the declaration
      reads. Configured names are strings. */
  datatype DeviceConf = DeviceConf(name: Option<string>, pose: Value, host: Option<Value>)

  /** The `category.class.subclass` a controller files itself under. */
  datatype Family = Family(category: string, deviceClass: string, subclass: string)

  const LedsFamily: Family := Family("actuator", "visual", "leds")
  const SpeakerFamily: Family := Family("actuator", "audio", "speaker")
  const MotionFamily: Family := Family("actuator", "motion", "twist")

  /** `info["mode"]`: anything but "mock" and "simulation" drives hardware. */
  datatype Mode = Mock | Simulation | Real

  /** The reply of `enable_callback` / `disable_callback`. */
  function EnabledReply(on: bool): Value {
    Obj(map["enabled" := Bool(on)])
  }

  /** The configured name, else `"d_" + str(id)` from the global device counter. */
  function DeviceName(conf: DeviceConf, id: nat): string {
    if conf.name.Some? then conf.name.value else "d_" + NatToString(id)
  }

  function BaseTopic(pack: string, f: Family, name: string): string {
    pack + "." + f.category + "." + f.deviceClass + "." + f.subclass + "." + name
  }

  /** Who hosts a device: a device that may sit on a pan-tilt and whose
      configuration names a host is hosted by that pan-tilt; every other
      device is hosted by the robot it belongs to. */
  function Host(conf: DeviceConf, deviceName: string, panTiltCapable: bool): (h: (Value, Value))
    ensures panTiltCapable && conf.host.Some? ==> h == (conf.host.value, Str("pan_tilt"))
    ensures !panTiltCapable || conf.host.None? ==> h == (Str(deviceName), Str("robot"))
  {
    if panTiltCapable && conf.host.Some? then (conf.host.value, Str("pan_tilt"))
    else (Str(deviceName), Str("robot"))
  }

  /** The fields of `tf_package`, in the order they are first set. */
  const DeclarationKeys: seq<string> := ["type", "subtype", "pose", "base_topic", "name", "host", "host_type"]

  lemma DeclarationKeysAccepted()
    ensures forall i :: 0 <= i < |DeclarationKeys| ==> DeclarationKeys[i] in TfDeclare.Whitelist
    ensures forall i, j :: 0 <= i < j < |DeclarationKeys| ==> DeclarationKeys[i] != DeclarationKeys[j]
    ensures "range" !in DeclarationKeys && "fov" !in DeclarationKeys
    ensures "properties" !in DeclarationKeys && "id" !in DeclarationKeys
  {
  }

  /** `tf_package`: built in insertion order; `host` and `host_type` are
      then set to the robot and, for a device that may sit on a pan-tilt
      and is configured with a host, overwritten in place by the
      pan-tilt, so both end up as the last two fields. */
  function Declaration(f: Family, conf: DeviceConf, baseTopic: string, name: string,
                       deviceName: string, panTiltCapable: bool): (d: Assoc<string, Value>)
    ensures TfDeclare.AllWhitelisted(d) && DistinctKeys(d)
    ensures HasKey(d, "host") && HasKey(d, "host_type")
    ensures (Lookup(d, "host"), Lookup(d, "host_type")) == Host(conf, deviceName, panTiltCapable)
    ensures HasKey(d, "name") && Lookup(d, "name") == Str(name)
    ensures HasKey(d, "pose") && Lookup(d, "pose") == conf.pose
    ensures HasKey(d, "type") && Lookup(d, "type") == Str("robot")
    ensures HasKey(d, "base_topic") && Lookup(d, "base_topic") == Str(baseTopic)
    ensures !HasKey(d, "range") && !HasKey(d, "fov") && !HasKey(d, "properties") && !HasKey(d, "id")
  {
    var subtype := Obj(map["category" := Str(f.category), "class" := Str(f.deviceClass),
                           "subclass" := List([Str(f.subclass)])]);
    var h := Host(conf, deviceName, panTiltCapable);
    var vs := [Str("robot"), subtype, conf.pose, Str(baseTopic), Str(name), h.0, h.1];
    DeclarationKeysAccepted();
    var d := Zip(DeclarationKeys, vs);
    assert Lookup(d, DeclarationKeys[0]) == vs[0] && Lookup(d, DeclarationKeys[2]) == vs[2];
    assert Lookup(d, DeclarationKeys[3]) == vs[3] && Lookup(d, DeclarationKeys[4]) == vs[4];
    assert Lookup(d, DeclarationKeys[5]) == vs[5] && Lookup(d, DeclarationKeys[6]) == vs[6];
    assert forall i :: 0 <= i < |d| ==> d[i].0 == Keys(d)[i];
    d
  }

  /** The registry takes such a declaration as it is: no field is
      rejected, no host type is complained about, and the stored entry is
      hosted as `Host` says. Only a heading that cannot be converted
      makes the declaration raise. */
  lemma DeclarationAccepted(r: TfDeclare.Registry, f: Family, conf: DeviceConf, baseTopic: string,
                            name: string, deviceName: string, panTiltCapable: bool)
    requires TfDeclare.ConvertTheta(conf.pose).Success?
    ensures var d := Declaration(f, conf, baseTopic, name, deviceName, panTiltCapable);
      var o := TfDeclare.Declare(r, d);
      TfDeclare.Stored(d).Success? &&
      o.reg.declarations == r.declarations + [TfDeclare.Stored(d).value] &&
      o.reg.info == r.info[Key(Str(name)) := TfDeclare.Stored(d).value] &&
      (TfDeclare.Stored(d).value["host"], TfDeclare.Stored(d).value["host_type"]) ==
        Host(conf, deviceName, panTiltCapable)
  {
    var d := Declaration(f, conf, baseTopic, name, deviceName, panTiltCapable);
    var ht := Lookup(d, "host_type");
    assert InList(ht, [Str("robot"), Str("pan_tilt")]) by {
      if ht == Str("robot") {
        assert PyEq(ht, [Str("robot"), Str("pan_tilt")][0]);
      } else {
        assert PyEq(ht, [Str("robot"), Str("pan_tilt")][1]);
      }
    }
    assert TfDeclare.Normalise(d)["pose"] == conf.pose;
    var stored := TfDeclare.Stored(d);
    assert stored.Success?;
    var e := stored.value;
    assert e["name"] == Str(name) && e["host"] == Lookup(d, "host") && e["host_type"] == ht;
    var o := TfDeclare.Declare(r, d);
    assert o.reg == TfDeclare.Store(r, e).reg;
    assert Hashable(e["name"]);
    assert o.reg.declarations == r.declarations + [e];
    assert o.reg.info == r.info[Key(Str(name)) := e];
  }
}

=== FILE: encoder.dfy ===
/** A wheel encoder (`EncoderController`): simulated speeds sampled into
    the history memory and read back by range as `rpm`. */
module Encoder {
  import opened Wrappers
  import opened Values
  import opened Devices
  import opened History

  /** Every stored reading is a speed from the simulated range
      [1000, 2000], or one of the zeros the memory was filled with. */
  predicate Plausible(mem: seq<Value>) {
    forall i :: 0 <= i < |mem| ==> mem[i] == Num(0.0) || (mem[i].Num? && 1000.0 <= mem[i].r <= 2000.0)
  }

  /** One iteration of the read loop: mock and simulation write
      `random.uniform(1000, 2000)` for the unit draw `u`; real mode only
      warns and writes nothing. */
  function Tick(s: Sampler, mode: Mode, u: real): (r: Result<Sampler>)
    ensures mode == Real ==> r == Success(s)
    ensures mode != Real ==> (r.Success? <==> |s.memory| > 0)
    ensures mode != Real && r.Success? ==>
      r.value == s.(memory := Write(s.memory, Num(Uniform(1000.0, 2000.0, u))).value)
  {
    if mode == Real then Success(s)
    else
      var mem :- Write(s.memory, Num(Uniform(1000.0, 2000.0, u)));
      Success(s.(memory := mem))
  }

  /** The reply entry for index `i`: `{"rpm": memory[-i]}`. */
  function Entry(mem: seq<Value>, i: int): (r: Result<Value>)
    ensures r.Success? <==> Recall(mem, i).Success?
    ensures r.Success? ==> r.value == Obj(map["rpm" := Recall(mem, i).value])
  {
    var v :- Recall(mem, i);
    Success(Obj(map["rpm" := v]))
  }

  /** `encoder_callback`: a disabled encoder answers `{"data": []}`. */
  function Read(s: Sampler, message: Value): (r: Result<Value>)
    ensures !s.enabled ==> r == Success(DisabledReply)
    ensures s.enabled ==> r == RangeRead(message, i => Entry(s.memory, i))
  {
    if !s.enabled then Success(DisabledReply) else RangeRead(message, i => Entry(s.memory, i))
  }

  /** Enabling fills the memory with plausible zeros; sampling keeps every
      stored reading plausible. */
  lemma {:induction false} TicksStayPlausible(s: Sampler, mode: Mode, u: real)
    requires Plausible(s.memory) && 0.0 <= u <= 1.0
    requires Tick(s, mode, u).Success?
    ensures Plausible(Tick(s, mode, u).value.memory)
  {
    if mode != Real {
      UniformBetween(1000.0, 2000.0, u);
      var mem := Tick(s, mode, u).value.memory;
      forall i | 0 <= i < |mem| ensures mem[i] == Num(0.0) || (mem[i].Num? && 1000.0 <= mem[i].r <= 2000.0) {
        if i > 0 {
          assert mem[i] == s.memory[i - 1];
        }
      }
    }
  }

  lemma EnableIsPlausible(s: Sampler, message: Value)
    requires Enable(s, message).1.Success?
    ensures Plausible(Enable(s, message).0.memory)
    ensures forall i :: 0 <= i < |Enable(s, message).0.memory| ==> Enable(s, message).0.memory[i] == Num(0.0)
  {
  }

  /** Hence every `rpm` an enabled, plausible encoder reports is 0 or in
      [1000, 2000], and the reply has `max(0, from + 1 - to)` entries. */
  lemma {:induction false} ReportedRpmPlausible(s: Sampler, message: Value)
    requires s.enabled && Plausible(s.memory)
    requires WellFormed(message) && Read(s, message).Success?
    ensures Span(message).Success?
    ensures var (lo, hi) := Span(message).value;
      var data := Read(s, message).value.fields["data"].items;
      |data| == (if hi <= lo then 0 else hi - lo) &&
      forall k :: 0 <= k < |data| ==> (data[k].Obj? && "rpm" in data[k].fields &&
        var v := data[k].fields["rpm"];
        (v == Num(0.0) || (v.Num? && 1000.0 <= v.r <= 2000.0)))
  {
    var (lo, hi) := Span(message).value;
    var entries := Entries(lo, hi, i => Entry(s.memory, i)).value;
    assert Read(s, message).value == Reply(entries);
    forall k | 0 <= k < |entries|
      ensures entries[k].Obj? && "rpm" in entries[k].fields &&
        var v := entries[k].fields["rpm"];
        (v == Num(0.0) || (v.Num? && 1000.0 <= v.r <= 2000.0))
    {
      assert Entry(s.memory, lo + k) == Success(entries[k]);
      var m := Recall(s.memory, lo + k).value;
      assert m in s.memory;
    }
  }
}

=== FILE: env.dfy ===
/** The environment sensor (`EnvController`): its range read answers
    with four random readings per entry; its memory is never read. */
module Env {
  import opened Wrappers
  import opened Values
  import opened History

  /** The entry for index `i`: four draws of `random.uniform(30, 10)`. */
  function Entry(u: (int, nat) -> real, i: int): (e: Value)
    ensures e.Obj? && e.fields.Keys == {"temperature", "pressure", "humidity", "gas"}
    ensures UnitDraws(u) ==> Plausible(e)
  {
    DrawnBetween(30.0, 10.0, u, i, 0); DrawnBetween(30.0, 10.0, u, i, 1);
    DrawnBetween(30.0, 10.0, u, i, 2); DrawnBetween(30.0, 10.0, u, i, 3);
    Obj(map["temperature" := Drawn(30.0, 10.0, u, i, 0), "pressure" := Drawn(30.0, 10.0, u, i, 1),
            "humidity" := Drawn(30.0, 10.0, u, i, 2), "gas" := Drawn(30.0, 10.0, u, i, 3)])
  }

  /** Every reading of an entry lies in [10, 30]. */
  predicate Plausible(e: Value) {
    e.Obj? && "temperature" in e.fields && "pressure" in e.fields && "humidity" in e.fields && "gas" in e.fields &&
    Within(e.fields["temperature"], 10.0, 30.0) && Within(e.fields["pressure"], 10.0, 30.0) &&
    Within(e.fields["humidity"], 10.0, 30.0) && Within(e.fields["gas"], 10.0, 30.0)
  }

  /** `env_callback`: no entry can raise. */
  function Read(message: Value, u: (int, nat) -> real): (r: Result<Value>)
    ensures !WellFormed(message) ==> r == Success(Malformed)
    ensures WellFormed(message) ==> (r.Success? <==> Span(message).Success?)
  {
    RangeRead(message, i => Success(Entry(u, i)))
  }

  /** A well-formed reply has `max(0, from + 1 - to)` entries, each
      reading in [10, 30]. */
  lemma ReadingsPlausible(message: Value, u: (int, nat) -> real)
    requires UnitDraws(u) && WellFormed(message) && Read(message, u).Success?
    ensures Span(message).Success?
    ensures var (lo, hi) := Span(message).value;
      var data := Read(message, u).value.fields["data"].items;
      |data| == (if hi <= lo then 0 else hi - lo) &&
      forall k :: 0 <= k < |data| ==> Plausible(data[k])
  {
    var (lo, hi) := Span(message).value;
    var entry := i => Success(Entry(u, i));
    var entries := Entries(lo, hi, entry).value;
    assert Read(message, u).value == Reply(entries);
    forall k | 0 <= k < |entries| ensures Plausible(entries[k]) {
      assert entry(lo + k) == Success(entries[k]);
      var i := lo + k;
      forall c: nat | c < 4 ensures Within(Drawn(30.0, 10.0, u, i, c), 10.0, 30.0) {
        DrawnWithin(30.0, 10.0, u, i, c);
      }
    }
  }
}

=== FILE: env_actors.dfy ===
/** The QR-code and barcode actors (`QrActor`, `BarcodeActor`): each only
    builds the declaration it sends the transform registry. */
module EnvActors {
  import opened Wrappers
  import opened Values
  import TfDeclare

  /** The fields every actor declares, in insertion order. */
  const BaseKeys: seq<string> := ["type", "subtype", "pose", "name", "id", "properties"]

  /** The fields of an actor mounted on a host. */
  const HostKeys: seq<string> := BaseKeys + ["host", "host_type"]

  lemma KeysAccepted()
    ensures forall i :: 0 <= i < |HostKeys| ==> HostKeys[i] in TfDeclare.Whitelist
    ensures forall i, j :: 0 <= i < j < |HostKeys| ==> HostKeys[i] != HostKeys[j]
    ensures forall i, j :: 0 <= i < j < |BaseKeys| ==> BaseKeys[i] != BaseKeys[j]
    ensures "host" !in BaseKeys && "host_type" !in BaseKeys
  {
  }

  /** Python `str(id)` for the ids a configuration holds: a string as it
      is, an integer in decimal, `True`/`False` and `None`. */
  function IdText(v: Value): (r: Result<string>)
    ensures v.Str? ==> r == Success(v.s)
    ensures v.Num? && v.r == v.r.Floor as real ==> r == Success(IntToString(v.r.Floor))
    ensures r.Success? <==> v.Str? || v.Bool? || v.Null? || (v.Num? && v.r == v.r.Floor as real)
  {
    match v
    case Str(s) => Success(s)
    case Num(x) => if x == x.Floor as real then Success(IntToString(x.Floor)) else Failure("str() of a float is not modelled")
    case Bool(b) => Success(if b then "True" else "False")
    case Null => Success("None")
    case _ => Failure("str() of a container is not modelled")
  }

  /** The pose of an actor: where it is configured, with no heading. */
  function ActorPose(conf: Value): Value
    requires Get(conf, "x").Success? && Get(conf, "y").Success?
  {
    Obj(map["x" := conf.fields["x"], "y" := conf.fields["y"], "theta" := Null])
  }

  /** The configuration fields every actor needs. */
  predicate Configured(conf: Value) {
    conf.Obj? && "id" in conf.fields && "x" in conf.fields && "y" in conf.fields && "message" in conf.fields
  }

  /** The fields of an actor without a host. */
  function BuildBase(base: seq<Value>): (d: Assoc<string, Value>)
    requires |base| == 6
    ensures TfDeclare.AllWhitelisted(d) && DistinctKeys(d)
    ensures Keys(d) == BaseKeys
    ensures forall i :: 0 <= i < 6 ==> HasKey(d, BaseKeys[i]) && Lookup(d, BaseKeys[i]) == base[i]
  {
    KeysAccepted();
    var d := Zip(BaseKeys, base);
    assert forall i :: 0 <= i < |d| ==> d[i].0 == Keys(d)[i];
    d
  }

  /** The fields of an actor with a host: the six, then `host` and
      `host_type = "pan_tilt"`. */
  function BuildHost(base: seq<Value>, host: Value): (d: Assoc<string, Value>)
    requires |base| == 6
    ensures TfDeclare.AllWhitelisted(d) && DistinctKeys(d)
    ensures Keys(d) == HostKeys
    ensures forall i :: 0 <= i < 6 ==> HasKey(d, BaseKeys[i]) && Lookup(d, BaseKeys[i]) == base[i]
    ensures HasKey(d, "host") && Lookup(d, "host") == host
    ensures HasKey(d, "host_type") && Lookup(d, "host_type") == Str("pan_tilt")
  {
    KeysAccepted();
    var vs := base + [host, Str("pan_tilt")];
    var d := Zip(HostKeys, vs);
    assert forall i :: 0 <= i < |d| ==> d[i].0 == Keys(d)[i];
    assert forall i :: 0 <= i < 6 ==> BaseKeys[i] == HostKeys[i] && vs[i] == base[i];
    assert Lookup(d, HostKeys[6]) == vs[6] && Lookup(d, HostKeys[7]) == vs[7];
    d
  }

  /** The declaration both actors build, named `prefix + str(conf["id"])`:
      type `actor`, the given subtype, the configured position without a
      heading, the configured id and message; a configured host adds
      `host` and `host_type = "pan_tilt"`, otherwise neither field is
      present. A missing field raises. */
  function Declaration(prefix: string, subtype: string, conf: Value): (r: Result<Assoc<string, Value>>)
    ensures r.Success? <==> (Configured(conf) && IdText(conf.fields["id"]).Success?)
    ensures r.Success? ==> TfDeclare.AllWhitelisted(r.value) && DistinctKeys(r.value)
    ensures r.Success? ==> (var d := r.value;
      HasKey(d, "type") && Lookup(d, "type") == Str("actor") &&
      HasKey(d, "subtype") && Lookup(d, "subtype") == Str(subtype) &&
      HasKey(d, "pose") && Lookup(d, "pose") == ActorPose(conf) &&
      HasKey(d, "name") && Lookup(d, "name") == Str(prefix + IdText(conf.fields["id"]).value) &&
      HasKey(d, "id") && Lookup(d, "id") == conf.fields["id"] &&
      HasKey(d, "properties") && Lookup(d, "properties") == Obj(map["message" := conf.fields["message"]]))
    ensures r.Success? ==> (HasKey(r.value, "host") <==> "host" in conf.fields)
    ensures r.Success? ==> (HasKey(r.value, "host_type") <==> "host" in conf.fields)
    ensures r.Success? && "host" in conf.fields ==>
      Lookup(r.value, "host") == conf.fields["host"] && Lookup(r.value, "host_type") == Str("pan_tilt")
  {
    var id :- Get(conf, "id");
    var text :- IdText(id);
    var x :- Get(conf, "x");
    var y :- Get(conf, "y");
    var message :- Get(conf, "message");
    var base := [Str("actor"), Str(subtype), ActorPose(conf), Str(prefix + text), id, Obj(map["message" := message])];
    assert BaseKeys[0] == "type" && BaseKeys[1] == "subtype" && BaseKeys[2] == "pose";
    assert BaseKeys[3] == "name" && BaseKeys[4] == "id" && BaseKeys[5] == "properties";
    KeysAccepted();
    var d := if "host" in conf.fields then BuildHost(base, conf.fields["host"]) else BuildBase(base);
    assert Lookup(d, BaseKeys[0]) == base[0] && Lookup(d, BaseKeys[1]) == base[1] && Lookup(d, BaseKeys[2]) == base[2];
    assert Lookup(d, BaseKeys[3]) == base[3] && Lookup(d, BaseKeys[4]) == base[4] && Lookup(d, BaseKeys[5]) == base[5];
    Success(d)
  }

  /** `QrActor`'s declaration. */
  function QrDeclaration(conf: Value): (r: Result<Assoc<string, Value>>)
    ensures r.Success? ==> (Configured(conf) && IdText(conf.fields["id"]).Success? && HasKey(r.value, "name") && HasKey(r.value, "subtype") &&
      Lookup(r.value, "name") == Str("qr_" + IdText(conf.fields["id"]).value) &&
      Lookup(r.value, "subtype") == Str("qr"))
  {
    Declaration("qr_", "qr", conf)
  }

  /** `BarcodeActor`'s declaration. */
  function BarcodeDeclaration(conf: Value): (r: Result<Assoc<string, Value>>)
    ensures r.Success? ==> (Configured(conf) && IdText(conf.fields["id"]).Success? && HasKey(r.value, "name") && HasKey(r.value, "subtype") &&
      Lookup(r.value, "name") == Str("barcode_" + IdText(conf.fields["id"]).value) &&
      Lookup(r.value, "subtype") == Str("barcode"))
  {
    Declaration("barcode_", "barcode", conf)
  }

  /** A whitelisted declaration whose pose has no heading is stored with
      its pose, name and host type as declared (`None` when absent). */
  lemma HeadinglessStored(d: Assoc<string, Value>)
    requires HasKey(d, "pose") && Get(Lookup(d, "pose"), "theta") == Success(Null)
    ensures TfDeclare.Stored(d).Success?
    ensures var e := TfDeclare.Stored(d).value;
      "pose" in e && "name" in e && "host_type" in e &&
      e["pose"] == Lookup(d, "pose") &&
      e["name"] == (if HasKey(d, "name") then Lookup(d, "name") else Null) &&
      e["host_type"] == (if HasKey(d, "host_type") then Lookup(d, "host_type") else Null)
  {
    assert "pose" in TfDeclare.Whitelist && "name" in TfDeclare.Whitelist && "host_type" in TfDeclare.Whitelist;
    assert TfDeclare.Normalise(d)["pose"] == Lookup(d, "pose");
    assert TfDeclare.ConvertTheta(Lookup(d, "pose")) == Success(Lookup(d, "pose"));
  }

  /** A whitelisted, storable declaration with a string name and an
      accepted host type is appended and filed under its name. */
  lemma StoredDeclared(r: TfDeclare.Registry, d: Assoc<string, Value>)
    requires TfDeclare.AllWhitelisted(d) && TfDeclare.Stored(d).Success?
    requires HasKey(d, "name") && Lookup(d, "name").Str?
    requires "name" in TfDeclare.Stored(d).value && TfDeclare.Stored(d).value["name"] == Lookup(d, "name")
    requires HasKey(d, "host_type") ==> Lookup(d, "host_type") == Str("pan_tilt")
    ensures var e := TfDeclare.Stored(d).value;
      var o := TfDeclare.Declare(r, d);
      o.reg.declarations == r.declarations + [e] &&
      o.reg.info == r.info[Key(e["name"]) := e]
  {
    var e := TfDeclare.Stored(d).value;
    if HasKey(d, "host_type") {
      assert PyEq(Lookup(d, "host_type"), [Str("robot"), Str("pan_tilt")][1]);
    }
    var o := TfDeclare.Declare(r, d);
    assert o.reg == TfDeclare.Store(r, e).reg;
    assert Hashable(e["name"]);
  }

  /** The registry stores an actor's declaration as it is: no field is
      rejected, the pose is stored untouched (its heading is `None`), and
      the host type is `pan_tilt` or `None`. */
  lemma DeclarationStored(prefix: string, subtype: string, conf: Value)
    requires Declaration(prefix, subtype, conf).Success?
    ensures var d := Declaration(prefix, subtype, conf).value;
      TfDeclare.Stored(d).Success? &&
      var e := TfDeclare.Stored(d).value;
      "pose" in e && "name" in e && "host_type" in e &&
      e["pose"] == ActorPose(conf) && e["name"] == Str(prefix + IdText(conf.fields["id"]).value) &&
      e["host_type"] == (if "host" in conf.fields then Str("pan_tilt") else Null)
  {
    var d := Declaration(prefix, subtype, conf).value;
    assert HasKey(d, "pose") && Lookup(d, "pose") == ActorPose(conf);
    assert HasKey(d, "host_type") <==> "host" in conf.fields;
    assert Get(ActorPose(conf), "theta") == Success(Null);
    HeadinglessStored(d);
  }

  /** Hence the registry always takes an actor's declaration: it is
      appended and filed under its name. */
  lemma DeclarationAccepted(r: TfDeclare.Registry, prefix: string, subtype: string, conf: Value)
    requires Declaration(prefix, subtype, conf).Success?
    ensures var d := Declaration(prefix, subtype, conf).value;
      var o := TfDeclare.Declare(r, d);
      TfDeclare.Stored(d).Success? &&
      var e := TfDeclare.Stored(d).value;
      "name" in e &&
      o.reg.declarations == r.declarations + [e] &&
      o.reg.info == r.info[Key(e["name"]) := e]
  {
    var d := Declaration(prefix, subtype, conf).value;
    DeclarationStored(prefix, subtype, conf);
    assert HasKey(d, "name") && Lookup(d, "name") == Str(prefix + IdText(conf.fields["id"]).value);
    assert "host" in conf.fields ==> Lookup(d, "host_type") == Str("pan_tilt");
    StoredDeclared(r, d);
  }
}

=== FILE: geometry.dfy ===
/** Plane geometry used by the transformation engine and the robot integrator:
    distances, the segment-intersection orientation test and the field-of-view
    window test. Trigonometry and square roots are not computed: they are the
    fields of a `Trig` value the caller supplies, so every result holds for
    whatever functions `math.sin`, `math.cos`, `math.atan2` and `math.sqrt`
    happen to be, unless a lemma asks for `SqrtSound`. */
module Geometry {
  import opened Wrappers

  /** Python's `math.pi` as a double. */
  const PI: real := 3.141592653589793

  datatype Trig = Trig(
    sin: real -> real,
    cos: real -> real,
    atan2: (real, real) -> real,
    sqrt: real -> real)

  /** `sqrt` is the non-negative square root on non-negative arguments. */
  ghost predicate SqrtSound(t: Trig) {
    forall x :: 0.0 <= x ==> 0.0 <= t.sqrt(x) && t.sqrt(x) * t.sqrt(x) == x
  }

  datatype Point = Point(x: real, y: real)

  function Sq(a: real): real { a * a }

  function SqDist(p: Point, q: Point): (s: real)
    ensures 0.0 <= s
  {
    Sq(p.x - q.x) + Sq(p.y - q.y)
  }

  /** `calc_distance`: `sqrt((p1[0]-p2[0])**2 + (p1[1]-p2[1])**2)`. */
  function Distance(t: Trig, p: Point, q: Point): (d: real)
    ensures SqrtSound(t) ==> 0.0 <= d && d * d == SqDist(p, q)
  {
    t.sqrt(SqDist(p, q))
  }

  /** Distance does not depend on the order of its arguments. */
  lemma DistanceSymmetric(t: Trig, p: Point, q: Point)
    ensures Distance(t, p, q) == Distance(t, q, p)
  {
    assert Sq(p.x - q.x) == Sq(q.x - p.x);
    assert Sq(p.y - q.y) == Sq(q.y - p.y);
  }

  lemma MulPos(x: real, y: real)
    requires x > 0.0 && y > 0.0
    ensures x * y > 0.0
  {
  }

  lemma SquareStrict(a: real, b: real)
    requires 0.0 <= a < b
    ensures a * a < b * b
  {
    MulPos(b - a, b + a);
    assert b * b - a * a == (b - a) * (b + a);
  }

  lemma SquareMono(a: real, b: real)
    requires 0.0 <= a <= b
    ensures a * a <= b * b
  {
    assert a * a <= a * b;
    assert a * b <= b * b;
  }

  /** The strict range test `distance < range` needs no square root: it holds
      exactly when the range is positive and the squared distance is below
      the squared range. */
  lemma DistanceBelowIff(t: Trig, p: Point, q: Point, range: real)
    requires SqrtSound(t)
    ensures Distance(t, p, q) < range <==> 0.0 < range && SqDist(p, q) < range * range
  {
    var s := SqDist(p, q);
    var d := t.sqrt(s);
    assert 0.0 <= d && d * d == s;
    if d < range {
      SquareStrict(d, range);
    }
    if 0.0 < range && s < range * range && d >= range {
      SquareMono(range, d);
      assert false;
    }
  }

  /** The inclusive test `distance <= range` used by the microphone. */
  lemma DistanceAtMostIff(t: Trig, p: Point, q: Point, range: real)
    requires SqrtSound(t)
    ensures Distance(t, p, q) <= range <==> 0.0 <= range && SqDist(p, q) <= range * range
  {
    var s := SqDist(p, q);
    var d := t.sqrt(s);
    assert 0.0 <= d && d * d == s;
    if d <= range {
      SquareMono(d, range);
    }
    if 0.0 <= range && s <= range * range && d > range {
      SquareStrict(range, d);
      assert false;
    }
  }

  // ---------------------------------------------------------------------------
  // Segment intersection (`check_lines_*`)

  /** The value whose sign `check_lines_orientation` inspects. */
  function Cross(p: Point, q: Point, r: Point): real {
    (q.y - p.y) * (r.x - q.x) - (q.x - p.x) * (r.y - q.y)
  }

  /** `check_lines_orientation`: 1 clockwise, 2 counter-clockwise, 0 colinear. */
  function Orientation(p: Point, q: Point, r: Point): (o: int)
    ensures o == 0 <==> Cross(p, q, r) == 0.0
    ensures o == 1 <==> Cross(p, q, r) > 0.0
    ensures o == 2 <==> Cross(p, q, r) < 0.0
  {
    var v := Cross(p, q, r);
    if v > 0.0 then 1 else if v < 0.0 then 2 else 0
  }

  /** `check_lines_on_segment`: `q` lies in the bounding box of `p` and `r`. */
  predicate OnSegment(p: Point, q: Point, r: Point) {
    q.x <= Max(p.x, r.x) && q.x >= Min(p.x, r.x) &&
    q.y <= Max(p.y, r.y) && q.y >= Min(p.y, r.y)
  }

  function Max(a: real, b: real): real { if a >= b then a else b }
  function Min(a: real, b: real): real { if a <= b then a else b }

  /** `check_lines_intersection`: the general case, then the four colinear
      cases in order. Segments that cross properly, or that share an
      endpoint, intersect. */
  function Intersects(p1: Point, q1: Point, p2: Point, q2: Point): (r: bool)
    ensures Cross(p1, q1, p2) * Cross(p1, q1, q2) < 0.0 && Cross(p2, q2, p1) * Cross(p2, q2, q1) < 0.0 ==> r
    ensures p1 == p2 || p1 == q2 || q1 == p2 || q1 == q2 ==> r
  {
    var o1 := Orientation(p1, q1, p2);
    var o2 := Orientation(p1, q1, q2);
    var o3 := Orientation(p2, q2, p1);
    var o4 := Orientation(p2, q2, q1);
    if o1 != o2 && o3 != o4 then true
    else if o1 == 0 && OnSegment(p1, p2, q1) then true
    else if o2 == 0 && OnSegment(p1, q2, q1) then true
    else if o3 == 0 && OnSegment(p2, p1, q2) then true
    else if o4 == 0 && OnSegment(p2, q1, q2) then true
    else false
  }

  /** Reversing a segment mirrors every orientation: `Cross(q, p, r) == -Cross(p, q, r)`. */
  lemma CrossReversed(p: Point, q: Point, r: Point)
    ensures Cross(q, p, r) == -Cross(p, q, r)
  {
  }

  /** Which segment is tested against which does not matter. */
  lemma IntersectsSymmetric(p1: Point, q1: Point, p2: Point, q2: Point)
    ensures Intersects(p1, q1, p2, q2) == Intersects(p2, q2, p1, q1)
  {
  }

  /** Nor does the direction in which the first segment is traversed. */
  lemma IntersectsReversed(p1: Point, q1: Point, p2: Point, q2: Point)
    ensures Intersects(p1, q1, p2, q2) == Intersects(q1, p1, p2, q2)
  {
    CrossReversed(p1, q1, p2);
    CrossReversed(p1, q1, q2);
  }

  /** Two segments whose endpoints lie strictly on opposite sides of each
      other's supporting line intersect. */
  lemma ProperCrossingIntersects(p1: Point, q1: Point, p2: Point, q2: Point)
    requires Cross(p1, q1, p2) * Cross(p1, q1, q2) < 0.0
    requires Cross(p2, q2, p1) * Cross(p2, q2, q1) < 0.0
    ensures Intersects(p1, q1, p2, q2)
  {
  }

  // ---------------------------------------------------------------------------
  // Field-of-view window (`handle_affection_arced`)

  /** The window `(minA, maxA)` of an arced sensor: its heading plus or minus
      half its field of view, the field of view given in degrees. */
  function WindowMin(theta: real, fovDeg: real): real { theta - (fovDeg / 180.0 * PI) / 2.0 }
  function WindowMax(theta: real, fovDeg: real): real { theta + (fovDeg / 180.0 * PI) / 2.0 }

  predicate InWindow(minA: real, maxA: real, a: real) {
    minA < a && a < maxA
  }

  /** The bearing test as the source writes it: the third branch, which finds
      `bearing - 2*pi` inside the window, reports `bearing + 2*pi`. */
  function ArcAngleAsWritten(minA: real, maxA: real, bearing: real): (r: Option<real>)
    ensures r.Some? <==>
      InWindow(minA, maxA, bearing) ||
      InWindow(minA, maxA, bearing + 2.0 * PI) ||
      InWindow(minA, maxA, bearing - 2.0 * PI)
    ensures r.Some? ==> r.value == bearing || r.value == bearing + 2.0 * PI
    ensures InWindow(minA, maxA, bearing) ==> r == Some(bearing)
    ensures r.Some? && !InWindow(minA, maxA, r.value) ==>
      r.value == bearing + 2.0 * PI && InWindow(minA, maxA, bearing - 2.0 * PI)
  {
    if InWindow(minA, maxA, bearing) then Some(bearing)
    else if InWindow(minA, maxA, bearing + 2.0 * PI) then Some(bearing + 2.0 * PI)
    else if InWindow(minA, maxA, bearing - 2.0 * PI) then Some(bearing + 2.0 * PI)
    else None
  }

  /** The bearing test with the third branch reporting the angle it tested. */
  function ArcAngle(minA: real, maxA: real, bearing: real): (r: Option<real>)
    ensures r.Some? <==>
      InWindow(minA, maxA, bearing) ||
      InWindow(minA, maxA, bearing + 2.0 * PI) ||
      InWindow(minA, maxA, bearing - 2.0 * PI)
    ensures r.Some? ==> InWindow(minA, maxA, r.value)
    ensures r.Some? ==> r.value in {bearing, bearing + 2.0 * PI, bearing - 2.0 * PI}
    ensures InWindow(minA, maxA, bearing) ==> r == Some(bearing)
  {
    if InWindow(minA, maxA, bearing) then Some(bearing)
    else if InWindow(minA, maxA, bearing + 2.0 * PI) then Some(bearing + 2.0 * PI)
    else if InWindow(minA, maxA, bearing - 2.0 * PI) then Some(bearing - 2.0 * PI)
    else None
  }

  /** Both versions accept exactly the same bearings and agree whenever the
      third branch is not reached. */
  lemma ArcAngleAgreement(minA: real, maxA: real, bearing: real)
    ensures ArcAngleAsWritten(minA, maxA, bearing).Some? == ArcAngle(minA, maxA, bearing).Some?
    ensures InWindow(minA, maxA, bearing) || InWindow(minA, maxA, bearing + 2.0 * PI) ||
      !InWindow(minA, maxA, bearing - 2.0 * PI)
      ==> ArcAngleAsWritten(minA, maxA, bearing) == ArcAngle(minA, maxA, bearing)
  {
  }

  /** A sensor at heading -170 degrees with a 40 degree field of view sees an
      actor at bearing 175 degrees only through the third branch, and the
      angle reported as written lies outside the sensor's own window. */
  lemma ArcAngleAsWrittenLeavesWindow()
    ensures var minA := WindowMin(-170.0 / 180.0 * PI, 40.0);
      var maxA := WindowMax(-170.0 / 180.0 * PI, 40.0);
      var b := 175.0 / 180.0 * PI;
      ArcAngleAsWritten(minA, maxA, b).Some? &&
      !InWindow(minA, maxA, ArcAngleAsWritten(minA, maxA, b).value) &&
      InWindow(minA, maxA, ArcAngle(minA, maxA, b).value)
  {
  }
}

=== FILE: history.dfy ===
/** What the simulated sensor controllers share: a fixed-length "memory"
    of past readings, newest first, and the `get` RPC that answers a
    `{from, to}` request with one entry per index in `range(to, from + 1)`. */
module History {
  import opened Wrappers
  import opened Values
  import opened Devices

  /** `memory_write`: drop the oldest reading, put the new one in front.
      An empty memory has no last item to delete and raises. */
  function Write(mem: seq<Value>, x: Value): (r: Result<seq<Value>>)
    ensures r.Success? <==> |mem| > 0
    ensures r.Success? ==> |r.value| == |mem| && r.value[0] == x
    ensures r.Success? ==> forall i :: 1 <= i < |mem| ==> r.value[i] == mem[i - 1]
  {
    if mem == [] then Failure("IndexError: pop from empty list")
    else Success([x] + mem[..|mem| - 1])
  }

  /** The readings `xs` written one after the other, `xs[0]` first. */
  function WriteAll(mem: seq<Value>, xs: seq<Value>): (r: Result<seq<Value>>)
    ensures r.Success? <==> |mem| > 0 || xs == []
    ensures r.Success? ==> |r.value| == |mem|
    ensures r.Success? && xs != [] ==> r.value[0] == xs[|xs| - 1]
    decreases |xs|
  {
    if xs == [] then Success(mem)
    else
      var before :- WriteAll(mem, xs[..|xs| - 1]);
      Write(before, xs[|xs| - 1])
  }

  /** After any number of writes the memory has its old length, holds the
      newest readings first and the surviving old ones after them: it is a
      window on the last `|mem|` readings. */
  lemma {:induction false} WindowOfNewest(mem: seq<Value>, xs: seq<Value>)
    requires |mem| > 0
    ensures WriteAll(mem, xs).Success?
    ensures |WriteAll(mem, xs).value| == |mem|
    ensures forall j :: 0 <= j < |mem| && j < |xs| ==> WriteAll(mem, xs).value[j] == xs[|xs| - 1 - j]
    ensures forall j :: |xs| <= j < |mem| ==> WriteAll(mem, xs).value[j] == mem[j - |xs|]
    decreases |xs|
  {
    if xs != [] {
      var init := xs[..|xs| - 1];
      WindowOfNewest(mem, init);
      var before := WriteAll(mem, init).value;
      var after := WriteAll(mem, xs).value;
      assert after == Write(before, xs[|xs| - 1]).value;
      forall j | 0 <= j < |mem| && j < |xs| ensures after[j] == xs[|xs| - 1 - j] {
        if j > 0 {
          assert after[j] == before[j - 1];
          assert init[|init| - 1 - (j - 1)] == xs[|xs| - 1 - j];
        }
      }
    }
  }

  /** `n * [0]` for a queue size `n`: an integer (a boolean counts as one)
      gives `max(0, n)` zeros; anything else raises. Numbers with an
      integral value are taken to be Python integers. */
  function Zeros(n: Value): (r: Result<seq<Value>>)
    ensures r.Success? <==> RangeInt(n).Success?
    ensures r.Success? ==> |r.value| == (if RangeInt(n).value < 0 then 0 else RangeInt(n).value)
    ensures r.Success? ==> forall i :: 0 <= i < |r.value| ==> r.value[i] == Num(0.0)
  {
    var k :- RangeInt(n);
    Success(seq(if k < 0 then 0 else k, _ => Num(0.0)))
  }

  /** A value Python accepts where an integer is required (`range`, list
      repetition): a boolean, or a number with an integral value. */
  function RangeInt(v: Value): (r: Result<int>)
    ensures r.Success? <==> v.Bool? || (v.Num? && v.r == v.r.Floor as real)
    ensures r.Success? ==> r.value as real == NumOf(v).value
  {
    match v
    case Bool(b) => Success(if b then 1 else 0)
    case Num(x) => if x == x.Floor as real then Success(x.Floor) else Failure("TypeError: 'float' object cannot be interpreted as an integer")
    case _ => Failure("TypeError: object cannot be interpreted as an integer")
  }

  // ---------------------------------------------------------------------------
  // Sampling controllers (line follower, encoder): enable and disable

  /** The part of `info` a sampling controller keeps, and its memory. */
  datatype Sampler = Sampler(enabled: bool, hz: Value, queueSize: Value, memory: seq<Value>)

  /** A fresh controller: 100 zeros. */
  function NewSampler(enabled: bool, hz: Value, queueSize: Value): (s: Sampler)
    ensures |s.memory| == 100 && forall i :: 0 <= i < 100 ==> s.memory[i] == Num(0.0)
  {
    Sampler(enabled, hz, queueSize, seq(100, _ => Num(0.0)))
  }

  /** `enable_callback`: the controller is enabled first, then `hz` and
      `queue_size` are copied and the memory becomes `queue_size` zeros.
      A missing field or a non-integer queue size raises, leaving the
      controller as far as it got. */
  function Enable(s: Sampler, message: Value): (r: (Sampler, Result<Value>))
    ensures r.0.enabled
    ensures r.1.Success? <==> (Get(message, "hz").Success? && Get(message, "queue_size").Success? &&
      Zeros(message.fields["queue_size"]).Success?)
    ensures r.1.Success? ==> (r.1.value == EnabledReply(true) &&
      r.0 == Sampler(true, message.fields["hz"], message.fields["queue_size"], Zeros(message.fields["queue_size"]).value))
    ensures r.1.Failure? ==> r.0.memory == s.memory
  {
    var on := s.(enabled := true);
    match Get(message, "hz")
    case Failure(e) => (on, Failure(e))
    case Success(hz) =>
      match Get(message, "queue_size")
      case Failure(e) => (on.(hz := hz), Failure(e))
      case Success(q) =>
        match Zeros(q)
        case Failure(e) => (on.(hz := hz, queueSize := q), Failure(e))
        case Success(mem) => (Sampler(true, hz, q, mem), Success(EnabledReply(true)))
  }

  function Disable(s: Sampler): (r: (Sampler, Value))
    ensures !r.0.enabled && r.0.memory == s.memory
  {
    (s.(enabled := false), EnabledReply(false))
  }

  // ---------------------------------------------------------------------------
  // The range read

  /** The reply `{"data": entries}`. */
  function Reply(entries: seq<Value>): Value {
    Obj(map["data" := List(entries)])
  }

  /** What a disabled sampler answers. */
  const DisabledReply: Value := Reply([])

  /** What a malformed request gets: a bare empty list. */
  const Malformed: Value := List([])

  /** The guarded part of the callback: `message["from"] + 1` and
      `message["to"]` both evaluate; a failure there is caught. */
  predicate WellFormed(message: Value) {
    Get(message, "from").Success? && Get(message, "to").Success? &&
    Add(message.fields["from"], Num(1.0)).Success?
  }

  lemma WellFormedIff(message: Value)
    ensures WellFormed(message) <==>
      message.Obj? && "from" in message.fields && "to" in message.fields && NumOf(message.fields["from"]).Some?
  {
  }

  /** The bounds handed to `range`: `range(to, from + 1)`. Bounds that are
      not integers raise outside the guarded part. */
  function Span(message: Value): (r: Result<(int, int)>)
    requires WellFormed(message)
    ensures r.Success? <==> RangeInt(message.fields["to"]).Success? && RangeInt(message.fields["from"]).Success?
    ensures r.Success? ==> r.value.0 as real == NumOf(message.fields["to"]).value
    ensures r.Success? ==> r.value.1 as real == NumOf(message.fields["from"]).value + 1.0
  {
    var f := NumOf(message.fields["from"]).value;
    var hi := Add(message.fields["from"], Num(1.0)).value;
    assert hi == Num(f + 1.0);
    FloorShift(f);
    assert RangeInt(hi).Success? <==> RangeInt(message.fields["from"]).Success?;
    var lo :- RangeInt(message.fields["to"]);
    var h :- RangeInt(hi);
    Success((lo, h))
  }

  lemma FloorShift(x: real)
    ensures (x + 1.0).Floor == x.Floor + 1
    ensures (x + 1.0 == (x + 1.0).Floor as real) <==> (x == x.Floor as real)
  {
  }

  /** The entries for `i` in `range(lo, hi)`, in order; the first one
      that raises aborts the reply. */
  function Entries(lo: int, hi: int, entry: int -> Result<Value>): (r: Result<seq<Value>>)
    ensures r.Success? <==> forall i :: lo <= i < hi ==> entry(i).Success?
    ensures r.Success? ==> |r.value| == (if hi <= lo then 0 else hi - lo)
    ensures r.Success? ==> forall k :: 0 <= k < |r.value| ==> entry(lo + k) == Success(r.value[k])
    decreases hi - lo
  {
    if hi <= lo then Success([])
    else
      match entry(lo)
      case Failure(e) => Failure(e)
      case Success(first) =>
        var rest :- Entries(lo + 1, hi, entry);
        Success([first] + rest)
  }

  /** The range callback around a controller's `entry(i)`: a malformed
      request gets `[]`; otherwise the reply holds `max(0, from + 1 - to)`
      entries, the `k`-th built for index `to + k`. */
  function RangeRead(message: Value, entry: int -> Result<Value>): (r: Result<Value>)
    ensures !WellFormed(message) ==> r == Success(Malformed)
    ensures WellFormed(message) && Span(message).Failure? ==> r.Failure?
    ensures WellFormed(message) && Span(message).Success? ==>
      var (lo, hi) := Span(message).value;
      (r.Success? <==> forall i :: lo <= i < hi ==> entry(i).Success?) &&
      (r.Success? ==> r.value == Reply(Entries(lo, hi, entry).value))
  {
    if !WellFormed(message) then Success(Malformed)
    else
      var (lo, hi) :- Span(message);
      var entries :- Entries(lo, hi, entry);
      Success(Reply(entries))
  }

  /** A number between `lo` and `hi`, inclusive. */
  predicate Within(v: Value, lo: real, hi: real) {
    v.Num? && lo <= v.r <= hi
  }

  /** The unit draws `random.random()` supplies: `u(i, k)` for the `k`-th
      random field of the entry for index `i`. */
  ghost predicate UnitDraws(u: (int, nat) -> real) {
    forall i: int, k: nat :: 0.0 <= u(i, k) <= 1.0
  }

  /** `float(random.uniform(a, b))` for entry `i`'s `k`-th draw. */
  function Drawn(a: real, b: real, u: (int, nat) -> real, i: int, k: nat): Value {
    Num(Uniform(a, b, u(i, k)))
  }

  /** A draw lies between `a` and `b`, whichever is larger. */
  lemma DrawnWithin(a: real, b: real, u: (int, nat) -> real, i: int, k: nat)
    requires UnitDraws(u)
    ensures b <= a ==> Within(Drawn(a, b, u, i, k), b, a)
    ensures a <= b ==> Within(Drawn(a, b, u, i, k), a, b)
  {
    UniformBetween(a, b, u(i, k));
  }

  /** `DrawnWithin` for draws that may not be unit draws: the bound holds
      whenever they are. */
  lemma DrawnBetween(a: real, b: real, u: (int, nat) -> real, i: int, k: nat)
    ensures UnitDraws(u) && b <= a ==> Within(Drawn(a, b, u, i, k), b, a)
  {
    if UnitDraws(u) {
      DrawnWithin(a, b, u, i, k);
    }
  }

  /** `memory[-i]`: index 0 is the newest reading, 1 the oldest. */
  function Recall(mem: seq<Value>, i: int): (r: Result<Value>)
    ensures r.Success? <==> -|mem| < i <= |mem|
    ensures r.Success? && i <= 0 ==> r.value == mem[-i]
    ensures r.Success? && i > 0 ==> r.value == mem[|mem| - i]
  {
    match PyIndex(|mem|, -i)
    case None => Failure("IndexError: list index out of range")
    case Some(k) => Success(mem[k])
  }

  /** Python `v[k]` on a stored reading: a list is indexed, a dict is
      searched for a key it cannot have (its keys are strings), and
      anything else is not subscriptable. */
  function Subscript(v: Value, k: int): (r: Result<Value>)
    ensures r.Success? <==> v.List? && PyIndex(|v.items|, k).Some?
    ensures r.Success? ==> r.value == v.items[PyIndex(|v.items|, k).value]
  {
    match v
    case List(xs) => if PyIndex(|xs|, k).Some? then Success(xs[PyIndex(|xs|, k).value]) else Failure("IndexError: list index out of range")
    case Obj(_) => Failure("KeyError")
    case _ => Failure("TypeError: object is not subscriptable")
  }

  /** The request `{from: 0, to: 0}` reads exactly the newest reading. */
  lemma ReadNewest(entry: int -> Result<Value>)
    requires entry(0).Success?
    ensures var message := Obj(map["from" := Num(0.0), "to" := Num(0.0)]);
      WellFormed(message) && Span(message) == Success((0, 1)) &&
      RangeRead(message, entry) == Success(Reply([entry(0).value]))
  {
    var message := Obj(map["from" := Num(0.0), "to" := Num(0.0)]);
    assert WellFormed(message);
    assert Span(message) == Success((0, 1));
    assert Entries(1, 1, entry) == Success([]);
    assert [entry(0).value] + [] == [entry(0).value];
    assert Entries(0, 1, entry) == Success([entry(0).value]);
  }
}

=== FILE: imu.dfy ===
/** The IMU (`ImuController`): its range read answers with a constant
    acceleration and random gyroscope and magnetometer angles; its memory
    is never read. */
module Imu {
  import opened Wrappers
  import opened Values
  import opened History

  /** `{x: 1, y: 1, z: 1}`. */
  const Ones: Value := Obj(map["x" := Num(1.0), "y" := Num(1.0), "z" := Num(1.0)])

  function Angles(yaw: Value, pitch: Value, roll: Value): Value {
    Obj(map["yaw" := yaw, "pitch" := pitch, "roll" := roll])
  }

  /** The entry for index `i`: six draws of `random.uniform(0.3, -0.3)`. */
  function Entry(u: (int, nat) -> real, i: int): (e: Value)
    ensures e.Obj? && e.fields.Keys == {"accel", "gyro", "magne"}
    ensures UnitDraws(u) ==> Plausible(e)
  {
    DrawnBetween(0.3, -0.3, u, i, 0); DrawnBetween(0.3, -0.3, u, i, 1); DrawnBetween(0.3, -0.3, u, i, 2);
    DrawnBetween(0.3, -0.3, u, i, 3); DrawnBetween(0.3, -0.3, u, i, 4); DrawnBetween(0.3, -0.3, u, i, 5);
    Obj(map["accel" := Ones,
            "gyro" := Angles(Drawn(0.3, -0.3, u, i, 0), Drawn(0.3, -0.3, u, i, 1), Drawn(0.3, -0.3, u, i, 2)),
            "magne" := Angles(Drawn(0.3, -0.3, u, i, 3), Drawn(0.3, -0.3, u, i, 4), Drawn(0.3, -0.3, u, i, 5))])
  }

  /** Three angles, each within ±0.3. */
  predicate SmallAngles(v: Value) {
    v.Obj? && "yaw" in v.fields && "pitch" in v.fields && "roll" in v.fields &&
    Within(v.fields["yaw"], -0.3, 0.3) && Within(v.fields["pitch"], -0.3, 0.3) && Within(v.fields["roll"], -0.3, 0.3)
  }

  /** What every reported entry looks like. */
  predicate Plausible(e: Value) {
    e.Obj? && "accel" in e.fields && "gyro" in e.fields && "magne" in e.fields &&
    e.fields["accel"] == Ones && SmallAngles(e.fields["gyro"]) && SmallAngles(e.fields["magne"])
  }

  /** `imu_callback`: no entry can raise, so only a malformed request (a
      bare `[]`) or non-integer bounds (which raise) differ from a full
      reply. */
  function Read(message: Value, u: (int, nat) -> real): (r: Result<Value>)
    ensures !WellFormed(message) ==> r == Success(Malformed)
    ensures WellFormed(message) ==> (r.Success? <==> Span(message).Success?)
  {
    RangeRead(message, i => Success(Entry(u, i)))
  }

  /** A well-formed reply has `max(0, from + 1 - to)` entries, each with
      acceleration 1 on every axis and every angle within ±0.3. */
  lemma ReadingsPlausible(message: Value, u: (int, nat) -> real)
    requires UnitDraws(u) && WellFormed(message) && Read(message, u).Success?
    ensures Span(message).Success?
    ensures var (lo, hi) := Span(message).value;
      var data := Read(message, u).value.fields["data"].items;
      |data| == (if hi <= lo then 0 else hi - lo) &&
      forall k :: 0 <= k < |data| ==> Plausible(data[k])
  {
    var (lo, hi) := Span(message).value;
    var entry := i => Success(Entry(u, i));
    var entries := Entries(lo, hi, entry).value;
    assert Read(message, u).value == Reply(entries);
    forall k | 0 <= k < |entries| ensures Plausible(entries[k]) {
      assert entry(lo + k) == Success(entries[k]);
      var i := lo + k;
      forall c: nat | c < 6 ensures Within(Drawn(0.3, -0.3, u, i, c), -0.3, 0.3) {
        DrawnWithin(0.3, -0.3, u, i, c);
      }
    }
  }
}

=== FILE: leds.dfy ===
/** The robot's LED strip (`LedsController`): the colour and brightness
    last wiped in, as read back by `get`. */
module Leds {
  import opened Wrappers
  import opened Values
  import opened Devices

  const WaitMs: real := 50.0

  datatype Leds = Leds(name: string, mode: Mode, enabled: bool, color: Value, brightness: Value)

  /** A freshly built strip: enabled, black, brightness 0. */
  function Create(name: string, mode: Mode): (l: Leds)
    ensures l.enabled && l.brightness == Num(0.0)
    ensures l.color == Obj(map["r" := Num(0.0), "g" := Num(0.0), "b" := Num(0.0)])
  {
    Leds(name, mode, true, Obj(map["r" := Num(0.0), "g" := Num(0.0), "b" := Num(0.0)]), Num(0.0))
  }

  /** The declaration the strip sends the transform registry when it is
      built: hosted by the pan-tilt its configuration names, else by the
      robot. */
  function TfPackage(conf: DeviceConf, pack: string, deviceName: string, id: nat): (d: Assoc<string, Value>)
    ensures HasKey(d, "host") && HasKey(d, "host_type") && HasKey(d, "name")
    ensures conf.host.Some? ==> Lookup(d, "host") == conf.host.value && Lookup(d, "host_type") == Str("pan_tilt")
    ensures conf.host.None? ==> Lookup(d, "host") == Str(deviceName) && Lookup(d, "host_type") == Str("robot")
    ensures conf.name.Some? ==> Lookup(d, "name") == Str(conf.name.value)
  {
    var name := DeviceName(conf, id);
    Declaration(LedsFamily, conf, BaseTopic(pack, LedsFamily, name), name, deviceName, true)
  }

  /** `leds_get_callback`: the stored colour and brightness, whether or not
      the strip is enabled. */
  function Read(l: Leds): (v: Value)
    ensures v.Obj? && v.fields.Keys == {"color", "luminosity"}
    ensures v.fields["color"] == l.color && v.fields["luminosity"] == l.brightness
  {
    Obj(map["color" := l.color, "luminosity" := l.brightness])
  }

  /** The outcome of a wipe: the strip afterwards, what was sent to the
      hardware driver (only on a real robot), and the error logged. */
  datatype Wiped = Wiped(leds: Leds, published: Option<Value>, errors: seq<string>)

  /** `leds_wipe_callback`. A message lacking `r`, `g`, `b` or `brightness`
      is logged and changes nothing; otherwise the colour becomes the
      list `[r, g, b, brightness]`, the brightness is kept, and a real
      robot's driver gets the colour with `wait_ms` (50 when absent). The
      reply is `{}` either way. */
  function Wipe(l: Leds, message: Value): (w: Wiped)
    ensures var complete := message.Obj? && "r" in message.fields && "g" in message.fields &&
        "b" in message.fields && "brightness" in message.fields;
      (!complete ==> w.leds == l && w.published.None? && |w.errors| == 1) &&
      (complete ==>
        w.errors == [] &&
        w.leds == l.(color := List([message.fields["r"], message.fields["g"], message.fields["b"],
                                    message.fields["brightness"]]),
                     brightness := message.fields["brightness"]) &&
        (w.published.Some? <==> l.mode == Real) &&
        (w.published.Some? ==> w.published.value == Obj(map[
          "color" := w.leds.color,
          "wait_ms" := if "wait_ms" in message.fields then message.fields["wait_ms"] else Num(WaitMs)])))
  {
    match Channels(message)
    case Failure(e) => Wiped(l, None, [l.name + ": leds_wipe is wrongly formatted: " + e])
    case Success(c) =>
      var waitMs := if "wait_ms" in message.fields then message.fields["wait_ms"] else Num(WaitMs);
      var l1 := l.(color := List(c), brightness := c[3]);
      Wiped(l1, if l.mode == Real then Some(Obj(map["color" := l1.color, "wait_ms" := waitMs])) else None, [])
  }

  function Channels(message: Value): (r: Result<seq<Value>>)
    ensures r.Success? <==> (message.Obj? && "r" in message.fields && "g" in message.fields &&
      "b" in message.fields && "brightness" in message.fields)
    ensures r.Success? ==> r.value == [message.fields["r"], message.fields["g"], message.fields["b"],
      message.fields["brightness"]]
  {
    var r :- Get(message, "r");
    var g :- Get(message, "g");
    var b :- Get(message, "b");
    var brightness :- Get(message, "brightness");
    Success([r, g, b, brightness])
  }

  /** The reply of a wipe: always `{}`. */
  const WipeReply: Value := Obj(map[])

  /** `enable_callback` / `disable_callback`: only the flag changes, so
      `get` reports the same either way. */
  function SetEnabled(l: Leds, on: bool): (r: (Leds, Value))
    ensures r.0.enabled == on && r.1 == EnabledReply(on)
    ensures Read(r.0) == Read(l)
  {
    (l.(enabled := on), EnabledReply(on))
  }

  /** `get` on a fresh strip reports black at luminosity 0. */
  lemma FreshStripReadsDark(name: string, mode: Mode)
    ensures Read(Create(name, mode)) ==
      Obj(map["color" := Obj(map["r" := Num(0.0), "g" := Num(0.0), "b" := Num(0.0)]), "luminosity" := Num(0.0)])
  {
  }

  /** After any sequence of wipes, `get` reports the brightness of the last
      well-formed one, or the previous brightness when none was. */
  lemma {:induction false} ReadAfterWipes(l: Leds, messages: seq<Value>)
    ensures var l1 := WipeAll(l, messages);
      Read(l1).fields["luminosity"] ==
        match LastComplete(messages)
        case Some(i) => messages[i].fields["brightness"]
        case None => l.brightness
    ensures WipeAll(l, messages).mode == l.mode && WipeAll(l, messages).name == l.name
    decreases |messages|
  {
    if messages != [] {
      var init := messages[..|messages| - 1];
      ReadAfterWipes(l, init);
    }
  }

  function WipeAll(l: Leds, messages: seq<Value>): Leds
    decreases |messages|
  {
    if messages == [] then l else Wipe(WipeAll(l, messages[..|messages| - 1]), messages[|messages| - 1]).leds
  }

  /** The index of the last message that carries all four channels. */
  function LastComplete(messages: seq<Value>): (r: Option<nat>)
    ensures r.Some? ==> r.value < |messages| && Channels(messages[r.value]).Success?
    ensures r.Some? ==> forall j :: r.value < j < |messages| ==> Channels(messages[j]).Failure?
    ensures r.None? ==> forall j :: 0 <= j < |messages| ==> Channels(messages[j]).Failure?
  {
    if messages == [] then None
    else if Channels(messages[|messages| - 1]).Success? then Some(|messages| - 1)
    else LastComplete(messages[..|messages| - 1])
  }
}

=== FILE: microphone.dfy ===
/** The robot's microphone (`MicrophoneController`): the actor list it
    merges at construction, and the record goal, which in simulation
    picks the wave file of the actor it "hears". */
module Microphone {
  import opened Wrappers
  import opened Values
  import opened Geometry
  import opened Devices

  /** How far (in metres) an actor can be and still be heard; inclusive. */
  const HearingRange: real := 2.0

  /** The actor groups that can make a sound. */
  const Audible: set<Value> := {Str("humans"), Str("superman"), Str("sound_sources")}

  // ---------------------------------------------------------------------------
  // Actor merge

  /** `h["type"] = group`: only a dict can be tagged. */
  function Tag(h: Value, group: string): (r: Result<Value>)
    ensures r.Success? <==> h.Obj?
    ensures r.Success? ==> r.value == Obj(h.fields["type" := Str(group)])
  {
    if h.Obj? then Success(Obj(h.fields["type" := Str(group)])) else Failure("TypeError: item assignment")
  }

  function TagAll(hs: seq<Value>, group: string): (r: Result<seq<Value>>)
    ensures r.Success? <==> forall i :: 0 <= i < |hs| ==> hs[i].Obj?
    ensures r.Success? ==> |r.value| == |hs| && forall i :: 0 <= i < |hs| ==> Tag(hs[i], group) == Success(r.value[i])
    decreases |hs|
  {
    if hs == [] then Success([])
    else
      var first :- Tag(hs[0], group);
      var rest :- TagAll(hs[1..], group);
      assert forall i :: 1 <= i < |hs| ==> hs[i] == hs[1..][i - 1];
      Success([first] + rest)
  }

  /** The number of actors over all groups. */
  function Total(groups: Assoc<string, seq<Value>>): nat {
    if groups == [] then 0 else |groups[0].1| + Total(groups[1..])
  }

  /** Where group `g`'s actors start in the merged list. */
  function Offset(groups: Assoc<string, seq<Value>>, g: nat): nat
    requires g <= |groups|
  {
    if g == 0 then 0 else |groups[0].1| + Offset(groups[1..], g - 1)
  }

  /** Every actor of every group is a dict. */
  predicate AllDicts(groups: Assoc<string, seq<Value>>) {
    forall g, i :: 0 <= g < |groups| && 0 <= i < |groups[g].1| ==> groups[g].1[i].Obj?
  }

  /** The constructor's merge: the groups in order, each actor tagged with
      its group's key as `type`. */
  function Merge(groups: Assoc<string, seq<Value>>): (r: Result<seq<Value>>)
    ensures r.Success? <==> AllDicts(groups)
    ensures r.Success? ==> |r.value| == Total(groups)
    decreases |groups|
  {
    if groups == [] then Success([])
    else
      assert AllDicts(groups) ==> forall i :: 0 <= i < |groups[0].1| ==> groups[0].1[i].Obj?;
      assert AllDicts(groups[1..]) && (forall i :: 0 <= i < |groups[0].1| ==> groups[0].1[i].Obj?) ==> AllDicts(groups) by {
        forall g | 1 <= g < |groups| ensures groups[g] == groups[1..][g - 1] { }
      }
      var tagged :- TagAll(groups[0].1, groups[0].0);
      var rest :- Merge(groups[1..]);
      Success(tagged + rest)
  }

  /** Actor `j` of group `g` sits at `Offset(groups, g) + j` of the merged
      list, with its fields unchanged except `type`, which names its group. */
  lemma {:induction false} MergePlacesActor(groups: Assoc<string, seq<Value>>, g: nat, j: nat)
    requires Merge(groups).Success?
    requires g < |groups| && j < |groups[g].1|
    ensures Offset(groups, g) + j < |Merge(groups).value|
    ensures groups[g].1[j].Obj?
    ensures Merge(groups).value[Offset(groups, g) + j] == Obj(groups[g].1[j].fields["type" := Str(groups[g].0)])
    decreases g
  {
    var tagged := TagAll(groups[0].1, groups[0].0).value;
    var rest := Merge(groups[1..]).value;
    assert Merge(groups).value == tagged + rest;
    if g > 0 {
      MergePlacesActor(groups[1..], g - 1, j);
      assert groups[1..][g - 1] == groups[g];
    } else {
      assert Tag(groups[0].1[j], groups[0].0) == Success(tagged[j]);
    }
  }

  // ---------------------------------------------------------------------------
  // The actor heard in simulation

  /** The last robot pose message, as received: `x`, `y` and `resolution`
      are only used in arithmetic once an audible actor is met. */
  datatype RobotPose = RobotPose(x: Value, y: Value, resolution: Value)

  /** The robot pose message: `x`, `y`, `theta` and `resolution` must all be
      there, whatever their types. */
  function PoseOf(message: Value): (r: Result<RobotPose>)
    ensures r.Success? <==>
      Get(message, "x").Success? && Get(message, "y").Success? &&
      Get(message, "theta").Success? && Get(message, "resolution").Success?
    ensures r.Success? ==>
      r.value == RobotPose(message.fields["x"], message.fields["y"], message.fields["resolution"])
  {
    var x :- Get(message, "x");
    var y :- Get(message, "y");
    var _ :- Get(message, "theta");
    var reso :- Get(message, "resolution");
    Success(RobotPose(x, y, reso))
  }

  /** The pose's position and resolution are numbers. */
  predicate Metric(p: RobotPose) {
    NumOf(p.x).Some? && NumOf(p.y).Some? && NumOf(p.resolution).Some?
  }

  /** An actor's `x` and `y` are there and are numbers. */
  predicate Located(h: Value) {
    Get(h, "x").Success? && Get(h, "y").Success? &&
    NumOf(Get(h, "x").value).Some? && NumOf(Get(h, "y").value).Some?
  }

  /** Whether one actor is considered and heard: its group is audible and
      `hypot(x·res − rx, y·res − ry) <= 2.0`. An actor of another group is
      skipped before its position, or the robot's, is used; for an audible
      one a non-numeric position on either side, or a missing `id` (which
      the distance log reads), raises. */
  function Hears(t: Trig, p: RobotPose, h: Value): (r: Result<bool>)
    ensures r.Success? ==> Get(h, "type").Success?
    ensures r.Success? && h.fields["type"] !in Audible ==> !r.value
    ensures r.Success? && h.fields["type"] in Audible ==>
      Metric(p) && Located(h) && Get(h, "id").Success? &&
      (r.value <==> Distance(t, ActorPoint(p, h), Position(p)) <= HearingRange)
    ensures Get(h, "type").Success? && h.fields["type"] in Audible && Get(h, "id").Success? ==>
      (r.Success? <==> Metric(p) && Located(h))
  {
    var kind :- Get(h, "type");
    if kind !in Audible then Success(false)
    else
      var x :- Get(h, "x");
      var y :- Get(h, "y");
      if !Metric(p) || NumOf(x).None? || NumOf(y).None? then Failure("TypeError: unsupported operand type(s)")
      else
        var _ :- Get(h, "id");
        Success(Distance(t, ActorPoint(p, h), Position(p)) <= HearingRange)
  }

  /** The robot's position. */
  function Position(p: RobotPose): Point
    requires Metric(p)
  {
    Point(NumOf(p.x).value, NumOf(p.y).value)
  }

  /** An actor's position in metres: its grid cell scaled by the resolution. */
  function ActorPoint(p: RobotPose, h: Value): Point
    requires Metric(p) && Located(h)
  {
    var reso := NumOf(p.resolution).value;
    Point(NumOf(h.fields["x"]).value * reso, NumOf(h.fields["y"]).value * reso)
  }

  /** The actor `on_goal` settles on. `closest_dist` is never lowered, so
      every heard actor beats the previous choice: the result is the LAST
      actor heard, not the nearest one, or `None` ("empty") when none is. */
  function Closest(t: Trig, p: RobotPose, actors: seq<Value>): (r: Result<Option<nat>>)
    ensures r.Success? ==> forall i :: 0 <= i < |actors| ==> Hears(t, p, actors[i]).Success?
    ensures r.Success? && r.value.Some? ==>
      r.value.value < |actors| && Hears(t, p, actors[r.value.value]).value &&
      forall k :: r.value.value < k < |actors| ==> !Hears(t, p, actors[k]).value
    ensures r.Success? && r.value.None? ==> forall k :: 0 <= k < |actors| ==> !Hears(t, p, actors[k]).value
    decreases |actors|
  {
    if actors == [] then Success(None)
    else
      var n := |actors| - 1;
      var before :- Closest(t, p, actors[..n]);
      var heard :- Hears(t, p, actors[n]);
      assert forall i :: 0 <= i < n ==> actors[..n][i] == actors[i];
      Success(if heard then Some(n) else before)
  }

  /** With a true square root the hearing test needs none: an audible actor
      is heard exactly when its squared distance is at most 4. */
  lemma HearsSquared(t: Trig, p: RobotPose, h: Value)
    requires SqrtSound(t)
    requires Hears(t, p, h).Success? && h.fields["type"] in Audible
    ensures Hears(t, p, h).value <==> SqDist(ActorPoint(p, h), Position(p)) <= 4.0
  {
    DistanceAtMostIff(t, ActorPoint(p, h), Position(p), HearingRange);
  }

  /** When no actor belongs to an audible group, nothing is heard, whatever
      the pose holds: its position and resolution are never used. */
  lemma {:induction false} InaudibleIgnorePose(t: Trig, p: RobotPose, actors: seq<Value>)
    requires forall i :: 0 <= i < |actors| ==> Get(actors[i], "type").Success? && actors[i].fields["type"] !in Audible
    ensures Closest(t, p, actors) == Success(None)
    decreases |actors|
  {
    if actors != [] {
      var n := |actors| - 1;
      assert forall i :: 0 <= i < n ==> actors[..n][i] == actors[i];
      InaudibleIgnorePose(t, p, actors[..n]);
      assert Hears(t, p, actors[n]) == Success(false);
    }
  }

  /** The order of the actors, not their distance, decides: a far actor
      heard after a near one is the one chosen. */
  lemma LaterBeatsNearer(t: Trig, p: RobotPose, near: Value, far: Value)
    requires Hears(t, p, near) == Success(true) && Hears(t, p, far) == Success(true)
    ensures Closest(t, p, [near, far]) == Success(Some(1))
  {
    assert [near, far][..1] == [near];
    assert [near][..0] == [];
    assert Closest(t, p, []) == Success(None);
    assert Closest(t, p, [near]) == Success(Some(0));
  }

  // ---------------------------------------------------------------------------
  // Wave file choice

  const Silent: string := "Silent.wav"
  const Greek: string := "greek_sentence.wav"
  const English: string := "english_sentence.wav"

  /** Greek for `lang == "EL"`, else English. */
  function ByLanguage(h: Value): Result<string> {
    var lang :- Get(h, "lang");
    Success(if lang == Str("EL") then Greek else English)
  }

  /** The wave file played back for the chosen actor: silence when none
      was heard, or a human that makes no sound; English for superman;
      otherwise by the actor's language. */
  function Wav(closest: Option<Value>): (r: Result<string>)
    ensures r.Success? ==> r.value in {Silent, Greek, English}
    ensures closest.None? ==> r == Success(Silent)
    ensures closest.Some? && Get(closest.value, "type") == Success(Str("superman")) ==> r == Success(English)
    ensures closest.Some? && Get(closest.value, "type") == Success(Str("humans")) ==>
      (r.Success? <==> (Get(closest.value, "sound").Success? &&
        (PyEq(closest.value.fields["sound"], Num(1.0)) ==> Get(closest.value, "lang").Success?))) &&
      (r.Success? ==>
        r.value == (if !PyEq(closest.value.fields["sound"], Num(1.0)) then Silent
                    else if closest.value.fields["lang"] == Str("EL") then Greek else English))
    ensures closest.Some? && Get(closest.value, "type") == Success(Str("sound_sources")) ==>
      (r.Success? <==> Get(closest.value, "lang").Success?) &&
      (r.Success? ==> r.value == (if closest.value.fields["lang"] == Str("EL") then Greek else English))
  {
    match closest
    case None => Success(Silent)
    case Some(h) =>
      var kind :- Get(h, "type");
      if kind == Str("humans") then
        var sound :- Get(h, "sound");
        if PyEq(sound, Num(1.0)) then ByLanguage(h) else Success(Silent)
      else if kind == Str("superman") then Success(English)
      else if kind == Str("sound_sources") then ByLanguage(h)
      else Success(Silent)
  }

  // ---------------------------------------------------------------------------
  // The record goal

  datatype Mic = Mic(enabled: bool, mode: Mode, actors: seq<Value>)

  /** What a record goal produced: `{}` for a disabled microphone, or the
      reply's record and volume, with (in simulation) the heard actor
      published as the detection source, `"empty"` when none. */
  datatype Recording = Ignored | Recorded(record: string, volume: int, source: Option<Value>)

  /** The mock recording: base64 of the bytes `0x55`. */
  const MockRecord: string := "MHg1NQ=="

  /** The goal's `duration`, which the waiting loop compares with elapsed
      time: a missing one is caught and logged, leaving the variable
      unbound, and a non-numeric one cannot be compared; either raises at
      its first use. */
  function Duration(goal: Value): (r: Result<real>)
    ensures r.Success? <==> Get(goal, "duration").Success? && NumOf(Get(goal, "duration").value).Some?
    ensures r.Success? ==> r.value == NumOf(goal.fields["duration"]).value
  {
    var d :- Get(goal, "duration");
    match NumOf(d)
    case Some(x) => Success(x)
    case None => Failure("TypeError: '<' not supported")
  }

  /** `on_goal` without its waiting and cancelling. The duration is first
      used by the mock and real modes at once, and in simulation only after
      the pose, the actor heard and the wave file; there the robot pose
      must have arrived. The contents of the chosen wave file (`wavData`)
      and of a real recording (`captured`) come from outside. */
  function OnGoal(t: Trig, m: Mic, goal: Value, pose: Option<Value>, wavData: string -> string,
                  captured: string): (r: Result<Recording>)
    ensures !m.enabled ==> r == Success(Ignored)
    ensures m.enabled && Duration(goal).Failure? ==> r.Failure?
    ensures m.enabled && m.mode == Mock && Duration(goal).Success? ==>
      r == Success(Recorded(MockRecord, 100, None))
    ensures m.enabled && m.mode == Real && Duration(goal).Success? ==>
      r == Success(Recorded(captured, 0, None))
    ensures m.enabled && m.mode == Simulation && r.Success? ==>
      pose.Some? && PoseOf(pose.value).Success? &&
      var c := Closest(t, PoseOf(pose.value).value, m.actors);
      c.Success? && r.value.Recorded? && r.value.volume == 100 &&
      r.value.source == Some(if c.value.None? then Str("empty") else m.actors[c.value.value]) &&
      var heard := if c.value.None? then None else Some(m.actors[c.value.value]);
      Wav(heard).Success? && r.value.record == wavData(Wav(heard).value)
  {
    if !m.enabled then Success(Ignored)
    else
      match m.mode
      case Mock =>
        var _ :- Duration(goal);
        Success(Recorded(MockRecord, 100, None))
      case Real =>
        var _ :- Duration(goal);
        Success(Recorded(captured, 0, None))
      case Simulation =>
        if pose.None? then Failure("AttributeError: no robot_pose")
        else
          var p :- PoseOf(pose.value);
          var c :- Closest(t, p, m.actors);
          var heard := if c.None? then None else Some(m.actors[c.value]);
          var wav :- Wav(heard);
          var _ :- Duration(goal);
          Success(Recorded(wavData(wav), 100, Some(if c.None? then Str("empty") else m.actors[c.value])))
  }

  /** With no audible actor in range the microphone records silence and
      reports the source "empty". */
  lemma NothingHeardIsSilent(t: Trig, m: Mic, goal: Value, pose: Value, wavData: string -> string, captured: string)
    requires m.enabled && m.mode == Simulation && Duration(goal).Success?
    requires PoseOf(pose).Success? && Closest(t, PoseOf(pose).value, m.actors) == Success(None)
    ensures OnGoal(t, m, goal, Some(pose), wavData, captured) == Success(Recorded(wavData(Silent), 100, Some(Str("empty"))))
  {
  }

  /** `enable_callback` / `disable_callback`: only the flag changes, and
      the reply reports it. */
  function SetEnabled(m: Mic, on: bool): (r: (Mic, Value))
    ensures r.0.enabled == on && r.0.mode == m.mode && r.0.actors == m.actors
    ensures r.1 == EnabledReply(on)
  {
    (m.(enabled := on), EnabledReply(on))
  }
}

=== FILE: motion.dfy ===
/** The robot's motion controller (`MotionController`): its declaration,
    its enable switch, and `record_devices`, which finds the topics of the
    IMU, the two wheel encoders, the line follower and the servo among
    the robot's devices. */
module Motion {
  import opened Wrappers
  import opened Values
  import opened Devices

  /** What `record_devices` remembers: one slot per attribute. */
  datatype Slot = ImuTopic | EncLeftTopic | EncLeftName | EncFreq | EncRightTopic | EncRightName | LfTopic | ServoTopic

  /** The recorded attributes; every slot is present. */
  type Recorded = map<Slot, Value>

  predicate Complete(rec: Recorded) {
    ImuTopic in rec && EncLeftTopic in rec && EncLeftName in rec && EncFreq in rec &&
    EncRightTopic in rec && EncRightName in rec && LfTopic in rec && ServoTopic in rec
  }

  /** The declaration the controller sends the transform registry: always
      hosted by the robot, whatever its configuration says. */
  function TfPackage(conf: DeviceConf, pack: string, deviceName: string, id: nat): (d: Assoc<string, Value>)
    ensures HasKey(d, "host") && HasKey(d, "host_type")
    ensures Lookup(d, "host") == Str(deviceName) && Lookup(d, "host_type") == Str("robot")
  {
    var name := DeviceName(conf, id);
    Declaration(MotionFamily, conf, BaseTopic(pack, MotionFamily, name), name, deviceName, false)
  }

  /** `enable_callback` / `disable_callback`: the reply reports the new
      flag, whatever it was before. */
  function SetEnabled(enabled: bool, on: bool): (r: (bool, Value))
    ensures r.0 == on && r.1 == EnabledReply(r.0)
  {
    (on, EnabledReply(on))
  }

  /** `d['base_topic'] + suffix`: a device without a string topic raises. */
  function Topic(d: Value, suffix: string): (r: Result<Value>)
    ensures r.Success? <==> HasTopic(d)
    ensures r.Success? ==> TopicOf(d, suffix, r.value)
  {
    var base :- Get(d, "base_topic");
    if base.Str? then Success(Str(base.s + suffix)) else Failure("TypeError: can only concatenate")
  }

  /** `d` has a string `base_topic`. */
  predicate HasTopic(d: Value) {
    Get(d, "base_topic").Success? && d.fields["base_topic"].Str?
  }

  /** `v` is `d`'s base topic followed by `suffix`. */
  predicate TopicOf(d: Value, suffix: string, v: Value) {
    HasTopic(d) && v == Str(d.fields["base_topic"].s + suffix)
  }

  /** `d` has a `sensor_configuration` with a `name`. */
  predicate HasName(d: Value) {
    Get(d, "sensor_configuration").Success? && Get(d.fields["sensor_configuration"], "name").Success?
  }

  /** `v` is the name in `d`'s sensor configuration. */
  predicate NameOf(d: Value, v: Value) {
    HasName(d) && v == d.fields["sensor_configuration"].fields["name"]
  }

  /** What an encoder writes: its topic and name on the side it is placed
      on, and the frequency for the left one; nothing when placed elsewhere. */
  function EncoderEffect(d: Value): (r: Result<map<Slot, Value>>)
    ensures r.Success? ==> Get(d, "place").Success?
    ensures r.Success? ==>
      r.value.Keys == (if d.fields["place"] == Str("BL") then {EncLeftTopic, EncLeftName, EncFreq}
                       else if d.fields["place"] == Str("BR") then {EncRightTopic, EncRightName}
                       else {})
    ensures r.Success? && EncLeftTopic in r.value ==> TopicOf(d, ".data", r.value[EncLeftTopic])
    ensures r.Success? && EncRightTopic in r.value ==> TopicOf(d, ".data", r.value[EncRightTopic])
    ensures r.Success? && EncLeftName in r.value ==> NameOf(d, r.value[EncLeftName])
    ensures r.Success? && EncRightName in r.value ==> NameOf(d, r.value[EncRightName])
    ensures r.Success? && EncFreq in r.value ==> Get(d, "hz") == Success(r.value[EncFreq])
    ensures Get(d, "place") == Success(Str("BL")) ==>
      (r.Success? <==> HasTopic(d) && HasName(d) && Get(d, "hz").Success?)
    ensures Get(d, "place") == Success(Str("BR")) ==> (r.Success? <==> HasTopic(d) && HasName(d))
    ensures Get(d, "place").Success? && d.fields["place"] !in {Str("BL"), Str("BR")} ==> r == Success(map[])
  {
    var place :- Get(d, "place");
    if place == Str("BL") then
      var t :- Topic(d, ".data");
      var conf :- Get(d, "sensor_configuration");
      var name :- Get(conf, "name");
      var hz :- Get(d, "hz");
      Success(map[EncLeftTopic := t, EncLeftName := name, EncFreq := hz])
    else if place == Str("BR") then
      var t :- Topic(d, ".data");
      var conf :- Get(d, "sensor_configuration");
      var name :- Get(conf, "name");
      Success(map[EncRightTopic := t, EncRightName := name])
    else Success(map[])
  }

  /** What one device writes: an IMU its `.data` topic; an encoder placed
      BL the left topic, its configured name and the encoder frequency;
      one placed BR the right topic and name; an encoder elsewhere
      nothing; a line follower its `.data` topic; a servo its `.set`
      topic; any other device nothing. Reading a missing field raises. */
  function Effect(d: Value): (r: Result<map<Slot, Value>>)
    ensures r.Success? ==> Get(d, "type").Success?
    ensures r.Success? && d.fields["type"] == Str("IMU") ==> r.value.Keys == {ImuTopic}
    ensures r.Success? && d.fields["type"] == Str("SERVO") ==> r.value.Keys == {ServoTopic}
    ensures r.Success? && d.fields["type"] == Str("LINE_FOLLOWER") ==> r.value.Keys == {LfTopic}
    ensures r.Success? && d.fields["type"] == Str("ENCODER") ==> (Get(d, "place").Success? &&
      r.value.Keys == (if d.fields["place"] == Str("BL") then {EncLeftTopic, EncLeftName, EncFreq}
                       else if d.fields["place"] == Str("BR") then {EncRightTopic, EncRightName}
                       else {}))
    ensures r.Success? && d.fields["type"] !in {Str("IMU"), Str("ENCODER"), Str("LINE_FOLLOWER"), Str("SERVO")} ==>
      r.value == map[]
    // the values written
    ensures r.Success? && ImuTopic in r.value ==> TopicOf(d, ".data", r.value[ImuTopic])
    ensures r.Success? && EncLeftTopic in r.value ==> TopicOf(d, ".data", r.value[EncLeftTopic])
    ensures r.Success? && EncRightTopic in r.value ==> TopicOf(d, ".data", r.value[EncRightTopic])
    ensures r.Success? && LfTopic in r.value ==> TopicOf(d, ".data", r.value[LfTopic])
    ensures r.Success? && ServoTopic in r.value ==> TopicOf(d, ".set", r.value[ServoTopic])
    ensures r.Success? && EncLeftName in r.value ==> NameOf(d, r.value[EncLeftName])
    ensures r.Success? && EncRightName in r.value ==> NameOf(d, r.value[EncRightName])
    ensures r.Success? && EncFreq in r.value ==> Get(d, "hz") == Success(r.value[EncFreq])
    // when reading the device raises
    ensures Get(d, "type").Success? && d.fields["type"] in {Str("IMU"), Str("LINE_FOLLOWER"), Str("SERVO")} ==>
      (r.Success? <==> HasTopic(d))
    ensures Get(d, "type") == Success(Str("ENCODER")) && Get(d, "place") == Success(Str("BL")) ==>
      (r.Success? <==> HasTopic(d) && HasName(d) && Get(d, "hz").Success?)
    ensures Get(d, "type") == Success(Str("ENCODER")) && Get(d, "place") == Success(Str("BR")) ==>
      (r.Success? <==> HasTopic(d) && HasName(d))
    // the devices that are skipped
    ensures Get(d, "type").Success? && d.fields["type"] !in {Str("IMU"), Str("ENCODER"), Str("LINE_FOLLOWER"), Str("SERVO")} ==>
      r == Success(map[])
    ensures (Get(d, "type") == Success(Str("ENCODER")) && Get(d, "place").Success? &&
      d.fields["place"] !in {Str("BL"), Str("BR")}) ==> r == Success(map[])
  {
    var kind :- Get(d, "type");
    if kind == Str("IMU") then
      var t :- Topic(d, ".data");
      Success(map[ImuTopic := t])
    else if kind == Str("ENCODER") then
      EncoderEffect(d)
    else if kind == Str("LINE_FOLLOWER") then
      var t :- Topic(d, ".data");
      Success(map[LfTopic := t])
    else if kind == Str("SERVO") then
      var t :- Topic(d, ".set");
      Success(map[ServoTopic := t])
    else Success(map[])
  }

  /** The devices scanned, in order, one device after the other. */
  function Scan(rec: Recorded, devices: seq<Value>): (r: Result<Recorded>)
    ensures r.Success? ==> rec.Keys <= r.value.Keys
    decreases |devices|
  {
    if devices == [] then Success(rec)
    else
      var before :- Scan(rec, devices[..|devices| - 1]);
      var writes :- Effect(devices[|devices| - 1]);
      Success(before + writes)
  }

  /** Python's `for d in v`: a list yields its items; an empty dict or
      string yields nothing; a non-empty dict or string yields strings,
      on which `d['type']` raises; anything else is not iterable. */
  function Items(v: Value): (r: Result<seq<Value>>)
    ensures v.List? <==> r.Success? && !(v.Obj? && v.fields == map[]) && !(v.Str? && v.s == [])
    ensures v.List? ==> r == Success(v.items)
  {
    match v
    case List(xs) => Success(xs)
    case Obj(f) => if f == map[] then Success([]) else Failure("TypeError: string indices must be integers")
    case Str(s) => if s == [] then Success([]) else Failure("TypeError: string indices must be integers")
    case _ => Failure("TypeError: object is not iterable")
  }

  /** `record_devices`: every topic and name is reset to `None` (the
      encoder frequency is not, and keeps `encFreq`) and the devices are
      scanned. */
  function RecordDevices(encFreq: Value, available: Value): (r: Result<Recorded>)
    ensures r.Success? ==> Complete(r.value)
    ensures r.Success? ==> Get(available, "devices").Success? && Items(available.fields["devices"]).Success?
  {
    var listed :- Get(available, "devices");
    var devices :- Items(listed);
    Scan(Reset(encFreq), devices)
  }

  /** Every topic and name `None`; the encoder frequency as it was. */
  function Reset(encFreq: Value): (rec: Recorded)
    ensures Complete(rec)
  {
    map[ImuTopic := Null, EncLeftTopic := Null, EncLeftName := Null, EncFreq := encFreq,
        EncRightTopic := Null, EncRightName := Null, LfTopic := Null, ServoTopic := Null]
  }

  /** The slot's value as the last device that writes it left it,
      searched from the end of the list; `None` when no device does. */
  function LastWrite(devices: seq<Value>, s: Slot): Option<Value>
    requires forall i :: 0 <= i < |devices| ==> Effect(devices[i]).Success?
    decreases |devices|
  {
    if devices == [] then None
    else
      var last := Effect(devices[|devices| - 1]).value;
      if s in last then Some(last[s]) else LastWrite(devices[..|devices| - 1], s)
  }

  /** A successful scan raised on no device, and each slot holds what the
      last device writing it wrote, or its value before the scan when no
      device writes it: a later device of the same kind overwrites an
      earlier one. */
  lemma {:induction false} LastDeviceWins(rec: Recorded, devices: seq<Value>, s: Slot)
    requires s in rec
    requires Scan(rec, devices).Success?
    ensures forall i :: 0 <= i < |devices| ==> Effect(devices[i]).Success?
    ensures s in Scan(rec, devices).value
    ensures Scan(rec, devices).value[s] == match LastWrite(devices, s) case Some(v) => v case None => rec[s]
    decreases |devices|
  {
    if devices != [] {
      var init := devices[..|devices| - 1];
      LastDeviceWins(rec, init, s);
      forall i | 0 <= i < |devices| ensures Effect(devices[i]).Success? {
        if i < |devices| - 1 {
          assert devices[i] == init[i];
        }
      }
    }
  }

  /** Hence after `record_devices`, a slot no device writes is `None`
      (except the encoder frequency, which keeps its earlier value), and
      e.g. the IMU topic is the last IMU's `base_topic + ".data"`. */
  lemma RecordedFromLastDevice(encFreq: Value, available: Value, s: Slot)
    requires RecordDevices(encFreq, available).Success?
    ensures var devices := Items(available.fields["devices"]).value;
      (forall i :: 0 <= i < |devices| ==> Effect(devices[i]).Success?) &&
      RecordDevices(encFreq, available).value[s] ==
        match LastWrite(devices, s)
        case Some(v) => v
        case None => if s == EncFreq then encFreq else Null
  {
    LastDeviceWins(Reset(encFreq), Items(available.fields["devices"]).value, s);
  }

  /** An IMU writes only its `.data` topic. */
  lemma ImuEffect(topic: string)
    ensures Effect(Obj(map["type" := Str("IMU"), "base_topic" := Str(topic)])) ==
      Success(map[ImuTopic := Str(topic + ".data")])
  {
    var d := Obj(map["type" := Str("IMU"), "base_topic" := Str(topic)]);
    assert Get(d, "type") == Success(Str("IMU"));
    assert Topic(d, ".data") == Success(Str(topic + ".data"));
  }

  /** A concrete case: of two IMUs, the later one's topic is kept. */
  lemma SecondImuOverwrites()
    ensures var imu1 := Obj(map["type" := Str("IMU"), "base_topic" := Str("a")]);
      var imu2 := Obj(map["type" := Str("IMU"), "base_topic" := Str("b")]);
      var available := Obj(map["devices" := List([imu1, imu2])]);
      RecordDevices(Null, available) == Success(Reset(Null)[ImuTopic := Str("b.data")])
  {
    var imu1 := Obj(map["type" := Str("IMU"), "base_topic" := Str("a")]);
    var imu2 := Obj(map["type" := Str("IMU"), "base_topic" := Str("b")]);
    ImuEffect("a");
    ImuEffect("b");
    assert "b" + ".data" == "b.data";
    var devices := [imu1, imu2];
    assert "a" + ".data" == "a.data";
    var once := Reset(Null) + map[ImuTopic := Str("a.data")];
    assert devices[..1] == [imu1] && [imu1][..0] == [];
    assert Scan(Reset(Null), [imu1]) == Success(once);
    assert Scan(Reset(Null), devices) == Success(once + map[ImuTopic := Str("b.data")]);
    Overwrite(Reset(Null), ImuTopic, Str("a.data"), Str("b.data"));
  }

  lemma Overwrite(rec: Recorded, s: Slot, a: Value, b: Value)
    ensures rec + map[s := a] + map[s := b] == rec[s := b]
  {
  }
}

=== FILE: motor.dfy ===
/** The arithmetic of the DFRobot motor driver (`DfrobotMotorController`):
    the linear range map, the split of a twist into wheel-side speeds and
    the speed-to-PWM conversion. */
module DfrobotMotor {
  import opened Wrappers

  /** `_map`: `value` carried from [leftMin, leftMax] to [rightMin,
      rightMax] by the line through the two ranges' ends. An empty left
      range divides by zero. */
  function Map(value: real, leftMin: real, leftMax: real, rightMin: real, rightMax: real): (r: Result<real>)
    ensures r.Success? <==> leftMax != leftMin
    ensures r.Success? ==> (r.value - rightMin) * (leftMax - leftMin) == (value - leftMin) * (rightMax - rightMin)
  {
    var leftSpan := leftMax - leftMin;
    var rightSpan := rightMax - rightMin;
    if leftSpan == 0.0 then Failure("ZeroDivisionError: float division by zero")
    else
      var scaled := (value - leftMin) / leftSpan;
      Success(rightMin + scaled * rightSpan)
  }

  /** The ends of the left range go to the ends of the right range. */
  lemma MapEnds(leftMin: real, leftMax: real, rightMin: real, rightMax: real)
    requires leftMin != leftMax
    ensures Map(leftMin, leftMin, leftMax, rightMin, rightMax) == Success(rightMin)
    ensures Map(leftMax, leftMin, leftMax, rightMin, rightMax) == Success(rightMax)
  {
    var r := Map(leftMax, leftMin, leftMax, rightMin, rightMax);
    assert (r.value - rightMin) * (leftMax - leftMin) == (rightMax - rightMin) * (leftMax - leftMin);
    CancelFactor(r.value - rightMin, rightMax - rightMin, leftMax - leftMin);
  }

  lemma CancelFactor(a: real, b: real, c: real)
    requires c != 0.0 && a * c == b * c
    ensures a == b
  {
    assert (a - b) * c == 0.0;
  }

  /** With both ranges increasing, a larger value maps to a larger one. */
  lemma MapIncreasing(a: real, b: real, leftMin: real, leftMax: real, rightMin: real, rightMax: real)
    requires leftMin < leftMax && rightMin < rightMax && a < b
    ensures Map(a, leftMin, leftMax, rightMin, rightMax).value < Map(b, leftMin, leftMax, rightMin, rightMax).value
  {
    var span := leftMax - leftMin;
    assert (a - leftMin) / span < (b - leftMin) / span by {
      assert (b - leftMin) / span - (a - leftMin) / span == (b - a) / span;
    }
  }

  /** Mapping back through the swapped ranges returns the value. */
  lemma MapRoundTrip(value: real, leftMin: real, leftMax: real, rightMin: real, rightMax: real)
    requires leftMin != leftMax && rightMin != rightMax
    ensures Map(Map(value, leftMin, leftMax, rightMin, rightMax).value, rightMin, rightMax, leftMin, leftMax) == Success(value)
  {
    var m := Map(value, leftMin, leftMax, rightMin, rightMax).value;
    var back := Map(m, rightMin, rightMax, leftMin, leftMax).value;
    var ls, rs := leftMax - leftMin, rightMax - rightMin;
    assert (m - rightMin) * ls == (value - leftMin) * rs;
    assert (back - leftMin) * rs == (m - rightMin) * ls;
    CancelFactor(back - leftMin, value - leftMin, rs);
  }

  /** `move`'s split of a twist: each side gets the linear speed plus or
      minus half the angular speed (`/` is true division). */
  function Split(linear: real, angular: real): (sides: (real, real))
    ensures sides.0 + sides.1 == 2.0 * linear
    ensures sides.0 - sides.1 == angular
  {
    (linear + angular / 2.0, linear - angular / 2.0)
  }

  /** The split loses nothing: the side speeds determine the twist, and
      every pair of side speeds comes from exactly one twist. */
  lemma SplitInverse(left: real, right: real)
    ensures Split((left + right) / 2.0, left - right) == (left, right)
    ensures forall linear, angular :: Split(linear, angular) == (left, right) ==>
      linear == (left + right) / 2.0 && angular == left - right
  {
  }

  /** `_speed_to_pwm`: a placeholder that drives no speed at all. */
  function SpeedToPwm(speed: real): (pwm: int)
    ensures pwm == 0
  {
    0
  }
}

=== FILE: pan_tilt.dfy ===
/** The pan-tilt unit (`PanTiltController`): commanded `[yaw, pitch]`
    pairs kept in a 100-slot history memory and read back by range. */
module PanTilt {
  import opened Wrappers
  import opened Values
  import opened Devices
  import opened History

  /** The memory always has this many slots. */
  const Capacity: nat := 100

  /** `enabled` is toggled by the enable and disable calls but consulted
      by neither `set` nor `get`. */
  datatype PanTilt = PanTilt(enabled: bool, memory: seq<Value>)

  predicate Valid(p: PanTilt) {
    |p.memory| == Capacity
  }

  function Create(enabled: bool): (p: PanTilt)
    ensures Valid(p) && forall i :: 0 <= i < Capacity ==> p.memory[i] == Num(0.0)
  {
    PanTilt(enabled, seq(Capacity, _ => Num(0.0)))
  }

  /** `pan_tilt_set_callback`: a message with `yaw` and `pitch` writes
      `[yaw, pitch]` in front of the memory; any failure is caught and
      logged, and then nothing is written. */
  function Set(p: PanTilt, message: Value): (r: PanTilt)
    ensures Valid(p) ==> Valid(r)
    ensures r.enabled == p.enabled
    ensures Valid(p) && Get(message, "yaw").Success? && Get(message, "pitch").Success? ==>
      r.memory[0] == List([message.fields["yaw"], message.fields["pitch"]]) &&
      forall i :: 1 <= i < Capacity ==> r.memory[i] == p.memory[i - 1]
    ensures Get(message, "yaw").Failure? || Get(message, "pitch").Failure? ==> r == p
  {
    match (Get(message, "yaw"), Get(message, "pitch"))
    case (Success(yaw), Success(pitch)) =>
      (match Write(p.memory, List([yaw, pitch]))
       case Success(mem) => p.(memory := mem)
       case Failure(_) => p)
    case _ => p
  }

  /** The reply entry for index `i`: `memory[-i][0]` as yaw,
      `memory[-i][1]` as pitch, device id 0. A stored reading that is not
      a list of at least two (the initial zeros) raises. */
  function Entry(mem: seq<Value>, i: int): (r: Result<Value>)
    ensures r.Success? <==> (Recall(mem, i).Success? && Recall(mem, i).value.List? &&
      |Recall(mem, i).value.items| >= 2)
    ensures r.Success? ==> r.value == Obj(map["yaw" := Recall(mem, i).value.items[0],
      "pitch" := Recall(mem, i).value.items[1], "deviceId" := Num(0.0)])
  {
    var v :- Recall(mem, i);
    var yaw :- Subscript(v, 0);
    var pitch :- Subscript(v, 1);
    Success(Obj(map["yaw" := yaw, "pitch" := pitch, "deviceId" := Num(0.0)]))
  }

  /** `pan_tilt_get_callback`: the range read, whether or not enabled. */
  function Read(p: PanTilt, message: Value): (r: Result<Value>)
    ensures r == RangeRead(message, i => Entry(p.memory, i))
    ensures !WellFormed(message) ==> r == Success(Malformed)
  {
    RangeRead(message, i => Entry(p.memory, i))
  }

  function SetEnabled(p: PanTilt, on: bool): (r: (PanTilt, Value))
    ensures r.0.memory == p.memory && r.0.enabled == on
  {
    (p.(enabled := on), EnabledReply(on))
  }

  /** A command read back: right after a set, `{from: 0, to: 0}` returns
      exactly the commanded yaw and pitch with device id 0, enabled or not. */
  lemma SetThenRead(p: PanTilt, yaw: Value, pitch: Value)
    requires Valid(p)
    ensures var q := Set(p, Obj(map["yaw" := yaw, "pitch" := pitch]));
      Read(q, Obj(map["from" := Num(0.0), "to" := Num(0.0)])) ==
        Success(Reply([Obj(map["yaw" := yaw, "pitch" := pitch, "deviceId" := Num(0.0)])]))
  {
    var q := Set(p, Obj(map["yaw" := yaw, "pitch" := pitch]));
    assert q.memory[0] == List([yaw, pitch]);
    assert Recall(q.memory, 0) == Success(List([yaw, pitch]));
    assert Entry(q.memory, 0) == Success(Obj(map["yaw" := yaw, "pitch" := pitch, "deviceId" := Num(0.0)]));
    ReadNewest(i => Entry(q.memory, i));
  }

  /** Commands that are all well-formed keep the newest `Capacity` of
      them, newest first: set is a fixed-length history. */
  lemma {:induction false} SetsKeepNewest(p: PanTilt, messages: seq<Value>)
    requires Valid(p)
    requires forall k :: 0 <= k < |messages| ==> Get(messages[k], "yaw").Success? && Get(messages[k], "pitch").Success?
    ensures Valid(SetAll(p, messages))
    ensures forall j :: 0 <= j < Capacity && j < |messages| ==>
      SetAll(p, messages).memory[j] == Command(messages[|messages| - 1 - j])
    decreases |messages|
  {
    if messages != [] {
      var init := messages[..|messages| - 1];
      SetsKeepNewest(p, init);
      var before := SetAll(p, init);
      var after := SetAll(p, messages);
      forall j | 0 <= j < Capacity && j < |messages| ensures after.memory[j] == Command(messages[|messages| - 1 - j]) {
        if j > 0 {
          assert after.memory[j] == before.memory[j - 1];
          assert init[|init| - 1 - (j - 1)] == messages[|messages| - 1 - j];
        }
      }
    }
  }

  /** The stored form of a well-formed command. */
  function Command(message: Value): Value
    requires Get(message, "yaw").Success? && Get(message, "pitch").Success?
  {
    List([message.fields["yaw"], message.fields["pitch"]])
  }

  /** The messages set one after the other. */
  function SetAll(p: PanTilt, messages: seq<Value>): PanTilt
    decreases |messages|
  {
    if messages == [] then p else Set(SetAll(p, messages[..|messages| - 1]), messages[|messages| - 1])
  }
}

=== FILE: relay.dfy ===
/** The environment relay (`RelayController`): a current state that `set`
    may change only to one of the configured allowed states, and an
    `enabled` flag that the enable and disable calls toggle and nothing
    else reads. */
module Relay {
  import opened Wrappers
  import opened Values

  datatype Relay = Relay(enabled: bool, state: Value, allowed: Value)

  /** Python `v in container`: list membership is by `==`, a dict is
      searched by key, a string by substring; anything else, and an
      unhashable value looked up in a dict or a non-string in a string,
      raises TypeError. */
  function Member(v: Value, container: Value): (r: Result<bool>)
    ensures container.List? ==> r == Success(InList(v, container.items))
    ensures container.Obj? && Hashable(v) ==> r == Success(v.Str? && v.s in container.fields)
    ensures container.Str? && v.Str? ==> r == Success(IsSubstring(v.s, container.s))
    ensures r.Failure? <==> !container.List? && !(container.Obj? && Hashable(v)) && !(container.Str? && v.Str?)
  {
    match container
    case List(xs) => Success(InList(v, xs))
    case Obj(f) => if Hashable(v) then Success(v.Str? && v.s in f) else Failure("TypeError: unhashable type")
    case Str(s) => if v.Str? then Success(IsSubstring(v.s, s)) else Failure("TypeError: 'in <string>' requires string")
    case _ => Failure("TypeError: argument is not iterable")
  }

  /** The constructor: `conf.initial_state` and `conf.states` are read
      (and `conf.place`, which must exist); the initial state is taken as
      configured, whether or not it is one of the allowed states. */
  function Create(conf: Value, enabled: bool): (r: Result<Relay>)
    ensures r.Success? <==> (conf.Obj? && "initial_state" in conf.fields && "states" in conf.fields &&
      "place" in conf.fields)
    ensures r.Success? ==>
      r.value.state == conf.fields["initial_state"] && r.value.allowed == conf.fields["states"] &&
      r.value.enabled == enabled
  {
    var state :- Get(conf, "initial_state");
    var allowed :- Get(conf, "states");
    var _ :- Get(conf, "place");
    Success(Relay(enabled, state, allowed))
  }

  /** `get_callback`: the reply `{"state": state}`. */
  function Read(r: Relay): (v: Value)
    ensures v.Obj? && v.fields.Keys == {"state"} && v.fields["state"] == r.state
  {
    Obj(map["state" := r.state])
  }

  /** `set_callback`: a requested state outside the allowed states raises
      (the relay keeps its state, since the caller gets no new relay);
      an allowed one is stored and echoed. */
  function Write(r: Relay, message: Value): (o: Result<(Relay, Value)>)
    ensures o.Success? <==> Get(message, "state").Success? && Member(message.fields["state"], r.allowed) == Success(true)
    ensures o.Success? ==>
      o.value.0 == r.(state := message.fields["state"]) &&
      o.value.1 == Obj(map["state" := message.fields["state"]])
  {
    var state :- Get(message, "state");
    var ok :- Member(state, r.allowed);
    if !ok then Failure("Relay does not allow the requested state")
    else Success((r.(state := state), Read(r.(state := state))))
  }

  /** `enable_callback`: only the flag changes, and the reply reports it. */
  function Enable(r: Relay): (o: (Relay, Value))
    ensures o.0.enabled && o.0.state == r.state && o.0.allowed == r.allowed
    ensures o.1 == Obj(map["enabled" := Bool(true)])
  {
    (r.(enabled := true), Obj(map["enabled" := Bool(true)]))
  }

  /** `disable_callback`: only the flag changes, and the reply reports it. */
  function Disable(r: Relay): (o: (Relay, Value))
    ensures !o.0.enabled && o.0.state == r.state && o.0.allowed == r.allowed
    ensures o.1 == Obj(map["enabled" := Bool(false)])
  {
    (r.(enabled := false), Obj(map["enabled" := Bool(false)]))
  }

  /** After an accepted `set`, `get` reports exactly what `set` answered,
      and `get` itself changes nothing (it returns no new relay). */
  lemma WriteThenRead(r: Relay, message: Value)
    requires Write(r, message).Success?
    ensures Read(Write(r, message).value.0) == Write(r, message).value.1
    ensures Write(r, message).value.0.allowed == r.allowed && Write(r, message).value.0.enabled == r.enabled
  {
  }

  /** Neither `set` nor `get` consults the enabled flag: a disabled relay
      answers exactly as an enabled one. */
  lemma EnabledIgnored(r: Relay, message: Value, on: bool)
    ensures Write(r.(enabled := on), message).Success? == Write(r, message).Success?
    ensures Write(r, message).Success? ==>
      Write(r.(enabled := on), message).value.1 == Write(r, message).value.1 &&
      Write(r.(enabled := on), message).value.0 == Write(r, message).value.0.(enabled := on)
    ensures Read(r.(enabled := on)) == Read(r)
    ensures Enable(Disable(r).0).0 == r.(enabled := true)
  {
  }

  /** Membership is by Python equality: with allowed states `[1, 0, -1]`,
      the number 1 is accepted and the string "1" is refused; the
      boolean `True` counts as 1. */
  lemma NumbersAndStringsDiffer(r: Relay)
    requires r.allowed == List([Num(1.0), Num(0.0), Num(-1.0)])
    ensures Write(r, Obj(map["state" := Num(1.0)])).Success?
    ensures Write(r, Obj(map["state" := Num(-1.0)])).Success?
    ensures Write(r, Obj(map["state" := Str("1")])).Failure?
    ensures Write(r, Obj(map["state" := Str("0")])).Failure?
    ensures Write(r, Obj(map["state" := Bool(true)])).Success?
  {
    assert PyEq(Num(1.0), r.allowed.items[0]);
    assert PyEq(Num(-1.0), r.allowed.items[2]);
    assert PyEq(Bool(true), r.allowed.items[0]);
    assert !InList(Str("1"), r.allowed.items);
    assert !InList(Str("0"), r.allowed.items);
  }

  /** The initial state is not checked: a relay may start in a state that
      `set` would refuse. */
  lemma InitialStateUnchecked()
    ensures var conf := Obj(map["initial_state" := Str("on"), "states" := List([Num(0.0), Num(1.0)]),
                                "place" := Str("kitchen")]);
      Create(conf, true).Success? && Create(conf, true).value.state == Str("on") &&
      Write(Create(conf, true).value, Obj(map["state" := Str("on")])).Failure?
  {
    var conf := Obj(map["initial_state" := Str("on"), "states" := List([Num(0.0), Num(1.0)]),
                        "place" := Str("kitchen")]);
    var r := Create(conf, true).value;
    assert !InList(Str("on"), r.allowed.items);
  }
}

=== FILE: robot.dfy ===
/** The simulated robot of `robot.py`: the kinematic integration step of the
    simulation thread, the grid collision predicate `check_ok` with its
    rollback, the starting pose and `reset_pose`, controller registration and
    the pose defaults of `device_lookup`. Time is a parameter `dt`; the
    trigonometric functions come from a `Trig` value. */
module Robot {
  import opened Wrappers
  import opened Values
  import opened Geometry
  import opened World

  datatype RobotPose = RobotPose(x: real, y: real, theta: real)

  // ---------------------------------------------------------------------------
  // Kinematics

  /** One integration step with the last commanded velocities: a straight
      line when `angular == 0`, otherwise an arc of radius `linear / angular`. */
  function Step(t: Trig, p: RobotPose, linear: real, angular: real, dt: real): (q: RobotPose)
    ensures q.theta == p.theta + angular * dt
    ensures angular == 0.0 ==> q.theta == p.theta
  {
    if angular == 0.0 then
      RobotPose(p.x + linear * dt * t.cos(p.theta), p.y + linear * dt * t.sin(p.theta), p.theta + angular * dt)
    else
      var arc := linear / angular;
      RobotPose(
        p.x + (-arc * t.sin(p.theta) + arc * t.sin(p.theta + dt * angular)),
        p.y - (-arc * t.cos(p.theta) + arc * t.cos(p.theta + dt * angular)),
        p.theta + angular * dt)
  }

  /** The arc branch of `Step`, spelled out. */
  lemma ArcStep(t: Trig, p: RobotPose, linear: real, angular: real, dt: real)
    requires angular != 0.0
    ensures var arc := linear / angular; var end := p.theta + dt * angular;
      Step(t, p, linear, angular, dt) ==
        RobotPose(p.x + (-arc * t.sin(p.theta) + arc * t.sin(end)),
                  p.y - (-arc * t.cos(p.theta) + arc * t.cos(end)),
                  p.theta + angular * dt)
  {
    var q := Step(t, p, linear, angular, dt);
    var arc := linear / angular;
    var end := p.theta + dt * angular;
    assert q.x == p.x + (-arc * t.sin(p.theta) + arc * t.sin(end));
    assert q.y == p.y - (-arc * t.cos(p.theta) + arc * t.cos(end));
  }

  /** An arc step keeps the centre of the turning circle,
      `(x - r sin theta, y + r cos theta)` with `r = linear / angular`,
      whatever `sin` and `cos` are. */
  lemma ArcKeepsTurningCentre(t: Trig, p: RobotPose, linear: real, angular: real, dt: real)
    requires angular != 0.0
    ensures var r := linear / angular;
      var q := Step(t, p, linear, angular, dt);
      q.x - r * t.sin(q.theta) == p.x - r * t.sin(p.theta) &&
      q.y + r * t.cos(q.theta) == p.y + r * t.cos(p.theta)
  {
    var q := Step(t, p, linear, angular, dt);
    assert q.theta == p.theta + dt * angular;
  }

  /** Two steps under the same command equal one step over the summed interval. */
  lemma StepsCompose(t: Trig, p: RobotPose, linear: real, angular: real, dt1: real, dt2: real)
    ensures Step(t, Step(t, p, linear, angular, dt1), linear, angular, dt2) ==
      Step(t, p, linear, angular, dt1 + dt2)
  {
    var q := Step(t, p, linear, angular, dt1);
    var s := Step(t, q, linear, angular, dt2);
    var u := Step(t, p, linear, angular, dt1 + dt2);
    if angular == 0.0 {
      assert q.theta == p.theta;
      var c, n := t.cos(p.theta), t.sin(p.theta);
      assert linear * (dt1 + dt2) == linear * dt1 + linear * dt2;
      assert (linear * dt1 + linear * dt2) * c == linear * dt1 * c + linear * dt2 * c;
      assert (linear * dt1 + linear * dt2) * n == linear * dt1 * n + linear * dt2 * n;
      assert s.x == u.x && s.y == u.y;
    } else {
      var arc := linear / angular;
      var mid := p.theta + dt1 * angular;
      var end := p.theta + (dt1 + dt2) * angular;
      ArcStep(t, p, linear, angular, dt1);
      ArcStep(t, q, linear, angular, dt2);
      ArcStep(t, p, linear, angular, dt1 + dt2);
      assert q.theta == mid;
      assert q.theta + dt2 * angular == end;
    }
    assert s.theta == u.theta;
  }

  // ---------------------------------------------------------------------------
  // Collision check (`check_ok`)

  /** The out-of-bounds test. `strict` is the source's `>`; otherwise `>=`. A
      zero resolution is Python's ZeroDivisionError. */
  function OutOfBounds(g: Grid, res: real, x: real, y: real, strict: bool): (r: Result<bool>)
    ensures x < 0.0 || y < 0.0 ==> r == Success(true)
    ensures r == Success(false) ==> 0.0 <= x && 0.0 <= y && res != 0.0
    ensures r == Success(false) && strict ==> x / res <= g.width as real && y / res <= g.height as real
    ensures r == Success(false) && !strict ==> x / res < g.width as real && y / res < g.height as real
    ensures 0.0 <= x && 0.0 <= y && res != 0.0 ==> r.Success?
  {
    if x < 0.0 || y < 0.0 then Success(true)
    else if res == 0.0 then Failure("ZeroDivisionError: float division by zero")
    else if strict then Success(x / res > g.width as real || y / res > g.height as real)
    else Success(x / res >= g.width as real || y / res >= g.height as real)
  }

  function Sorted(a: int, b: int): (r: (int, int))
    ensures r.0 <= r.1 && {r.0, r.1} == {a, b}
  {
    if a > b then (b, a) else (a, b)
  }

  /** The cells `range(lo, hi)` inspects along the axis on which the cell
      indices differ. */
  function AxisCells(xi: int, yi: int, xp: int, yp: int): (cells: seq<(int, int)>)
    requires xi <= xp && yi <= yp
    requires xi == xp || yi == yp
    ensures xi == xp ==> forall k :: 0 <= k < |cells| ==> cells[k].0 == xi && yi <= cells[k].1 < yp
    ensures xi != xp ==> forall k :: 0 <= k < |cells| ==> cells[k].1 == yi && xi <= cells[k].0 < xp
    ensures xi == xp ==> forall j :: yi <= j < yp ==> (xi, j) in cells
    ensures xi != xp ==> forall j :: xi <= j < xp ==> (j, yi) in cells
  {
    if xi == xp then
      var cells := seq(yp - yi, k => (xi, yi + k));
      assert forall j :: yi <= j < yp ==> cells[j - yi] == (xi, j);
      cells
    else
      var cells := seq(xp - xi, k => (xi + k, yi));
      assert forall j :: xi <= j < xp ==> cells[j - xi] == (j, yi);
      cells
  }

  /** `-floor(-r)`: the least integer not below `r`. */
  function Ceil(r: real): (c: int)
    ensures r <= c as real < r + 1.0
  {
    -((-r).Floor)
  }

  /** How many of `d = 0.0, 1.0, 2.0, ...` satisfy `d < dist`. */
  function StepsBelow(dist: real): (n: nat)
    ensures n == 0 <==> dist <= 0.0
    ensures n > 0 ==> (n - 1) as real < dist <= n as real
  {
    if dist <= 0.0 then 0 else Ceil(dist)
  }

  /** The cells the unit-step walk from cell `(x0, y0)` towards `(x1, y1)`
      inspects: `d = 0, 1, ...` while `d < hypot(dx, dy)`, at
      `int(x0 + d cos th), int(y0 + d sin th)` with `th = atan2(dy, dx)`. */
  function Walk(t: Trig, x0: int, y0: int, x1: int, y1: int): (cells: seq<(int, int)>)
    ensures 0 < |cells| ==> cells[0] == (x0, y0)
    ensures |cells| == StepsBelow(t.sqrt(((x1 - x0) * (x1 - x0) + (y1 - y0) * (y1 - y0)) as real))
    ensures forall d :: 0 <= d < |cells| ==>
      cells[d] == WalkCell(t, x0, y0, t.atan2((y1 - y0) as real, (x1 - x0) as real), d)
  {
    var th := t.atan2((y1 - y0) as real, (x1 - x0) as real);
    var n := StepsBelow(t.sqrt(((x1 - x0) * (x1 - x0) + (y1 - y0) * (y1 - y0)) as real));
    WalkCellStart(t, x0, y0, th);
    seq(n, d => WalkCell(t, x0, y0, th, d))
  }

  /** Step 0 of any walk is its starting cell. */
  lemma WalkCellStart(t: Trig, x0: int, y0: int, th: real)
    ensures WalkCell(t, x0, y0, th, 0) == (x0, y0)
  {
    assert (0 as real) * t.cos(th) == 0.0;
    assert (0 as real) * t.sin(th) == 0.0;
    assert Trunc(x0 as real) == x0;
    assert Trunc(y0 as real) == y0;
    assert Advance(x0, 0, t.cos(th)) == x0;
    assert Advance(y0, 0, t.sin(th)) == y0;
  }

  /** The cell of step `d` of the walk from `(x0, y0)` at heading `th`. */
  function WalkCell(t: Trig, x0: int, y0: int, th: real, d: int): (int, int) {
    (Advance(x0, d, t.cos(th)), Advance(y0, d, t.sin(th)))
  }

  /** `int(x0 + d * u)`: one coordinate after `d` unit steps of slope `u`. */
  function Advance(x0: int, d: int, u: real): int {
    Trunc(x0 as real + (d as real) * u)
  }

  /** Inspect cells in order: the first wall reports a collision, an index
      outside the array raises IndexError, and no wall means no collision. */
  function ScanCells(g: Grid, cells: seq<(int, int)>): (r: Result<bool>)
    ensures r == Success(false) <==>
      forall i :: 0 <= i < |cells| ==> IsWall(g, cells[i].0, cells[i].1) == Success(false)
    ensures r == Success(true) ==>
      exists i :: 0 <= i < |cells| && IsWall(g, cells[i].0, cells[i].1) == Success(true)
    ensures r.Failure? ==>
      exists i :: 0 <= i < |cells| && IsWall(g, cells[i].0, cells[i].1).Failure?
  {
    if cells == [] then Success(false)
    else
      var w :- IsWall(g, cells[0].0, cells[0].1);
      if w then Success(true)
      else
        var rest := ScanCells(g, cells[1..]);
        assert forall i :: 1 <= i < |cells| ==> cells[i] == cells[1..][i - 1];
        rest
  }

  /** The cell index of a coordinate: `int(v / resolution)`. */
  function Cell(v: real, res: real): int
    requires res != 0.0
  {
    Trunc(v / res)
  }

  /** The cells `check_ok` inspects once the bounds test has passed, for the
      new cell `(nx, ny)` and the previous cell `(pxi, pyi)`. When the two
      share a column the rows from the lower index up to, but excluding, the
      higher one; likewise along a shared row. Otherwise a unit-step walk: as
      the source writes it, from the smaller x index and the smaller y index,
      whichever endpoints they came from, towards the larger ones; corrected,
      from the previous cell towards the new one. */
  function Inspected(t: Trig, nx: int, ny: int, pxi: int, pyi: int, asWritten: bool): (cells: seq<(int, int)>)
    ensures var (yi, yp) := Sorted(ny, pyi);
      nx == pxi ==> (forall k :: 0 <= k < |cells| ==> cells[k].0 == nx && yi <= cells[k].1 < yp) &&
                    (forall j :: yi <= j < yp ==> (nx, j) in cells)
    ensures var (xi, xp) := Sorted(nx, pxi);
      nx != pxi && ny == pyi ==> (forall k :: 0 <= k < |cells| ==> cells[k].1 == ny && xi <= cells[k].0 < xp) &&
                                 (forall j :: xi <= j < xp ==> (j, ny) in cells)
    ensures var (xi, xp) := Sorted(nx, pxi); var (yi, yp) := Sorted(ny, pyi);
      nx != pxi && ny != pyi && asWritten ==>
        forall d :: 0 <= d < |cells| ==> cells[d] == WalkCell(t, xi, yi, t.atan2((yp - yi) as real, (xp - xi) as real), d)
    ensures nx != pxi && ny != pyi && !asWritten ==>
      forall d :: 0 <= d < |cells| ==> cells[d] == WalkCell(t, pxi, pyi, t.atan2((ny - pyi) as real, (nx - pxi) as real), d)
    ensures var (xi, xp) := Sorted(nx, pxi); var (yi, yp) := Sorted(ny, pyi);
      nx != pxi && ny != pyi && 0 < |cells| ==> cells[0] == (if asWritten then (xi, yi) else (pxi, pyi))
  {
    var xs := Sorted(nx, pxi);
    var ys := Sorted(ny, pyi);
    if nx == pxi || ny == pyi then AxisCells(xs.0, ys.0, xs.1, ys.1)
    else if asWritten then Walk(t, xs.0, ys.0, xs.1, ys.1)
    else Walk(t, pxi, pyi, nx, ny)
  }

  /** What a scan of `cells` may answer: no collision exactly when every cell
      is free, a collision only at a wall cell, and an IndexError only at a
      cell outside the array. */
  predicate Verdict(g: Grid, cells: seq<(int, int)>, r: Result<bool>) {
    (r == Success(false) <==> forall i :: 0 <= i < |cells| ==> IsWall(g, cells[i].0, cells[i].1) == Success(false)) &&
    (r == Success(true) ==> exists i :: 0 <= i < |cells| && IsWall(g, cells[i].0, cells[i].1) == Success(true)) &&
    (r.Failure? ==> exists i :: 0 <= i < |cells| && IsWall(g, cells[i].0, cells[i].1).Failure?)
  }

  /** `check_ok` as the source writes it. `Success(true)` is a collision and
      `Success(false)` a legal move. A negative coordinate, or a position
      beyond the far edge, is a collision; a position exactly on the far edge
      (`x / resolution == width`) passes the bounds test. Past the bounds test
      the answer is the scan of the cells `Inspected` names. */
  function CheckOkAsWritten(t: Trig, g: Grid, res: real, x: real, y: real, px: real, py: real): (r: Result<bool>)
    ensures x < 0.0 || y < 0.0 ==> r == Success(true)
    ensures 0.0 <= x && 0.0 <= y && res == 0.0 ==> r.Failure?
    ensures (0.0 <= x && 0.0 <= y && res != 0.0 &&
      (x / res > g.width as real || y / res > g.height as real)) ==> r == Success(true)
    ensures r == Success(false) ==>
      res != 0.0 && 0.0 <= x && 0.0 <= y && x / res <= g.width as real && y / res <= g.height as real
    ensures 0.0 <= x && 0.0 <= y && res != 0.0 && x / res <= g.width as real && y / res <= g.height as real ==>
      Verdict(g, Inspected(t, Cell(x, res), Cell(y, res), Cell(px, res), Cell(py, res), true), r)
  {
    var out :- OutOfBounds(g, res, x, y, true);
    if out then Success(true)
    else ScanCells(g, Inspected(t, Cell(x, res), Cell(y, res), Cell(px, res), Cell(py, res), true))
  }

  /** `check_ok` with the far edge rejected (`>=`) and the diagonal walk
      running from the previous cell towards the new one. */
  function CheckOk(t: Trig, g: Grid, res: real, x: real, y: real, px: real, py: real): (r: Result<bool>)
    ensures x < 0.0 || y < 0.0 ==> r == Success(true)
    ensures 0.0 <= x && 0.0 <= y && res == 0.0 ==> r.Failure?
    ensures (0.0 <= x && 0.0 <= y && res != 0.0 &&
      (x / res >= g.width as real || y / res >= g.height as real)) ==> r == Success(true)
    ensures r == Success(false) ==>
      res != 0.0 && 0.0 <= x && 0.0 <= y && x / res < g.width as real && y / res < g.height as real
    ensures 0.0 <= x && 0.0 <= y && res != 0.0 && x / res < g.width as real && y / res < g.height as real ==>
      Verdict(g, Inspected(t, Cell(x, res), Cell(y, res), Cell(px, res), Cell(py, res), false), r)
  {
    var out :- OutOfBounds(g, res, x, y, false);
    if out then Success(true)
    else ScanCells(g, Inspected(t, Cell(x, res), Cell(y, res), Cell(px, res), Cell(py, res), false))
  }

  /** With a positive resolution and the previous position inside the grid,
      a move that stays in one row or column of cells never indexes outside
      the array. */
  lemma CheckOkAxisNeverFails(t: Trig, g: Grid, res: real, x: real, y: real, px: real, py: real)
    requires 0.0 < res
    requires 0.0 <= px && px / res < g.width as real
    requires 0.0 <= py && py / res < g.height as real
    requires Trunc(x / res) == Trunc(px / res) || Trunc(y / res) == Trunc(py / res)
    ensures CheckOk(t, g, res, x, y, px, py).Success?
  {
    if 0.0 <= x && 0.0 <= y && x / res < g.width as real && y / res < g.height as real {
      DivNonNeg(x, res);
      DivNonNeg(y, res);
      DivNonNeg(px, res);
      DivNonNeg(py, res);
      var nx, ny := Trunc(x / res), Trunc(y / res);
      var pxi, pyi := Trunc(px / res), Trunc(py / res);
      assert 0 <= nx < g.width && 0 <= pxi < g.width;
      assert 0 <= ny < g.height && 0 <= pyi < g.height;
      var (xi, xp) := Sorted(nx, pxi);
      var (yi, yp) := Sorted(ny, pyi);
      var cells := AxisCells(xi, yi, xp, yp);
      forall i | 0 <= i < |cells| ensures IsWall(g, cells[i].0, cells[i].1).Success? {
      }
    }
  }

  lemma DivNonNeg(a: real, b: real)
    requires 0.0 <= a && 0.0 < b
    ensures 0.0 <= a / b
  {
  }

  /** On a vertical move the wall cell at the larger row index is not
      inspected: only `range(low, high)` is. */
  lemma HigherEndNeverChecked(t: Trig)
    ensures CheckOk(t, Grid(10, 10, {(2, 5)}), 1.0, 2.5, 5.5, 2.5, 1.5) == Success(false)
    ensures CheckOk(t, Grid(10, 10, {(2, 5)}), 1.0, 2.5, 1.5, 2.5, 5.5) == Success(false)
  {
    var g := Grid(10, 10, {(2, 5)});
    assert Trunc(2.5) == 2 && Trunc(5.5) == 5 && Trunc(1.5) == 1;
    var cells := AxisCells(2, 1, 2, 5);
    forall i | 0 <= i < |cells| ensures IsWall(g, cells[i].0, cells[i].1) == Success(false) { }
  }

  /** Finding: a move from (0.5, 5.5) to (5.5, 0.5) crosses the grid along the
      anti-diagonal, yet the walk as written starts at cell (0, 0), far from
      the path, and reports a wall there. */
  lemma DiagonalWalkAsWrittenHitsCorner(t: Trig)
    requires SqrtSound(t)
    ensures CheckOkAsWritten(t, Grid(10, 10, {(0, 0)}), 1.0, 5.5, 0.5, 0.5, 5.5) == Success(true)
  {
    assert Trunc(5.5) == 5 && Trunc(0.5) == 0;
    var d := t.sqrt(50.0);
    assert 0.0 <= d && d * d == 50.0;
    assert d != 0.0;
    var cells := Walk(t, 0, 0, 5, 5);
    assert |cells| > 0;
    assert IsWall(Grid(10, 10, {(0, 0)}), cells[0].0, cells[0].1) == Success(true);
  }

  /** With the walk starting from the previous cell, the same move never
      visits cell (0, 0) and is legal. The hypotheses hold of the true
      `cos` and `sin` at `atan2(-5, 5) = -pi/4`. */
  lemma DiagonalWalkCorrectedMissesCorner(t: Trig)
    requires SqrtSound(t)
    requires t.cos(t.atan2(-5.0, 5.0)) == -t.sin(t.atan2(-5.0, 5.0))
    requires 0.0 <= t.cos(t.atan2(-5.0, 5.0)) <= 1.0
    ensures CheckOk(t, Grid(10, 10, {(0, 0)}), 1.0, 5.5, 0.5, 0.5, 5.5) == Success(false)
  {
    var g := Grid(10, 10, {(0, 0)});
    AntiDiagonalWalkClear(t);
    assert Trunc(5.5) == 5 && Trunc(0.5) == 0;
    assert CheckOk(t, g, 1.0, 5.5, 0.5, 0.5, 5.5) == ScanCells(g, Walk(t, 0, 5, 5, 0));
  }

  lemma AntiDiagonalWalkClear(t: Trig)
    requires SqrtSound(t)
    requires t.cos(t.atan2(-5.0, 5.0)) == -t.sin(t.atan2(-5.0, 5.0))
    requires 0.0 <= t.cos(t.atan2(-5.0, 5.0)) <= 1.0
    ensures ScanCells(Grid(10, 10, {(0, 0)}), Walk(t, 0, 5, 5, 0)) == Success(false)
  {
    var g := Grid(10, 10, {(0, 0)});
    var th := t.atan2(-5.0, 5.0);
    var c := t.cos(th);
    SqrtOfFifty(t);
    var cells := Walk(t, 0, 5, 5, 0);
    assert |cells| == 8;
    forall i | 0 <= i < 8 ensures IsWall(g, cells[i].0, cells[i].1) == Success(false) {
      assert cells[i] == (Advance(0, i, c), Advance(5, i, -c));
      AntiDiagonalCellClear(i, c);
    }
  }

  lemma SqrtOfFifty(t: Trig)
    requires SqrtSound(t)
    ensures 7.0 < t.sqrt(50.0) < 8.0
    ensures StepsBelow(t.sqrt(50.0)) == 8
  {
    var dist := t.sqrt(50.0);
    assert 0.0 <= dist && dist * dist == 50.0;
    if dist <= 7.0 {
      SquareMono(dist, 7.0);
    }
    if dist >= 8.0 {
      SquareMono(8.0, dist);
    }
  }

  /** Step `i` of the walk from cell (0, 5) along direction `(c, -c)`. */
  lemma AntiDiagonalCellClear(i: int, c: real)
    requires 0 <= i < 8 && 0.0 <= c <= 1.0
    ensures IsWall(Grid(10, 10, {(0, 0)}), Advance(0, i, c), Advance(5, i, -c)) == Success(false)
  {
    MulUnit(i as real, c);
    var a := (i as real) * c;
    assert (i as real) * -c == -a;
    assert Advance(0, i, c) == Trunc(a);
    assert Advance(5, i, -c) == Trunc(5.0 - a);
    OffCornerCellClear(a);
  }

  /** The cell `(int(a), int(5 - a))` for `0 <= a <= 7` is never (0, 0). */
  lemma OffCornerCellClear(a: real)
    requires 0.0 <= a <= 7.0
    ensures IsWall(Grid(10, 10, {(0, 0)}), Trunc(a), Trunc(5.0 - a)) == Success(false)
  {
    var x, y := Trunc(a), Trunc(5.0 - a);
    assert 0 <= x <= 7;
    assert -2 <= y <= 5;
    assert x == 0 ==> y >= 4;
    assert Wrap(10, 10, (x, y)) != (0, 0);
  }

  /** Finding: at x exactly `width` the bounds test as written passes and the
      vertical scan then indexes column 10 of a 10-column array. */
  lemma BoundAsWrittenIndexesPastEdge(t: Trig)
    ensures CheckOkAsWritten(t, Grid(10, 10, {}), 1.0, 10.0, 5.0, 10.0, 2.0).Failure?
  {
    assert Trunc(10.0) == 10 && Trunc(5.0) == 5 && Trunc(2.0) == 2;
    var cells := AxisCells(10, 2, 10, 5);
    assert cells[0] == (10, 2);
  }

  /** The same move is reported out of bounds once the edge itself is rejected. */
  lemma BoundCorrectedRejectsEdge(t: Trig)
    ensures CheckOk(t, Grid(10, 10, {}), 1.0, 10.0, 5.0, 10.0, 2.0) == Success(true)
  {
  }

  // ---------------------------------------------------------------------------
  // Simulation step

  datatype Velocity = Velocity(linear: real, rotational: real)

  /** The velocity buffer, a `deque(maxlen=5)`: appending drops the oldest entry once five are held. */
  function Remember(buffer: seq<Velocity>, v: Velocity): (r: seq<Velocity>)
    ensures |r| == if |buffer| < 5 then |buffer| + 1 else 5
    ensures |buffer| <= 5 ==> |r| <= 5
    ensures r[|r| - 1] == v
    ensures r[..|r| - 1] == buffer[|buffer| + 1 - |r|..]
  {
    var all := buffer + [v];
    if |all| <= 5 then all else all[|all| - 5..]
  }

  /** What one pass of the simulation loop produces: the pose kept, and the
      pose published on the internal pose topic, if any. */
  datatype StepOutcome = StepOutcome(pose: RobotPose, published: Option<RobotPose>)

  /** The pose one pass integrates to: the last velocity in the buffer
      applied for `dt`. */
  function Moved(t: Trig, p: RobotPose, buffer: seq<Velocity>, dt: real): RobotPose
    requires buffer != []
  {
    Step(t, p, buffer[|buffer| - 1].linear, buffer[|buffer| - 1].rotational, dt)
  }

  /** One pass of `simulation_thread` with a known `dt`, calling `check_ok` as
      the source writes it. With no velocity received nothing happens.
      Otherwise the pose is integrated with the last velocity, published if it
      changed, and only then checked: on a collision it is rolled back exactly
      to the previous pose, and an IndexError from the check ends the thread. */
  function SimulationStep(t: Trig, g: Grid, res: real, p: RobotPose, buffer: seq<Velocity>, dt: real): (r: Result<StepOutcome>)
    ensures buffer == [] ==> r == Success(StepOutcome(p, None))
    ensures buffer != [] && r.Success? ==>
      var q := Moved(t, p, buffer, dt);
      var crash := CheckOkAsWritten(t, g, res, q.x, q.y, p.x, p.y);
      crash.Success? &&
      r.value.pose == (if crash.value then p else q) &&
      r.value.published == (if q != p then Some(q) else None)
    ensures buffer != [] ==> (r.Failure? <==>
      var q := Moved(t, p, buffer, dt);
      CheckOkAsWritten(t, g, res, q.x, q.y, p.x, p.y).Failure?)
  {
    if buffer == [] then Success(StepOutcome(p, None))
    else
      var q := Moved(t, p, buffer, dt);
      var published := if q.x != p.x || q.y != p.y || q.theta != p.theta then Some(q) else None;
      var crash :- CheckOkAsWritten(t, g, res, q.x, q.y, p.x, p.y);
      Success(StepOutcome(if crash then p else q, published))
  }

  /** The same pass calling the corrected `check_ok`. */
  function SimulationStepCorrected(t: Trig, g: Grid, res: real, p: RobotPose, buffer: seq<Velocity>, dt: real): (r: Result<StepOutcome>)
    ensures buffer == [] ==> r == Success(StepOutcome(p, None))
    ensures buffer != [] && r.Success? ==>
      var q := Moved(t, p, buffer, dt);
      var crash := CheckOk(t, g, res, q.x, q.y, p.x, p.y);
      crash.Success? &&
      r.value.pose == (if crash.value then p else q) &&
      r.value.published == (if q != p then Some(q) else None)
    ensures buffer != [] ==> (r.Failure? <==>
      var q := Moved(t, p, buffer, dt);
      CheckOk(t, g, res, q.x, q.y, p.x, p.y).Failure?)
  {
    if buffer == [] then Success(StepOutcome(p, None))
    else
      var q := Moved(t, p, buffer, dt);
      var published := if q.x != p.x || q.y != p.y || q.theta != p.theta then Some(q) else None;
      var crash :- CheckOk(t, g, res, q.x, q.y, p.x, p.y);
      Success(StepOutcome(if crash then p else q, published))
  }

  /** A step that ends in a collision restores the previous pose, but the
      rejected pose has already been published if it differs. */
  lemma CollisionRollsBack(t: Trig, g: Grid, res: real, p: RobotPose, buffer: seq<Velocity>, dt: real)
    requires buffer != []
    requires var q := Moved(t, p, buffer, dt);
      CheckOkAsWritten(t, g, res, q.x, q.y, p.x, p.y) == Success(true) && q != p
    ensures var r := SimulationStep(t, g, res, p, buffer, dt);
      r.Success? && r.value.pose == p && r.value.published == Some(Moved(t, p, buffer, dt))
  {
  }

  /** A pose the source's loop keeps after moving lies in the grid or on its
      far edge: `x / resolution <= width`, not `<`. */
  lemma KeptPoseWithinEdge(t: Trig, g: Grid, res: real, p: RobotPose, buffer: seq<Velocity>, dt: real)
    requires var r := SimulationStep(t, g, res, p, buffer, dt);
      r.Success? && r.value.pose != p
    ensures var q := SimulationStep(t, g, res, p, buffer, dt).value.pose;
      res != 0.0 && 0.0 <= q.x && 0.0 <= q.y && q.x / res <= g.width as real && q.y / res <= g.height as real
  {
  }

  /** Finding: the source's loop keeps a pose on the far edge. From (9.5, 5.5)
      to (10, 5.5) on an empty 10×10 map the check as written answers no
      collision, while the corrected check reports the move out of bounds. */
  lemma EdgePoseKeptAsWritten(t: Trig)
    ensures CheckOkAsWritten(t, Grid(10, 10, {}), 1.0, 10.0, 5.5, 9.5, 5.5) == Success(false)
    ensures CheckOk(t, Grid(10, 10, {}), 1.0, 10.0, 5.5, 9.5, 5.5) == Success(true)
  {
    assert Trunc(10.0) == 10 && Trunc(9.5) == 9 && Trunc(5.5) == 5;
    var cells := Inspected(t, 10, 5, 9, 5, true);
    assert cells == AxisCells(9, 5, 10, 5);
    assert cells == [(9, 5)];
  }

  /** A pose the corrected loop keeps after moving lies inside the grid. */
  lemma KeptPoseInsideGrid(t: Trig, g: Grid, res: real, p: RobotPose, buffer: seq<Velocity>, dt: real)
    requires var r := SimulationStepCorrected(t, g, res, p, buffer, dt);
      r.Success? && r.value.pose != p
    ensures var q := SimulationStepCorrected(t, g, res, p, buffer, dt).value.pose;
      res != 0.0 && 0.0 <= q.x && 0.0 <= q.y && q.x / res < g.width as real && q.y / res < g.height as real
  {
  }

  // ---------------------------------------------------------------------------
  // Starting pose and reset

  datatype StartPose = StartPose(x: real, y: real, thetaDeg: real)

  datatype RobotState = RobotState(pose: RobotPose, init: RobotPose, resolution: real)

  /** The state after construction: the configured starting pose with theta
      converted from degrees to radians, or the origin facing 0 without one;
      the map resolution defaults to 1. */
  function Initial(start: Option<StartPose>, resolution: Option<real>): (s: RobotState)
    ensures s.pose == s.init
    ensures start.None? ==> s.init == RobotPose(0.0, 0.0, 0.0)
    ensures start.Some? ==>
      s.init.x == start.value.x && s.init.y == start.value.y &&
      s.init.theta * 180.0 == start.value.thetaDeg * PI
    ensures resolution.None? ==> s.resolution == 1.0
    ensures resolution.Some? ==> s.resolution == resolution.value
  {
    var init := match start
      case None => RobotPose(0.0, 0.0, 0.0)
      case Some(sp) => RobotPose(sp.x, sp.y, sp.thetaDeg / 180.0 * PI);
    RobotState(init, init, resolution.GetOr(1.0))
  }

  /** A configured `starting_pose`: a dict with `x`, `y` and `theta`, all numbers. */
  predicate PoseGiven(pose: Value) {
    pose.Obj? && "x" in pose.fields && "y" in pose.fields && "theta" in pose.fields &&
    NumOf(pose.fields["x"]).Some? && NumOf(pose.fields["y"]).Some? && NumOf(pose.fields["theta"]).Some?
  }

  /** The constructor's reading of `configuration["starting_pose"]`: none
      when the key is absent; otherwise `x`, `y` and `theta` must be
      present (KeyError) and `theta` must be a number (TypeError at the
      division by 180). */
  function StartOf(conf: Value): (r: Result<Option<StartPose>>)
    ensures r == Success(None) <==> Contains(conf, "starting_pose") == Success(false)
    ensures r.Success? <==> (Contains(conf, "starting_pose").Success? &&
      (Contains(conf, "starting_pose").value ==> conf.Obj? && PoseGiven(conf.fields["starting_pose"])))
    ensures r.Success? && r.value.Some? ==>
      conf.Obj? && "starting_pose" in conf.fields && PoseGiven(conf.fields["starting_pose"]) &&
      var p := conf.fields["starting_pose"].fields;
      r.value.value == StartPose(NumOf(p["x"]).value, NumOf(p["y"]).value, NumOf(p["theta"]).value)
  {
    var has :- Contains(conf, "starting_pose");
    if !has then Success(None)
    else
      var pose :- Get(conf, "starting_pose");
      var x :- Get(pose, "x");
      var y :- Get(pose, "y");
      var theta :- Get(pose, "theta");
      if NumOf(theta).None? then Failure("TypeError: unsupported operand type for /")
      else if NumOf(x).None? || NumOf(y).None? then Failure("TypeError: unsupported operand type for +")
      else Success(Some(StartPose(NumOf(x).value, NumOf(y).value, NumOf(theta).value)))
  }

  /** `world["map"]["resolution"]` when the map lists it, `None` otherwise; a
      world without a map raises, and a resolution that is not a number
      cannot be divided by. */
  function MapResolution(world: Value): (r: Result<Option<real>>)
    ensures r.Success? ==> Get(world, "map").Success? && Contains(world.fields["map"], "resolution").Success?
    ensures r == Success(None) <==>
      Get(world, "map").Success? && Contains(world.fields["map"], "resolution") == Success(false)
    ensures Get(world, "map").Success? && world.fields["map"].Obj? && "resolution" in world.fields["map"].fields ==>
      var v := world.fields["map"].fields["resolution"];
      (r.Success? <==> NumOf(v).Some?) && (r.Success? ==> r.value == Some(NumOf(v).value))
  {
    var m :- Get(world, "map");
    var has :- Contains(m, "resolution");
    if !has then Success(None)
    else
      var v :- Get(m, "resolution");
      if NumOf(v).None? then Failure("TypeError: unsupported operand type for /")
      else Success(Some(NumOf(v).value))
  }

  /** The modes `robot.py` accepts. */
  const Modes: seq<Value> := [Str("real"), Str("mock"), Str("simulation")]

  /** The constructor from its configuration and world: the resolution and
      starting pose as read above, then `step_by_step_execution`,
      `speak_mode` and `mode` must be configured (KeyError), and a mode
      other than real, mock or simulation exits. */
  function Configured(conf: Value, world: Value): (r: Result<RobotState>)
    ensures r.Success? <==>
      MapResolution(world).Success? && StartOf(conf).Success? && conf.Obj? &&
      "step_by_step_execution" in conf.fields && "speak_mode" in conf.fields && "mode" in conf.fields &&
      InList(conf.fields["mode"], Modes)
    ensures r.Success? ==> r.value == Initial(StartOf(conf).value, MapResolution(world).value)
  {
    var resolution :- MapResolution(world);
    var start :- StartOf(conf);
    var step :- Get(conf, "step_by_step_execution");
    var speak :- Get(conf, "speak_mode");
    var mode :- Get(conf, "mode");
    if !InList(mode, Modes) then Failure("SystemExit: selected mode is invalid")
    else Success(Initial(start, resolution))
  }

  /** A starting pose missing `theta` stops the constructor. */
  lemma HeadinglessStartRaises(world: Value)
    requires MapResolution(world).Success?
    ensures var conf := Obj(map["starting_pose" := Obj(map["x" := Num(1.0), "y" := Num(2.0)]),
      "step_by_step_execution" := Bool(false), "speak_mode" := Str("espeak"), "mode" := Str("simulation")]);
      Configured(conf, world).Failure?
  {
  }

  /** `reset_pose`: the current pose becomes the starting pose. */
  function Reset(s: RobotState): (r: RobotState)
    ensures r.pose == s.init && r.init == s.init && r.resolution == s.resolution
  {
    s.(pose := s.init)
  }

  /** However the robot has moved, a reset returns it to the pose it was constructed with. */
  lemma {:induction false} ResetAfterMoves(t: Trig, g: Grid, start: Option<StartPose>, resolution: Option<real>,
                                           commands: seq<(seq<Velocity>, real)>)
    ensures var s0 := Initial(start, resolution);
      Reset(Run(t, g, s0, commands)).pose == s0.pose
  {
    RunKeepsInit(t, g, Initial(start, resolution), commands);
  }

  /** The state after a sequence of passes, each with its buffer and `dt`; a
      pass that raises stops the thread. */
  function Run(t: Trig, g: Grid, s: RobotState, commands: seq<(seq<Velocity>, real)>): (r: RobotState)
    ensures r == s.(pose := r.pose)
    decreases |commands|
  {
    if commands == [] then s
    else
      match SimulationStep(t, g, s.resolution, s.pose, commands[0].0, commands[0].1)
      case Failure(_) => s
      case Success(o) => Run(t, g, s.(pose := o.pose), commands[1..])
  }

  lemma {:induction false} RunKeepsInit(t: Trig, g: Grid, s: RobotState, commands: seq<(seq<Velocity>, real)>)
    ensures Run(t, g, s, commands).init == s.init
    decreases |commands|
  {
    if commands != [] {
      match SimulationStep(t, g, s.resolution, s.pose, commands[0].0, commands[0].1)
      case Failure(_) =>
      case Success(o) => RunKeepsInit(t, g, s.(pose := o.pose), commands[1..]);
    }
  }

  // ---------------------------------------------------------------------------
  // Controller registration

  /** A constructed controller: its name and its `info` dict. */
  datatype Controller = Controller(name: string, info: Value)

  datatype Registrations = Registrations(
    devices: seq<Value>,
    controllers: map<string, Value>,
    velocityTopics: seq<Value>,
    logs: seq<string>)

  /** `info["type"] == kind`. */
  predicate IsType(info: Value, kind: string) {
    Get(info, "type").Success? && PyEq(Get(info, "type").value, Str(kind))
  }

  /** `register_controller`: a duplicate name is only logged; BUTTON_ARRAY
      controllers are kept out of `devices` and BUTTON controllers out of
      `controllers`; every SKID_STEER controller, duplicate or not, gets its
      velocity topic `base_topic + ".data"` subscribed. */
  function Register(r: Registrations, c: Controller): (res: Result<Registrations>)
    ensures c.name in r.controllers && res.Success? ==>
      res.value.devices == r.devices && res.value.controllers == r.controllers
    ensures c.name !in r.controllers && res.Success? ==>
      res.value.devices == (if IsType(c.info, "BUTTON_ARRAY") then r.devices else r.devices + [c.info]) &&
      res.value.controllers == (if IsType(c.info, "BUTTON") then r.controllers else r.controllers[c.name := c.info])
    ensures res.Success? ==>
      (IsType(c.info, "SKID_STEER") && !(c.name !in r.controllers && IsType(c.info, "BUTTON"))
       <==> |res.value.velocityTopics| == |r.velocityTopics| + 1)
    ensures res.Failure? ==> Get(c.info, "type").Failure? || IsType(c.info, "SKID_STEER")
  {
    var (r1, returned) :- FirstHalf(r, c);
    if returned then Success(r1)
    else
      var ty :- Get(c.info, "type");
      if PyEq(ty, Str("SKID_STEER")) then
        var base :- Get(c.info, "base_topic");
        var topic :- Add(base, Str(".data"));
        Success(r1.(velocityTopics := r1.velocityTopics + [topic]))
      else Success(r1)
  }

  /** The registration proper; the flag says whether the source returned early (a BUTTON). */
  function FirstHalf(r: Registrations, c: Controller): Result<(Registrations, bool)> {
    if c.name in r.controllers then
      Success((r.(logs := r.logs + ["Device " + c.name + " declared twice"]), false))
    else
      var ty :- Get(c.info, "type");
      var devices := if PyEq(ty, Str("BUTTON_ARRAY")) then r.devices else r.devices + [c.info];
      if PyEq(ty, Str("BUTTON")) then Success((r.(devices := devices), true))
      else Success((r.(devices := devices, controllers := r.controllers[c.name := c.info]), false))
  }

  predicate NoButtonLeak(r: Registrations) {
    (forall i :: 0 <= i < |r.devices| ==> !IsType(r.devices[i], "BUTTON_ARRAY")) &&
    (forall n :: n in r.controllers ==> !IsType(r.controllers[n], "BUTTON"))
  }

  /** `device_lookup` registers controllers one by one; the first failure aborts. */
  function RegisterAll(r: Registrations, cs: seq<Controller>): (res: Result<Registrations>)
    ensures res.Success? ==> r.devices <= res.value.devices && r.controllers.Keys <= res.value.controllers.Keys
    ensures res.Success? ==> forall n :: n in r.controllers ==> res.value.controllers[n] == r.controllers[n]
    decreases |cs|
  {
    if cs == [] then Success(r)
    else
      var r1 :- Register(r, cs[0]);
      RegisterAll(r1, cs[1..])
  }

  /** No BUTTON_ARRAY ever reaches `devices` and no BUTTON ever reaches `controllers`. */
  lemma {:induction false} RegisterAllNoButtonLeak(r: Registrations, cs: seq<Controller>)
    requires NoButtonLeak(r)
    ensures RegisterAll(r, cs).Success? ==> NoButtonLeak(RegisterAll(r, cs).value)
    decreases |cs|
  {
    if cs != [] {
      var r1 := Register(r, cs[0]);
      if r1.Success? {
        assert NoButtonLeak(r1.value);
        RegisterAllNoButtonLeak(r1.value, cs[1..]);
      }
    }
  }

  // ---------------------------------------------------------------------------
  // Device pose defaults (`device_lookup`)

  function Defaulted(p: map<string, Value>, key: string, default: Value): (q: map<string, Value>)
    ensures key in q && q[key] == (if key in p then p[key] else default)
    ensures forall k :: k != key ==> (k in q <==> k in p) && (k in p ==> q[k] == p[k])
  {
    if key in p then p else p[key := default]
  }

  /** `if key not in d: d[key] = default`. */
  function SetDefault(d: Value, key: string, default: Value): (r: Result<Value>)
    ensures d.Obj? ==> r == Success(Obj(Defaulted(d.fields, key, default)))
  {
    var present :- Contains(d, key);
    if present then Success(d)
    else if d.Obj? then Success(Obj(d.fields[key := default]))
    else Failure("TypeError: item assignment on a non-dict")
  }

  /** The pose defaults applied to every device configuration: a missing pose
      becomes `{x: 0, y: 0, theta: None}`; a missing x or y becomes 0 and a
      missing theta None; everything present is kept. */
  function WithPoseDefaults(m: Value): (r: Result<Value>)
    ensures m.Obj? && "pose" !in m.fields ==>
      r == Success(Obj(m.fields["pose" := Obj(map["x" := Num(0.0), "y" := Num(0.0), "theta" := Null])]))
    ensures m.Obj? && "pose" in m.fields && m.fields["pose"].Obj? ==> (r.Success? &&
      var p := m.fields["pose"].fields;
      r.value == Obj(m.fields["pose" := Obj(Defaulted(Defaulted(Defaulted(p, "x", Num(0.0)), "y", Num(0.0)), "theta", Null))]))
    ensures !(m.List? || m.Str? || m.Obj?) ==> r.Failure?
  {
    var hasPose :- Contains(m, "pose");
    if !hasPose then
      if m.Obj? then Success(Obj(m.fields["pose" := Obj(map["x" := Num(0.0), "y" := Num(0.0), "theta" := Null])]))
      else Failure("TypeError: item assignment on a non-dict")
    else
      var pose :- Get(m, "pose");
      var p1 :- SetDefault(pose, "x", Num(0.0));
      var p2 :- SetDefault(p1, "y", Num(0.0));
      var p3 :- SetDefault(p2, "theta", Null);
      Success(Obj(m.fields["pose" := p3]))
  }
}

=== FILE: sonar.dfy ===
/** The sonar (`SonarController`): its range read answers with a random
    distance per entry; its memory is never read. */
module Sonar {
  import opened Wrappers
  import opened Values
  import opened History

  /** The entry for index `i`: one draw of `random.uniform(30, 10)`. */
  function Entry(u: (int, nat) -> real, i: int): (e: Value)
    ensures e.Obj? && e.fields.Keys == {"distance"}
    ensures UnitDraws(u) ==> Within(e.fields["distance"], 10.0, 30.0)
  {
    DrawnBetween(30.0, 10.0, u, i, 0);
    Obj(map["distance" := Drawn(30.0, 10.0, u, i, 0)])
  }

  /** `sonar_callback`: no entry can raise. */
  function Read(message: Value, u: (int, nat) -> real): (r: Result<Value>)
    ensures !WellFormed(message) ==> r == Success(Malformed)
    ensures WellFormed(message) ==> (r.Success? <==> Span(message).Success?)
  {
    RangeRead(message, i => Success(Entry(u, i)))
  }

  /** A well-formed reply has `max(0, from + 1 - to)` entries, each
      distance in [10, 30]. */
  lemma ReadingsPlausible(message: Value, u: (int, nat) -> real)
    requires UnitDraws(u) && WellFormed(message) && Read(message, u).Success?
    ensures Span(message).Success?
    ensures var (lo, hi) := Span(message).value;
      var data := Read(message, u).value.fields["data"].items;
      |data| == (if hi <= lo then 0 else hi - lo) &&
      forall k :: 0 <= k < |data| ==> (data[k].Obj? && "distance" in data[k].fields &&
        Within(data[k].fields["distance"], 10.0, 30.0))
  {
    var (lo, hi) := Span(message).value;
    var entry := i => Success(Entry(u, i));
    var entries := Entries(lo, hi, entry).value;
    assert Read(message, u).value == Reply(entries);
    forall k | 0 <= k < |entries|
      ensures entries[k].Obj? && "distance" in entries[k].fields && Within(entries[k].fields["distance"], 10.0, 30.0)
    {
      assert entry(lo + k) == Success(entries[k]);
      DrawnWithin(30.0, 10.0, u, lo + k, 0);
    }
  }
}

=== FILE: speaker.dfy ===
/** The robot's speaker (`SpeakerController`): a global volume that
    overrides every requested volume, the amplifier switch, and the speak
    and play goals up to the announcement they publish. */
module Speaker {
  import opened Wrappers
  import opened Values
  import opened Devices

  /** The volume used when no value was persisted. */
  const DefaultVolume: real := 70.0

  datatype Speaker = Speaker(name: string, mode: Mode, enabled: bool, globalVolume: Value)

  /** The constructor's checks and the global volume it starts with: the
      persisted value truncated to an integer, or 70 when none was
      persisted. A speak mode other than espeak or google raises. */
  function Create(name: string, mode: Mode, speakMode: string, persisted: Option<real>): (r: Result<Speaker>)
    ensures r.Success? <==> speakMode == "espeak" || speakMode == "google"
    ensures r.Success? ==> r.value.enabled && r.value.name == name && r.value.mode == mode
    ensures r.Success? && persisted.None? ==> r.value.globalVolume == Num(DefaultVolume)
    ensures r.Success? && persisted.Some? ==> r.value.globalVolume == Num(Trunc(persisted.value) as real)
  {
    if speakMode != "espeak" && speakMode != "google" then Failure("ValueError: Parameter <speaker_mode> value error")
    else
      var v := if persisted.None? then DefaultVolume else persisted.value;
      Success(Speaker(name, mode, true, Num(Trunc(v) as real)))
  }

  /** The declaration the speaker sends the transform registry when it is
      built: hosted by the pan-tilt its configuration names, else by the
      robot. */
  function TfPackage(conf: DeviceConf, pack: string, deviceName: string, id: nat): (d: Assoc<string, Value>)
    ensures HasKey(d, "host") && HasKey(d, "host_type") && HasKey(d, "name")
    ensures conf.host.Some? ==> Lookup(d, "host") == conf.host.value && Lookup(d, "host_type") == Str("pan_tilt")
    ensures conf.host.None? ==> Lookup(d, "host") == Str(deviceName) && Lookup(d, "host_type") == Str("robot")
    ensures conf.name.Some? ==> Lookup(d, "name") == Str(conf.name.value)
  {
    var name := DeviceName(conf, id);
    Declaration(SpeakerFamily, conf, BaseTopic(pack, SpeakerFamily, name), name, deviceName, true)
  }

  /** `global_volume` holds a number: it is never `None` once built. */
  predicate VolumeSet(s: Speaker) {
    NumOf(s.globalVolume).Some?
  }

  /** `set_global_volume_callback` accepts the message. */
  predicate Accepted(message: Value) {
    Get(message, "volume").Success? && NumOf(message.fields["volume"]).Some? &&
    0.0 <= NumOf(message.fields["volume"]).value <= 100.0
  }

  /** `set_global_volume_callback`: a volume that is missing, not a number,
      or outside [0, 100] raises ValueError and the speaker keeps its
      volume; an accepted one is stored. The reply is `{}`. */
  function SetGlobalVolume(s: Speaker, message: Value): (r: Result<(Speaker, Value)>)
    ensures r.Success? <==> Accepted(message)
    ensures r.Success? ==> r.value.0 == s.(globalVolume := message.fields["volume"]) && VolumeSet(r.value.0)
    ensures r.Success? ==> r.value.1 == Obj(map[])
  {
    var vol :- Get(message, "volume").MapFailure(e => "ValueError: Global volume message is erroneous");
    match NumOf(vol)
    case None => Failure("ValueError: Global volume message is erroneous")
    case Some(v) =>
      if v < 0.0 || v > 100.0 then Failure("ValueError: Global volume must be between 0 and 100")
      else Success((s.(globalVolume := vol), Obj(map[])))
  }

  /** `set_amp_callback`: the reply's status and the command given to the
      amplifier (on or off). Only an enabled speaker with a boolean
      `state` switches the amplifier and answers True. */
  function SetAmp(s: Speaker, message: Value): (r: (bool, Option<bool>))
    ensures r.0 <==> (s.enabled && message.Obj? && "state" in message.fields && message.fields["state"].Bool?)
    ensures r.0 ==> r.1 == Some(message.fields["state"].b)
    ensures !r.0 ==> r.1.None?
  {
    if !s.enabled then (false, None)
    else match Get(message, "state")
      case Success(Bool(on)) => (true, Some(on))
      case _ => (false, None)
  }

  /** `enable_callback` / `disable_callback`: the flag changes and the
      global volume is kept; a disabled speaker ignores every goal. */
  function SetEnabled(s: Speaker, on: bool): (r: (Speaker, Value))
    ensures r.0.enabled == on && r.1 == EnabledReply(on)
    ensures r.0.globalVolume == s.globalVolume
    ensures !on ==> forall goal :: Speak(r.0, goal) == Success(Ignored) && Play(r.0, goal) == Success(Ignored)
  {
    (s.(enabled := on), EnabledReply(on))
  }

  /** What a goal led to: a disabled speaker answers `{}` at once;
      otherwise the announcement published on the notify topic. */
  datatype GoalOutcome = Ignored | Announced(payload: map<string, Value>)

  /** `on_goal_speak` up to its announcement. `text`, `volume` and
      `language` must all be present (a missing one leaves a variable
      unbound and the publish raises); the requested volume is replaced
      by the global one whenever that is set. */
  function Speak(s: Speaker, goal: Value): (r: Result<GoalOutcome>)
    ensures !s.enabled ==> r == Success(Ignored)
    ensures s.enabled ==> (r.Success? <==> (goal.Obj? && "text" in goal.fields && "volume" in goal.fields &&
      "language" in goal.fields))
    ensures s.enabled && r.Success? ==> (r.value.Announced? &&
      r.value.payload.Keys == {"text", "volume", "language", "speaker"} &&
      r.value.payload["text"] == goal.fields["text"] && r.value.payload["language"] == goal.fields["language"] &&
      r.value.payload["speaker"] == Str(s.name) &&
      r.value.payload["volume"] == (if s.globalVolume.Null? then goal.fields["volume"] else s.globalVolume))
  {
    if !s.enabled then Success(Ignored)
    else
      var text :- Get(goal, "text");
      var requested :- Get(goal, "volume");
      var volume := if !s.globalVolume.Null? then s.globalVolume else requested;
      var language :- Get(goal, "language");
      Success(Announced(map["text" := text, "volume" := volume, "language" := language, "speaker" := Str(s.name)]))
  }

  /** `on_goal_play` up to its announcement. `string` and `volume` must be
      present; the volume is replaced by the global one only when
      `is_file` is present too, because reading the missing `is_file`
      raises before the override and the handler carries on. */
  function Play(s: Speaker, goal: Value): (r: Result<GoalOutcome>)
    ensures !s.enabled ==> r == Success(Ignored)
    ensures s.enabled ==> (r.Success? <==> (goal.Obj? && "string" in goal.fields && "volume" in goal.fields))
    ensures s.enabled && r.Success? ==> (r.value.Announced? &&
      r.value.payload.Keys == {"text", "volume"} && r.value.payload["text"] == goal.fields["string"] &&
      r.value.payload["volume"] ==
        (if "is_file" in goal.fields && !s.globalVolume.Null? then s.globalVolume else goal.fields["volume"]))
  {
    if !s.enabled then Success(Ignored)
    else
      var source :- Get(goal, "string");
      var requested :- Get(goal, "volume");
      var volume := if Get(goal, "is_file").Success? && !s.globalVolume.Null? then s.globalVolume else requested;
      Success(Announced(map["text" := source, "volume" := volume]))
  }

  /** Accept each global-volume request in turn, skipping refused ones: only
      the volume changes, refused requests change nothing, and the last
      request, when accepted, decides it. */
  function SetVolumes(s: Speaker, messages: seq<Value>): (r: Speaker)
    ensures r == s.(globalVolume := r.globalVolume)
    ensures (forall j :: 0 <= j < |messages| ==> !Accepted(messages[j])) ==> r == s
    ensures messages != [] && Accepted(messages[|messages| - 1]) ==> r.globalVolume == messages[|messages| - 1].fields["volume"]
    decreases |messages|
  {
    if messages == [] then s
    else
      var s1 := SetVolumes(s, messages[..|messages| - 1]);
      match SetGlobalVolume(s1, messages[|messages| - 1])
      case Success(p) => p.0
      case Failure(_) => s1
  }

  /** Whatever global-volume requests follow construction, the volume stays
      set, so every speak announces the global volume and never the one
      the goal asked for. */
  lemma {:induction false} GlobalVolumeAlwaysWins(name: string, mode: Mode, speakMode: string,
      persisted: Option<real>, messages: seq<Value>, goal: Value)
    requires Create(name, mode, speakMode, persisted).Success?
    ensures var s := SetVolumes(Create(name, mode, speakMode, persisted).value, messages);
      VolumeSet(s) &&
      (Speak(s, goal).Success? && Speak(s, goal).value.Announced? ==>
        Speak(s, goal).value.payload["volume"] == s.globalVolume)
  {
    VolumesStaySet(Create(name, mode, speakMode, persisted).value, messages);
  }

  lemma {:induction false} VolumesStaySet(s: Speaker, messages: seq<Value>)
    requires VolumeSet(s)
    ensures VolumeSet(SetVolumes(s, messages))
    ensures SetVolumes(s, messages).enabled == s.enabled && SetVolumes(s, messages).name == s.name
    decreases |messages|
  {
    if messages != [] {
      VolumesStaySet(s, messages[..|messages| - 1]);
    }
  }
}

=== FILE: tf_affection.dfy ===
/** Which declared things affect a device: the ranged test (an affector
    reaches a device closer than the affector's range), the arced test (a
    device with a field of view sees a target closer than the device's range
    and inside its window), the per-device-class handlers built from them and
    `check_affectability`, which dispatches on the device's subclass list.
    Results are insertion-ordered dicts keyed by the affector's name. */
module TfAffection {
  import opened Wrappers
  import opened Values
  import opened Geometry
  import opened TfDeclare
  import opened TfTree

  /** One entry of an affection dict. `Ranged` and `Arced` carry the fields
      the ranged and arced tests report; `Within` is what the area alarm and
      the distance sensor report about a robot. */
  datatype Affection =
    | Ranged(kind: string, info: Value, distance: real, range: Value, name: Value, id: Value)
    | Arced(kind: string, info: Value, distance: real, minAng: real, maxAng: real, actorAng: real,
            name: Value, id: Value)
    | Within(distance: real, range: Value)

  /** The affection as the dict the source builds. */
  function AsValue(a: Affection): (v: Value)
    ensures v.Obj? && "distance" in v.fields && v.fields["distance"] == Num(a.distance)
    ensures !a.Within? ==> ("type" in v.fields && v.fields["type"] == Str(a.kind) &&
      "info" in v.fields && v.fields["info"] == a.info)
  {
    match a
    case Ranged(kind, info, d, range, name, id) =>
      Obj(map["type" := Str(kind), "info" := info, "distance" := Num(d), "range" := range,
              "name" := name, "id" := id])
    case Arced(kind, info, d, minA, maxA, ang, name, id) =>
      Obj(map["type" := Str(kind), "info" := info, "distance" := Num(d), "min_sensor_ang" := Num(minA),
              "max_sensor_ang" := Num(maxA), "actor_ang" := Num(ang), "name" := name, "id" := id])
    case Within(d, range) => Obj(map["distance" := Num(d), "range" := range])
  }

  type Hits = Assoc<Value, Affection>

  // ---------------------------------------------------------------------------
  // Distances

  /** `[pl['x'], pl['y']]` of the absolute pose of `n`. */
  function XYOf(abs: Places, n: Value): (r: Result<(Value, Value)>)
    ensures r.Success? <==> FieldOf(abs, n, "x").Success? && FieldOf(abs, n, "y").Success?
    ensures r.Success? ==> r.value == (abs[Key(n)]["x"], abs[Key(n)]["y"])
  {
    var x :- FieldOf(abs, n, "x");
    var y :- FieldOf(abs, n, "y");
    Success((x, y))
  }

  /** Coordinates as numbers; the subtraction in `calc_distance` raises on
      anything else. */
  function PointOf(xy: (Value, Value)): (r: Result<Point>)
    ensures r.Success? <==> NumOf(xy.0).Some? && NumOf(xy.1).Some?
    ensures r.Success? ==> r.value.x == NumOf(xy.0).value && r.value.y == NumOf(xy.1).value
  {
    match (NumOf(xy.0), NumOf(xy.1))
    case (Some(x), Some(y)) => Success(Point(x, y))
    case _ => Failure("TypeError: unsupported operand type(s) for -")
  }

  /** `calc_distance(a, b)`. */
  function CalcDistance(trig: Trig, a: (Value, Value), b: (Value, Value)): (r: Result<real>)
    ensures r.Success? <==> PointOf(a).Success? && PointOf(b).Success?
    ensures r.Success? ==> r.value == Distance(trig, PointOf(a).value, PointOf(b).value)
  {
    var p :- PointOf(a);
    var q :- PointOf(b);
    Success(Distance(trig, p, q))
  }

  /** The distance from `xy` to the absolute position of `f`. */
  function DistanceTo(trig: Trig, t: Tf, xy: (Value, Value), f: Value): (r: Result<real>)
    ensures r.Success? <==> XYOf(t.abs, f).Success? && CalcDistance(trig, xy, XYOf(t.abs, f).value).Success?
    ensures r.Success? ==> r.value == CalcDistance(trig, xy, XYOf(t.abs, f).value).value
  {
    var fxy :- XYOf(t.abs, f);
    CalcDistance(trig, xy, fxy)
  }

  /** `per_type[...]` along a category path. */
  function CategoryOf(reg: Registry, path: seq<string>): (r: Result<seq<Value>>)
    ensures r.Success? <==> path in reg.perType
    ensures r.Success? ==> r.value == reg.perType[path]
  {
    if path in reg.perType then Success(reg.perType[path]) else Failure("KeyError")
  }

  // ---------------------------------------------------------------------------
  // handle_affection_ranged

  /** `handle_affection_ranged`: `f` affects the point `xy` when the
      distance is strictly below `f`'s own range. Missing properties are
      reported as `{}`. */
  function HandleRanged(trig: Trig, t: Tf, xy: (Value, Value), f: Value, kind: string): (r: Result<Option<Affection>>)
    ensures r.Success? ==>
      DistanceTo(trig, t, xy, f).Success? && InfoOf(t.reg, f).Success? &&
      "range" in InfoOf(t.reg, f).value && NumOf(InfoOf(t.reg, f).value["range"]).Some?
    ensures r.Success? ==>
      (r.value.Some? <==> DistanceTo(trig, t, xy, f).value < NumOf(InfoOf(t.reg, f).value["range"]).value)
    ensures r.Success? && r.value.Some? ==>
      var a := r.value.value;
      a.Ranged? && a.kind == kind && a.distance == DistanceTo(trig, t, xy, f).value &&
      a.range == InfoOf(t.reg, f).value["range"] &&
      "properties" in InfoOf(t.reg, f).value &&
      a.info == (var props := InfoOf(t.reg, f).value["properties"]; if props.Null? then Obj(map[]) else props) &&
      "name" in InfoOf(t.reg, f).value && a.name == InfoOf(t.reg, f).value["name"] &&
      "id" in InfoOf(t.reg, f).value && a.id == InfoOf(t.reg, f).value["id"]
  {
    var d :- DistanceTo(trig, t, xy, f);
    var decl :- InfoOf(t.reg, f);
    var props :- Field(decl, "properties");
    var range :- Field(decl, "range");
    var below :- LessThan(d, range);
    if !below then Success(None)
    else
      var name :- Field(decl, "name");
      var id :- Field(decl, "id");
      Success(Some(Ranged(kind, if props.Null? then Obj(map[]) else props, d, range, name, id)))
  }

  /** `declarations_info[f]['properties']['sound'] == 1`. */
  function Audible(reg: Registry, f: Value): (r: Result<bool>)
    ensures r == Success(true) ==> (InfoOf(reg, f).Success? && "properties" in InfoOf(reg, f).value &&
      Get(InfoOf(reg, f).value["properties"], "sound").Success? &&
      PyEq(InfoOf(reg, f).value["properties"].fields["sound"], Num(1.0)))
  {
    var d :- InfoOf(reg, f);
    var props :- Field(d, "properties");
    var s :- Get(props, "sound");
    Success(PyEq(s, Num(1.0)))
  }

  /** `f` is tested (it is audible when only audible affectors count) and
      found in range. */
  predicate RangedHit(trig: Trig, t: Tf, xy: (Value, Value), f: Value, kind: string, audibleOnly: bool) {
    (!audibleOnly || Audible(t.reg, f) == Success(true)) &&
    HandleRanged(trig, t, xy, f, kind).Success? && HandleRanged(trig, t, xy, f, kind).value.Some?
  }

  /** One loop of a ranged handler over the affectors `fs` of one kind:
      `ret[f] = r` for every affector in range. */
  function RangedPass(trig: Trig, t: Tf, xy: (Value, Value), fs: seq<Value>, kind: string, audibleOnly: bool,
                      ret: Hits): (r: Result<Hits>)
    decreases |fs|
  {
    if fs == [] then Success(ret)
    else
      var f := fs[0];
      var tested :- if audibleOnly then Audible(t.reg, f) else Success(true);
      var a :- if tested then HandleRanged(trig, t, xy, f, kind) else Success(None);
      RangedPass(trig, t, xy, fs[1..], kind, audibleOnly, if a.Some? then Put(ret, Key(f), a.value) else ret)
  }

  /** The dict after one affector: `ret[f] = r` when it is a hit. */
  function RangedAdd(trig: Trig, t: Tf, xy: (Value, Value), f: Value, kind: string, audibleOnly: bool,
                     ret: Hits): Hits
  {
    if RangedHit(trig, t, xy, f, kind, audibleOnly) then Put(ret, Key(f), HandleRanged(trig, t, xy, f, kind).value.value)
    else ret
  }

  /** One iteration of the loop: the rest of the pass starts from the dict
      the first affector left, which gained at most that affector's key. */
  lemma RangedStep(trig: Trig, t: Tf, xy: (Value, Value), fs: seq<Value>, kind: string, audibleOnly: bool,
                   ret: Hits, k: Value)
    requires fs != [] && RangedPass(trig, t, xy, fs, kind, audibleOnly, ret).Success?
    ensures var ret1 := RangedAdd(trig, t, xy, fs[0], kind, audibleOnly, ret);
      RangedPass(trig, t, xy, fs, kind, audibleOnly, ret) == RangedPass(trig, t, xy, fs[1..], kind, audibleOnly, ret1) &&
      (HasKey(ret1, k) <==> HasKey(ret, k) || (Key(fs[0]) == k && RangedHit(trig, t, xy, fs[0], kind, audibleOnly)))
  {
  }

  /** After a pass, the dict holds what it held before plus exactly the
      affectors found in range. */
  lemma {:induction false} RangedPassKeys(trig: Trig, t: Tf, xy: (Value, Value), fs: seq<Value>, kind: string,
                                          audibleOnly: bool, ret: Hits, k: Value)
    requires RangedPass(trig, t, xy, fs, kind, audibleOnly, ret).Success?
    ensures HasKey(RangedPass(trig, t, xy, fs, kind, audibleOnly, ret).value, k) <==>
      HasKey(ret, k) || exists i :: 0 <= i < |fs| && Key(fs[i]) == k && RangedHit(trig, t, xy, fs[i], kind, audibleOnly)
    decreases |fs|
  {
    if fs != [] {
      var rest := fs[1..];
      var ret1 := RangedAdd(trig, t, xy, fs[0], kind, audibleOnly, ret);
      RangedStep(trig, t, xy, fs, kind, audibleOnly, ret, k);
      RangedPassKeys(trig, t, xy, rest, kind, audibleOnly, ret1, k);
      FoundCons(fs, f => RangedHit(trig, t, xy, f, kind, audibleOnly), k);
    }
  }

  /** Some element of a loop with key `k` is found exactly when the first
      one is, or one of the rest is. */
  lemma FoundCons(fs: seq<Value>, found: Value -> bool, k: Value)
    requires fs != []
    ensures (exists i :: 0 <= i < |fs| && Key(fs[i]) == k && found(fs[i])) <==>
      (Key(fs[0]) == k && found(fs[0])) || (exists i :: 0 <= i < |fs[1..]| && Key(fs[1..][i]) == k && found(fs[1..][i]))
  {
    var rest := fs[1..];
    if exists i :: 0 <= i < |fs| && Key(fs[i]) == k && found(fs[i]) {
      var i :| 0 <= i < |fs| && Key(fs[i]) == k && found(fs[i]);
      if i > 0 {
        assert rest[i - 1] == fs[i];
      }
    }
    if exists i :: 0 <= i < |rest| && Key(rest[i]) == k && found(rest[i]) {
      var i :| 0 <= i < |rest| && Key(rest[i]) == k && found(rest[i]);
      assert fs[i + 1] == rest[i];
    }
  }

  /** A group of a handler: the category it scans, the kind it reports,
      whether only audible affectors count, and the field of the effector's
      own reading that each reported entry's `info` gains (empty for none). */
  datatype Group = Group(path: seq<string>, kind: string, audibleOnly: bool, reading: string)

  /** What the `get` RPC of each effector answers, by the effector's name.
      The effectors are other controllers; a name missing here is an
      effector whose RPC client does not exist. */
  type Replies = map<Value, Value>

  /** The entry can take its effector's reading: it is not of the group's
      kind, or its effector answered with the field and its `info` is a
      dict. */
  predicate Readable(k: Value, a: Affection, kind: string, field: string, replies: Replies) {
    !(a.Ranged? && a.kind == kind) || (k in replies && Get(replies[k], field).Success? && a.info.Obj?)
  }

  /** The entry with its effector's reading written into its `info`, when it
      is of the group's kind. */
  function Read(k: Value, a: Affection, kind: string, field: string, replies: Replies): Affection
    requires Readable(k, a, kind, field, replies)
  {
    match a
    case Ranged(kd, info, d, range, name, id) =>
      if kd == kind then Ranged(kd, Obj(info.fields[field := replies[k].fields[field]]), d, range, name, id) else a
    case _ => a
  }

  /** `r['info'][field] = effectors_get_rpcs[f].call({})[field]` for every
      entry of the group's kind. Within one handler the groups' kinds are
      distinct, so these are the entries the group's own loop reported. It
      fails when an effector has no client, its answer lacks the field, or
      the entry's `info` is not a dict. */
  function WithReading(hits: Hits, kind: string, field: string, replies: Replies): (r: Result<Hits>)
    ensures r.Success? <==> forall i :: 0 <= i < |hits| ==> Readable(hits[i].0, hits[i].1, kind, field, replies)
    ensures r.Success? ==> |r.value| == |hits|
    ensures r.Success? ==>
      forall i :: 0 <= i < |hits| ==> r.value[i] == (hits[i].0, Read(hits[i].0, hits[i].1, kind, field, replies))
    decreases |hits|
  {
    if hits == [] then Success([])
    else
      var (k, a) := hits[0];
      var rest :- WithReading(hits[1..], kind, field, replies);
      assert forall i :: 1 <= i < |hits| ==> hits[i] == hits[1..][i - 1];
      if !(a.Ranged? && a.kind == kind) then Success([hits[0]] + rest)
      else if k !in replies then Failure("KeyError")
      else
        var v :- Get(replies[k], field);
        if a.info.Obj? then Success([(k, Read(k, a, kind, field, replies))] + rest)
        else Failure("TypeError: object does not support item assignment")
  }

  /** After the reading, an entry of the group's kind reports the effector's
      answer under the field and its other `info` fields as before; the
      dict's keys, their order, and every other entry are unchanged. */
  lemma ReadingReported(hits: Hits, kind: string, field: string, replies: Replies, i: int)
    requires WithReading(hits, kind, field, replies).Success? && 0 <= i < |hits|
    ensures var r := WithReading(hits, kind, field, replies).value;
      Keys(r) == Keys(hits) &&
      (hits[i].1.Ranged? && hits[i].1.kind == kind ==>
        hits[i].0 in replies && r[i].1.info.Obj? && hits[i].1.info.Obj? &&
        Get(r[i].1.info, field) == Get(replies[hits[i].0], field) &&
        (forall g :: g in hits[i].1.info.fields && g != field ==> g in r[i].1.info.fields && r[i].1.info.fields[g] == hits[i].1.info.fields[g]) &&
        AsValue(r[i].1).fields["type"] == AsValue(hits[i].1).fields["type"] &&
        AsValue(r[i].1).fields["distance"] == AsValue(hits[i].1).fields["distance"]) &&
      (!(hits[i].1.Ranged? && hits[i].1.kind == kind) ==> r[i] == hits[i])
  {
    var r := WithReading(hits, kind, field, replies).value;
    assert Readable(hits[i].0, hits[i].1, kind, field, replies);
    assert forall j :: 0 <= j < |hits| ==> Keys(r)[j] == Keys(hits)[j];
  }

  /** The loops of a ranged handler, one group after the other. */
  function RangedGroups(trig: Trig, replies: Replies, t: Tf, xy: (Value, Value), groups: seq<Group>, ret: Hits): (r: Result<Hits>)
    decreases |groups|
  {
    if groups == [] then Success(ret)
    else
      var g := groups[0];
      var fs :- CategoryOf(t.reg, g.path);
      var ret1 :- RangedPass(trig, t, xy, fs, g.kind, g.audibleOnly, ret);
      var ret2 :- if g.reading == "" then Success(ret1) else WithReading(ret1, g.kind, g.reading, replies);
      RangedGroups(trig, replies, t, xy, groups[1..], ret2)
  }

  /** A ranged handler: the device's position, then its groups. */
  function RangedHandler(trig: Trig, replies: Replies, t: Tf, name: Value, groups: seq<Group>): (r: Result<Hits>)
    ensures r.Success? ==> XYOf(t.abs, name).Success?
  {
    var xy :- XYOf(t.abs, name);
    RangedGroups(trig, replies, t, xy, groups, [])
  }

  /** `handle_env_sensor_temperature`: thermostats and fires. */
  const TemperatureGroups: seq<Group> :=
    [Group(["env", "actuator", "thermostat"], "thermostat", false, "temperature"), Group(["actor", "fire"], "fire", false, "")]
  /** `handle_env_sensor_humidity`: humidifiers and water. */
  const HumidityGroups: seq<Group> :=
    [Group(["env", "actuator", "humidifier"], "humidifier", false, "humidity"), Group(["actor", "water"], "water", false, "")]
  /** `handle_env_sensor_gas`: humans and fires. */
  const GasGroups: seq<Group> :=
    [Group(["actor", "human"], "human", false, ""), Group(["actor", "fire"], "fire", false, "")]
  /** `handle_sensor_microphone`: humans making sound, and sound sources. */
  const MicrophoneGroups: seq<Group> :=
    [Group(["actor", "human"], "human", true, ""), Group(["actor", "sound_source"], "sound_source", false, "")]
  /** `handle_env_light_sensor`: LEDs (reported as `light`) and fires. */
  const LightGroups: seq<Group> :=
    [Group(["env", "actuator", "leds"], "light", false, ""), Group(["actor", "fire"], "fire", false, "")]

  // ---------------------------------------------------------------------------
  // handle_affection_arced

  /** A numeric operand of the window arithmetic. */
  function Numeric(v: Value): (r: Result<real>)
    ensures r.Success? <==> NumOf(v).Some?
    ensures r.Success? ==> r.value == NumOf(v).value
  {
    match NumOf(v)
    case Some(x) => Success(x)
    case None => Failure("TypeError: unsupported operand type")
  }

  /** The window and bearing part of `handle_affection_arced`, once the
      target is known to be in range: the sensor's heading plus or minus
      half its field of view, and the angle reported for the target. The
      target is seen exactly when its bearing, or the bearing shifted by a
      full turn either way, lies strictly inside the window; the angle
      reported is the bearing or the bearing plus a full turn, the latter
      also when it was the bearing minus a full turn that matched. */
  function Sighting(trig: Trig, sensor: Point, heading: real, fovDeg: real, target: Point): (r: (real, real, Option<real>))
    ensures r.0 == WindowMin(heading, fovDeg) && r.1 == WindowMax(heading, fovDeg)
    ensures var b := trig.atan2(target.y - sensor.y, target.x - sensor.x);
      r.2.Some? <==> InWindow(r.0, r.1, b) || InWindow(r.0, r.1, b + 2.0 * PI) || InWindow(r.0, r.1, b - 2.0 * PI)
    ensures var b := trig.atan2(target.y - sensor.y, target.x - sensor.x);
      r.2.Some? ==>
        (r.2.value == b || r.2.value == b + 2.0 * PI) &&
        (InWindow(r.0, r.1, r.2.value) || InWindow(r.0, r.1, r.2.value - 4.0 * PI))
  {
    var minA := WindowMin(heading, fovDeg);
    var maxA := WindowMax(heading, fovDeg);
    (minA, maxA, ArcAngleAsWritten(minA, maxA, trig.atan2(target.y - sensor.y, target.x - sensor.x)))
  }

  /** `handle_affection_arced`: the sensor `name` sees `f` when `f` is
      strictly closer than the sensor's range and its bearing, or the
      bearing shifted by a full turn either way, lies strictly inside the
      window. The angle reported is the one `Sighting` gives, so it lies in
      the window or a full turn above the bearing that did. A robot is
      reported by its name; anything else by its declaration. */
  function HandleArced(trig: Trig, t: Tf, name: Value, f: Value, kind: string): (r: Result<Option<Affection>>)
    ensures r.Success? ==>
      XYOf(t.abs, name).Success? && DistanceTo(trig, t, XYOf(t.abs, name).value, f).Success? &&
      InfoOf(t.reg, name).Success? && "range" in InfoOf(t.reg, name).value &&
      NumOf(InfoOf(t.reg, name).value["range"]).Some?
    ensures r.Success? && r.value.Some? ==>
      var a := r.value.value;
      a.Arced? && a.kind == kind && a.distance == DistanceTo(trig, t, XYOf(t.abs, name).value, f).value &&
      a.distance < NumOf(InfoOf(t.reg, name).value["range"]).value &&
      (InWindow(a.minAng, a.maxAng, a.actorAng) || InWindow(a.minAng, a.maxAng, a.actorAng - 4.0 * PI)) &&
      (kind == "robot" ==> a.info == f && a.name == f && a.id == Null)
    ensures r.Success? && DistanceTo(trig, t, XYOf(t.abs, name).value, f).value >= NumOf(InfoOf(t.reg, name).value["range"]).value ==>
      r.value.None?
  {
    var sxy :- XYOf(t.abs, name);
    var d :- DistanceTo(trig, t, sxy, f);
    var decl :- InfoOf(t.reg, name);
    var range :- Field(decl, "range");
    var below :- LessThan(d, range);
    if !below then Success(None)
    else
      var props :- Field(decl, "properties");
      var fovV :- Get(props, "fov");
      var fov :- Numeric(fovV);
      var thV :- FieldOf(t.abs, name, "theta");
      var heading :- Numeric(thV);
      var s := PointOf(sxy).value;
      var p := PointOf(XYOf(t.abs, f).value).value;
      match Sighting(trig, s, heading, fov, p)
      case (_, _, None) => Success(None)
      case (minA, maxA, Some(ang)) =>
        if kind == "robot" then Success(Some(Arced(kind, f, d, minA, maxA, ang, f, Null)))
        else
          var fd :- InfoOf(t.reg, f);
          var fprops :- Field(fd, "properties");
          var fname :- Field(fd, "name");
          var id :- Field(fd, "id");
          Success(Some(Arced(kind, fprops, d, minA, maxA, ang, fname, id)))
  }

  /** One loop of an arced handler over the targets `fs` of one kind. */
  function ArcedPass(trig: Trig, t: Tf, name: Value, fs: seq<Value>, kind: string, ret: Hits): (r: Result<Hits>)
    decreases |fs|
  {
    if fs == [] then Success(ret)
    else
      var a :- HandleArced(trig, t, name, fs[0], kind);
      ArcedPass(trig, t, name, fs[1..], kind, if a.Some? then Put(ret, Key(fs[0]), a.value) else ret)
  }

  /** The sensor `name` sees `f`. */
  predicate ArcedHit(trig: Trig, t: Tf, name: Value, f: Value, kind: string) {
    HandleArced(trig, t, name, f, kind).Success? && HandleArced(trig, t, name, f, kind).value.Some?
  }

  /** The dict after one target: `ret[f] = r` when it is seen. */
  function ArcedAdd(trig: Trig, t: Tf, name: Value, f: Value, kind: string, ret: Hits): Hits
    requires HandleArced(trig, t, name, f, kind).Success?
  {
    if ArcedHit(trig, t, name, f, kind) then Put(ret, Key(f), HandleArced(trig, t, name, f, kind).value.value)
    else ret
  }

  /** One iteration of the loop: the rest of the pass starts from the dict
      the first target left, which gained at most that target's key. */
  lemma ArcedStep(trig: Trig, t: Tf, name: Value, fs: seq<Value>, kind: string, ret: Hits, k: Value)
    requires fs != [] && ArcedPass(trig, t, name, fs, kind, ret).Success?
    ensures HandleArced(trig, t, name, fs[0], kind).Success?
    ensures var ret1 := ArcedAdd(trig, t, name, fs[0], kind, ret);
      ArcedPass(trig, t, name, fs, kind, ret) == ArcedPass(trig, t, name, fs[1..], kind, ret1) &&
      (HasKey(ret1, k) <==> HasKey(ret, k) || (Key(fs[0]) == k && ArcedHit(trig, t, name, fs[0], kind)))
  {
  }

  /** After a pass, the dict holds what it held before plus exactly the
      targets the sensor sees. */
  lemma {:induction false} ArcedPassSeen(trig: Trig, t: Tf, name: Value, fs: seq<Value>, kind: string, ret: Hits, k: Value)
    requires ArcedPass(trig, t, name, fs, kind, ret).Success?
    ensures HasKey(ArcedPass(trig, t, name, fs, kind, ret).value, k) <==>
      HasKey(ret, k) || exists i :: 0 <= i < |fs| && Key(fs[i]) == k && ArcedHit(trig, t, name, fs[i], kind)
    decreases |fs|
  {
    if fs != [] {
      var rest := fs[1..];
      ArcedStep(trig, t, name, fs, kind, ret, k);
      var ret1 := ArcedAdd(trig, t, name, fs[0], kind, ret);
      ArcedPassSeen(trig, t, name, rest, kind, ret1, k);
      FoundCons(fs, f => ArcedHit(trig, t, name, f, kind), k);
    }
  }

  /** The arced loops, one kind after the other. */
  function ArcedGroups(trig: Trig, t: Tf, name: Value, groups: seq<Group>, ret: Hits): (r: Result<Hits>)
    decreases |groups|
  {
    if groups == [] then Success(ret)
    else
      var fs :- CategoryOf(t.reg, groups[0].path);
      var ret1 :- ArcedPass(trig, t, name, fs, groups[0].kind, ret);
      ArcedGroups(trig, t, name, groups[1..], ret1)
  }

  /** `handle_sensor_camera`: humans, QR codes, barcodes, colours and texts,
      then, when asked, every robot. */
  const CameraGroups: seq<Group> := [
    Group(["actor", "human"], "human", false, ""), Group(["actor", "qr"], "qr", false, ""),
    Group(["actor", "barcode"], "barcode", false, ""), Group(["actor", "color"], "color", false, ""),
    Group(["actor", "text"], "text", false, "")]

  /** `handle_sensor_rfid_reader`: RFID tags. */
  const RfidGroups: seq<Group> := [Group(["actor", "rfid_tag"], "rfid_tag", false, "")]

  /** The device's own pose must have `x`, `y` and `theta`. */
  predicate Placed(abs: Places, name: Value) {
    XYOf(abs, name).Success? && FieldOf(abs, name, "theta").Success?
  }

  function ArcedHandler(trig: Trig, t: Tf, name: Value, groups: seq<Group>, withRobots: bool): (r: Result<Hits>)
    ensures r.Success? ==> Placed(t.abs, name)
  {
    if !Placed(t.abs, name) then Failure("KeyError")
    else
      var ret :- ArcedGroups(trig, t, name, groups, []);
      if withRobots then ArcedPass(trig, t, name, t.robots, "robot", ret) else Success(ret)
  }

  // ---------------------------------------------------------------------------
  // handle_area_alarm and handle_env_distance

  /** Both handlers report every robot strictly closer than the device's own
      range. The loop raises exactly when some robot has no measurable
      distance or the range is not a number. */
  function RobotsWithin(trig: Trig, t: Tf, xy: (Value, Value), range: Value, robots: seq<Value>, ret: Hits): (r: Result<Hits>)
    ensures r.Success? <==>
      forall i :: 0 <= i < |robots| ==> DistanceTo(trig, t, xy, robots[i]).Success? && NumOf(range).Some?
    decreases |robots|
  {
    if robots == [] then Success(ret)
    else
      var d :- DistanceTo(trig, t, xy, robots[0]);
      var below :- LessThan(d, range);
      RobotsWithin(trig, t, xy, range, robots[1..], if below then Put(ret, Key(robots[0]), Within(d, range)) else ret)
  }

  /** The robots reported are exactly those strictly within range. */
  lemma {:induction false} RobotsWithinKeys(trig: Trig, t: Tf, xy: (Value, Value), range: Value, robots: seq<Value>,
                                            ret: Hits, k: Value)
    requires RobotsWithin(trig, t, xy, range, robots, ret).Success?
    ensures HasKey(RobotsWithin(trig, t, xy, range, robots, ret).value, k) <==>
      HasKey(ret, k) || exists i :: (0 <= i < |robots| && Key(robots[i]) == k &&
        DistanceTo(trig, t, xy, robots[i]).Success? && LessThan(DistanceTo(trig, t, xy, robots[i]).value, range) == Success(true))
    decreases |robots|
  {
    if robots != [] {
      var rest := robots[1..];
      var d := DistanceTo(trig, t, xy, robots[0]).value;
      var below := LessThan(d, range).value;
      var ret1 := if below then Put(ret, Key(robots[0]), Within(d, range)) else ret;
      RobotsWithinKeys(trig, t, xy, range, rest, ret1, k);
      assert forall i :: 0 <= i < |rest| ==> rest[i] == robots[i + 1];
    }
  }

  function WithinHandler(trig: Trig, t: Tf, name: Value): (r: Result<Hits>)
    ensures r.Success? ==> Placed(t.abs, name) && InfoOf(t.reg, name).Success? && "range" in InfoOf(t.reg, name).value
  {
    if !Placed(t.abs, name) then Failure("KeyError")
    else
      var decl :- InfoOf(t.reg, name);
      var range :- Field(decl, "range");
      RobotsWithin(trig, t, XYOf(t.abs, name).value, range, t.robots, [])
  }

  // ---------------------------------------------------------------------------
  // check_affectability

  datatype Handler =
    | Temperature | Humidity | Gas | Microphone | Camera | AreaAlarm | LinearAlarm | EnvDistance
    | LightSensor | RfidReader | TempHumPressureGas

  /** What `check_affectability` answers: a dict of affections, or for the
      combined environmental sensor one such dict per quantity. */
  datatype Report = Flat(hits: Hits) | Combined(temperature: Hits, humidity: Hits, gas: Hits)

  /** The handler for one subclass. `handle_linear_alarm` reads an undefined
      name on every path, so it always raises. */
  function RunHandler(trig: Trig, replies: Replies, t: Tf, name: Value, h: Handler): (r: Result<Report>)
    ensures h == LinearAlarm ==> r.Failure?
    ensures h != TempHumPressureGas && r.Success? ==> r.value.Flat?
  {
    match h
    case Temperature => var hits :- RangedHandler(trig, replies, t, name, TemperatureGroups); Success(Flat(hits))
    case Humidity => var hits :- RangedHandler(trig, replies, t, name, HumidityGroups); Success(Flat(hits))
    case Gas => var hits :- RangedHandler(trig, replies, t, name, GasGroups); Success(Flat(hits))
    case Microphone => var hits :- RangedHandler(trig, replies, t, name, MicrophoneGroups); Success(Flat(hits))
    case LightSensor => var hits :- RangedHandler(trig, replies, t, name, LightGroups); Success(Flat(hits))
    case Camera => var hits :- ArcedHandler(trig, t, name, CameraGroups, false); Success(Flat(hits))
    case RfidReader => var hits :- ArcedHandler(trig, t, name, RfidGroups, false); Success(Flat(hits))
    case AreaAlarm => var hits :- WithinHandler(trig, t, name); Success(Flat(hits))
    case EnvDistance => var hits :- WithinHandler(trig, t, name); Success(Flat(hits))
    case LinearAlarm => Failure("NameError: name 'lin_enc' is not defined")
    case TempHumPressureGas =>
      var th :- RangedHandler(trig, replies, t, name, TemperatureGroups);
      var hu :- RangedHandler(trig, replies, t, name, HumidityGroups);
      var ga :- RangedHandler(trig, replies, t, name, GasGroups);
      Success(Combined(th, hu, ga))
  }

  /** The subclass checks of an environment device, in source order. */
  const EnvChecks: seq<(string, Handler)> := [
    ("temperature", Temperature), ("humidity", Humidity), ("gas", Gas), ("microphone", Microphone),
    ("camera", Camera), ("area_alarm", AreaAlarm), ("linear_alarm", LinearAlarm), ("sonar", EnvDistance),
    ("light_sensor", LightSensor)]

  /** The subclass checks of a robot device, in source order. */
  const RobotChecks: seq<(string, Handler)> := [
    ("microphone", Microphone), ("camera", Camera), ("rfid_reader", RfidReader),
    ("temp_hum_pressure_gas", TempHumPressureGas)]

  /** A check of the chain goes through: the subclass list can be asked
      about its subclass and, when it is listed, its handler answers. */
  predicate Runs(trig: Trig, replies: Replies, t: Tf, name: Value, subt: Value, c: (string, Handler)) {
    Get(subt, "subclass").Success? && Contains(subt.fields["subclass"], c.0).Success? &&
    (Contains(subt.fields["subclass"], c.0).value ==> RunHandler(trig, replies, t, name, c.1).Success?)
  }

  /** The chain of independent `if`s: every check whose subclass is listed
      runs its handler and replaces the answer. It raises exactly when some
      check does not go through. */
  function Dispatch(trig: Trig, replies: Replies, t: Tf, name: Value, subt: Value, checks: seq<(string, Handler)>, ret: Report): (r: Result<Report>)
    ensures r.Success? <==> forall i :: 0 <= i < |checks| ==> Runs(trig, replies, t, name, subt, checks[i])
    decreases |checks|
  {
    if checks == [] then Success(ret)
    else
      assert (forall i :: 0 <= i < |checks| ==> Runs(trig, replies, t, name, subt, checks[i])) ==>
        Runs(trig, replies, t, name, subt, checks[0]);
      var sub :- Get(subt, "subclass");
      var has :- Contains(sub, checks[0].0);
      var ret1 :- if has then RunHandler(trig, replies, t, name, checks[0].1) else Success(ret);
      Dispatch(trig, replies, t, name, subt, checks[1..], ret1)
  }

  /** The subclass list lists the check's subclass. */
  predicate Lists(subt: Value, s: string) {
    Get(subt, "subclass").Success? && Contains(subt.fields["subclass"], s) == Success(true)
  }

  /** The subclass list can be asked about the check's subclass and does not list it. */
  predicate Omits(subt: Value, s: string) {
    Get(subt, "subclass").Success? && Contains(subt.fields["subclass"], s) == Success(false)
  }

  /** A chain in which no check matches leaves the answer as it was. */
  lemma {:induction false} DispatchNoMatch(trig: Trig, replies: Replies, t: Tf, name: Value, subt: Value, checks: seq<(string, Handler)>, ret: Report)
    requires forall i :: 0 <= i < |checks| ==> Omits(subt, checks[i].0)
    ensures Dispatch(trig, replies, t, name, subt, checks, ret) == Success(ret)
    decreases |checks|
  {
    if checks != [] {
      assert Omits(subt, checks[0].0);
      assert forall i :: 0 <= i < |checks[1..]| ==> checks[1..][i] == checks[i + 1];
      DispatchNoMatch(trig, replies, t, name, subt, checks[1..], ret);
    }
  }

  /** When the check at `j` matches and every later one does not, the
      answer is what the handler at `j` answers: the last match wins. */
  lemma {:induction false} DispatchLastWins(trig: Trig, replies: Replies, t: Tf, name: Value, subt: Value, checks: seq<(string, Handler)>,
                                            ret: Report, j: int)
    requires 0 <= j < |checks| && Lists(subt, checks[j].0)
    requires forall i :: j < i < |checks| ==> Omits(subt, checks[i].0)
    requires Dispatch(trig, replies, t, name, subt, checks, ret).Success?
    ensures RunHandler(trig, replies, t, name, checks[j].1).Success?
    ensures Dispatch(trig, replies, t, name, subt, checks, ret) == RunHandler(trig, replies, t, name, checks[j].1)
    decreases |checks|
  {
    var rest := checks[1..];
    assert forall i :: 0 <= i < |rest| ==> rest[i] == checks[i + 1];
    DispatchStep(trig, replies, t, name, subt, checks, ret);
    var has := Contains(subt.fields["subclass"], checks[0].0).value;
    var ret1 := if has then RunHandler(trig, replies, t, name, checks[0].1).value else ret;
    if j == 0 {
      DispatchNoMatch(trig, replies, t, name, subt, rest, ret1);
    } else {
      DispatchLastWins(trig, replies, t, name, subt, rest, ret1, j - 1);
    }
  }

  /** One check of the chain: the subclass list is asked about it, and the
      rest of the chain starts from the handler's answer when it matched. */
  lemma DispatchStep(trig: Trig, replies: Replies, t: Tf, name: Value, subt: Value, checks: seq<(string, Handler)>, ret: Report)
    requires checks != [] && Dispatch(trig, replies, t, name, subt, checks, ret).Success?
    ensures Get(subt, "subclass").Success? && Contains(subt.fields["subclass"], checks[0].0).Success?
    ensures var has := Contains(subt.fields["subclass"], checks[0].0).value;
      (has ==> RunHandler(trig, replies, t, name, checks[0].1).Success?) &&
      Dispatch(trig, replies, t, name, subt, checks, ret) ==
        Dispatch(trig, replies, t, name, subt, checks[1..], if has then RunHandler(trig, replies, t, name, checks[0].1).value else ret)
  {
  }

  /** A matching check whose handler raises makes the whole chain raise. */
  lemma {:induction false} DispatchFailsWith(trig: Trig, replies: Replies, t: Tf, name: Value, subt: Value, checks: seq<(string, Handler)>,
                                             ret: Report, j: int)
    requires 0 <= j < |checks| && Lists(subt, checks[j].0)
    requires RunHandler(trig, replies, t, name, checks[j].1).Failure?
    ensures Dispatch(trig, replies, t, name, subt, checks, ret).Failure?
    decreases |checks|
  {
    assert !Runs(trig, replies, t, name, subt, checks[j]);
  }

  /** `check_affectability`: an unregistered name (or a declaration without
      type or subtype) raises "not in devices"; an environment or robot
      device runs the handlers its subclass list names; any other type
      answers `{}`. */
  function CheckAffectability(trig: Trig, replies: Replies, t: Tf, name: Value): (r: Result<Report>)
    ensures InfoOf(t.reg, name).Failure? ==> r.Failure?
    ensures r.Success? ==> "type" in InfoOf(t.reg, name).value && "subtype" in InfoOf(t.reg, name).value
    ensures r.Success? ==> (ChecksFor(InfoOf(t.reg, name).value["type"]) == [] ==> r == Success(Flat([])))
  {
    var decl :- InfoOf(t.reg, name).MapFailure(e => "not in devices");
    var ty :- Field(decl, "type").MapFailure(e => "not in devices");
    var subt :- Field(decl, "subtype").MapFailure(e => "not in devices");
    Dispatch(trig, replies, t, name, subt, ChecksFor(ty), Flat([])).MapFailure(e => "Error in device handling: " + e)
  }

  /** The checks a device of this type runs. */
  function ChecksFor(ty: Value): seq<(string, Handler)> {
    if PyEq(ty, Str("env")) then EnvChecks else if PyEq(ty, Str("robot")) then RobotChecks else []
  }

  /** A registered device whose subclass list names none of its type's
      subclasses is affected by nothing. */
  lemma UnknownSubclassUnaffected(trig: Trig, replies: Replies, t: Tf, name: Value)
    requires InfoOf(t.reg, name).Success?
    requires var d := InfoOf(t.reg, name).value;
      "type" in d && "subtype" in d &&
      forall i :: 0 <= i < |ChecksFor(d["type"])| ==> Omits(d["subtype"], ChecksFor(d["type"])[i].0)
    ensures CheckAffectability(trig, replies, t, name) == Success(Flat([]))
  {
    var d := InfoOf(t.reg, name).value;
    DispatchNoMatch(trig, replies, t, name, d["subtype"], ChecksFor(d["type"]), Flat([]));
  }

  /** The answer of a device whose subclass list names several handled
      subclasses is the answer of the last one in source order. */
  lemma LastSubclassWins(trig: Trig, replies: Replies, t: Tf, name: Value, j: int)
    requires InfoOf(t.reg, name).Success?
    requires var d := InfoOf(t.reg, name).value;
      "type" in d && "subtype" in d &&
      0 <= j < |ChecksFor(d["type"])| && Lists(d["subtype"], ChecksFor(d["type"])[j].0) &&
      forall i :: j < i < |ChecksFor(d["type"])| ==> Omits(d["subtype"], ChecksFor(d["type"])[i].0)
    requires CheckAffectability(trig, replies, t, name).Success?
    ensures var d := InfoOf(t.reg, name).value;
      CheckAffectability(trig, replies, t, name) == RunHandler(trig, replies, t, name, ChecksFor(d["type"])[j].1)
  {
    var d := InfoOf(t.reg, name).value;
    DispatchLastWins(trig, replies, t, name, d["subtype"], ChecksFor(d["type"]), Flat([]), j);
  }

  /** An environment device listing `linear_alarm` always raises. */
  lemma LinearAlarmRaises(trig: Trig, replies: Replies, t: Tf, name: Value)
    requires InfoOf(t.reg, name).Success?
    requires var d := InfoOf(t.reg, name).value;
      "type" in d && "subtype" in d && PyEq(d["type"], Str("env")) && Lists(d["subtype"], "linear_alarm")
    ensures CheckAffectability(trig, replies, t, name).Failure?
  {
    var d := InfoOf(t.reg, name).value;
    assert EnvChecks[6] == ("linear_alarm", LinearAlarm);
    DispatchFailsWith(trig, replies, t, name, d["subtype"], EnvChecks, Flat([]), 6);
  }

  /** `get_affections_callback`: any exception becomes the empty answer. */
  function GetAffections(trig: Trig, replies: Replies, t: Tf, message: Value): (r: Report)
    ensures Get(message, "name").Failure? ==> r == Flat([])
    ensures Get(message, "name").Success? && CheckAffectability(trig, replies, t, message.fields["name"]).Failure? ==> r == Flat([])
    ensures Get(message, "name").Success? && CheckAffectability(trig, replies, t, message.fields["name"]).Success? ==>
      r == CheckAffectability(trig, replies, t, message.fields["name"]).value
  {
    match Get(message, "name")
    case Failure(_) => Flat([])
    case Success(name) =>
      match CheckAffectability(trig, replies, t, name)
      case Success(rep) => rep
      case Failure(_) => Flat([])
  }

  // ---------------------------------------------------------------------------
  // speak_callback

  /** What `speak_callback` publishes on one microphone's topic. */
  datatype Heard = Heard(microphone: Value, speaker: Value, text: Value, language: Value)

  function MicsOf(hs: seq<Heard>): (ms: seq<Value>)
    ensures |ms| == |hs| && forall j :: 0 <= j < |hs| ==> ms[j] == hs[j].microphone
  {
    seq(|hs|, j requires 0 <= j < |hs| => hs[j].microphone)
  }

  /** The speaker's range: 4.0, strictly. */
  const Earshot: real := 4.0

  /** `n` is a registered microphone strictly closer than `Earshot` to the
      speaker's pose. */
  predicate WithinEarshot(trig: Trig, t: Tf, pose: Pose, n: Value) {
    IsDeviceOf(t.reg, n, "microphone") && "x" in pose && "y" in pose && XYOf(t.abs, n).Success? &&
    CalcDistance(trig, (pose["x"], pose["y"]), XYOf(t.abs, n).value).Success? &&
    CalcDistance(trig, (pose["x"], pose["y"]), XYOf(t.abs, n).value).value < Earshot
  }

  /** The body of the loop for a microphone `n`. */
  function HearOne(trig: Trig, t: Tf, speaker: Value, pose: Pose, message: Value, n: Value): (r: Result<seq<Heard>>)
    requires IsDeviceOf(t.reg, n, "microphone")
    ensures r.Success? ==> (|r.value| == 1 <==> WithinEarshot(trig, t, pose, n)) && |r.value| <= 1
    ensures r.Success? && |r.value| == 1 ==> (r.value[0].microphone == n && r.value[0].speaker == speaker &&
      Get(message, "text") == Success(r.value[0].text) && Get(message, "language") == Success(r.value[0].language))
  {
    var mxy :- XYOf(t.abs, n);
    var x :- Field(pose, "x");
    var y :- Field(pose, "y");
    var dist :- CalcDistance(trig, (x, y), mxy);
    if dist < Earshot then
      if Key(n) !in KeySet(t.microphones) then Failure("KeyError")
      else
        var text :- Get(message, "text");
        var lang :- Get(message, "language");
        Success([Heard(n, speaker, text, lang)])
    else Success([])
  }

  /** One iteration of the loop: a name that is not a microphone is skipped. */
  function HearIfMic(trig: Trig, t: Tf, speaker: Value, pose: Pose, message: Value, n: Value): (r: Result<seq<Heard>>)
    ensures r.Success? ==> |r.value| <= 1 && (|r.value| == 1 <==> WithinEarshot(trig, t, pose, n))
    ensures r.Success? && |r.value| == 1 ==> r.value[0].microphone == n && r.value[0].speaker == speaker
  {
    var d :- InfoOf(t.reg, n);
    var mic :- SubclassHas(d, "microphone");
    if mic then HearOne(trig, t, speaker, pose, message, n) else Success([])
  }

  /** The loop of `speak_callback` over the registered names. */
  function Relay(trig: Trig, t: Tf, speaker: Value, pose: Pose, message: Value, names: seq<Value>): (r: Result<seq<Heard>>)
    ensures r.Success? ==> forall j :: 0 <= j < |r.value| ==>
      r.value[j].microphone in names && WithinEarshot(trig, t, pose, r.value[j].microphone) &&
      r.value[j].speaker == speaker
    ensures r.Success? ==> forall i :: 0 <= i < |names| && WithinEarshot(trig, t, pose, names[i]) ==>
      names[i] in MicsOf(r.value)
    decreases |names|
  {
    if names == [] then Success([])
    else
      var here :- HearIfMic(trig, t, speaker, pose, message, names[0]);
      var rest :- Relay(trig, t, speaker, pose, message, names[1..]);
      JoinHeard(trig, t, speaker, pose, names, here, rest);
      Success(here + rest)
  }

  /** The heard list of the first name followed by that of the rest. */
  lemma JoinHeard(trig: Trig, t: Tf, speaker: Value, pose: Pose, names: seq<Value>, here: seq<Heard>, rest: seq<Heard>)
    requires names != []
    requires |here| <= 1 && (|here| == 1 <==> WithinEarshot(trig, t, pose, names[0]))
    requires |here| == 1 ==> here[0].microphone == names[0] && here[0].speaker == speaker
    requires forall j :: 0 <= j < |rest| ==>
      rest[j].microphone in names[1..] && WithinEarshot(trig, t, pose, rest[j].microphone) && rest[j].speaker == speaker
    requires forall i :: 1 <= i < |names| && WithinEarshot(trig, t, pose, names[i]) ==> names[i] in MicsOf(rest)
    ensures forall j :: 0 <= j < |here + rest| ==>
      (here + rest)[j].microphone in names && WithinEarshot(trig, t, pose, (here + rest)[j].microphone) &&
      (here + rest)[j].speaker == speaker
    ensures forall i :: 0 <= i < |names| && WithinEarshot(trig, t, pose, names[i]) ==> names[i] in MicsOf(here + rest)
  {
    JoinMics(names, here, rest, speaker, n => WithinEarshot(trig, t, pose, n));
  }

  /** `JoinHeard` for any test of closeness `near`. */
  lemma JoinMics(names: seq<Value>, here: seq<Heard>, rest: seq<Heard>, speaker: Value, near: Value -> bool)
    requires names != []
    requires |here| <= 1 && (|here| == 1 <==> near(names[0]))
    requires |here| == 1 ==> here[0].microphone == names[0] && here[0].speaker == speaker
    requires forall j :: 0 <= j < |rest| ==> rest[j].microphone in names[1..] && near(rest[j].microphone) && rest[j].speaker == speaker
    requires forall i :: 1 <= i < |names| && near(names[i]) ==> names[i] in MicsOf(rest)
    ensures forall j :: 0 <= j < |here + rest| ==>
      (here + rest)[j].microphone in names && near((here + rest)[j].microphone) && (here + rest)[j].speaker == speaker
    ensures forall i :: 0 <= i < |names| && near(names[i]) ==> names[i] in MicsOf(here + rest)
  {
    assert MicsOf(here + rest) == MicsOf(here) + MicsOf(rest);
  }

  /** `speak_callback`: every registered microphone strictly within
      `Earshot` of the speaker hears its text and language, in
      registration order. */
  function SpeakCallback(trig: Trig, t: Tf, message: Value): (r: Result<seq<Heard>>)
    ensures r.Success? ==> Get(message, "speaker").Success? && PoseOf(t.abs, message.fields["speaker"]).Success?
    ensures r.Success? ==> var pose := t.abs[Key(message.fields["speaker"])];
      (forall j :: 0 <= j < |r.value| ==> (r.value[j].microphone in t.reg.names &&
        WithinEarshot(trig, t, pose, r.value[j].microphone))) &&
      (forall i :: 0 <= i < |t.reg.names| && WithinEarshot(trig, t, pose, t.reg.names[i]) ==>
        t.reg.names[i] in MicsOf(r.value))
  {
    var name :- Get(message, "speaker");
    var pose :- PoseOf(t.abs, name);
    Relay(trig, t, name, pose, message, t.reg.names)
  }
}

=== FILE: tf_declare.dfy ===
/** The declaration registry of `TfController`: `declare_callback` validates
    a declaration against the eleven accepted fields, converts its heading
    from degrees to radians and stores it; `per_type_storage` files its name
    under a category list. Device names are arbitrary message values; the
    dict `declarations_info` is keyed by `Key(name)`, Python's notion of
    which names address the same entry. */
module TfDeclare {
  import opened Wrappers
  import opened Values
  import opened Geometry

  /** `declare_rpc_input`: the fields a declaration may carry. */
  const Whitelist: seq<string> :=
    ["type", "subtype", "name", "pose", "base_topic", "range", "fov", "host", "host_type", "properties", "id"]

  /** A stored declaration: every whitelisted field, `None` when not declared. */
  type Decl = map<string, Value>

  /** The category lists of `per_type`, each addressed by its key path. */
  const RobotSensors: seq<string> :=
    ["microphone", "sonar", "ir", "tof", "imu", "camera", "button", "env", "encoder", "line_follow", "rfid_reader"]
  const RobotActuators: seq<string> := ["speaker", "leds", "pan_tilt", "screen", "twist"]
  const EnvSensors: seq<string> :=
    ["ph", "temperature", "humidity", "gas", "camera", "sonar", "linear_alarm", "area_alarm", "light_sensor", "microphone"]
  const EnvActuators: seq<string> := ["thermostat", "relay", "pan_tilt", "speaker", "leds", "humidifier"]
  const Actors: seq<string> :=
    ["human", "superman", "sound_source", "qr", "barcode", "color", "text", "rfid_tag", "fire", "water"]

  /** The robot device classes filed by class rather than by first subclass. */
  const ClassFiled: seq<string> := ["imu", "button", "env", "encoder", "twist", "line_follow"]

  /** Every key path of `per_type` that ends in a category list. */
  function Categories(): set<seq<string>> {
    (set s | s in RobotSensors :: ["robot", "sensor", s]) +
    (set s | s in RobotActuators :: ["robot", "actuator", s]) +
    (set s | s in EnvSensors :: ["env", "sensor", s]) +
    (set s | s in EnvActuators :: ["env", "actuator", s]) +
    (set s | s in Actors :: ["actor", s])
  }

  predicate IsCategory(path: seq<string>) {
    path in Categories()
  }

  datatype Registry = Registry(
    declarations: seq<Decl>,
    info: map<Value, Decl>,
    names: seq<Value>,
    perType: map<seq<string>, seq<Value>>)

  /** The registry before any declaration: every category list empty. */
  function EmptyRegistry(): (r: Registry)
    ensures forall p :: p in r.perType <==> IsCategory(p)
    ensures forall p :: p in r.perType ==> r.perType[p] == []
    ensures r.declarations == [] && r.info == map[] && r.names == []
  {
    Registry([], map[], [], map p | p in Categories() :: [])
  }

  /** `names` lists each registered name once (up to Python equality), and
      `declarations_info` has exactly one entry per listed name. */
  predicate InStep(names: seq<Value>, info: map<Value, Decl>) {
    (forall i :: 0 <= i < |names| ==> Hashable(names[i])) &&
    (forall i, j :: 0 <= i < j < |names| ==> Key(names[i]) != Key(names[j])) &&
    (forall k :: k in info ==> exists i :: 0 <= i < |names| && Key(names[i]) == k) &&
    (forall i :: 0 <= i < |names| ==> Key(names[i]) in info)
  }

  predicate Consistent(r: Registry) {
    InStep(r.names, r.info)
  }

  /** Where a call left the registry (possibly half-updated when it raised),
      what it answered, and the error lines it logged. */
  datatype Outcome = Outcome(reg: Registry, reply: Result<Value>, errors: seq<string>)

  // ---------------------------------------------------------------------------
  // per_type_storage

  /** The value as a dict key of string-keyed `per_type`. */
  function AsCategoryKey(v: Value): Result<string> {
    if v.Str? then Success(v.s)
    else if Hashable(v) then Failure("KeyError")
    else Failure("TypeError: unhashable type")
  }

  /** The declaration's `type` is Python-equal to `s`. */
  predicate TypeIs(d: Decl, s: string) {
    "type" in d && PyEq(d["type"], Str(s))
  }

  /** `ClassFiled` as Python strings. */
  function ClassFiledValues(): seq<Value> {
    seq(|ClassFiled|, i requires 0 <= i < |ClassFiled| => Str(ClassFiled[i]))
  }

  /** The category path a declaration is filed under, `None` for a type that
      is not filed; a missing field or unknown category is an exception. An
      actor is filed under its subtype; an env device under its category
      and first subclass; a robot device under its category and its class
      when the class is one of `ClassFiled`, else its first subclass. */
  function CategoryPath(d: Decl): (r: Result<Option<seq<string>>>)
    ensures r.Success? && r.value.Some? ==> IsCategory(r.value.value)
    ensures !TypeIs(d, "actor") && !TypeIs(d, "env") && !TypeIs(d, "robot") ==> r == Success(None)
    ensures r.Success? && TypeIs(d, "actor") ==>
      "subtype" in d && d["subtype"].Str? && r.value == Some(["actor", d["subtype"].s])
    ensures r.Success? && (TypeIs(d, "env") || TypeIs(d, "robot")) ==>
      "subtype" in d && d["subtype"].Obj? && "subclass" in d["subtype"].fields && "category" in d["subtype"].fields &&
      r.value.Some? && |r.value.value| == 3 && r.value.value[0] == (if TypeIs(d, "env") then "env" else "robot") &&
      d["subtype"].fields["category"] == Str(r.value.value[1])
    ensures r.Success? && TypeIs(d, "env") ==>
      First(d["subtype"].fields["subclass"]) == Success(Str(r.value.value[2]))
    ensures r.Success? && TypeIs(d, "robot") ==>
      var sub := d["subtype"].fields;
      "class" in sub &&
      if InList(sub["class"], ClassFiledValues()) then sub["class"] == Str(r.value.value[2])
      else First(sub["subclass"]) == Success(Str(r.value.value[2]))
  {
    var ty := if "type" in d then d["type"] else Null;
    var sub := if "subtype" in d then d["subtype"] else Null;
    if PyEq(ty, Str("actor")) then
      var s :- AsCategoryKey(sub);
      if IsCategory(["actor", s]) then Success(Some(["actor", s])) else Failure("KeyError: " + s)
    else if PyEq(ty, Str("env")) || PyEq(ty, Str("robot")) then
      var root := if PyEq(ty, Str("env")) then "env" else "robot";
      var subclasses :- Get(sub, "subclass");
      var first :- First(subclasses);
      var category :- Get(sub, "category");
      var cls :- if root == "robot" then Get(sub, "class") else Success(Null);
      var leafValue := if root == "robot" && InList(cls, ClassFiledValues()) then cls else first;
      var c :- AsCategoryKey(category);
      var leaf :- AsCategoryKey(leafValue);
      if IsCategory([root, c, leaf]) then Success(Some([root, c, leaf])) else Failure("KeyError: " + leaf)
    else Success(None)
  }

  /** The env devices whose `get` RPC client is built at filing time. */
  const ReadBack: seq<string> := ["thermostat", "humidifier", "leds"]

  /** Filing `d` under `p` builds an RPC client named `base_topic + ".get"`,
      and `base_topic` is missing or not a string, so the concatenation
      raises. */
  predicate ClientTopicFails(d: Decl, p: seq<string>) {
    |p| == 3 && p[0] == "env" && p[2] in ReadBack && !("base_topic" in d && d["base_topic"].Str?)
  }

  /** Filing `d` goes through: its category path can be computed and no
      `get` client has to be built from a non-string `base_topic`. */
  predicate Fileable(d: Decl) {
    CategoryPath(d).Success? && !(CategoryPath(d).value.Some? && ClientTopicFails(d, CategoryPath(d).value.value))
  }

  /** `per_type_storage`: log a repeated name or else list it, then append the
      name to its category list; for an env thermostat, humidifier or leds
      the `get` client's topic is then built from `base_topic`, which raises
      after the name has been filed when `base_topic` is not a string. */
  function PerTypeStorage(r: Registry, d: Decl): (o: Outcome)
    requires "name" in d
    ensures var n := d["name"];
      o.reg.names == (if InList(n, r.names) then r.names else r.names + [n])
    ensures |o.errors| == (if InList(d["name"], r.names) then 1 else 0)
    ensures o.reg.declarations == r.declarations && o.reg.info == r.info
    ensures o.reply.Success? <==> Fileable(d)
    ensures CategoryPath(d).Success? && CategoryPath(d).value.Some? && CategoryPath(d).value.value in r.perType ==>
      var p := CategoryPath(d).value.value;
      o.reg.perType == r.perType[p := r.perType[p] + [d["name"]]]
    ensures o.reply.Success? && CategoryPath(d).value.None? ==> o.reg.perType == r.perType
  {
    var n := d["name"];
    var duplicate := InList(n, r.names);
    var r1 := if duplicate then r else r.(names := r.names + [n]);
    var errors := if duplicate then ["Name already exists"] else [];
    match CategoryPath(d)
    case Failure(e) => Outcome(r1, Failure(e), errors)
    case Success(None) => Outcome(r1, Success(Obj(map[])), errors)
    case Success(Some(p)) =>
      var list := if p in r1.perType then r1.perType[p] else [];
      var filed := r1.(perType := r1.perType[p := list + [n]]);
      if ClientTopicFails(d, p) then Outcome(filed, Failure("TypeError: can only concatenate str to str"), errors)
      else Outcome(filed, Success(Obj(map[])), errors)
  }

  /** An env thermostat declared without a topic is filed under its
      category list and then raises, because its topic is `None`. */
  lemma UntopicedThermostatRaises()
    ensures var d := map["type" := Str("env"), "name" := Str("t1"), "base_topic" := Null,
      "subtype" := Obj(map["category" := Str("actuator"), "subclass" := List([Str("thermostat")])])];
      var o := PerTypeStorage(EmptyRegistry(), d);
      o.reply.Failure? && o.reg.perType[["env", "actuator", "thermostat"]] == [Str("t1")] && o.reg.names == [Str("t1")]
  {
    var d := map["type" := Str("env"), "name" := Str("t1"), "base_topic" := Null,
      "subtype" := Obj(map["category" := Str("actuator"), "subclass" := List([Str("thermostat")])])];
    assert IsCategory(["env", "actuator", "thermostat"]) by {
      assert "thermostat" in EnvActuators;
    }
    assert CategoryPath(d) == Success(Some(["env", "actuator", "thermostat"]));
  }

  // ---------------------------------------------------------------------------
  // declare_callback

  predicate AllWhitelisted(message: Assoc<string, Value>) {
    forall i :: 0 <= i < |message| ==> message[i].0 in Whitelist
  }

  /** The declaration before the heading conversion: each whitelisted field
      copied from the message, `None` where the message lacks it. */
  function Normalise(message: Assoc<string, Value>): (d: Decl)
    ensures forall k :: k in d <==> k in Whitelist
    ensures forall k :: k in d ==> d[k] == if HasKey(message, k) then Lookup(message, k) else Null
  {
    map k | k in Whitelist :: if HasKey(message, k) then Lookup(message, k) else Null
  }

  /** `temp['pose']['theta'] *= math.pi/180.0` unless it is `None`; a pose that
      is not a dict with a `theta` field, or a heading that is not a number,
      raises. */
  function ConvertTheta(pose: Value): (r: Result<Value>)
    ensures r.Success? <==> (pose.Obj? && "theta" in pose.fields &&
      (pose.fields["theta"].Null? || NumOf(pose.fields["theta"]).Some?))
    ensures r.Success? && pose.fields["theta"].Null? ==> r.value == pose
    ensures r.Success? && !pose.fields["theta"].Null? ==>
      r.value.Obj? && r.value.fields.Keys == pose.fields.Keys &&
      (forall k :: k in pose.fields && k != "theta" ==> r.value.fields[k] == pose.fields[k]) &&
      r.value.fields["theta"].Num? && r.value.fields["theta"].r * 180.0 == NumOf(pose.fields["theta"]).value * PI
  {
    var theta :- Get(pose, "theta");
    if theta.Null? then Success(pose)
    else match NumOf(theta)
      case Some(deg) => Success(Obj(pose.fields["theta" := Num(deg * (PI / 180.0))]))
      case None => Failure("TypeError: can't multiply sequence by non-int of type 'float'")
  }

  /** The index of the first field outside the whitelist. */
  function FirstInvalid(message: Assoc<string, Value>): (i: nat)
    requires !AllWhitelisted(message)
    ensures i < |message| && message[i].0 !in Whitelist
    ensures forall j :: 0 <= j < i ==> message[j].0 in Whitelist
  {
    if message[0].0 !in Whitelist then 0 else 1 + FirstInvalid(message[1..])
  }

  /** The declaration `declare_callback` stores for an accepted message. */
  function Stored(message: Assoc<string, Value>): (d: Result<Decl>)
    ensures d.Success? <==> ConvertTheta(Normalise(message)["pose"]).Success?
    ensures d.Success? ==> "name" in d.value && "pose" in d.value && "host_type" in d.value
    ensures d.Success? ==>
      (forall k :: k in d.value <==> k in Whitelist) &&
      (forall k :: k in d.value && k != "pose" ==>
        d.value[k] == if HasKey(message, k) then Lookup(message, k) else Null) &&
      ConvertTheta(Normalise(message)["pose"]) == Success(d.value["pose"])
  {
    var temp := Normalise(message);
    assert "name" in Whitelist && "pose" in Whitelist && "host_type" in Whitelist;
    var pose :- ConvertTheta(temp["pose"]);
    Success(temp["pose" := pose])
  }

  /** Append to `declarations`, set `declarations_info[name]`, file the
      name; a name that cannot be a dict key raises after the append. */
  function Store(r: Registry, d: Decl): (o: Outcome)
    requires "name" in d
    ensures o.reg.declarations == r.declarations + [d]
    ensures !Hashable(d["name"]) ==> o.reg.info == r.info && o.reg.names == r.names && o.reply.Failure?
    ensures Hashable(d["name"]) ==>
      o.reg.info == r.info[Key(d["name"]) := d] &&
      o.reg.names == (if InList(d["name"], r.names) then r.names else r.names + [d["name"]]) &&
      (o.reply.Success? <==> Fileable(d))
  {
    var r1 := r.(declarations := r.declarations + [d]);
    var name := d["name"];
    if !Hashable(name) then Outcome(r1, Failure("TypeError: unhashable type"), [])
    else PerTypeStorage(r1.(info := r1.info[Key(name) := d]), d)
  }

  /** Whatever storing does, including raising half-way, the names list and
      `declarations_info` stay in step. */
  lemma StoreKeepsConsistent(r: Registry, d: Decl)
    requires "name" in d
    requires Consistent(r)
    ensures Consistent(Store(r, d).reg)
  {
    var o := Store(r, d);
    var name := d["name"];
    if Hashable(name) {
      if InList(name, r.names) {
        assert o.reg.names == r.names && o.reg.info == r.info[Key(name) := d];
        RefileKeepsInStep(r.names, r.info, name, d);
      } else {
        assert o.reg.names == r.names + [name] && o.reg.info == r.info[Key(name) := d];
        FileKeepsInStep(r.names, r.info, name, d);
      }
    }
  }

  /** Replacing the entry of a listed name keeps names and entries in step. */
  lemma RefileKeepsInStep(names: seq<Value>, info: map<Value, Decl>, name: Value, d: Decl)
    requires InStep(names, info) && Hashable(name) && InList(name, names)
    ensures InStep(names, info[Key(name) := d])
  {
    var j :| 0 <= j < |names| && PyEq(name, names[j]);
    KeyMatchesEquality(name, names[j]);
  }

  /** Listing a new name together with its entry keeps them in step. */
  lemma FileKeepsInStep(names: seq<Value>, info: map<Value, Decl>, name: Value, d: Decl)
    requires InStep(names, info) && Hashable(name) && !InList(name, names)
    ensures InStep(names + [name], info[Key(name) := d])
  {
    var names' := names + [name];
    forall i | 0 <= i < |names| ensures Key(names[i]) != Key(name) {
      KeyMatchesEquality(name, names[i]);
    }
    var info' := info[Key(name) := d];
    forall k | k in info' ensures exists i :: 0 <= i < |names'| && Key(names'[i]) == k {
      if k in info {
        var i :| 0 <= i < |names| && Key(names[i]) == k;
        assert names'[i] == names[i];
      } else {
        assert names'[|names|] == name;
      }
    }
  }

  /** A message with a field outside the whitelist: the field is logged
      (which reads the name) and the declaration dropped with reply `{}`. */
  function Reject(r: Registry, message: Assoc<string, Value>): (o: Outcome)
    requires !AllWhitelisted(message)
    ensures o.reg == r && |o.errors| == (if HasKey(message, "name") then 1 else 0)
    ensures o.reply.Success? <==> HasKey(message, "name")
    ensures o.reply.Success? ==> o.reply.value == Obj(map[])
  {
    var i := FirstInvalid(message);
    if HasKey(message, "name") then
      Outcome(r, Success(Obj(map[])), ["tf: Invalid declaration field: " + message[i].0])
    else Outcome(r, Failure("KeyError: name"), [])
  }

  /** A whitelisted message: an invalid `host_type` is only logged (but
      logging it reads the name); a pose without a usable heading raises
      before anything is stored; otherwise the declaration is stored. */
  function Accept(r: Registry, message: Assoc<string, Value>): (o: Outcome)
    requires AllWhitelisted(message)
    ensures Stored(message).Failure? ==> o.reg == r && o.reply.Failure?
    ensures Stored(message).Success? ==> "name" in Stored(message).value
    ensures Stored(message).Success? && o.reg != r ==>
      o.reg == Store(r, Stored(message).value).reg && o.reply == Store(r, Stored(message).value).reply
    ensures (Stored(message).Success? &&
      (!HasKey(message, "host_type") || InList(Lookup(message, "host_type"), [Str("robot"), Str("pan_tilt")]) ||
       HasKey(message, "name"))) ==>
      o.reg == Store(r, Stored(message).value).reg && o.reply == Store(r, Stored(message).value).reply
  {
    var badHost := HasKey(message, "host_type") &&
      !InList(Lookup(message, "host_type"), [Str("robot"), Str("pan_tilt")]);
    if badHost && !HasKey(message, "name") then Outcome(r, Failure("KeyError: name"), [])
    else
      var hostErrors := if badHost then ["tf: Invalid host type"] else [];
      match Stored(message)
      case Failure(e) => Outcome(r, Failure(e), hostErrors)
      case Success(d) =>
        var stored := Store(r, d);
        Outcome(stored.reg, stored.reply, hostErrors + stored.errors)
  }

  /** `declare_callback`: reject a message with a field outside the
      whitelist, otherwise accept it. */
  function Declare(r: Registry, message: Assoc<string, Value>): (o: Outcome)
    ensures !AllWhitelisted(message) ==>
      o.reg == r && |o.errors| == (if HasKey(message, "name") then 1 else 0) &&
      (o.reply.Success? <==> HasKey(message, "name")) &&
      (o.reply.Success? ==> o.reply.value == Obj(map[]))
    ensures AllWhitelisted(message) && Stored(message).Failure? ==> o.reg == r && o.reply.Failure?
    ensures AllWhitelisted(message) && Stored(message).Success? ==> "name" in Stored(message).value
    ensures AllWhitelisted(message) && Stored(message).Success? && o.reg != r ==>
      o.reg == Store(r, Stored(message).value).reg && o.reply == Store(r, Stored(message).value).reply
    ensures (AllWhitelisted(message) && Stored(message).Success? &&
      (!HasKey(message, "host_type") || InList(Lookup(message, "host_type"), [Str("robot"), Str("pan_tilt")]) ||
       HasKey(message, "name"))) ==>
      o.reg == Store(r, Stored(message).value).reg && o.reply == Store(r, Stored(message).value).reply
  {
    if !AllWhitelisted(message) then Reject(r, message) else Accept(r, message)
  }

  /** Hence the names list and `declarations_info` stay in step across any
      declaration. */
  lemma DeclareKeepsConsistent(r: Registry, message: Assoc<string, Value>)
    requires Consistent(r)
    ensures Consistent(Declare(r, message).reg)
  {
    var o := Declare(r, message);
    if !AllWhitelisted(message) || Stored(message).Failure? {
      assert o.reg == r;
    } else {
      var d := Stored(message).value;
      assert "name" in d;
      StoreKeepsConsistent(r, d);
      assert o.reg == r || o.reg == Store(r, d).reg;
    }
  }

  /** Declaring the same name twice keeps one entry in `names`, both
      declarations in `declarations`, and the second in `declarations_info`. */
  lemma RedeclareKeepsLatest(r: Registry, m1: Assoc<string, Value>, m2: Assoc<string, Value>)
    requires AllWhitelisted(m1) && AllWhitelisted(m2)
    requires HasKey(m1, "name") && HasKey(m2, "name") && Lookup(m1, "name") == Lookup(m2, "name")
    requires Hashable(Lookup(m1, "name"))
    requires Stored(m1).Success? && Stored(m2).Success?
    ensures var r1 := Declare(r, m1).reg;
      var r2 := Declare(r1, m2).reg;
      var n := Lookup(m1, "name");
      r2.declarations == r.declarations + [Stored(m1).value, Stored(m2).value] &&
      r2.info[Key(n)] == Stored(m2).value &&
      r2.names == (if InList(n, r.names) then r.names else r.names + [n])
  {
    var n := Lookup(m1, "name");
    DeclareStores(r, m1);
    var r1 := Declare(r, m1).reg;
    DeclareStores(r1, m2);
    StoresCompose(r, r1, Declare(r1, m2).reg, Stored(m1).value, Stored(m2).value, n);
  }

  /** Two stores under one name, in terms of the registries alone. */
  lemma StoresCompose(r: Registry, r1: Registry, r2: Registry, e1: Decl, e2: Decl, n: Value)
    requires r1.declarations == r.declarations + [e1] && r2.declarations == r1.declarations + [e2]
    requires r1.names == (if InList(n, r.names) then r.names else r.names + [n])
    requires r2.names == (if InList(n, r1.names) then r1.names else r1.names + [n])
    requires r2.info == r1.info[Key(n) := e2]
    ensures r2.declarations == r.declarations + [e1, e2]
    ensures r2.info[Key(n)] == e2
    ensures r2.names == r1.names
  {
    ListedOnce(r.names, n);
  }

  /** After listing a name unless it is listed, it is listed. */
  lemma ListedOnce(names: seq<Value>, n: Value)
    ensures InList(n, if InList(n, names) then names else names + [n])
  {
    if !InList(n, names) {
      assert (names + [n])[|names|] == n;
      assert PyEq(n, n);
    }
  }

  /** A whitelisted, storable declaration with a usable name is appended,
      filed under its name in `declarations_info`, and its name listed
      unless an equal one already is. */
  lemma DeclareStores(r: Registry, message: Assoc<string, Value>)
    requires AllWhitelisted(message) && Stored(message).Success?
    requires HasKey(message, "name") && Hashable(Lookup(message, "name"))
    ensures var o := Declare(r, message).reg;
      var n := Lookup(message, "name");
      o.declarations == r.declarations + [Stored(message).value] &&
      o.info == r.info[Key(n) := Stored(message).value] &&
      o.names == (if InList(n, r.names) then r.names else r.names + [n])
  {
    StoredName(message);
  }

  /** A declared name is stored as declared. */
  lemma StoredName(message: Assoc<string, Value>)
    requires Stored(message).Success? && HasKey(message, "name")
    ensures Stored(message).value["name"] == Lookup(message, "name")
  {
  }
}

=== FILE: tf_detection.dfy ===
/** `get_sim_detection_callback`: a simulated detection by a microphone or a
    camera. A microphone decides from what affects it; a camera decides from
    what it sees, then a random "darkness" gate, driven by the luminosity at
    the camera, may veto a positive decision. The random draw is a
    parameter. */
module TfDetection {
  import opened Wrappers
  import opened Values
  import opened Geometry
  import opened TfDeclare
  import opened TfTree
  import opened TfAffection

  /** One entry of the dict a detection loop iterates: a single affection,
      or, for the combined environmental sensor, a whole dict of them. */
  datatype Entry = One(a: Affection) | Many(hits: Hits)

  function Entries(rep: Report): (es: seq<Entry>)
    ensures rep.Flat? ==> |es| == |rep.hits| && forall i :: 0 <= i < |es| ==> es[i] == One(rep.hits[i].1)
    ensures rep.Combined? ==> es == [Many(rep.temperature), Many(rep.humidity), Many(rep.gas)]
  {
    match rep
    case Flat(h) => seq(|h|, i requires 0 <= i < |h| => One(h[i].1))
    case Combined(th, hu, ga) => [Many(th), Many(hu), Many(ga)]
  }

  /** `entry[k]`. */
  function Item(e: Entry, k: string): Result<Value> {
    match e
    case One(a) => Get(AsValue(a), k)
    case Many(h) => if HasKey(h, Str(k)) then Success(AsValue(Lookup(h, Str(k)))) else Failure("KeyError: " + k)
  }

  /** `entry[k1][k2]`. */
  function Item2(e: Entry, k1: string, k2: string): Result<Value> {
    var v :- Item(e, k1);
    Get(v, k2)
  }

  /** `entry['type'] == kind`. */
  function IsKind(e: Entry, kind: string): Result<bool> {
    var ty :- Item(e, "type");
    Success(PyEq(ty, Str(kind)))
  }

  /** Where a decision came from: nothing, the microphone's whole report,
      or one entry. */
  datatype Source = NoSource | AllOf(report: Report) | EntryOf(entry: Entry)

  datatype Verdict = Verdict(decision: bool, info: Value, frm: Source)

  /** The detection types each device answers. */
  const MicQueries: seq<string> := ["sound", "language", "emotion", "speech2text"]
  const CameraQueries: seq<string> := ["face", "gender", "age", "emotion", "motion", "qr", "barcode", "text", "color", "robot"]

  /** Whether an entry counts for the query, `and` short-circuiting as in Python. */
  function Matches(camera: bool, q: string, e: Entry): Result<bool> {
    if !camera then
      if q == "speech2text" then IsKind(e, "human") else Success(true)
    else if q == "face" || q == "emotion" then IsKind(e, "human")
    else if q == "gender" || q == "age" || q == "motion" then
      var human :- IsKind(e, "human");
      if !human then Success(false)
      else
        var v :- Item2(e, "info", q);
        Success(if q == "gender" then !PyEq(v, Str("none"))
                else if q == "age" then !PyEq(v, Num(-1.0))
                else PyEq(v, Num(1.0)))
    else IsKind(e, q)
  }

  /** The `info` a matching entry reports for the query. */
  function InfoFor(camera: bool, q: string, e: Entry): Result<Value> {
    if !camera then
      if q == "sound" then Item(e, "range")
      else if q == "speech2text" then Item2(e, "info", "speech")
      else Item2(e, "info", q)
    else if q == "face" || q == "motion" then Success(Str(""))
    else if q == "gender" || q == "age" || q == "emotion" then Item2(e, "info", q)
    else if q == "qr" || q == "barcode" then Item2(e, "info", "message")
    else if q == "text" then Item2(e, "info", "text")
    else Item(e, "info")
  }

  /** An entry can be tested and, when it matches, its info can be read. */
  predicate Passes(camera: bool, q: string, e: Entry) {
    Matches(camera, q, e).Success? && (Matches(camera, q, e).value ==> InfoFor(camera, q, e).Success?)
  }

  /** A detection loop: every matching entry overwrites the verdict, so the
      last match decides. */
  function Scan(camera: bool, q: string, es: seq<Entry>, v: Verdict): (r: Result<Verdict>)
    ensures r.Success? <==> forall i :: 0 <= i < |es| ==> Passes(camera, q, es[i])
    decreases |es|
  {
    if es == [] then Success(v)
    else
      var m :- Matches(camera, q, es[0]);
      var v1 :- if m then (var info :- InfoFor(camera, q, es[0]); Success(Verdict(true, info, EntryOf(es[0]))))
        else Success(v);
      Scan(camera, q, es[1..], v1)
  }

  /** A loop in which no entry matches leaves the verdict as it was. */
  lemma {:induction false} ScanNoMatch(camera: bool, q: string, es: seq<Entry>, v: Verdict)
    requires forall i :: 0 <= i < |es| ==> Matches(camera, q, es[i]) == Success(false)
    ensures Scan(camera, q, es, v) == Success(v)
    decreases |es|
  {
    if es != [] {
      assert Matches(camera, q, es[0]) == Success(false);
      assert forall i :: 0 <= i < |es[1..]| ==> es[1..][i] == es[i + 1];
      ScanNoMatch(camera, q, es[1..], v);
    }
  }

  /** When entry `j` matches and no later entry does, the verdict is a
      positive one carrying entry `j` and its info. */
  lemma {:induction false} ScanLastMatch(camera: bool, q: string, es: seq<Entry>, v: Verdict, j: int)
    requires 0 <= j < |es| && Matches(camera, q, es[j]) == Success(true)
    requires forall i :: j < i < |es| ==> Matches(camera, q, es[i]) == Success(false)
    requires Scan(camera, q, es, v).Success?
    ensures InfoFor(camera, q, es[j]).Success?
    ensures Scan(camera, q, es, v) == Success(Verdict(true, InfoFor(camera, q, es[j]).value, EntryOf(es[j])))
    decreases |es|
  {
    var rest := es[1..];
    assert forall i :: 0 <= i < |rest| ==> rest[i] == es[i + 1];
    var m := Matches(camera, q, es[0]).value;
    var v1 := if m then Verdict(true, InfoFor(camera, q, es[0]).value, EntryOf(es[0])) else v;
    assert Scan(camera, q, es, v) == Scan(camera, q, rest, v1);
    if j == 0 {
      ScanNoMatch(camera, q, rest, v1);
    } else {
      ScanLastMatch(camera, q, rest, v1, j - 1);
    }
  }

  /** A positive verdict from a negative start comes from a matching entry. */
  lemma {:induction false} ScanPositiveMatched(camera: bool, q: string, es: seq<Entry>, v: Verdict)
    requires !v.decision
    requires Scan(camera, q, es, v).Success? && Scan(camera, q, es, v).value.decision
    ensures exists i :: 0 <= i < |es| && Matches(camera, q, es[i]) == Success(true)
    decreases |es|
  {
    var m := Matches(camera, q, es[0]).value;
    if !m {
      ScanPositiveMatched(camera, q, es[1..], v);
      var i :| 0 <= i < |es[1..]| && Matches(camera, q, es[1..][i]) == Success(true);
      assert es[1..][i] == es[i + 1];
    }
  }

  // ---------------------------------------------------------------------------
  // Camera luminosity and the darkness gate

  /** The light the camera's light sources add: a fire counts as 100 times
      its relative closeness `1 - distance/range`, an LED as its relative
      closeness times its luminosity. */
  function AddedLight(res: Hits, acc: real): (r: Result<real>)
    decreases |res|
  {
    if res == [] then Success(acc)
    else
      var a := AsValue(res[0].1);
      var rangeV :- Get(a, "range");
      var range :- Numeric(rangeV);
      if range == 0.0 then Failure("ZeroDivisionError: float division by zero")
      else
        var rel := 1.0 - res[0].1.distance / range;
        var kind :- Get(a, "type");
        var add :- if PyEq(kind, Str("fire")) then Success(100.0 * rel)
          else if PyEq(kind, Str("light")) then
            (var info :- Get(a, "info"); var lv :- Get(info, "luminosity"); var l :- Numeric(lv); Success(rel * l))
          else Success(0.0);
        AddedLight(res[1..], acc + add)
  }

  /** The luminosity at the camera: the larger of ambient and added light
      plus a tenth of the smaller, capped at 100, as a fraction of 100. */
  function Luminosity(ambient: real, added: real): (r: real)
    ensures r <= 1.0
    ensures added < ambient && added * 0.1 + ambient <= 100.0 ==> r == (added * 0.1 + ambient) / 100.0
    ensures ambient <= added && ambient * 0.1 + added <= 100.0 ==> r == (ambient * 0.1 + added) / 100.0
    ensures added < ambient && added * 0.1 + ambient > 100.0 ==> r == 1.0
    ensures ambient <= added && ambient * 0.1 + added > 100.0 ==> r == 1.0
    ensures 0.0 <= ambient && 0.0 <= added ==> 0.0 <= r
  {
    var lum := if added < ambient then added * 0.1 + ambient else ambient * 0.1 + added;
    (if lum > 100.0 then 100.0 else lum) / 100.0
  }

  /** The darkness gate: a positive decision survives exactly when the
      square of the draw does not exceed the luminosity; a larger square
      vetoes it. */
  function Gate(decision: bool, lum: real, roulette: real): (r: bool)
    ensures r <==> decision && roulette * roulette <= lum
  {
    decision && !(roulette * roulette > lum)
  }

  /** At full luminosity no draw in `[0, 1]` vetoes. */
  lemma GateOpenInFullLight(lum: real, roulette: real)
    requires 1.0 <= lum && 0.0 <= roulette <= 1.0
    ensures Gate(true, lum, roulette)
  {
    MulUnit(roulette, roulette);
  }

  // ---------------------------------------------------------------------------
  // get_sim_detection_callback

  /** The answer: a wrong device gets only a negative result and a reason;
      otherwise the decision, its info and where it came from. */
  datatype Detection = Rejected(reason: string) | Detected(result: bool, info: Value, frm: Source)

  /** The microphone branch: a report from `check_affectability`, then the
      query's loop; speech to text with no speech is negative. An unknown
      query leaves the negative verdict. */
  function MicDetection(trig: Trig, replies: Replies, t: Tf, name: Value, q: Value): (r: Result<Verdict>)
    ensures r.Success? ==> CheckAffectability(trig, replies, t, name).Success?
    ensures r.Success? && !(q.Str? && q.s in MicQueries) ==> !r.value.decision
    ensures r.Success? && q == Str("speech2text") && r.value.decision ==> !PyEq(r.value.info, Str(""))
  {
    var rep :- CheckAffectability(trig, replies, t, name);
    var v0 := Verdict(false, Str(""), AllOf(rep));
    if q.Str? && q.s in MicQueries then
      var v :- Scan(false, q.s, Entries(rep), v0);
      if q.s == "speech2text" && PyEq(v.info, Str("")) then Success(v.(decision := false)) else Success(v)
    else Success(v0)
  }

  /** The camera branch before the gate: what the camera sees (robots
      included), the query's loop, and the luminosity at the camera. */
  function CameraVerdict(trig: Trig, replies: Replies, t: Tf, name: Value, q: Value): (r: Result<(Verdict, real)>)
    ensures r.Success? ==> ArcedHandler(trig, t, name, CameraGroups, true).Success?
    ensures r.Success? ==> r.value.1 <= 1.0
    ensures r.Success? && !(q.Str? && q.s in CameraQueries) ==> !r.value.0.decision
    ensures r.Success? ==> CameraScan(ArcedHandler(trig, t, name, CameraGroups, true).value, q) == Success(r.value.0)
  {
    var seen :- ArcedHandler(trig, t, name, CameraGroups, true);
    var decl :- InfoOf(t.reg, name);
    var props :- Field(decl, "properties");
    var ambV :- Get(props, "ambient_luminosity");
    var lights :- RangedHandler(trig, replies, t, name, LightGroups);
    var added :- AddedLight(lights, 0.0);
    var ambient :- Numeric(ambV);
    var lum := Luminosity(ambient, added);
    var v :- CameraScan(seen, q);
    Success((v, lum))
  }

  /** The query's loop over what the camera sees; a color query on an empty
      view starts from black. An unknown query leaves the negative verdict. */
  function CameraScan(seen: Hits, q: Value): (r: Result<Verdict>)
    ensures r.Success? && r.value.decision ==>
      var es := Entries(Flat(seen));
      q.Str? && exists i :: 0 <= i < |es| && Matches(true, q.s, es[i]) == Success(true)
  {
    var v0 := if q == Str("color") && |seen| == 0
      then Verdict(false, Obj(map["r" := Num(0.0), "g" := Num(0.0), "b" := Num(0.0)]), NoSource)
      else Verdict(false, Null, NoSource);
    if q.Str? && q.s in CameraQueries then
      var v :- Scan(true, q.s, Entries(Flat(seen)), v0);
      if !v.decision then Success(v)
      else
        ScanPositiveMatched(true, q.s, Entries(Flat(seen)), v0);
        Success(v)
    else Success(v0)
  }

  /** The first entry of the device's subclass list. */
  function FirstSubclass(reg: Registry, name: Value): (r: Result<Value>)
    ensures r.Success? ==> InfoOf(reg, name).Success?
    ensures r.Success? ==>
      var decl := InfoOf(reg, name).value;
      "subtype" in decl && decl["subtype"].Obj? && "subclass" in decl["subtype"].fields &&
      r == First(decl["subtype"].fields["subclass"])
    ensures InfoOf(reg, name).Success? ==>
      var decl := InfoOf(reg, name).value;
      (r.Success? <==> ("subtype" in decl && decl["subtype"].Obj? && "subclass" in decl["subtype"].fields &&
        First(decl["subtype"].fields["subclass"]).Success?))
  {
    var decl :- InfoOf(reg, name);
    var subt :- Field(decl, "subtype");
    var sub :- Get(subt, "subclass");
    First(sub)
  }

  /** `get_sim_detection_callback` with the gate's draw `roulette`. */
  function GetSimDetection(trig: Trig, replies: Replies, t: Tf, message: Value, roulette: real): (r: Result<Detection>)
    ensures r.Success? ==> (Get(message, "name").Success? && Get(message, "type").Success? &&
      FirstSubclass(t.reg, message.fields["name"]).Success?)
    ensures r.Success? ==> var first := FirstSubclass(t.reg, message.fields["name"]).value;
      (r.value.Rejected? <==> !PyEq(first, Str("camera")) && !PyEq(first, Str("microphone")))
    ensures r.Success? && r.value.Detected? && PyEq(FirstSubclass(t.reg, message.fields["name"]).value, Str("camera")) ==>
      CameraVerdict(trig, replies, t, message.fields["name"], message.fields["type"]).Success? &&
      r.value.result == Gate(CameraVerdict(trig, replies, t, message.fields["name"], message.fields["type"]).value.0.decision,
                             CameraVerdict(trig, replies, t, message.fields["name"], message.fields["type"]).value.1, roulette)
  {
    var name :- Get(message, "name");
    var q :- Get(message, "type");
    var first :- FirstSubclass(t.reg, name);
    var devices := [Str("camera"), Str("microphone")];
    assert PyEq(first, devices[0]) || PyEq(first, devices[1]) ==> InList(first, devices);
    if !InList(first, devices) then
      Success(Rejected("Wrong detection device. Not microphone nor camera."))
    else if PyEq(first, Str("microphone")) then
      var v :- MicDetection(trig, replies, t, name, q);
      Success(Detected(v.decision, v.info, v.frm))
    else
      var (v, lum) :- CameraVerdict(trig, replies, t, name, q);
      Success(Detected(Gate(v.decision, lum, roulette), v.info, v.frm))
  }

  /** A positive camera detection was positive before the gate, and so came
      from a seen entry matching the query. */
  lemma CameraPositiveSeen(trig: Trig, replies: Replies, t: Tf, message: Value, roulette: real)
    requires GetSimDetection(trig, replies, t, message, roulette).Success?
    requires PyEq(FirstSubclass(t.reg, message.fields["name"]).value, Str("camera"))
    requires GetSimDetection(trig, replies, t, message, roulette).value.Detected?
    requires GetSimDetection(trig, replies, t, message, roulette).value.result
    ensures var q := message.fields["type"];
      var es := Entries(Flat(ArcedHandler(trig, t, message.fields["name"], CameraGroups, true).value));
      q.Str? && exists i :: 0 <= i < |es| && Matches(true, q.s, es[i]) == Success(true)
  {
    var name := message.fields["name"];
    var q := message.fields["type"];
    assert CameraVerdict(trig, replies, t, name, q).value.0.decision;
  }
}

=== FILE: tf_poses.dfy ===
/** How the transformation engine keeps absolute poses current: robot pose
    messages move every device the robot carries, pan messages turn every
    device on the pan-tilt, and `get_tf` answers a device's absolute pose. */
module TfPoses {
  import opened Wrappers
  import opened Values
  import opened Geometry
  import opened TfDeclare
  import opened TfTree

  /** Two engine states that differ at most in their absolute poses. */
  predicate OnlyAbs(t: Tf, u: Tf) {
    u.reg == t.reg && u.tree == t.tree && u.hosts == t.hosts && u.rel == t.rel &&
    u.pantilts == t.pantilts && u.robots == t.robots && u.existing == t.existing &&
    u.speakers == t.speakers && u.microphones == t.microphones
  }

  // ---------------------------------------------------------------------------
  // Turning the devices on a pan-tilt

  /** The heading a device on a pan-tilt gets: `None` headings are left
      alone (`None`), any other becomes the device's relative heading plus
      the pan-tilt's absolute heading. */
  function NewTheta(abs: Places, rel: Places, i: Value, base: Value): (r: Result<Option<Value>>)
    ensures r.Success? ==> FieldOf(abs, i, "theta").Success?
    ensures r.Success? ==> (r.value.None? <==> FieldOf(abs, i, "theta").value.Null?)
    ensures r.Success? && r.value.Some? ==>
      FieldOf(rel, i, "theta").Success? && Add(FieldOf(rel, i, "theta").value, base) == Success(r.value.value)
  {
    var th :- FieldOf(abs, i, "theta");
    if th.Null? then Success(None)
    else
      var r :- FieldOf(rel, i, "theta");
      var v :- Add(r, base);
      Success(Some(v))
  }

  function Turned(p: Pose, o: Option<Value>): Pose {
    match o
    case None => p
    case Some(v) => p["theta" := v]
  }

  /** Turning a pose twice to the same heading turns it once. */
  lemma TurnedTwice(p: Pose, o: Option<Value>)
    ensures Turned(Turned(p, o), o) == Turned(p, o)
  {
  }

  /** The loop of `update_pan_tilt` over the devices on the pan-tilt. */
  function SetThetas(abs: Places, rel: Places, devs: seq<Value>, base: Value): (r: Result<Places>)
    ensures r.Success? ==> r.value.Keys == abs.Keys
    decreases |devs|
  {
    if devs == [] then Success(abs)
    else
      var o :- NewTheta(abs, rel, devs[0], base);
      SetThetas(abs[Key(devs[0]) := Turned(abs[Key(devs[0])], o)], rel, devs[1..], base)
  }

  /** Turning one device does not change what any device (itself included)
      would be turned to. */
  lemma NewThetaStable(abs: Places, rel: Places, d: Value, base: Value, x: Value)
    requires NewTheta(abs, rel, d, base).Success?
    ensures var a1 := abs[Key(d) := Turned(abs[Key(d)], NewTheta(abs, rel, d, base).value)];
      NewTheta(a1, rel, x, base) == NewTheta(abs, rel, x, base)
  {
  }

  /** The loop succeeds exactly when every device can be turned on its own. */
  lemma {:induction false} SetThetasSucceeds(abs: Places, rel: Places, devs: seq<Value>, base: Value)
    ensures SetThetas(abs, rel, devs, base).Success? <==>
      forall j :: 0 <= j < |devs| ==> NewTheta(abs, rel, devs[j], base).Success?
    decreases |devs|
  {
    if devs != [] {
      var rest := devs[1..];
      if NewTheta(abs, rel, devs[0], base).Success? {
        var o := NewTheta(abs, rel, devs[0], base).value;
        var a1 := abs[Key(devs[0]) := Turned(abs[Key(devs[0])], o)];
        SetThetasSucceeds(a1, rel, rest, base);
        forall j | 0 <= j < |rest| ensures NewTheta(a1, rel, rest[j], base) == NewTheta(abs, rel, devs[j + 1], base) {
          assert rest[j] == devs[j + 1];
          NewThetaStable(abs, rel, devs[0], base, rest[j]);
        }
      }
    }
  }

  /** It leaves every pose not on the list as it was. */
  lemma {:induction false} SetThetasOthers(abs: Places, rel: Places, devs: seq<Value>, base: Value)
    requires SetThetas(abs, rel, devs, base).Success?
    ensures var r := SetThetas(abs, rel, devs, base).value;
      r.Keys == abs.Keys && forall k :: k in abs && k !in KeySet(devs) ==> r[k] == abs[k]
    decreases |devs|
  {
    if devs != [] {
      var k := Key(devs[0]);
      var rest := devs[1..];
      var a1 := abs[k := Turned(abs[k], NewTheta(abs, rel, devs[0], base).value)];
      SetThetasOthers(a1, rel, rest, base);
      assert KeySet(devs) == {k} + KeySet(rest) by {
        assert forall j :: 0 <= j < |rest| ==> rest[j] == devs[j + 1];
      }
    }
  }

  /** It turns each device on the list as `NewTheta` says; duplicates in the
      list are harmless. */
  lemma {:induction false} SetThetasTurns(abs: Places, rel: Places, devs: seq<Value>, base: Value, j: int)
    requires SetThetas(abs, rel, devs, base).Success?
    requires 0 <= j < |devs|
    ensures NewTheta(abs, rel, devs[j], base).Success?
    ensures Key(devs[j]) in abs && Key(devs[j]) in SetThetas(abs, rel, devs, base).value
    ensures SetThetas(abs, rel, devs, base).value[Key(devs[j])] ==
      Turned(abs[Key(devs[j])], NewTheta(abs, rel, devs[j], base).value)
    decreases |devs|
  {
    SetThetasOthers(abs, rel, devs, base);
    var d := devs[0];
    var rest := devs[1..];
    var o := NewTheta(abs, rel, d, base).value;
    var k := Key(d);
    var a1 := abs[k := Turned(abs[k], o)];
    var r := SetThetas(abs, rel, devs, base).value;
    assert r == SetThetas(a1, rel, rest, base).value;
    if j > 0 {
      assert devs[j] == rest[j - 1];
      SetThetasTurns(a1, rel, rest, base, j - 1);
      NewThetaStable(abs, rel, d, base, devs[j]);
      if Key(devs[j]) == k {
        assert NewTheta(abs, rel, devs[j], base) == NewTheta(abs, rel, d, base);
        TurnedTwice(abs[k], o);
      }
    } else if k in KeySet(rest) {
      var j' :| 0 <= j' < |rest| && Key(rest[j']) == k;
      SetThetasTurns(a1, rel, rest, base, j');
      NewThetaStable(abs, rel, d, base, rest[j']);
      assert NewTheta(abs, rel, rest[j'], base) == NewTheta(abs, rel, d, base);
      TurnedTwice(abs[k], o);
    } else {
      SetThetasOthers(a1, rel, rest, base);
    }
  }

  /** Both together. */
  lemma SetThetasEffect(abs: Places, rel: Places, devs: seq<Value>, base: Value)
    requires SetThetas(abs, rel, devs, base).Success?
    ensures var r := SetThetas(abs, rel, devs, base).value;
      r.Keys == abs.Keys &&
      (forall k :: k in abs && k !in KeySet(devs) ==> r[k] == abs[k]) &&
      (forall j :: 0 <= j < |devs| ==>
        NewTheta(abs, rel, devs[j], base).Success? &&
        r[Key(devs[j])] == Turned(abs[Key(devs[j])], NewTheta(abs, rel, devs[j], base).value))
  {
    SetThetasOthers(abs, rel, devs, base);
    forall j | 0 <= j < |devs|
      ensures NewTheta(abs, rel, devs[j], base).Success? &&
        SetThetas(abs, rel, devs, base).value[Key(devs[j])] ==
          Turned(abs[Key(devs[j])], NewTheta(abs, rel, devs[j], base).value)
    {
      SetThetasTurns(abs, rel, devs, base, j);
    }
  }

  /** Turning devices changes headings only: positions stay where they were. */
  lemma SetThetasKeepsPlace(abs: Places, rel: Places, devs: seq<Value>, base: Value, k: Value, f: string)
    requires SetThetas(abs, rel, devs, base).Success?
    requires k in abs && f in abs[k] && f != "theta"
    ensures k in SetThetas(abs, rel, devs, base).value && f in SetThetas(abs, rel, devs, base).value[k] &&
      SetThetas(abs, rel, devs, base).value[k][f] == abs[k][f]
  {
    SetThetasEffect(abs, rel, devs, base);
    if k in KeySet(devs) {
      var j :| 0 <= j < |devs| && Key(devs[j]) == k;
    }
  }

  /** The absolute heading of a pan-tilt at the given pan: its relative
      heading plus the pan plus, when it is mounted on a host, the host's
      absolute heading. */
  function PanTiltHeading(t: Tf, pt: Value, pan: Value): (r: Result<Value>)
    ensures r.Success? ==> Hashable(pt) && Key(pt) in t.hosts
    ensures r.Success? ==>
      exists relTh, s, base ::
        FieldOf(t.rel, pt, "theta") == Success(relTh) &&
        Add(relTh, pan) == Success(s) && Add(s, base) == Success(r.value) &&
        (t.hosts[Key(pt)].Null? ==> base == Num(0.0)) &&
        (!t.hosts[Key(pt)].Null? ==> FieldOf(t.abs, t.hosts[Key(pt)], "theta") == Success(base))
  {
    if !Hashable(pt) then Failure("TypeError: unhashable type")
    else if Key(pt) !in t.hosts then Failure("KeyError")
    else
      var host := t.hosts[Key(pt)];
      var base :- if host.Null? then Success(Num(0.0)) else FieldOf(t.abs, host, "theta");
      var relTh :- FieldOf(t.rel, pt, "theta");
      var s :- Add(relTh, pan);
      Add(s, base)
  }

  /** `update_pan_tilt`, as the absolute poses it leaves: every device on the
      pan-tilt whose heading is not `None` gets its relative heading plus the
      pan-tilt's absolute heading. */
  function UpdatePanTilt(t: Tf, pt: Value, pan: Value): (r: Result<Places>)
    ensures r.Success? ==> PanTiltHeading(t, pt, pan).Success?
    ensures r.Success? ==> r.value.Keys == t.abs.Keys
    ensures r.Success? && !HasKey(t.tree, Key(pt)) ==> r.value == t.abs
    ensures r.Success? && HasKey(t.tree, Key(pt)) ==>
      SetThetas(t.abs, t.rel, Lookup(t.tree, Key(pt)), PanTiltHeading(t, pt, pan).value) == Success(r.value)
  {
    var heading :- PanTiltHeading(t, pt, pan);
    if HasKey(t.tree, Key(pt)) then
      var devs := Lookup(t.tree, Key(pt));
      var abs :- SetThetas(t.abs, t.rel, devs, heading);
      SetThetasOthers(t.abs, t.rel, devs, heading);
      Success(abs)
    else Success(t.abs)
  }

  /** What one update does: the devices on the pan-tilt are turned, no other
      pose changes, and no position changes. */
  lemma UpdatePanTiltEffect(t: Tf, pt: Value, pan: Value, k: Value)
    requires UpdatePanTilt(t, pt, pan).Success?
    requires k in t.abs
    ensures var r := UpdatePanTilt(t, pt, pan).value;
      var devs := Children(t.tree, Key(pt));
      k in r &&
      (k !in KeySet(devs) ==> r[k] == t.abs[k]) &&
      (forall j :: 0 <= j < |devs| && Key(devs[j]) == k ==>
        NewTheta(t.abs, t.rel, devs[j], PanTiltHeading(t, pt, pan).value).Success? &&
        r[k] == Turned(t.abs[k], NewTheta(t.abs, t.rel, devs[j], PanTiltHeading(t, pt, pan).value).value))
  {
    if HasKey(t.tree, Key(pt)) {
      SetThetasEffect(t.abs, t.rel, Lookup(t.tree, Key(pt)), PanTiltHeading(t, pt, pan).value);
    }
  }

  /** A second pass of the loop with the same heading turns nothing further. */
  /** After the loop, every device would still be turned to the same heading. */
  lemma SetThetasStable(abs: Places, rel: Places, devs: seq<Value>, base: Value)
    requires SetThetas(abs, rel, devs, base).Success?
    ensures var a1 := SetThetas(abs, rel, devs, base).value;
      forall j :: 0 <= j < |devs| ==> NewTheta(a1, rel, devs[j], base) == NewTheta(abs, rel, devs[j], base)
  {
    var a1 := SetThetas(abs, rel, devs, base).value;
    SetThetasEffect(abs, rel, devs, base);
    forall j | 0 <= j < |devs| ensures NewTheta(a1, rel, devs[j], base) == NewTheta(abs, rel, devs[j], base) {
      assert a1[Key(devs[j])] == Turned(abs[Key(devs[j])], NewTheta(abs, rel, devs[j], base).value);
    }
  }

  lemma SetThetasTwice(abs: Places, rel: Places, devs: seq<Value>, base: Value)
    requires SetThetas(abs, rel, devs, base).Success?
    ensures SetThetas(SetThetas(abs, rel, devs, base).value, rel, devs, base) == SetThetas(abs, rel, devs, base)
  {
    var a1 := SetThetas(abs, rel, devs, base).value;
    SetThetasEffect(abs, rel, devs, base);
    SetThetasStable(abs, rel, devs, base);
    SetThetasSucceeds(a1, rel, devs, base);
    SetThetasSucceeds(abs, rel, devs, base);
    SetThetasEffect(a1, rel, devs, base);
    var a2 := SetThetas(a1, rel, devs, base).value;
    forall k | k in a1 ensures a2[k] == a1[k] {
      if k in KeySet(devs) {
        var j :| 0 <= j < |devs| && Key(devs[j]) == k;
        TurnedTwice(abs[k], NewTheta(abs, rel, devs[j], base).value);
      }
    }
    assert a2 == a1;
  }

  /** Repeating an update with the same pan changes nothing more, provided
      the pan-tilt does not carry its own host. */
  lemma UpdatePanTiltIdempotent(t: Tf, pt: Value, pan: Value)
    requires UpdatePanTilt(t, pt, pan).Success?
    requires var host := t.hosts[Key(pt)];
      host.Null? || !Hashable(host) || Key(host) !in KeySet(Children(t.tree, Key(pt)))
    ensures UpdatePanTilt(t.(abs := UpdatePanTilt(t, pt, pan).value), pt, pan) == UpdatePanTilt(t, pt, pan)
  {
    var a1 := UpdatePanTilt(t, pt, pan).value;
    var t1 := t.(abs := a1);
    if HasKey(t.tree, Key(pt)) {
      var host := t.hosts[Key(pt)];
      if !host.Null? && Hashable(host) && Key(host) in t.abs {
        UpdatePanTiltEffect(t, pt, pan, Key(host));
      }
      assert PanTiltHeading(t1, pt, pan) == PanTiltHeading(t, pt, pan);
      SetThetasTwice(t.abs, t.rel, Lookup(t.tree, Key(pt)), PanTiltHeading(t, pt, pan).value);
    }
  }

  /** `pan_tilt_callback`: record the new pan, then turn the pan-tilt's
      devices. Only a known pan-tilt may report a pan. */
  function PanTiltCallback(t: Tf, message: Value): (r: Result<Tf>)
    ensures r.Success? ==> Get(message, "name").Success? && Get(message, "pan").Success?
    ensures r.Success? ==>
      var name := message.fields["name"];
      Hashable(name) && HasKey(t.pantilts, Key(name)) &&
      HasKey(r.value.pantilts, Key(name)) && Lookup(r.value.pantilts, Key(name)) == message.fields["pan"] &&
      Keys(r.value.pantilts) == Keys(t.pantilts)
    ensures r.Success? ==> r.value.tree == t.tree && r.value.rel == t.rel && r.value.abs.Keys == t.abs.Keys
  {
    var name :- Get(message, "name");
    var pan :- Get(message, "pan");
    if !Hashable(name) then Failure("TypeError: unhashable type")
    else if !HasKey(t.pantilts, Key(name)) then Failure("KeyError")
    else
      PutLookupSame(t.pantilts, Key(name), pan);
      var t1 := t.(pantilts := Put(t.pantilts, Key(name), pan));
      var abs :- UpdatePanTilt(t1, name, pan);
      Success(t1.(abs := abs))
  }

  // ---------------------------------------------------------------------------
  // get_tf

  /** The answer of `get_tf` and the absolute poses after it. */
  datatype TfReply = TfReply(abs: Places, pose: Value, errors: seq<string>)

  /** `get_tf_callback`: an unknown device is logged and answered `{}`; a
      robot or an ordinary device gets its stored absolute pose; a pan-tilt
      gets its heading recomputed from its pan, and the recomputed heading is
      also stored. */
  function GetTf(t: Tf, message: Value): (r: Result<TfReply>)
    ensures r.Success? ==> Get(message, "name").Success? && Hashable(message.fields["name"])
    ensures r.Success? ==> var k := Key(message.fields["name"]);
      (k !in t.hosts <==> r.value.errors != []) &&
      (k !in t.hosts ==> r.value.pose == Obj(map[]) && r.value.abs == t.abs)
    ensures r.Success? ==> var n := message.fields["name"]; var k := Key(n);
      k in t.hosts && !HasKey(t.pantilts, k) ==> r.value.abs == t.abs && k in t.abs && r.value.pose == Obj(t.abs[k])
    ensures r.Success? ==> var n := message.fields["name"]; var k := Key(n);
      (k in t.hosts && HasKey(t.pantilts, k) && !InList(n, t.robots)) ==>
        PanTiltHeading(t, n, Lookup(t.pantilts, k)).Success? &&
        k in t.abs &&
        r.value.pose == Obj(t.abs[k]["theta" := PanTiltHeading(t, n, Lookup(t.pantilts, k)).value]) &&
        r.value.abs == t.abs[k := r.value.pose.fields]
  {
    var name :- Get(message, "name");
    if !Hashable(name) then Failure("TypeError: unhashable type")
    else if Key(name) !in t.hosts then Success(TfReply(t.abs, Obj(map[]), ["TF: Requested transformation of missing device"]))
    else if InList(name, t.robots) || !HasKey(t.pantilts, Key(name)) then
      var pose :- PoseOf(t.abs, name);
      Success(TfReply(t.abs, Obj(pose), []))
    else
      var pose :- PoseOf(t.abs, name);
      var heading :- PanTiltHeading(t, name, Lookup(t.pantilts, Key(name)));
      var p := pose["theta" := heading];
      Success(TfReply(t.abs[Key(name) := p], Obj(p), []))
  }

  /** The heading of a pan-tilt that is not its own host does not depend on
      the pan-tilt's own absolute pose. */
  lemma PanTiltHeadingOwnPose(t: Tf, pt: Value, pan: Value, p: Pose)
    requires Hashable(pt) && Key(pt) in t.hosts
    requires var h := t.hosts[Key(pt)]; h.Null? || !Hashable(h) || Key(h) != Key(pt)
    ensures PanTiltHeading(t.(abs := t.abs[Key(pt) := p]), pt, pan) == PanTiltHeading(t, pt, pan)
  {
  }

  /** Asking twice for a pan-tilt that is not its own host answers the same
      and leaves the same absolute poses. */
  lemma GetTfIdempotent(t: Tf, message: Value)
    requires GetTf(t, message).Success?
    requires var k := Key(message.fields["name"]);
      k in t.hosts && (t.hosts[k].Null? || !Hashable(t.hosts[k]) || Key(t.hosts[k]) != k)
    ensures GetTf(t.(abs := GetTf(t, message).value.abs), message) == GetTf(t, message)
  {
    var n := message.fields["name"];
    var k := Key(n);
    var r := GetTf(t, message).value;
    if HasKey(t.pantilts, k) && !InList(n, t.robots) {
      GetTfPanTiltAgain(t, message, n, Lookup(t.pantilts, k));
    } else {
      assert r.abs == t.abs;
      assert t.(abs := r.abs) == t;
    }
  }

  lemma GetTfPanTiltAgain(t: Tf, message: Value, n: Value, pan: Value)
    requires Get(message, "name") == Success(n) && Hashable(n)
    requires Key(n) in t.hosts && HasKey(t.pantilts, Key(n)) && !InList(n, t.robots)
    requires pan == Lookup(t.pantilts, Key(n))
    requires var h := t.hosts[Key(n)]; h.Null? || !Hashable(h) || Key(h) != Key(n)
    requires GetTf(t, message).Success?
    ensures GetTf(t.(abs := GetTf(t, message).value.abs), message) == GetTf(t, message)
  {
    var k := Key(n);
    var h := PanTiltHeading(t, n, pan).value;
    var p := t.abs[k]["theta" := h];
    var a1 := t.abs[k := p];
    assert GetTf(t, message) == Success(TfReply(a1, Obj(p), []));
    var t1 := t.(abs := a1);
    PanTiltHeadingOwnPose(t, n, pan, p);
    assert PoseOf(t1.abs, n) == Success(p);
    RewriteSame(p, "theta", h);
    RewriteSame(a1, k, p);
  }

  /** Writing back the value a key already has changes nothing. */
  lemma RewriteSame<K, V>(m: map<K, V>, k: K, v: V)
    requires k in m && m[k] == v
    ensures m[k := v] == m
  {
  }

  // ---------------------------------------------------------------------------
  // robot_pose_callback

  /** `s.split(".")[-1]`: the text after the last dot. */
  function AfterLastDot(s: string): (r: string)
    ensures '.' !in r
    ensures |r| <= |s| && s[|s| - |r|..] == r
    ensures |r| < |s| ==> s[|s| - |r| - 1] == '.'
  {
    if s == [] then ""
    else if s[|s| - 1] == '.' then ""
    else AfterLastDot(s[..|s| - 1]) + [s[|s| - 1]]
  }

  /** The absolute pose `p` stands at `(x, y)`. */
  predicate At(abs: Places, k: Value, x: Value, y: Value) {
    k in abs && "x" in abs[k] && "y" in abs[k] && abs[k]["x"] == x && abs[k]["y"] == y
  }

  /** `places_absolute[dev]['x'], ['y'] = robot's x, y` for the devices on a
      pan-tilt the robot carries. */
  function PlaceDevices(abs: Places, robot: Value, devs: seq<Value>): (r: Result<Places>)
    ensures r.Success? ==> r.value.Keys == abs.Keys
    decreases |devs|
  {
    if devs == [] then Success(abs)
    else
      var rx :- FieldOf(abs, robot, "x");
      var ry :- FieldOf(abs, robot, "y");
      var p :- PoseOf(abs, devs[0]);
      PlaceDevices(abs[Key(devs[0]) := p["x" := rx]["y" := ry]], robot, devs[1..])
  }

  /** A carried device's heading follows the robot's unless the device is
      a pan-tilt or its heading is `None`. */
  function TurnWithRobot(t: Tf, nm: Value, d: Value): (r: Result<Places>)
    ensures r.Success? ==> Hashable(d) && Key(d) in t.abs && "theta" in t.abs[Key(d)]
    ensures r.Success? ==> r.value.Keys == t.abs.Keys
    ensures r.Success? ==> forall k :: k in t.abs && k != Key(d) ==> r.value[k] == t.abs[k]
    ensures r.Success? ==> forall f :: f in t.abs[Key(d)] && f != "theta" ==>
      f in r.value[Key(d)] && r.value[Key(d)][f] == t.abs[Key(d)][f]
    ensures r.Success? && !t.abs[Key(d)]["theta"].Null? && !HasKey(t.pantilts, Key(d)) ==>
      FieldOf(t.abs, nm, "theta").Success? && FieldOf(t.rel, d, "theta").Success? && "theta" in r.value[Key(d)] &&
      Add(FieldOf(t.abs, nm, "theta").value, FieldOf(t.rel, d, "theta").value) == Success(r.value[Key(d)]["theta"])
  {
    var th :- FieldOf(t.abs, d, "theta");
    if !th.Null? && !HasKey(t.pantilts, Key(d)) then
      var robotTh :- FieldOf(t.abs, nm, "theta");
      var relTh :- FieldOf(t.rel, d, "theta");
      var v :- Add(robotTh, relTh);
      Success(t.abs[Key(d) := t.abs[Key(d)]["theta" := v]])
    else Success(t.abs)
  }

  /** `places_absolute[d]['x'], ['y'] = robot's x, y`. */
  function PlaceAtRobot(abs: Places, nm: Value, d: Value): (r: Result<Places>)
    requires Hashable(d) && Key(d) in abs
    ensures r.Success? ==> r.value.Keys == abs.Keys
    ensures r.Success? ==> FieldOf(abs, nm, "x").Success? && FieldOf(abs, nm, "y").Success?
    ensures r.Success? ==> At(r.value, Key(d), abs[Key(nm)]["x"], abs[Key(nm)]["y"])
    ensures r.Success? ==> forall k :: k in abs && k != Key(d) ==> r.value[k] == abs[k]
    ensures r.Success? ==> forall f :: f in abs[Key(d)] && f != "x" && f != "y" ==>
      f in r.value[Key(d)] && r.value[Key(d)][f] == abs[Key(d)][f]
  {
    var rx :- FieldOf(abs, nm, "x");
    var abs2 := abs[Key(d) := abs[Key(d)]["x" := rx]];
    var ry :- FieldOf(abs2, nm, "y");
    Success(abs2[Key(d) := abs2[Key(d)]["y" := ry]])
  }

  /** One device carried by the robot, as the absolute poses it leaves: turn
      it with the robot, put it at the robot's position, and for a pan-tilt
      also place the devices on it and turn them by its pan. */
  function MoveChild(t: Tf, nm: Value, d: Value): (r: Result<Places>)
    ensures r.Success? ==> r.value.Keys == t.abs.Keys
  {
    var abs1 :- TurnWithRobot(t, nm, d);
    var abs3 :- PlaceAtRobot(abs1, nm, d);
    if HasKey(t.pantilts, Key(d)) && HasKey(t.tree, Key(d)) then
      var abs4 :- PlaceDevices(abs3, nm, Lookup(t.tree, Key(d)));
      UpdatePanTilt(t.(abs := abs4), d, Lookup(t.pantilts, Key(d)))
    else Success(abs3)
  }

  /** The loop of `robot_pose_callback` over the devices the robot carries. */
  function MoveChildren(t: Tf, nm: Value, devs: seq<Value>): (r: Result<Places>)
    ensures r.Success? ==> r.value.Keys == t.abs.Keys
    decreases |devs|
  {
    if devs == [] then Success(t.abs)
    else
      var a1 :- MoveChild(t, nm, devs[0]);
      MoveChildren(t.(abs := a1), nm, devs[1..])
  }

  /** The robot's own absolute pose after a pose message: created at the
      origin when unknown, then overwritten with the reported values. */
  function RobotPlaced(abs: Places, nm: Value, x: Value, y: Value, theta: Value): (r: Places)
    requires Hashable(nm)
    ensures r.Keys == abs.Keys + {Key(nm)}
    ensures At(r, Key(nm), x, y) && "theta" in r[Key(nm)] && r[Key(nm)]["theta"] == theta
    ensures forall k :: k in abs && k != Key(nm) ==> r[k] == abs[k]
  {
    var abs0 := if Key(nm) in abs then abs
      else abs[Key(nm) := map["x" := Num(0.0), "y" := Num(0.0), "theta" := Num(0.0)]];
    abs0[Key(nm) := abs0[Key(nm)]["x" := x]["y" := y]["theta" := theta]]
  }

  /** `robot_pose_callback`: store the robot's pose (creating it for a robot
      not yet seen) and move every device the robot carries. The robot must
      host at least one declared device. */
  function RobotPoseCallback(t: Tf, message: Value): (r: Result<Tf>)
    ensures r.Success? ==> OnlyAbs(t, r.value)
    ensures r.Success? ==> (Get(message, "name").Success? && message.fields["name"].Str? &&
      Get(message, "x").Success? && Get(message, "y").Success? && Get(message, "theta").Success? &&
      HasKey(t.tree, Str(AfterLastDot(message.fields["name"].s))))
  {
    var nameV :- Get(message, "name");
    if !nameV.Str? then Failure("AttributeError: object has no attribute 'split'")
    else
      var nm := Str(AfterLastDot(nameV.s));
      var x :- Get(message, "x");
      var y :- Get(message, "y");
      var theta :- Get(message, "theta");
      var abs1 := RobotPlaced(t.abs, nm, x, y, theta);
      if !HasKey(t.tree, Key(nm)) then Failure("KeyError")
      else
        var abs :- MoveChildren(t.(abs := abs1), nm, Lookup(t.tree, Key(nm)));
        Success(t.(abs := abs))
  }

  lemma {:induction false} PlaceDevicesAt(abs: Places, robot: Value, devs: seq<Value>, x: Value, y: Value, k: Value)
    requires Hashable(robot) && At(abs, Key(robot), x, y)
    requires PlaceDevices(abs, robot, devs).Success?
    requires At(abs, k, x, y) || k in KeySet(devs)
    ensures At(PlaceDevices(abs, robot, devs).value, k, x, y) && At(PlaceDevices(abs, robot, devs).value, Key(robot), x, y)
    decreases |devs|
  {
    if devs != [] {
      var p := abs[Key(devs[0])];
      var a1 := abs[Key(devs[0]) := p["x" := x]["y" := y]];
      assert KeySet(devs) == {Key(devs[0])} + KeySet(devs[1..]) by {
        assert forall j :: 0 <= j < |devs[1..]| ==> devs[1..][j] == devs[j + 1];
      }
      PlaceDevicesAt(a1, robot, devs[1..], x, y, k);
    }
  }

  /** Turning the devices on a pan-tilt moves nobody. */
  lemma UpdatePanTiltAt(t: Tf, pt: Value, pan: Value, k: Value, x: Value, y: Value)
    requires UpdatePanTilt(t, pt, pan).Success?
    requires At(t.abs, k, x, y)
    ensures At(UpdatePanTilt(t, pt, pan).value, k, x, y)
  {
    if HasKey(t.tree, Key(pt)) {
      var devs := Lookup(t.tree, Key(pt));
      var h := PanTiltHeading(t, pt, pan).value;
      SetThetasKeepsPlace(t.abs, t.rel, devs, h, k, "x");
      SetThetasKeepsPlace(t.abs, t.rel, devs, h, k, "y");
    }
  }

  /** Turning and placing one device keeps whoever stood at the robot's
      position there, and puts the device there too. */
  lemma PlaceAtRobotAt(t: Tf, nm: Value, d: Value, x: Value, y: Value, k: Value)
    requires Hashable(nm) && At(t.abs, Key(nm), x, y)
    requires TurnWithRobot(t, nm, d).Success?
    requires PlaceAtRobot(TurnWithRobot(t, nm, d).value, nm, d).Success?
    requires At(t.abs, k, x, y) || k == Key(d)
    ensures var a := PlaceAtRobot(TurnWithRobot(t, nm, d).value, nm, d).value;
      At(a, k, x, y) && At(a, Key(nm), x, y)
  {
    var abs1 := TurnWithRobot(t, nm, d).value;
    assert At(abs1, Key(nm), x, y);
    assert At(t.abs, k, x, y) ==> At(abs1, k, x, y);
  }

  /** One carried device ends at the robot's position, and whatever stood at
      the robot's position still does. */
  lemma MoveChildAt(t: Tf, nm: Value, d: Value, x: Value, y: Value, k: Value)
    requires Hashable(nm) && At(t.abs, Key(nm), x, y)
    requires MoveChild(t, nm, d).Success?
    requires At(t.abs, k, x, y) || k == Key(d)
    ensures At(MoveChild(t, nm, d).value, k, x, y) && At(MoveChild(t, nm, d).value, Key(nm), x, y)
  {
    PlaceAtRobotAt(t, nm, d, x, y, k);
    var abs3 := PlaceAtRobot(TurnWithRobot(t, nm, d).value, nm, d).value;
    if HasKey(t.pantilts, Key(d)) && HasKey(t.tree, Key(d)) {
      var devs := Lookup(t.tree, Key(d));
      PlaceDevicesAt(abs3, nm, devs, x, y, k);
      PlaceDevicesAt(abs3, nm, devs, x, y, Key(nm));
      var t4 := t.(abs := PlaceDevices(abs3, nm, devs).value);
      var pan := Lookup(t.pantilts, Key(d));
      UpdatePanTiltAt(t4, d, pan, k, x, y);
      UpdatePanTiltAt(t4, d, pan, Key(nm), x, y);
    }
  }

  lemma {:induction false} MoveChildrenAt(t: Tf, nm: Value, devs: seq<Value>, x: Value, y: Value, k: Value)
    requires Hashable(nm) && At(t.abs, Key(nm), x, y)
    requires MoveChildren(t, nm, devs).Success?
    requires At(t.abs, k, x, y) || k in KeySet(devs)
    ensures At(MoveChildren(t, nm, devs).value, k, x, y)
    ensures At(MoveChildren(t, nm, devs).value, Key(nm), x, y)
    decreases |devs|
  {
    if devs != [] {
      var d := devs[0];
      var rest := devs[1..];
      var a1 := MoveChild(t, nm, d).value;
      assert MoveChildren(t, nm, devs) == MoveChildren(t.(abs := a1), nm, rest);
      KeySetCons(devs);
      if At(t.abs, k, x, y) || k == Key(d) {
        MoveChildAt(t, nm, d, x, y, k);
      } else {
        MoveChildAt(t, nm, d, x, y, Key(nm));
      }
      MoveChildrenAt(t.(abs := a1), nm, rest, x, y, k);
    }
  }

  /** A successful robot pose message places the robot, then moves its devices. */
  lemma RobotPoseMoves(t: Tf, message: Value)
    requires RobotPoseCallback(t, message).Success?
    ensures var nm := Str(AfterLastDot(message.fields["name"].s));
      var t1 := t.(abs := RobotPlaced(t.abs, nm, message.fields["x"], message.fields["y"], message.fields["theta"]));
      MoveChildren(t1, nm, Lookup(t.tree, Key(nm))).Success? &&
      RobotPoseCallback(t, message).value.abs == MoveChildren(t1, nm, Lookup(t.tree, Key(nm))).value
  {
  }

  /** After a robot pose message, the robot and every device it carries
      stand at the position the message reports. */
  lemma RobotPoseMovesCarried(t: Tf, message: Value, j: int)
    requires RobotPoseCallback(t, message).Success?
    ensures var nm := Str(AfterLastDot(message.fields["name"].s));
      var devs := Lookup(t.tree, Key(nm));
      var abs := RobotPoseCallback(t, message).value.abs;
      At(abs, Key(nm), message.fields["x"], message.fields["y"]) &&
      (0 <= j < |devs| ==> At(abs, Key(devs[j]), message.fields["x"], message.fields["y"]))
  {
    var nm := Str(AfterLastDot(message.fields["name"].s));
    var x, y := message.fields["x"], message.fields["y"];
    var t1 := t.(abs := RobotPlaced(t.abs, nm, x, y, message.fields["theta"]));
    var devs := Lookup(t.tree, Key(nm));
    assert RobotPoseCallback(t, message).value.abs == MoveChildren(t1, nm, devs).value;
    if 0 <= j < |devs| {
      MoveChildrenAt(t1, nm, devs, x, y, Key(devs[j]));
    } else {
      MoveChildrenAt(t1, nm, devs, x, y, Key(nm));
    }
  }

  // ---------------------------------------------------------------------------
  // The heading cascade of robot_pose_callback

  /** `k` has the same heading, or the same lack of one, in both. */
  predicate SameHeading(a: Places, b: Places, k: Value) {
    k in a && k in b && ("theta" in a[k] <==> "theta" in b[k]) && ("theta" in a[k] ==> a[k]["theta"] == b[k]["theta"])
  }

  /** No pan-tilt among `devs` carries `k`: the pan-tilt steps of the loop
      never turn it. In a tree, where every device has one host, this holds
      of the robot and of each device it carries directly. */
  predicate OffPanTilts(t: Tf, devs: seq<Value>, k: Value) {
    forall i :: 0 <= i < |devs| && HasKey(t.pantilts, Key(devs[i])) && HasKey(t.tree, Key(devs[i])) ==>
      k !in KeySet(Lookup(t.tree, Key(devs[i])))
  }

  lemma OffPanTiltsTail(t: Tf, t1: Tf, devs: seq<Value>, k: Value)
    requires devs != [] && t1.pantilts == t.pantilts && t1.tree == t.tree && OffPanTilts(t, devs, k)
    ensures OffPanTilts(t1, devs[1..], k)
  {
    forall i | 0 <= i < |devs[1..]|
      ensures devs[1..][i] == devs[i + 1]
    {
    }
  }

  /** `k` carries the robot's heading `th` plus its own relative heading. */
  predicate TurnedBy(abs: Places, rel: Places, k: Value, th: Value) {
    k in abs && "theta" in abs[k] && k in rel && "theta" in rel[k] && Add(th, rel[k]["theta"]) == Success(abs[k]["theta"])
  }

  /** Placing the devices of a pan-tilt changes positions only. */
  lemma {:induction false} PlaceDevicesKeepsHeading(abs: Places, robot: Value, devs: seq<Value>, k: Value)
    requires PlaceDevices(abs, robot, devs).Success? && k in abs
    ensures SameHeading(abs, PlaceDevices(abs, robot, devs).value, k)
    decreases |devs|
  {
    if devs != [] {
      var p := abs[Key(devs[0])];
      var a1 := abs[Key(devs[0]) := p["x" := abs[Key(robot)]["x"]]["y" := abs[Key(robot)]["y"]]];
      PlaceDevicesKeepsHeading(a1, robot, devs[1..], k);
    }
  }

  /** One step of the loop leaves the heading of every other device alone,
      unless the step's device is a pan-tilt carrying it. */
  lemma MoveChildKeepsHeading(t: Tf, nm: Value, e: Value, k: Value)
    requires MoveChild(t, nm, e).Success? && k in t.abs && k != Key(e)
    requires HasKey(t.pantilts, Key(e)) && HasKey(t.tree, Key(e)) ==> k !in KeySet(Lookup(t.tree, Key(e)))
    ensures SameHeading(t.abs, MoveChild(t, nm, e).value, k)
  {
    var abs1 := TurnWithRobot(t, nm, e).value;
    var abs3 := PlaceAtRobot(abs1, nm, e).value;
    assert abs3[k] == t.abs[k];
    if HasKey(t.pantilts, Key(e)) && HasKey(t.tree, Key(e)) {
      var devs := Lookup(t.tree, Key(e));
      PlaceDevicesKeepsHeading(abs3, nm, devs, k);
      var abs4 := PlaceDevices(abs3, nm, devs).value;
      var t4 := t.(abs := abs4);
      var pan := Lookup(t.pantilts, Key(e));
      SetThetasOthers(abs4, t.rel, devs, PanTiltHeading(t4, e, pan).value);
    }
  }

  /** The step of a device that is no pan-tilt and has a heading gives it the
      robot's current heading plus its relative heading. */
  lemma MoveChildTurns(t: Tf, nm: Value, d: Value)
    requires MoveChild(t, nm, d).Success? && !HasKey(t.pantilts, Key(d))
    requires Key(d) in t.abs && "theta" in t.abs[Key(d)] && !t.abs[Key(d)]["theta"].Null?
    ensures Hashable(nm) && Key(nm) in t.abs && "theta" in t.abs[Key(nm)]
    ensures TurnedBy(MoveChild(t, nm, d).value, t.rel, Key(d), t.abs[Key(nm)]["theta"])
  {
    var abs1 := TurnWithRobot(t, nm, d).value;
    assert MoveChild(t, nm, d) == PlaceAtRobot(abs1, nm, d);
  }

  /** Over the whole loop: a device waiting for its step with a heading, or
      already turned, ends turned by the robot's heading, provided neither
      it nor the robot is carried by a pan-tilt of the loop. */
  lemma {:induction false} MoveChildrenTurns(t: Tf, nm: Value, devs: seq<Value>, k: Value, th: Value)
    requires MoveChildren(t, nm, devs).Success?
    requires Hashable(nm) && Key(nm) in t.abs && "theta" in t.abs[Key(nm)] && t.abs[Key(nm)]["theta"] == th
    requires Key(nm) !in KeySet(devs) && OffPanTilts(t, devs, Key(nm)) && OffPanTilts(t, devs, k)
    requires !HasKey(t.pantilts, k)
    requires TurnedBy(t.abs, t.rel, k, th) ||
      (k in KeySet(devs) && k in t.abs && "theta" in t.abs[k] && !t.abs[k]["theta"].Null?)
    ensures TurnedBy(MoveChildren(t, nm, devs).value, t.rel, k, th)
    decreases |devs|
  {
    if devs == [] {
    } else {
      var e := devs[0];
      var rest := devs[1..];
      var a1 := MoveChild(t, nm, e).value;
      var t1 := t.(abs := a1);
      assert MoveChildren(t, nm, devs) == MoveChildren(t1, nm, rest);
      KeySetCons(devs);
      MoveChildKeepsHeading(t, nm, e, Key(nm));
      if Key(e) == k {
        MoveChildTurns(t, nm, e);
      } else {
        MoveChildKeepsHeading(t, nm, e, k);
      }
      OffPanTiltsTail(t, t1, devs, Key(nm));
      OffPanTiltsTail(t, t1, devs, k);
      MoveChildrenTurns(t1, nm, rest, k, th);
    }
  }

  /** After a robot pose message, every device the robot carries directly
      that is no pan-tilt and has a heading faces the reported heading plus
      its relative heading, as long as the tree is a tree: the robot does
      not carry itself, and neither it nor the device sits on one of the
      robot's pan-tilts. */
  lemma RobotPoseTurnsCarried(t: Tf, message: Value, j: int)
    requires RobotPoseCallback(t, message).Success?
    requires var nm := Str(AfterLastDot(message.fields["name"].s));
      var devs := Lookup(t.tree, Key(nm));
      0 <= j < |devs| && !HasKey(t.pantilts, Key(devs[j])) &&
      Key(devs[j]) in t.abs && "theta" in t.abs[Key(devs[j])] && !t.abs[Key(devs[j])]["theta"].Null? &&
      Key(nm) !in KeySet(devs) && OffPanTilts(t, devs, Key(nm)) && OffPanTilts(t, devs, Key(devs[j]))
    ensures var nm := Str(AfterLastDot(message.fields["name"].s));
      var d := Lookup(t.tree, Key(nm))[j];
      TurnedBy(RobotPoseCallback(t, message).value.abs, t.rel, Key(d), message.fields["theta"])
  {
    var nm := Str(AfterLastDot(message.fields["name"].s));
    var th := message.fields["theta"];
    var t1 := t.(abs := RobotPlaced(t.abs, nm, message.fields["x"], message.fields["y"], th));
    var devs := Lookup(t.tree, Key(nm));
    var k := Key(devs[j]);
    RobotPoseMoves(t, message);
    assert k in KeySet(devs);
    assert t1.abs[k] == t.abs[k];
    assert OffPanTilts(t1, devs, Key(nm)) && OffPanTilts(t1, devs, k) by {
      assert t1.pantilts == t.pantilts && t1.tree == t.tree;
    }
    MoveChildrenTurns(t1, nm, devs, k, th);
  }
}

=== FILE: tf_tree.dfy ===
/** The transformation tree of `TfController`: which device sits on which
    host, the relative pose each device was declared with and the absolute
    pose the engine maintains. Hosts are robots, pan-tilts or `None` (the
    environment). Every dict of the source keyed by a device name is a map
    keyed by `Key(name)`; the tree keeps its hosts in first-seen order because
    the source iterates it. */
module TfTree {
  import opened Wrappers
  import opened Values
  import opened Geometry
  import opened TfDeclare

  /** A pose dict `{'x': .., 'y': .., 'theta': ..}` as stored. */
  type Pose = map<string, Value>
  type Places = map<Value, Pose>

  datatype Tf = Tf(
    reg: Registry,
    tree: Assoc<Value, seq<Value>>,
    hosts: map<Value, Value>,
    rel: Places,
    abs: Places,
    pantilts: Assoc<Value, Value>,
    robots: seq<Value>,
    existing: seq<Value>,
    speakers: seq<Value>,
    microphones: seq<Value>)

  function Field(d: Decl, k: string): (r: Result<Value>)
    ensures r.Success? <==> k in d
    ensures r.Success? ==> r.value == d[k]
  {
    if k in d then Success(d[k]) else Failure("KeyError: " + k)
  }

  /** `places[name]`. */
  function PoseOf(m: Places, name: Value): (r: Result<Pose>)
    ensures r.Success? <==> Hashable(name) && Key(name) in m
    ensures r.Success? ==> r.value == m[Key(name)]
  {
    if !Hashable(name) then Failure("TypeError: unhashable type")
    else if Key(name) in m then Success(m[Key(name)])
    else Failure("KeyError")
  }

  /** `places[name][f]`. */
  function FieldOf(m: Places, name: Value, f: string): (r: Result<Value>)
    ensures r.Success? <==> Hashable(name) && Key(name) in m && f in m[Key(name)]
    ensures r.Success? ==> r.value == m[Key(name)][f]
  {
    var p :- PoseOf(m, name);
    if f in p then Success(p[f]) else Failure("KeyError: " + f)
  }

  /** `tree[host]`, or the empty list for a host not in the tree. */
  function Children(tree: Assoc<Value, seq<Value>>, hk: Value): seq<Value> {
    if HasKey(tree, hk) then Lookup(tree, hk) else []
  }

  // ---------------------------------------------------------------------------
  // setup: filling the tree

  /** Reference definition: the names of the declarations whose host is
      addressed by `hk`, in declaration order. */
  function HostedBy(decls: seq<Decl>, hk: Value): seq<Value> {
    if decls == [] then []
    else
      var d := decls[|decls| - 1];
      HostedBy(decls[..|decls| - 1], hk) +
        (if "host" in d && "name" in d && Key(d["host"]) == hk then [d["name"]] else [])
  }

  /** One iteration of the tree-filling loop: append the device to its
      host's list, remember its host and copy its pose twice. A pose with
      `x` but no `y` raises. */
  function AddDecl(t: Tf, d: Decl): (r: Result<Tf>)
    ensures r.Success? ==>
      "host" in d && "name" in d && "pose" in d && Hashable(d["host"]) && Hashable(d["name"]) &&
      d["pose"].Obj? &&
      r.value.tree == Put(t.tree, Key(d["host"]), Children(t.tree, Key(d["host"])) + [d["name"]]) &&
      r.value.rel == t.rel[Key(d["name"]) := d["pose"].fields] &&
      r.value.abs == t.abs[Key(d["name"]) := d["pose"].fields] &&
      r.value.hosts == t.hosts[Key(d["name"]) := d["host"]]
    ensures r.Success? ==> r.value.reg == t.reg && r.value.pantilts == t.pantilts && r.value.existing == t.existing
  {
    var host :- Field(d, "host");
    var name :- Field(d, "name");
    var pose :- Field(d, "pose");
    if !Hashable(host) || !Hashable(name) then Failure("TypeError: unhashable type")
    else if !pose.Obj? then Failure("AttributeError: object has no attribute 'copy'")
    else if "x" in pose.fields && "y" !in pose.fields then Failure("KeyError: y")
    else
      var hk := Key(host);
      Success(t.(tree := Put(t.tree, hk, Children(t.tree, hk) + [name]),
                 hosts := t.hosts[Key(name) := host],
                 rel := t.rel[Key(name) := pose.fields],
                 abs := t.abs[Key(name) := pose.fields]))
  }

  /** The tree-filling loop of `setup` over `declarations`. */
  function FillTree(t: Tf, decls: seq<Decl>): (r: Result<Tf>)
    ensures r.Success? ==> r.value.reg == t.reg && r.value.pantilts == t.pantilts && r.value.existing == t.existing
    decreases |decls|
  {
    if decls == [] then Success(t)
    else
      var t1 :- FillTree(t, decls[..|decls| - 1]);
      AddDecl(t1, decls[|decls| - 1])
  }

  /** Starting from an empty tree, each host's list holds exactly the names
      declared on that host, in declaration order and with repetitions, and
      no host is listed twice. */
  lemma {:induction false} FillTreeGroups(t: Tf, decls: seq<Decl>, hk: Value)
    requires t.tree == []
    requires FillTree(t, decls).Success?
    ensures Children(FillTree(t, decls).value.tree, hk) == HostedBy(decls, hk)
    ensures DistinctKeys(FillTree(t, decls).value.tree)
    decreases |decls|
  {
    if decls != [] {
      var n := |decls| - 1;
      var t1 := FillTree(t, decls[..n]).value;
      var d := decls[n];
      FillTreeGroups(t, decls[..n], hk);
      var tree := FillTree(t, decls).value.tree;
      var hd := Key(d["host"]);
      assert tree == Put(t1.tree, hd, Children(t1.tree, hd) + [d["name"]]);
      PutDistinct(t1.tree, hd, Children(t1.tree, hd) + [d["name"]]);
      if hk == hd {
        PutLookupSame(t1.tree, hd, Children(t1.tree, hd) + [d["name"]]);
        FillTreeGroups(t, decls[..n], hd);
      } else if HasKey(t1.tree, hk) {
        PutLookupOther(t1.tree, hd, Children(t1.tree, hd) + [d["name"]], hk);
      } else {
        assert !HasKey(tree, hk);
      }
    }
  }

  /** Relative and absolute poses start out equal, and a name declared more
      than once keeps the pose of its last declaration. */
  lemma {:induction false} FillTreePoses(t: Tf, decls: seq<Decl>)
    requires t.rel == t.abs
    requires FillTree(t, decls).Success?
    ensures FillTree(t, decls).value.rel == FillTree(t, decls).value.abs
    ensures decls != [] ==>
      var d := decls[|decls| - 1];
      FillTree(t, decls).value.rel[Key(d["name"])] == d["pose"].fields &&
      FillTree(t, decls).value.hosts[Key(d["name"])] == d["host"]
    decreases |decls|
  {
    if decls != [] {
      FillTreePoses(t, decls[..|decls| - 1]);
    }
  }

  // ---------------------------------------------------------------------------
  // setup: pan-tilts, robots and the consistency logs

  /** The pan-tilts the devices RPC reports, each starting at pan 0, in
      discovery order; a name reported twice keeps its first position. */
  function PanTiltTable(found: seq<string>): (r: Assoc<Value, Value>)
    ensures DistinctKeys(r)
    decreases |found|
  {
    if found == [] then []
    else
      var prev := PanTiltTable(found[..|found| - 1]);
      PutDistinct(prev, Str(found[|found| - 1]), Num(0.0));
      Put(prev, Str(found[|found| - 1]), Num(0.0))
  }

  /** Exactly the reported names are pan-tilts. */
  lemma {:induction false} PanTiltTableKeys(found: seq<string>, s: string)
    ensures HasKey(PanTiltTable(found), Str(s)) <==> s in found
    decreases |found|
  {
    if found != [] {
      var n := |found| - 1;
      PanTiltTableKeys(found[..n], s);
      PanTiltTableUnfold(found);
      PutHasKey(PanTiltTable(found[..n]), Str(found[n]), Num(0.0), Str(s));
      InFound(found, s);
    }
  }

  lemma InFound(found: seq<string>, s: string)
    requires found != []
    ensures s in found <==> s in found[..|found| - 1] || s == found[|found| - 1]
  {
    assert found == found[..|found| - 1] + [found[|found| - 1]];
  }

  lemma PanTiltTableUnfold(found: seq<string>)
    requires found != []
    ensures PanTiltTable(found) == Put(PanTiltTable(found[..|found| - 1]), Str(found[|found| - 1]), Num(0.0))
  {
  }

  /** The robot-hosted declarations' hosts that are not yet known hosts, in
      declaration order, each once; subscribing to `robot.<host>.pose` needs
      the host to be a string. */
  function NewRobots(decls: seq<Decl>, known: seq<Value>): (r: Result<seq<Value>>)
    ensures r.Success? ==> |r.value| <= |decls|
    decreases |decls|
  {
    if decls == [] then Success([])
    else
      var hostType :- Field(decls[0], "host_type");
      if !PyEq(hostType, Str("robot")) then NewRobots(decls[1..], known)
      else
        var host :- Field(decls[0], "host");
        if InList(host, known) then NewRobots(decls[1..], known)
        else if !host.Str? then Failure("TypeError: can only concatenate str")
        else
          var rest :- NewRobots(decls[1..], known + [host]);
          Success([host] + rest)
  }

  /** Every robot found is a string host that was not known before, and no
      robot is found twice. */
  lemma {:induction false} NewRobotsFresh(decls: seq<Decl>, known: seq<Value>)
    requires NewRobots(decls, known).Success?
    ensures var added := NewRobots(decls, known).value;
      (forall i :: 0 <= i < |added| ==> added[i].Str? && !InList(added[i], known)) &&
      (forall i, j :: 0 <= i < j < |added| ==> added[i] != added[j])
    decreases |decls|
  {
    if decls != [] {
      var hostType := decls[0]["host_type"];
      if !PyEq(hostType, Str("robot")) || InList(decls[0]["host"], known) {
        NewRobotsFresh(decls[1..], known);
      } else {
        var host := decls[0]["host"];
        var k2 := known + [host];
        NewRobotsFresh(decls[1..], k2);
        var rest := NewRobots(decls[1..], k2).value;
        var added := NewRobots(decls, known).value;
        assert added == [host] + rest;
        forall i | 0 <= i < |added| ensures added[i].Str? && !InList(added[i], known) {
          if i > 0 {
            assert added[i] == rest[i - 1];
            InListPrefix(added[i], known, [host]);
          }
        }
        forall i, j | 0 <= i < j < |added| ensures added[i] != added[j] {
          if i == 0 {
            assert added[j] == rest[j - 1];
            assert k2[|known|] == host && PyEq(host, host);
          }
        }
      }
    }
  }

  lemma InListPrefix(v: Value, a: seq<Value>, b: seq<Value>)
    ensures InList(v, a) ==> InList(v, a + b)
  {
    if InList(v, a) {
      var k :| 0 <= k < |a| && PyEq(v, a[k]);
      assert (a + b)[k] == a[k];
    }
  }

  /** After gathering, the host of every robot-hosted declaration is known. */
  lemma {:induction false} NewRobotsCover(decls: seq<Decl>, known: seq<Value>, j: int)
    requires NewRobots(decls, known).Success?
    requires 0 <= j < |decls| && "host_type" in decls[j] && PyEq(decls[j]["host_type"], Str("robot"))
    ensures "host" in decls[j] && InList(decls[j]["host"], known + NewRobots(decls, known).value)
    decreases |decls|
  {
    var added := NewRobots(decls, known).value;
    var d := decls[0];
    var grows := PyEq(d["host_type"], Str("robot")) && "host" in d && !InList(d["host"], known);
    var k2 := if grows then known + [d["host"]] else known;
    var rest := NewRobots(decls[1..], k2).value;
    assert known + added == k2 + rest by {
      if grows {
        assert added == [d["host"]] + rest;
      }
    }
    if j == 0 {
      var host := d["host"];
      if InList(host, known) {
        var k :| 0 <= k < |known| && PyEq(host, known[k]);
        assert (known + added)[k] == known[k];
      } else {
        assert (known + added)[|known|] == host && PyEq(host, host);
      }
    } else {
      assert decls[j] == decls[1..][j - 1];
      NewRobotsCover(decls[1..], k2, j - 1);
    }
  }

  /** The `None` fields of one pan-tilt's relative pose. */
  function NoneFields(p: Pose): (r: seq<string>)
    requires "x" in p && "y" in p && "theta" in p
    ensures forall f :: f in r <==> f in ["x", "y", "theta"] && p[f].Null?
  {
    (if p["x"].Null? then ["x"] else []) + (if p["y"].Null? then ["y"] else []) +
      (if p["theta"].Null? then ["theta"] else [])
  }

  /** The pan-tilt pose check: a pan-tilt that was not declared, or whose
      pose lacks a field, raises; each `None` field is logged. */
  function PanTiltNoneFields(rel: Places, pts: seq<Value>): (r: Result<seq<(Value, string)>>)
    ensures r.Success? <==>
      forall i :: 0 <= i < |pts| ==> (PoseOf(rel, pts[i]).Success? && "x" in PoseOf(rel, pts[i]).value &&
        "y" in PoseOf(rel, pts[i]).value && "theta" in PoseOf(rel, pts[i]).value)
    decreases |pts|
  {
    if pts == [] then Success([])
    else
      var p :- PoseOf(rel, pts[0]);
      if "x" !in p || "y" !in p || "theta" !in p then Failure("KeyError")
      else
        var rest :- PanTiltNoneFields(rel, pts[1..]);
        assert forall i :: 1 <= i < |pts| ==> pts[i] == pts[1..][i - 1];
        Success(Pairs(pts[0], NoneFields(p)) + rest)
  }

  /** The log lines of one pan-tilt: its name with each `None` field. */
  function Pairs(n: Value, fs: seq<string>): (r: seq<(Value, string)>)
    ensures |r| == |fs| && forall i :: 0 <= i < |fs| ==> r[i] == (n, fs[i])
  {
    seq(|fs|, i requires 0 <= i < |fs| => (n, fs[i]))
  }

  lemma PairsLogged(n: Value, fs: seq<string>, pt: Value, f: string)
    ensures (pt, f) in Pairs(n, fs) <==> pt == n && f in fs
  {
    if pt == n && f in fs {
      var i :| 0 <= i < |fs| && fs[i] == f;
      assert Pairs(n, fs)[i] == (pt, f);
    }
  }

  /** A field is logged exactly when it is `None` on some pan-tilt. */
  lemma {:induction false} PanTiltNoneFieldsLogged(rel: Places, pts: seq<Value>, pt: Value, f: string)
    requires PanTiltNoneFields(rel, pts).Success?
    ensures (pt, f) in PanTiltNoneFields(rel, pts).value <==>
      exists i :: 0 <= i < |pts| && pts[i] == pt && f in NoneFields(rel[Key(pts[i])])
    decreases |pts|
  {
    if pts != [] {
      var rest := pts[1..];
      PanTiltNoneFieldsLogged(rel, rest, pt, f);
      var p := rel[Key(pts[0])];
      PairsLogged(pts[0], NoneFields(p), pt, f);
      assert PanTiltNoneFields(rel, pts).value == Pairs(pts[0], NoneFields(p)) + PanTiltNoneFields(rel, rest).value;
      assert (exists i :: 0 <= i < |pts| && pts[i] == pt && f in NoneFields(rel[Key(pts[i])])) <==>
        (pts[0] == pt && f in NoneFields(p)) ||
        (exists i :: 0 <= i < |rest| && rest[i] == pt && f in NoneFields(rel[Key(rest[i])])) by {
        if exists i :: 1 <= i < |pts| && pts[i] == pt && f in NoneFields(rel[Key(pts[i])]) {
          var i :| 1 <= i < |pts| && pts[i] == pt && f in NoneFields(rel[Key(pts[i])]);
          assert rest[i - 1] == pts[i];
        }
        if exists i :: 0 <= i < |rest| && rest[i] == pt && f in NoneFields(rel[Key(rest[i])]) {
          var i :| 0 <= i < |rest| && rest[i] == pt && f in NoneFields(rel[Key(rest[i])]);
          assert pts[i + 1] == rest[i];
        }
      }
    }
  }

  /** The hosts in the tree that are neither a pan-tilt nor a robot nor `None`,
      in tree order: each is logged as a missing host. */
  function MissingHosts(hosts: seq<Value>, existing: seq<Value>): (r: seq<Value>)
    ensures forall h :: h in r <==> h in hosts && !h.Null? && !InList(h, existing)
    ensures |r| <= |hosts|
  {
    if hosts == [] then []
    else (if !hosts[0].Null? && !InList(hosts[0], existing) then [hosts[0]] else []) + MissingHosts(hosts[1..], existing)
  }

  // ---------------------------------------------------------------------------
  // setup: offsets of devices mounted on pan-tilts

  /** `q` is `p` moved by the position of `o` and, unless `p`'s heading is
      `None`, turned by its heading; every other field is kept. */
  predicate ShiftedBy(p: Pose, o: Pose, q: Pose) {
    "x" in p && "y" in p && "theta" in p && "x" in o && "y" in o &&
    q.Keys == p.Keys &&
    Add(p["x"], o["x"]) == Success(q["x"]) &&
    Add(p["y"], o["y"]) == Success(q["y"]) &&
    (p["theta"].Null? ==> q["theta"].Null?) &&
    (!p["theta"].Null? ==> "theta" in o && Add(p["theta"], o["theta"]) == Success(q["theta"])) &&
    (forall f :: f in p && f != "x" && f != "y" && f != "theta" ==> q[f] == p[f])
  }

  /** One device's step of the offset loop: `x`, `y` and, unless `None`,
      `theta` each gain the pan-tilt's value. Each field only reads its own
      counterpart, so the three in-place additions equal one computed from
      the poses before the step. */
  function Offset(abs: Places, pt: Value, i: Value): (r: Result<Pose>)
    ensures r.Success? ==>
      Hashable(i) && Hashable(pt) && Key(i) in abs && Key(pt) in abs &&
      ShiftedBy(abs[Key(i)], abs[Key(pt)], r.value)
  {
    var p :- PoseOf(abs, i);
    var o :- PoseOf(abs, pt);
    var x0 :- FieldOf(abs, i, "x");
    var dx :- FieldOf(abs, pt, "x");
    var x :- Add(x0, dx);
    var y0 :- FieldOf(abs, i, "y");
    var dy :- FieldOf(abs, pt, "y");
    var y :- Add(y0, dy);
    var th0 :- FieldOf(abs, i, "theta");
    if th0.Null? then Success(p["x" := x]["y" := y])
    else
      var dth :- FieldOf(abs, pt, "theta");
      var th :- Add(th0, dth);
      Success(p["x" := x]["y" := y]["theta" := th])
  }

  /** The inner loop over the devices on one pan-tilt. */
  function OffsetDevices(abs: Places, pt: Value, devs: seq<Value>): (r: Result<Places>)
    ensures r.Success? ==> r.value.Keys == abs.Keys
    decreases |devs|
  {
    if devs == [] then Success(abs)
    else
      var p :- Offset(abs, pt, devs[0]);
      OffsetDevices(abs[Key(devs[0]) := p], pt, devs[1..])
  }

  /** For distinct devices other than the pan-tilt itself, each ends at its
      pose shifted by the pan-tilt's pose, and nothing else moves. */
  lemma {:induction false} OffsetDevicesShifts(abs: Places, pt: Value, devs: seq<Value>)
    requires OffsetDevices(abs, pt, devs).Success?
    requires forall i :: 0 <= i < |devs| ==> Hashable(devs[i]) && Key(devs[i]) != Key(pt)
    requires forall i, j :: 0 <= i < j < |devs| ==> Key(devs[i]) != Key(devs[j])
    ensures var r := OffsetDevices(abs, pt, devs).value;
      (forall k :: k in abs && k !in KeySet(devs) ==> r[k] == abs[k]) &&
      (forall i :: 0 <= i < |devs| ==> (Key(devs[i]) in abs && Hashable(pt) && Key(pt) in abs &&
        ShiftedBy(abs[Key(devs[i])], abs[Key(pt)], r[Key(devs[i])])))
    decreases |devs|
  {
    if devs != [] {
      var k := Key(devs[0]);
      var p := Offset(abs, pt, devs[0]).value;
      var a1 := abs[k := p];
      var rest := devs[1..];
      assert forall j :: 0 <= j < |rest| ==> rest[j] == devs[j + 1];
      OffsetDevicesShifts(a1, pt, rest);
      var r := OffsetDevices(abs, pt, devs).value;
      assert r == OffsetDevices(a1, pt, rest).value;
      KeySetCons(devs);
      assert k !in KeySet(rest);
      forall i | 0 <= i < |devs|
        ensures Key(devs[i]) in abs && ShiftedBy(abs[Key(devs[i])], abs[Key(pt)], r[Key(devs[i])])
      {
        if i > 0 {
          assert rest[i - 1] == devs[i] && Key(devs[i]) != k;
        }
      }
    }
  }

  /** The dict keys of a list of names. */
  function KeySet(names: seq<Value>): set<Value> {
    set i | 0 <= i < |names| :: Key(names[i])
  }

  lemma KeySetCons(names: seq<Value>)
    requires names != []
    ensures KeySet(names) == {Key(names[0])} + KeySet(names[1..])
  {
    assert forall j :: 0 <= j < |names[1..]| ==> names[1..][j] == names[j + 1];
  }

  /** The outer loop over pan-tilts in discovery order. */
  function OffsetPanTilts(abs: Places, tree: Assoc<Value, seq<Value>>, pts: seq<Value>): (r: Result<Places>)
    ensures r.Success? ==> r.value.Keys == abs.Keys
    decreases |pts|
  {
    if pts == [] then Success(abs)
    else
      var a1 :- OffsetDevices(abs, pts[0], DevicesOn(tree, pts[0]));
      OffsetPanTilts(a1, tree, pts[1..])
  }

  /** The devices listed under a pan-tilt in the tree; none when it has no
      entry, which the outer loop skips. */
  function DevicesOn(tree: Assoc<Value, seq<Value>>, pt: Value): seq<Value> {
    if Hashable(pt) && HasKey(tree, Key(pt)) then Lookup(tree, Key(pt)) else []
  }

  /** What the offset loop assumes of the tree: the pan-tilts are distinct,
      each one's devices are hashable and distinct, no device sits on two of
      them, and no pan-tilt sits on one. */
  predicate Separate(tree: Assoc<Value, seq<Value>>, pts: seq<Value>) {
    (forall p, q :: 0 <= p < q < |pts| ==> Key(pts[p]) != Key(pts[q])) &&
    (forall p, q :: 0 <= p < |pts| && 0 <= q < |pts| && p != q ==>
      KeySet(DevicesOn(tree, pts[p])) !! KeySet(DevicesOn(tree, pts[q]))) &&
    (forall p, q :: 0 <= p < |pts| && 0 <= q < |pts| ==> Key(pts[q]) !in KeySet(DevicesOn(tree, pts[p]))) &&
    (forall p, i :: 0 <= p < |pts| && 0 <= i < |DevicesOn(tree, pts[p])| ==> Hashable(DevicesOn(tree, pts[p])[i])) &&
    (forall p, i, j :: 0 <= p < |pts| && 0 <= i < j < |DevicesOn(tree, pts[p])| ==>
      Key(DevicesOn(tree, pts[p])[i]) != Key(DevicesOn(tree, pts[p])[j]))
  }

  /** `k` is on none of the pan-tilts' lists. */
  predicate Unlisted(tree: Assoc<Value, seq<Value>>, pts: seq<Value>, k: Value) {
    forall p :: 0 <= p < |pts| ==> k !in KeySet(DevicesOn(tree, pts[p]))
  }

  lemma SeparateTail(tree: Assoc<Value, seq<Value>>, pts: seq<Value>)
    requires pts != [] && Separate(tree, pts)
    ensures Separate(tree, pts[1..])
  {
    assert forall p :: 0 <= p < |pts[1..]| ==> pts[1..][p] == pts[p + 1];
  }

  /** Over the whole loop: every device on a pan-tilt ends at its pose
      shifted by that pan-tilt's pose, and everything on no list keeps its
      pose. */
  lemma {:induction false} OffsetPanTiltsShifts(abs: Places, tree: Assoc<Value, seq<Value>>, pts: seq<Value>)
    requires OffsetPanTilts(abs, tree, pts).Success? && Separate(tree, pts)
    ensures var r := OffsetPanTilts(abs, tree, pts).value;
      (forall k :: k in abs && Unlisted(tree, pts, k) ==> r[k] == abs[k]) &&
      (forall p, i :: 0 <= p < |pts| && 0 <= i < |DevicesOn(tree, pts[p])| ==>
        Key(DevicesOn(tree, pts[p])[i]) in abs && Hashable(pts[p]) && Key(pts[p]) in abs &&
        ShiftedBy(abs[Key(DevicesOn(tree, pts[p])[i])], abs[Key(pts[p])], r[Key(DevicesOn(tree, pts[p])[i])]))
    decreases |pts|
  {
    if pts != [] {
      var pt := pts[0];
      var devs := DevicesOn(tree, pt);
      var rest := pts[1..];
      var a1 := OffsetDevices(abs, pt, devs).value;
      assert OffsetPanTilts(abs, tree, pts) == OffsetPanTilts(a1, tree, rest);
      OffsetDevicesShifts(abs, pt, devs);
      SeparateTail(tree, pts);
      OffsetPanTiltsShifts(a1, tree, rest);
      var r := OffsetPanTilts(abs, tree, pts).value;
      assert forall p :: 0 <= p < |rest| ==> rest[p] == pts[p + 1];
      forall k | k in abs && Unlisted(tree, pts, k)
        ensures r[k] == abs[k]
      {
        assert k !in KeySet(devs);
        assert Unlisted(tree, rest, k);
      }
      forall p, i | 0 <= p < |pts| && 0 <= i < |DevicesOn(tree, pts[p])|
        ensures Key(DevicesOn(tree, pts[p])[i]) in abs && Hashable(pts[p]) && Key(pts[p]) in abs &&
          ShiftedBy(abs[Key(DevicesOn(tree, pts[p])[i])], abs[Key(pts[p])], r[Key(DevicesOn(tree, pts[p])[i])])
      {
        var d := DevicesOn(tree, pts[p])[i];
        if p == 0 {
          assert Unlisted(tree, rest, Key(d)) by {
            forall q | 0 <= q < |rest|
              ensures Key(d) !in KeySet(DevicesOn(tree, rest[q]))
            {
              assert Key(d) in KeySet(DevicesOn(tree, pts[0]));
            }
          }
        } else {
          assert DevicesOn(tree, rest[p - 1])[i] == d;
          assert Key(d) in KeySet(DevicesOn(tree, pts[p]));
          assert Key(d) !in KeySet(devs);
          assert Key(pts[p]) !in KeySet(devs);
        }
      }
    }
  }

  // ---------------------------------------------------------------------------
  // setup: speaker subscriptions and microphone publishers

  /** The entry of `declarations_info` for a name. */
  function InfoOf(reg: Registry, n: Value): (r: Result<Decl>)
    ensures r.Success? <==> Hashable(n) && Key(n) in reg.info
    ensures r.Success? ==> r.value == reg.info[Key(n)]
  {
    if Hashable(n) && Key(n) in reg.info then Success(reg.info[Key(n)]) else Failure("KeyError")
  }

  /** Whether a declaration counts as a device of the given subclass: not
      an actor, and its subtype's subclass list names it. A subtype that is
      not a container raises. */
  function SubclassHas(d: Decl, what: string): (r: Result<bool>)
    ensures r == Success(true) ==>
      "type" in d && !PyEq(d["type"], Str("actor")) && "subtype" in d &&
      Get(d["subtype"], "subclass").Success? && Contains(d["subtype"].fields["subclass"], what) == Success(true)
  {
    var ty :- Field(d, "type");
    if PyEq(ty, Str("actor")) || "subtype" !in d then Success(false)
    else
      var has :- Contains(d["subtype"], "subclass");
      if !has then Success(false)
      else
        var sub :- Get(d["subtype"], "subclass");
        Contains(sub, what)
  }

  /** The name `n` is registered as a device of the given subclass. */
  predicate IsDeviceOf(reg: Registry, n: Value, what: string) {
    InfoOf(reg, n).Success? && SubclassHas(InfoOf(reg, n).value, what) == Success(true)
  }

  /** The speakers `setup` subscribes to and the microphones it opens
      publishers for, in `declarations_info` order; building either topic
      needs a string base topic. */
  function Subscriptions(reg: Registry, names: seq<Value>): (r: Result<(seq<Value>, seq<Value>)>)
    ensures r.Success? ==> forall i :: 0 <= i < |names| && IsDeviceOf(reg, names[i], "microphone") ==>
      "name" in reg.info[Key(names[i])] && reg.info[Key(names[i])]["name"] in r.value.1
    ensures r.Success? ==> forall m :: m in r.value.1 ==>
      exists i :: 0 <= i < |names| && IsDeviceOf(reg, names[i], "microphone") &&
        "name" in reg.info[Key(names[i])] && reg.info[Key(names[i])]["name"] == m
    decreases |names|
  {
    if names == [] then Success(([], []))
    else
      var d :- InfoOf(reg, names[0]);
      var spk :- SubclassHas(d, "speaker");
      var mic :- SubclassHas(d, "microphone");
      var topicOk := "base_topic" in d && d["base_topic"].Str? && "name" in d;
      if (spk || mic) && !topicOk then Failure("TypeError: can only concatenate str")
      else
        var rest :- Subscriptions(reg, names[1..]);
        assert forall i :: 1 <= i < |names| ==> names[i] == names[1..][i - 1];
        Success(((if spk then [d["name"]] else []) + rest.0, (if mic then [d["name"]] else []) + rest.1))
  }

  /** The tree part of `setup`: the tree, host table and pose copies from the
      declarations, with the reported pan-tilts as the first known hosts. */
  function SetupTree(reg: Registry, found: seq<string>): (r: Result<Tf>)
    ensures r.Success? ==> r.value.reg == reg
    ensures r.Success? ==> r.value.pantilts == PanTiltTable(found) && r.value.existing == Keys(r.value.pantilts)
  {
    var pts := PanTiltTable(found);
    FillTree(Tf(reg, [], map[], map[], map[], pts, [], Keys(pts), [], []), reg.declarations)
  }

  /** After the tree part of `setup`, every host lists exactly the devices
      declared on it, no host is listed twice, and relative and absolute
      poses agree. */
  lemma SetupTreeShape(reg: Registry, found: seq<string>, hk: Value)
    requires SetupTree(reg, found).Success?
    ensures var t := SetupTree(reg, found).value;
      Children(t.tree, hk) == HostedBy(reg.declarations, hk) && DistinctKeys(t.tree) && t.rel == t.abs
  {
    var pts := PanTiltTable(found);
    var empty := Tf(reg, [], map[], map[], map[], pts, [], Keys(pts), [], []);
    FillTreePoses(empty, reg.declarations);
    FillTreeGroups(empty, reg.declarations, hk);
  }

  /** `TfController.setup` after the tree: gather robots, check the pan-tilt
      poses, log missing hosts, offset devices on pan-tilts and collect the
      speaker and microphone topics. The reply carries the logged lines. */
  function Setup(reg: Registry, found: seq<string>): (r: Result<(Tf, seq<string>)>)
    ensures r.Success? ==> SetupTree(reg, found).Success?
    ensures r.Success? ==> var t := r.value.0; var t0 := SetupTree(reg, found).value;
      t.tree == t0.tree && t.rel == t0.rel && t.pantilts == t0.pantilts && t.abs.Keys == t0.abs.Keys &&
      t.existing == t0.existing + t.robots
  {
    var t1 :- SetupTree(reg, found);
    var robots :- NewRobots(reg.declarations, t1.existing);
    var noneFields :- PanTiltNoneFields(t1.rel, Keys(t1.pantilts));
    var missing := MissingHosts(Keys(t1.tree), t1.existing + robots);
    var abs :- OffsetPanTilts(t1.abs, t1.tree, Keys(t1.pantilts));
    var subs :- Subscriptions(reg, reg.names);
    var logs := seq(|noneFields|, i requires 0 <= i < |noneFields| => "Pan-tilt has None " + noneFields[i].1) +
      seq(|missing|, i requires 0 <= i < |missing| => "We have a missing host");
    Success((t1.(robots := robots, existing := t1.existing + robots, abs := abs,
                 speakers := subs.0, microphones := subs.1), logs))
  }
}

=== FILE: values.dfy ===
/** Python-level values and the few Python semantics the simulator relies on:
    dynamically typed payloads, `==` between booleans and numbers, `d[k]`,
    `x in container`, insertion-ordered dicts, list indexing with negative
    indices, `int()` truncation, `str()` of an integer and `random.uniform`. */
module Values {
  import opened Wrappers

  /** A JSON-like payload as carried by the simulator's RPC messages.
      Python's `int` and `float` are both `Num`. */
  datatype Value =
    | Null
    | Bool(b: bool)
    | Num(r: real)
    | Str(s: string)
    | List(items: seq<Value>)
    | Obj(fields: map<string, Value>)

  /** The numeric reading of a value, as Python arithmetic sees it
      (`bool` is a subclass of `int`). */
  function NumOf(v: Value): (r: Option<real>)
    ensures r.Some? <==> (v.Num? || v.Bool?)
    ensures v.Num? ==> r == Some(v.r)
  {
    match v
    case Num(x) => Some(x)
    case Bool(b) => Some(if b then 1.0 else 0.0)
    case _ => None
  }

  /** Python `a == b` for the values the simulator compares: a boolean
      equals the number 1 or 0; everything else compares structurally. */
  predicate PyEq(a: Value, b: Value) {
    if (a.Num? || a.Bool?) && (b.Num? || b.Bool?) then NumOf(a) == NumOf(b)
    else a == b
  }

  /** Python `v in [o1, o2, ...]`. */
  predicate InList(v: Value, options: seq<Value>) {
    exists i :: 0 <= i < |options| && PyEq(v, options[i])
  }

  /** Only scalars can be dict keys in Python; lists and dicts raise TypeError. */
  predicate Hashable(v: Value) {
    !v.List? && !v.Obj?
  }

  /** The identity of a value as a dict key: `True` and `1` (and `False` and
      `0`) hash and compare equal, so they address the same entry. */
  function Key(v: Value): (k: Value)
    ensures Hashable(v) ==> Hashable(k)
    ensures !k.Bool?
  {
    if v.Bool? then Num(if v.b then 1.0 else 0.0) else v
  }

  /** Two scalars address the same dict entry exactly when Python finds them equal. */
  lemma KeyMatchesEquality(a: Value, b: Value)
    requires Hashable(a) && Hashable(b)
    ensures Key(a) == Key(b) <==> PyEq(a, b)
  {
  }

  /** Python `a + b` on the operand types the simulator meets: numbers
      (booleans count as 0 and 1), string concatenation and list
      concatenation; anything else, `None` included, is a TypeError. */
  function Add(a: Value, b: Value): (r: Result<Value>)
    ensures r.Success? <==>
      (NumOf(a).Some? && NumOf(b).Some?) || (a.Str? && b.Str?) || (a.List? && b.List?)
    ensures NumOf(a).Some? && NumOf(b).Some? ==> r == Success(Num(NumOf(a).value + NumOf(b).value))
    ensures r.Success? ==> !r.value.Null?
  {
    if NumOf(a).Some? && NumOf(b).Some? then Success(Num(NumOf(a).value + NumOf(b).value))
    else if a.Str? && b.Str? then Success(Str(a.s + b.s))
    else if a.List? && b.List? then Success(List(a.items + b.items))
    else Failure("TypeError: unsupported operand type(s) for +")
  }

  /** Python `x < v` for a float `x`: only numbers (and booleans) compare. */
  function LessThan(x: real, v: Value): (r: Result<bool>)
    ensures r.Success? <==> NumOf(v).Some?
    ensures r.Success? ==> (r.value <==> x < NumOf(v).value)
  {
    match NumOf(v)
    case Some(b) => Success(x < b)
    case None => Failure("TypeError: '<' not supported")
  }

  /** Python `v[key]` for a string key. */
  function Get(v: Value, key: string): (r: Result<Value>)
    ensures r.Success? <==> v.Obj? && key in v.fields
    ensures r.Success? ==> r.value == v.fields[key]
  {
    match v
    case Obj(f) => if key in f then Success(f[key]) else Failure("KeyError: " + key)
    case _ => Failure("TypeError: not subscriptable by " + key)
  }

  /** Python `v[0]`: the first element of a list or the first character of a string. */
  function First(v: Value): (r: Result<Value>)
    ensures r.Success? <==> (v.List? && |v.items| > 0) || (v.Str? && |v.s| > 0)
    ensures r.Success? && v.List? ==> r.value == v.items[0]
  {
    match v
    case List(xs) => if |xs| > 0 then Success(xs[0]) else Failure("IndexError")
    case Str(s) => if |s| > 0 then Success(Str(s[..1])) else Failure("IndexError")
    case _ => Failure("TypeError: not indexable")
  }

  predicate IsSubstring(needle: string, hay: string) {
    exists i :: 0 <= i <= |hay| && needle <= hay[i..]
  }

  /** Python `item in container` for a string item. */
  function Contains(container: Value, item: string): (r: Result<bool>)
    ensures container.List? ==> r == Success(InList(Str(item), container.items))
    ensures container.Obj? ==> r == Success(item in container.fields)
    ensures r.Failure? <==> !(container.List? || container.Str? || container.Obj?)
  {
    match container
    case List(xs) => Success(InList(Str(item), xs))
    case Str(s) => Success(IsSubstring(item, s))
    case Obj(f) => Success(item in f)
    case _ => Failure("TypeError: not a container")
  }

  // ---------------------------------------------------------------------------
  // Insertion-ordered dicts

  /** A Python dict whose iteration order matters: entries in insertion order. */
  type Assoc<K, V> = seq<(K, V)>

  function Keys<K, V>(d: Assoc<K, V>): (ks: seq<K>)
    ensures |ks| == |d|
    ensures forall i :: 0 <= i < |d| ==> ks[i] == d[i].0
  {
    if d == [] then [] else [d[0].0] + Keys(d[1..])
  }

  predicate HasKey<K(==), V>(d: Assoc<K, V>, k: K) {
    k in Keys(d)
  }

  predicate DistinctKeys<K(==), V>(d: Assoc<K, V>) {
    forall i, j :: 0 <= i < j < |d| ==> d[i].0 != d[j].0
  }

  /** Python `d[k]` on an ordered dict: the value of the first (and, with
      distinct keys, only) entry for `k`. */
  function Lookup<K(==), V>(d: Assoc<K, V>, k: K): (v: V)
    requires HasKey(d, k)
    ensures (k, v) in d
  {
    if d[0].0 == k then d[0].1 else Lookup(d[1..], k)
  }

  /** Python `d[k] = v`: an existing key keeps its position, a new key goes last. */
  function Put<K(==), V>(d: Assoc<K, V>, k: K, v: V): (r: Assoc<K, V>)
    ensures Keys(r) == if HasKey(d, k) then Keys(d) else Keys(d) + [k]
    ensures !HasKey(d, k) ==> r == d + [(k, v)]
  {
    if d == [] then [(k, v)]
    else if d[0].0 == k then [(k, v)] + d[1..]
    else [d[0]] + Put(d[1..], k, v)
  }

  /** After `d[k] = v`, `d[k]` reads back `v`. */
  lemma PutHasKey<K, V>(d: Assoc<K, V>, k: K, v: V, k': K)
    ensures HasKey(Put(d, k, v), k') <==> HasKey(d, k') || k' == k
  {
    var ks := Keys(Put(d, k, v));
    if !HasKey(d, k) {
      assert ks == Keys(d) + [k];
    }
  }

  lemma {:induction false} PutLookupSame<K, V>(d: Assoc<K, V>, k: K, v: V)
    ensures HasKey(Put(d, k, v), k) && Lookup(Put(d, k, v), k) == v
  {
    if d != [] && d[0].0 != k {
      PutLookupSame(d[1..], k, v);
      assert Put(d, k, v)[1..] == Put(d[1..], k, v);
    }
  }

  /** After `d[k] = v`, every other key reads as before. */
  lemma {:induction false} PutLookupOther<K, V>(d: Assoc<K, V>, k: K, v: V, k': K)
    requires k' != k && HasKey(d, k')
    ensures HasKey(Put(d, k, v), k') && Lookup(Put(d, k, v), k') == Lookup(d, k')
  {
    if d[0].0 != k' {
      if d[0].0 != k {
        PutLookupOther(d[1..], k, v, k');
        assert Put(d, k, v)[1..] == Put(d[1..], k, v);
      } else {
        assert Put(d, k, v)[1..] == d[1..];
      }
    }
  }

  /** With distinct keys, `d[k]` reads the value stored at `k`'s position. */
  lemma {:induction false} LookupDistinct<K, V>(d: Assoc<K, V>, i: int)
    requires DistinctKeys(d) && 0 <= i < |d|
    ensures HasKey(d, d[i].0) && Lookup(d, d[i].0) == d[i].1
  {
    assert Keys(d)[i] == d[i].0;
    if i > 0 {
      assert DistinctKeys(d[1..]) by {
        forall a, b | 0 <= a < b < |d[1..]| ensures d[1..][a].0 != d[1..][b].0 {
          assert d[1..][a] == d[a + 1] && d[1..][b] == d[b + 1];
        }
      }
      LookupDistinct(d[1..], i - 1);
      assert d[1..][i - 1] == d[i];
    }
  }

  /** The dict with keys `ks` holding `vs`, in that order. */
  function Zip<K(==), V>(ks: seq<K>, vs: seq<V>): (d: Assoc<K, V>)
    requires |ks| == |vs|
    requires forall i, j :: 0 <= i < j < |ks| ==> ks[i] != ks[j]
    ensures Keys(d) == ks && DistinctKeys(d)
    ensures forall i :: 0 <= i < |ks| ==> HasKey(d, ks[i]) && Lookup(d, ks[i]) == vs[i]
  {
    var d := seq(|ks|, i requires 0 <= i < |ks| => (ks[i], vs[i]));
    assert Keys(d) == ks;
    forall i | 0 <= i < |ks| ensures HasKey(d, ks[i]) && Lookup(d, ks[i]) == vs[i] {
      LookupDistinct(d, i);
    }
    d
  }

  /** `d[k] = v` never introduces a duplicate key. */
  lemma PutDistinct<K, V>(d: Assoc<K, V>, k: K, v: V)
    requires DistinctKeys(d)
    ensures DistinctKeys(Put(d, k, v))
  {
    var r := Put(d, k, v);
    var kd, kr := Keys(d), Keys(r);
    if !HasKey(d, k) {
      forall i | 0 <= i < |d| ensures r[i].0 != k {
        assert kd[i] == d[i].0;
      }
    }
    forall i, j | 0 <= i < j < |r| ensures r[i].0 != r[j].0 {
      assert kr[i] == r[i].0 && kr[j] == r[j].0;
      if j < |d| {
        assert kd[i] == d[i].0 && kd[j] == d[j].0;
      }
    }
  }

  // ---------------------------------------------------------------------------
  // Numbers

  /** Python `int(r)`: truncation toward zero. */
  function Trunc(r: real): (i: int)
    ensures r >= 0.0 ==> i as real <= r < i as real + 1.0
    ensures r < 0.0 ==> i as real - 1.0 < r <= i as real
  {
    if r >= 0.0 then r.Floor else -((-r).Floor)
  }

  /** Python `random.uniform(a, b)` for a unit draw `u` from `random.random()`. */
  function Uniform(a: real, b: real, u: real): real {
    a + (b - a) * u
  }

  lemma UniformBetween(a: real, b: real, u: real)
    requires 0.0 <= u <= 1.0
    ensures a <= b ==> a <= Uniform(a, b, u) <= b
    ensures b <= a ==> b <= Uniform(a, b, u) <= a
  {
    var p := (b - a) * u;
    assert Uniform(a, b, u) == a + p;
    if a <= b {
      MulUnit(b - a, u);
    } else {
      MulUnit(a - b, u);
      NegMul(b - a, u);
    }
  }

  lemma NegMul(x: real, u: real)
    ensures (-x) * u == -(x * u)
  {
  }

  lemma MulUnit(x: real, u: real)
    requires x >= 0.0 && 0.0 <= u <= 1.0
    ensures 0.0 <= x * u <= x
  {
    assert x * u <= x * 1.0;
  }

  /** Python list indexing `xs[k]` on a list of length `n`: valid for
      `-n <= k < n`, negative indices count from the end. */
  function PyIndex(n: nat, k: int): (r: Option<nat>)
    ensures r.Some? <==> -(n as int) <= k < n
    ensures r.Some? ==> r.value < n
    ensures r.Some? && k >= 0 ==> r.value == k
    ensures r.Some? && k < 0 ==> r.value == n + k
  {
    if 0 <= k < n then Some(k) else if -(n as int) <= k < 0 then Some(n + k) else None
  }

  function DigitChar(d: nat): char
    requires d < 10
  {
    "0123456789"[d]
  }

  function NatToString(n: nat): (s: string)
    ensures |s| > 0
    decreases n
  {
    if n < 10 then [DigitChar(n)] else NatToString(n / 10) + [DigitChar(n % 10)]
  }

  /** Python `str(i)` for an integer. */
  function IntToString(i: int): (s: string)
    ensures |s| > 0
    ensures (s[0] == '-') <==> i < 0
  {
    if i < 0 then "-" + NatToString(-i) else NatToStringNoMinus(i); NatToString(i)
  }

  lemma NatToStringNoMinus(n: nat)
    ensures NatToString(n)[0] != '-'
  {
    if n >= 10 {
      NatToStringNoMinus(n / 10);
    }
  }
}

=== FILE: world.dfy ===
/** The occupancy grid of `World.setup`: a `width` x `height` array of zeros
    in which every axis-aligned obstacle segment is rasterised to ones.
    The array is kept as the set of its cells that hold 1; indexing follows
    numpy, where an index `k` on an axis of length `n` is valid for
    `-n <= k < n` and a negative index counts from the end. */
module World {
  import opened Wrappers
  import opened Values

  /** An obstacle line `{x1, y1, x2, y2}` of the world file, in cells. */
  datatype Line = Line(x1: int, y1: int, x2: int, y2: int)

  /** The array `map` with the set of cells holding 1. */
  datatype Grid = Grid(width: nat, height: nat, walls: set<(int, int)>)

  function MinI(a: int, b: int): int { if a <= b then a else b }
  function MaxI(a: int, b: int): int { if a >= b then a else b }

  /** A vertical line is recognised first (`x1 == x2`), then a horizontal one. */
  predicate Vertical(o: Line) { o.x1 == o.x2 }
  predicate Horizontal(o: Line) { o.x1 != o.x2 && o.y1 == o.y2 }

  /** The first and last index `range(lo, hi + 1)` visits once the endpoints
      are ordered; a line that is neither vertical nor horizontal visits none. */
  function Lo(o: Line): int {
    if Vertical(o) then MinI(o.y1, o.y2) else if Horizontal(o) then MinI(o.x1, o.x2) else 0
  }
  function Hi(o: Line): int {
    if Vertical(o) then MaxI(o.y1, o.y2) else if Horizontal(o) then MaxI(o.x1, o.x2) else -1
  }

  /** The `i`-th cell of a vertical or horizontal line. */
  function Cell(o: Line, i: int): (int, int) {
    if Vertical(o) then (o.x1, i) else (i, o.y1)
  }

  /** The index pairs a line writes, before numpy resolves negative indices. */
  function RawCells(o: Line): set<(int, int)> {
    set i | Lo(o) <= i <= Hi(o) :: Cell(o, i)
  }

  /** numpy accepts the index pair. */
  predicate Fits(w: int, h: int, c: (int, int)) {
    -w <= c.0 < w && -h <= c.1 < h
  }

  /** The cell numpy actually writes for an accepted index pair. */
  function Wrap(w: int, h: int, c: (int, int)): (r: (int, int))
    requires Fits(w, h, c)
    ensures 0 <= r.0 < w && 0 <= r.1 < h
  {
    ((if c.0 < 0 then c.0 + w else c.0), (if c.1 < 0 then c.1 + h else c.1))
  }

  predicate LineFits(w: int, h: int, o: Line) {
    forall c :: c in RawCells(o) ==> Fits(w, h, c)
  }

  predicate AllFit(w: int, h: int, lines: seq<Line>) {
    forall j :: 0 <= j < |lines| ==> LineFits(w, h, lines[j])
  }

  /** Reference definition of the finished grid: the wrapped cells of every line. */
  function Marked(w: int, h: int, lines: seq<Line>): set<(int, int)>
    requires AllFit(w, h, lines)
    decreases |lines|
  {
    if lines == [] then {}
    else
      var o := lines[|lines| - 1];
      Marked(w, h, lines[..|lines| - 1]) + set c | c in RawCells(o) :: Wrap(w, h, c)
  }

  /** `World.setup`: allocate the zero array, then set the cells of every line
      in order. A negative dimension is numpy's ValueError and an index
      outside the array its IndexError; either aborts the whole setup. */
  method Setup(width: int, height: int, lines: seq<Line>) returns (r: Result<Grid>)
    ensures r.Success? <==> 0 <= width && 0 <= height && AllFit(width, height, lines)
    ensures r.Success? ==>
      r.value.width == width && r.value.height == height &&
      r.value.walls == Marked(width, height, lines)
  {
    if width < 0 || height < 0 {
      return Failure("ValueError: negative dimensions are not allowed");
    }
    var walls: set<(int, int)> := {};
    var k := 0;
    while k < |lines|
      invariant 0 <= k <= |lines|
      invariant AllFit(width, height, lines[..k])
      invariant walls == Marked(width, height, lines[..k])
    {
      var o := lines[k];
      assert lines[..k + 1][..k] == lines[..k];
      var lo, hi := 0, -1;
      if o.x1 == o.x2 {
        lo, hi := MinI(o.y1, o.y2), MaxI(o.y1, o.y2);
      } else if o.y1 == o.y2 {
        lo, hi := MinI(o.x1, o.x2), MaxI(o.x1, o.x2);
      }
      var i := lo;
      var added: set<(int, int)> := {};
      while i <= hi
        invariant lo <= i <= hi + 1 || (hi < lo && i == lo)
        invariant forall j :: lo <= j < i ==> Fits(width, height, Cell(o, j))
        invariant added == set j | lo <= j < i :: Wrap(width, height, Cell(o, j))
      {
        var c := Cell(o, i);
        if !Fits(width, height, c) {
          assert c in RawCells(o);
          assert !AllFit(width, height, lines) by {
            assert !LineFits(width, height, lines[k]);
          }
          return Failure("IndexError: index out of bounds");
        }
        added := added + {Wrap(width, height, c)};
        i := i + 1;
      }
      assert LineFits(width, height, o);
      assert AllFit(width, height, lines[..k + 1]);
      assert (set c | c in RawCells(o) :: Wrap(width, height, c)) == added;
      walls := walls + added;
      k := k + 1;
    }
    assert lines[..k] == lines;
    return Success(Grid(width, height, walls));
  }

  // ---------------------------------------------------------------------------
  // Properties of the rasterisation

  /** A cell holds 1 exactly when some line asked for an index pair that
      numpy resolves to it. */
  lemma {:induction false} MarkedIff(w: int, h: int, lines: seq<Line>, c: (int, int))
    requires AllFit(w, h, lines)
    ensures c in Marked(w, h, lines) <==>
      exists j, raw :: 0 <= j < |lines| && raw in RawCells(lines[j]) && Wrap(w, h, raw) == c
  {
    if lines != [] {
      var n := |lines| - 1;
      var init := lines[..n];
      assert AllFit(w, h, init) by {
        forall j | 0 <= j < |init| ensures LineFits(w, h, init[j]) {
          assert init[j] == lines[j];
        }
      }
      MarkedIff(w, h, init, c);
      if c in Marked(w, h, lines) {
        if c !in Marked(w, h, init) {
          var raw :| raw in RawCells(lines[n]) && Wrap(w, h, raw) == c;
          assert 0 <= n < |lines|;
        } else {
          var j, raw :| 0 <= j < |init| && raw in RawCells(init[j]) && Wrap(w, h, raw) == c;
          assert lines[j] == init[j];
        }
      } else {
        forall j, raw | 0 <= j < |lines| && raw in RawCells(lines[j])
          ensures Wrap(w, h, raw) != c
        {
          if j < n {
            assert init[j] == lines[j];
          }
        }
      }
    }
  }

  /** Every cell set lies inside the array. */
  lemma {:induction false} MarkedInGrid(w: int, h: int, lines: seq<Line>)
    requires AllFit(w, h, lines)
    ensures forall c :: c in Marked(w, h, lines) ==> 0 <= c.0 < w && 0 <= c.1 < h
  {
    forall c | c in Marked(w, h, lines) ensures 0 <= c.0 < w && 0 <= c.1 < h {
      MarkedIff(w, h, lines, c);
    }
  }

  /** Swapping a line's endpoints does not change the cells it asks for. */
  lemma SwapSameCells(o: Line)
    ensures RawCells(Line(o.x2, o.y2, o.x1, o.y1)) == RawCells(o)
  {
    var s := Line(o.x2, o.y2, o.x1, o.y1);
    assert Lo(s) == Lo(o) && Hi(s) == Hi(o);
    forall i | Lo(o) <= i <= Hi(o) ensures Cell(s, i) == Cell(o, i) { }
    forall c ensures c in RawCells(s) <==> c in RawCells(o) {
      if c in RawCells(o) {
        var i :| Lo(o) <= i <= Hi(o) && Cell(o, i) == c;
        assert Cell(s, i) == c;
      }
    }
  }

  /** Hence a world whose line `j` is given the other way round rasterises
      to the same grid. */
  lemma SwapSameGrid(w: int, h: int, lines: seq<Line>, j: int)
    requires 0 <= j < |lines|
    requires AllFit(w, h, lines)
    ensures var o := lines[j];
      var swapped := lines[j := Line(o.x2, o.y2, o.x1, o.y1)];
      AllFit(w, h, swapped) && Marked(w, h, swapped) == Marked(w, h, lines)
  {
    var o := lines[j];
    var swapped := lines[j := Line(o.x2, o.y2, o.x1, o.y1)];
    SwapSameCells(o);
    forall k | 0 <= k < |swapped| ensures RawCells(swapped[k]) == RawCells(lines[k]) { }
    forall c ensures c in Marked(w, h, swapped) <==> c in Marked(w, h, lines) {
      MarkedIff(w, h, lines, c);
      MarkedIff(w, h, swapped, c);
    }
  }

  /** A line that is neither vertical nor horizontal marks nothing. */
  lemma DiagonalMarksNothing(w: int, h: int, lines: seq<Line>, o: Line)
    requires o.x1 != o.x2 && o.y1 != o.y2
    requires AllFit(w, h, lines)
    ensures AllFit(w, h, lines + [o]) && Marked(w, h, lines + [o]) == Marked(w, h, lines)
  {
    assert (lines + [o])[..|lines|] == lines;
  }

  /** Cells are only ever set, never cleared: the grid after the first `k`
      lines is contained in the final grid. */
  lemma MarkedGrows(w: int, h: int, lines: seq<Line>, k: nat)
    requires k <= |lines|
    requires AllFit(w, h, lines)
    ensures AllFit(w, h, lines[..k]) && Marked(w, h, lines[..k]) <= Marked(w, h, lines)
  {
    forall c | c in Marked(w, h, lines[..k]) ensures c in Marked(w, h, lines) {
      MarkedIff(w, h, lines[..k], c);
      var j, raw :| 0 <= j < k && raw in RawCells(lines[..k][j]) && Wrap(w, h, raw) == c;
      MarkedIff(w, h, lines, c);
    }
  }

  /** `map[x, y] == 1` on the finished array: numpy's IndexError outside it. */
  function IsWall(g: Grid, x: int, y: int): (r: Result<bool>)
    ensures r.Success? <==> Fits(g.width, g.height, (x, y))
    ensures r.Success? ==> r.value == (Wrap(g.width, g.height, (x, y)) in g.walls)
  {
    if Fits(g.width, g.height, (x, y)) then Success(Wrap(g.width, g.height, (x, y)) in g.walls)
    else Failure("IndexError: index out of bounds")
  }
}

=== FILE: wrappers.dfy ===
/** Failure-compatible wrappers shared by every module of the model.
    A Python exception raised by the simulator becomes a `Failure` carrying a
    short description of the exception; a value that Python stores as `None`
    becomes `None`. */
module Wrappers {

  datatype Option<+T> = None | Some(value: T) {

    function GetOr(default: T): T {
      match this
      case Some(v) => v
      case None => default
    }
  }

  datatype Result<+T> = Success(value: T) | Failure(error: string) {

    predicate IsFailure() {
      Failure?
    }

    function PropagateFailure<U>(): Result<U>
      requires Failure?
    {
      Failure(error)
    }

    function Extract(): T
      requires Success?
    {
      value
    }

    /** The same outcome with the failure's description rewritten, as a
        `raise Exception(...)` inside an `except` block does. */
    function MapFailure(f: string -> string): (r: Result<T>)
      ensures r.Success? <==> Success?
      ensures Success? ==> r == this
    {
      match this
      case Success(v) => Success(v)
      case Failure(e) => Failure(f(e))
    }
  }
}
